=== FILE: README.md ===
# mapper1024 map editor core, modelled in Dafny

This project models the core of the `mapper/` library of mapper1024, a browser map editor, and proves properties of that model. A map is a forest of nodes, each with a type and a radius, and edges between pairs of nodes. Each entity carries a `valid` flag, so removal can be undone. The parts modelled are these:

- **Helpers.** The floored `mod`, the right-biased `merge` and `asyncFrom` (module `Utils`). The hook registry `HookContainer` (`Hooks`).
- **Geometry.** Vectors, lines and boxes (`Geometry`). The older `Point` helper (`Points`). The drag path, grown point by point and bisected into short lines (`Paths`).
- **The backend.**
  - The sql.js backend's tables and triggers, written as values (`Store`).
  - The backend object that runs them in place (`SqlJs.SqlJsMapBackend`).
  - The number and point properties, stored as text (`Codec`).
  - The entity references that forward to the backend (`Entities`).
  - The invalidation cascade down the parent tree (`Forest`).
- **Bookkeeping.** The selection and its derived sets (`Selections`). Tiles and mega-tiles with their redraw queue (`Tiles`). The layer and node-type registries (`Registries`).
- **The action algebra.**
  - The map as the actions see it (`Worlds`).
  - Every action as a value; performing one answers the action that undoes it (`Actions`).
  - The undo laws (`ActionLaws`).
  - The greedy rules of merging, node cleanup and path drawing (`MergeLaws`, `Cleanup`, `DrawPathLaws`, `Sorting`).
  - The context that performs actions and keeps the undo stack (`Contexts`).
- **Brushes and drag events.**
  - The brush size (`Brushes`).
  - The add, area and delete brushes (`AddBrushes`, `AreaBrushes` and `AreaSweep`, `DeleteBrushes`).
  - The pan, translate and draw drags (`DragEvents`, `Drawing`).

State that the source changes in place is modelled as classes whose methods are proved against specification functions. These are the backend, the hook registry, the registries, the path, the tiles, the context, the brushes and the drag events. Pure code is modelled as functions and lemmas. Coordinates are exact reals. Wherever the source compares `length()` with a radius, the model compares squared lengths.

Three behaviours of the code are worth stating up front:

- As written, no entity is stored with a type (see Findings, mapper/backend/sql_js_backend.js:129), so the invalidation triggers at mapper/backend/sql_js_backend.js:38-39 never fire. Removing a node then invalidates that node alone: its children, their subtrees and its edges stay valid. The backend tests expect something else. The removed node's children must become invalid (test/generic_backend.js:110-111), which is exactly the cascade the code as written loses. Only its edges must stay valid (test/generic_backend.js:102-104). With the type bound, as `Store.RemoveSpec` models it, the whole subtree is invalidated as the tests expect. The trigger at :39 then also invalidates the node's edges, contrary to :102-104.
- Merging nodes records an undo whose last step is a node cleanup. As written that cleanup has no type, so it throws (`MergeLaws.MergeUndoRaises`). The model gives it the target's type (see Findings).
- `TranslateEvent.end` calls its own `next`, so the drag it ends is never marked done. It also does not wait for that `next`, so its pushed undo misses the last step (see Findings).

## Model

| member | source | states |
|---|---|---|
| Geometry.Square | mapper/geometry.js:51-56 | a square is never negative and is positive away from zero, which `lengthSquared` relies on |
| Geometry.Vector3.LengthSquared | mapper/geometry.js:51-56 | the squared length is non-negative and is zero exactly for the zero vector |
| Geometry.Vector3.Round | mapper/geometry.js:83-89 | each coordinate becomes the integer nearest to it, halves rounding up |
| Geometry.RoundExample | test/vector3.js:61-63 | the test's example: (0.5, 12.6, -1.5) rounds to (1, 13, -1) |
| Geometry.AddSubtract | mapper/geometry.js:17-32 | addition is commutative, subtraction undoes it, zero is neutral |
| Geometry.ScaleDivide | mapper/geometry.js:34-49 | dividing by a non-zero scalar undoes multiplying by it |
| Geometry.MinMaxBounds | mapper/geometry.js:72-79 | `min` and `max` are the componentwise greatest lower and least upper bounds, and are symmetric |
| Geometry.SegmentsCrossMeaning | mapper/geometry.js:169-188 | for non-parallel segments the crossing test holds exactly when the segments meet strictly inside both; parallel segments never cross |
| Geometry.Cramer | mapper/geometry.js:169-188 | the crossing test's two quotients solve the 2d system of the two segments |
| Geometry.CramerUnique | mapper/geometry.js:169-188 | any solution of that system is the one the quotients give |
| Geometry.SegmentsCrossExamples | test/line3.js:25-27 | the test's crossing segments cross either way round, and a far segment does not |
| Geometry.Line3.Vector | mapper/geometry.js:149-151 | the vector, added to the start, gives the end |
| Geometry.Line3.DistanceSquared | mapper/geometry.js:161-167 | the squared length is non-negative and is zero exactly for a line whose ends coincide |
| Geometry.LineDistance | mapper/geometry.js:118-167 | length does not depend on direction; translating a line keeps its vector and its length |
| Geometry.LineBounds | mapper/geometry.js:153-159 | `fullMin` and `fullMax` are the corners of the line's bounding box |
| Geometry.BoxFromRadius | mapper/geometry.js:201-209 | the box is centred on the point and its sides are twice the radius |
| Geometry.BoxFromOffset | mapper/geometry.js:211-217 | the box starts at the point and its diagonal is the offset |
| Geometry.BoxScaleLine | mapper/geometry.js:219-232 | scaling a box scales the line between its corners |
| Geometry.BoxFromRadiusExample | test/box3.js:7 | the test's example of `fromRadius` |
| Geometry.ScaleExample | test/box3.js:16-18 | the test's example of `scale` |
| Points.DistanceSquared | mapper/point.js:24-27 | the squared distance is non-negative and is zero exactly for equal points |
| Points.Arithmetic | mapper/point.js:8-22 | subtraction undoes addition; negation is an involution and a point plus its negation is the origin |
| Points.DistanceSymmetric | mapper/point.js:24-27 | distance is symmetric and unchanged by moving both points alike |
| Points.MinMax | mapper/point.js:37-43 | `min` and `max` bound both points componentwise |
| Points.LineIntersectsMeaning | mapper/point.js:45-55 | `lineIntersects` holds exactly when two non-parallel segments cross strictly inside both, and never for parallel ones |
| Utils.Rem | mapper/utils.js:33 | JavaScript's `%`: smaller than the divisor in size, with the sign of the dividend |
| Utils.RemDecomposes | mapper/utils.js:33 | the dividend minus `%` is a multiple of the divisor |
| Utils.Mod | mapper/utils.js:32-34 | `mod` is the floored modulo: in [0, m) for a positive divisor |
| Utils.ModFloored | mapper/utils.js:32-34 | taking JavaScript's `%` twice, with the divisor added between, gives the floored modulo |
| Utils.ModSmall | mapper/utils.js:32-34 | a dividend already in [0, m) is its own `mod` |
| Utils.ModExamples | mapper/utils.js:27 | the comment's examples: mod(7, 4) = 3 and mod(-11, 7) = 3 |
| Utils.Merge | mapper/utils.js:41-51 | the loop computes the left-to-right merge of the present arguments |
| Utils.MergedKeys | mapper/utils.js:41-51 | a key is in the merge exactly when some present argument holds it |
| Utils.MergedValue | mapper/utils.js:41-51 | each key's value comes from the last argument holding it |
| Utils.AsyncFrom | mapper/utils.js:6-12 | every element, in order |
| Utils.AsyncFromMapped | mapper/utils.js:13-22 | every element mapped, in order |
| Paths.Vertices | mapper/geometry.js:325-333 | one vertex more than there are lines, the origin first |
| Paths.Start | mapper/geometry.js:244-248 | a new path is well formed and has its start point as its only vertex |
| Paths.Path.constructor | mapper/geometry.js:244-248 | the path starts at the start point with no lines |
| Paths.Path.Next | mapper/geometry.js:296-302 | the path becomes its `next` extension by the point |
| Paths.NextAppends | mapper/geometry.js:296-302 | `next` keeps a path well formed, ignores the last vertex again, and otherwise appends the point as a new vertex |
| Paths.LastVertexIsLast | mapper/geometry.js:304-314 | the last vertex is the last of the vertices, the end of the last line moved by the origin |
| Paths.ChainedAppend | mapper/geometry.js:296-302 | a chain of lines followed by a chain from its end is a chain to the later end |
| Paths.RadiusSquared | mapper/geometry.js:269-293 | the squared bisection radius is positive for a positive radius |
| Paths.Halves | mapper/geometry.js:274-277 | each half of a line has a quarter of its squared length, and is proper when the line is |
| Paths.HalvingsDecrease | mapper/geometry.js:273-279 | the recursion of `addBisectedLine` ends: each half needs fewer halvings |
| Paths.BisectChain | mapper/geometry.js:272-283 | the pieces of a bisected line form a chain over the same ends, each shorter than the radius |
| Paths.BisectAllChain | mapper/geometry.js:285-287 | bisecting every line gives a chain over the same ends, all pieces shorter than the radius, every old line end still a piece end |
| Paths.BisectedPath | mapper/geometry.js:264-293 | bisecting keeps the path well formed, keeps its first and last vertex and every old vertex, and brings consecutive vertices closer than the radius |
| Paths.VertexGap | mapper/geometry.js:325-333 | consecutive vertices are as far apart as the line between them |
| Paths.Path.WithBisectedLines | mapper/geometry.js:269-293 | the new path is the bisected path |
| Paths.Path.AddBisectedLine | mapper/geometry.js:272-283 | the pieces of the line are appended, the origin and position kept |
| Paths.Path.MapOrigin | mapper/geometry.js:250-255 | a new path with the origin mapped and the lines and position kept |
| Paths.Path.MapLines | mapper/geometry.js:257-262 | a new path with every line and the position mapped, the origin kept |
| Paths.Path.Pop | mapper/geometry.js:316-319 | the last line (or the zero line) is removed and answered; `at` is kept |
| Paths.Path.Push | mapper/geometry.js:321-323 | the line is appended and the new number of lines answered |
| Paths.Path.GetCenter | mapper/geometry.js:338-345 | the loop computes the mean of the vertices |
| Paths.CenterMovesWithOrigin | mapper/geometry.js:338-345 | moving the origin moves the center by the same offset |
| Paths.SumShifted | mapper/geometry.js:338-345 | shifting every vertex shifts the sum by that many offsets |
| Paths.Path.GetRadiusSquared | mapper/geometry.js:350-358 | the answer is the largest squared distance from the center to a vertex, reached by some vertex |
| Paths.Path.AsMostRecent | mapper/geometry.js:364-369 | the new path holds only the last line, at its place |
| Paths.MostRecentVertices | mapper/geometry.js:364-369 | the most recent part is the path between the last two vertices, or the origin alone |
| Tiles.RemMegaTile | mapper/utils.js:33 | JavaScript's `%` by the mega-tile size on a number: smaller than the size, with the sign of the dividend, and a whole number of mega-tiles away from it |
| Tiles.MegaTileCoordinate | mapper/tile.js:16-18 | `mod` by the mega-tile size lies in [0, 256) and is a whole number of mega-tiles away from the coordinate |
| Tiles.Tile.GetMegaTilePosition | mapper/tile.js:16-18 | every coordinate of the position lies inside the mega-tile |
| Tiles.Tile.GetCenter | mapper/tile.js:12-14 | the center is half a tile from the corner, inside the tile |
| Tiles.Tile.AddNode | mapper/tile.js:20-30 | the node is recorded, and registered with the mega-tile, exactly when its distance to the center is at most its radius plus half a tile; a node already recorded keeps its place, a new one is appended |
| Tiles.ReachesExamples | mapper/tile.js:21-22 | a node at the center reaches the tile at radius 0 but not at -17; at radius 0, a node 16 away in x reaches it and one 17 away does not |
| Tiles.Tile.constructor | mapper/tile.js:5-10 | a new tile has its mega-tile and corner and no nearby nodes |
| Tiles.MegaTile.constructor | mapper/tile.js:48-58 | a new mega-tile is clean, with nothing nearby and nothing to redraw |
| Tiles.MegaTile.Reset | mapper/tile.js:64-76 | the state becomes the reset state |
| Tiles.ResetSpec | mapper/tile.js:64-76 | a reset leaves the mega-tile clean and a second reset changes nothing; a clean mega-tile is left as it is; a dirty one queues every nearby id for redrawing |
| Tiles.MegaTile.AddNode | mapper/tile.js:78-81 | the id joins the nearby ids and the mega-tile becomes dirty |
| Tiles.MegaTile.RemoveNode | mapper/tile.js:83-86 | the id leaves the nearby ids and the mega-tile is reset |
| Tiles.AddThenRemove | mapper/tile.js:78-86 | after an add and a remove, the mega-tile is clean, the removed id is gone and every id still nearby waits to be redrawn |
| Tiles.MegaTile.PopRedraw | mapper/tile.js:88-92 | the queued ids are answered and the queue is left empty |
| Sorting.Insert | mapper/actions/node_cleanup_action.js:8 | the stable insertion keeps the elements and, into a sorted list, gives a sorted list |
| Sorting.SortBy | mapper/actions/node_cleanup_action.js:8 | the sort's result has as many elements as its input |
| Sorting.SortBySpec | mapper/actions/draw_path_action.js:23 | the sort yields the same elements, each as often, in ascending key order |
| Sorting.SortByStable | mapper/actions/node_cleanup_action.js:8 | elements with equal keys keep their input order |
| Hooks.Without | mapper/hook_container.js:31 | the filter keeps every callback other than the removed one, in order |
| Hooks.WithoutKeepsOthers | mapper/hook_container.js:29-33 | removing a callback keeps every other one as often as it was registered, and in order |
| Hooks.HookContainer.constructor | mapper/hook_container.js:6-8 | a new container has no hooks |
| Hooks.HookContainer.Add | mapper/hook_container.js:15-23 | the callback is appended under the hook and returned; other hooks are unchanged |
| Hooks.HookContainer.Remove | mapper/hook_container.js:29-33 | every occurrence of the callback leaves the hook; a missing hook stays missing |
| Hooks.HookContainer.Call | mapper/hook_container.js:39-51 | the invocations are the hook's callbacks with the arguments, then the catch-all callbacks with the hook's name prepended |
| Hooks.AddedIsCalled | mapper/hook_container.js:15-51 | an added callback is called on its hook with the call's arguments; a removed one is not |
| Registries.Registry.constructor | mapper/layer.js:26 | a new registry is empty |
| Registries.Registry.Register | mapper/layer.js:44-46 | the value is stored under its id; a new id is appended to the key order, an old one keeps its place (the `for … in` order for ids that are not array indices) |
| Registries.Registry.Get | mapper/layer.js:54-56 | the value under the id, or none when there is none |
| Registries.Registry.Values | mapper/layer.js:48-52 | each registered value once, in key order (first registration, for ids that are not array indices) |
| Registries.Layer.GetDescription | mapper/layer.js:7-9 | a layer is described by its id |
| Registries.Layer.GetType | mapper/layer.js:11-13 | the type of the definition |
| Registries.Layer.GetDrawType | mapper/layer.js:15-17 | "area" exactly for geographical layers, "border" otherwise |
| Registries.Layer.GetZ | mapper/layer.js:19-21 | a missing `z` gives 0 |
| Registries.NewLayerRegistry | mapper/layer.js:25-42 | the three built-in layers, in order, with their types and heights; the default is the geographical one |
| Registries.RegisterLayer | mapper/layer.js:44-46 | the layer is stored under its own id |
| Registries.GetDefault | mapper/layer.js:58-60 | the default is the layer under "geographical" |
| Registries.DefaultLayers | mapper/layer.js:25-42 | of the layers a new registry holds, the default is drawn as an area at height 0 and the other two as borders above it |
| Registries.NodeType.GetDescription | mapper/node_type.js:7-9 | a node type is described by its id |
| Registries.NewNodeTypeRegistry | mapper/node_type.js:13-31 | the four built-in types, in order, with their colours |
| Registries.RegisterType | mapper/node_type.js:33-35 | the type is stored under its own id |
| Entities.GetEntityRef | mapper/backend/backend.js:93-95 | an entity ref holding exactly the id and the backend |
| Entities.GetNodeRef | mapper/backend/backend.js:97-99 | a node ref holding exactly the id and the backend |
| Entities.GetEdgeRef | mapper/backend/backend.js:101-103 | an edge ref holding exactly the id and the backend |
| Entities.GetDirEdgeRef | mapper/backend/backend.js:105-107 | a directed edge ref holding the id, its start node and the backend |
| Entities.Exists | mapper/backend/entity.js:7-9 | true exactly when the ref's id is a row of the entity table |
| Entities.GetPString | mapper/backend/entity.js:15-17 | the backend's string column for (id, name): `undefined` without a row, `null` for a NULL column |
| Entities.GetPNumber | mapper/backend/entity.js:11-13 | the backend's number column for (id, name) |
| Entities.GetPPoint | mapper/backend/entity.js:19-21 | the point stored as JSON text under (id, name), or the error reading it throws |
| Entities.SetPString | mapper/backend/entity.js:27-29 | the tables become `SetString` of the old ones, or stay as they were when the write fails |
| Entities.SetPNumber | mapper/backend/entity.js:23-25 | the tables become `SetNumber` of the old ones, or stay as they were when the write fails |
| Entities.SetPPoint | mapper/backend/entity.js:31-33 | the tables become `SetPoint` (the point's JSON as a string) of the old ones, or stay when the write fails |
| Entities.Remove | mapper/backend/entity.js:35-37 | node, edge and plain refs all invalidate the entity with its trigger cascade (`Removed`); the tables stay consistent |
| Entities.GetParent | mapper/backend/entity.js:41-43 | a node ref to the valid parent exactly when `getNodeParent` finds one, otherwise none |
| Entities.GetChildren | mapper/backend/entity.js:45-47 | node refs on the same backend, exactly one per valid child naming the node as parent |
| Entities.SetCenter | mapper/backend/entity.js:49-51 | the point goes under the property "center", as `setPPoint` stores it |
| Entities.Center | mapper/backend/entity.js:53-55 | the point read from the property "center" |
| Entities.GetEdges | mapper/backend/entity.js:57-59 | the base backend's "not implemented", since the sql.js backend defines no `getNodeEdges` |
| Entities.GetNodes | mapper/backend/entity.js:67-69 | the base backend's "not implemented" (no `getEdgeNodes` in the sql.js backend) |
| Entities.GetOtherNode | mapper/backend/entity.js:71-73 | the base backend's "not implemented", reached through `getEdgeNodes` |
| Entities.GetDirOtherNode | mapper/backend/entity.js:86-88 | `getOtherNode` from the ref's own start node, hence "not implemented" |
| Entities.CenterRoundTrip | mapper/backend/entity.js:49-55 | a centre set with `setCenter` reads back unchanged with `center` |
| Store.Insert | mapper/backend/sql_js_backend.js:128-131 | the new row's id is the next row id, and the next row id moves one past it |
| Store.CreateEntityFresh | mapper/backend/sql_js_backend.js:128-131 | a created entity has an id no entity had, is valid with the given type, no other table changes and the tables stay consistent |
| Store.FirstOfKind | mapper/backend/sql_js_backend.js:89 | the lowest-id entity of that type at or after `from`, and none exists exactly when no entity from there has that type |
| Store.LoadedHasOneGlobal | mapper/backend/sql_js_backend.js:85-96 | after `load` on a new database exactly one entity has type 'global' and it is the backend's global |
| Store.CreateNodeSpec | mapper/backend/sql_js_backend.js:102-108 | `createNode` succeeds iff no transaction is open and the parent, if any, is a node; the node is fresh, valid, a 'node' with that parent; on failure the transaction stays open |
| Store.FailedCreateNodeBlocks | mapper/backend/sql_js_backend.js:102-108 | after a `createNode` whose parent is no node, the next `createNode` fails because BEGIN runs inside the open transaction |
| Store.CreateEdgeSpec | mapper/backend/sql_js_backend.js:115-122 | with both ids bound, `createEdge(a, b)` succeeds iff no transaction is open and a, b are distinct nodes; the edge is fresh, valid and its ends are exactly {a, b} |
| Store.CreateEdgeConsistent | mapper/backend/sql_js_backend.js:115-122 | `createEdge` keeps every schema invariant, whether it succeeds or fails |
| Store.CreateEdgeAsWrittenLosesA | mapper/backend/sql_js_backend.js:118 | as written, the first row binds no node id, so the new edge names only b |
| Store.InvalidateAll | mapper/backend/sql_js_backend.js:82 | same keys and types; a row is valid afterwards iff it was valid and is not in the set |
| Store.RemoveSpec | mapper/backend/sql_js_backend.js:38-39 | removing a valid node invalidates exactly it, every node below it and every edge of those nodes; the tables stay consistent and nothing else changes |
| Store.RemoveOtherSpec | mapper/backend/sql_js_backend.js:165-167 | removing a valid entity that is no node invalidates only that entity |
| Store.RemoveIdempotent | mapper/backend/sql_js_backend.js:82 | removing an invalid or missing entity changes nothing, so removing twice equals removing once |
| Store.UnremoveDoesNotCascade | mapper/backend/sql_js_backend.js:83 | a child invalidated with its parent stays invalid when the parent is unremoved |
| Store.UnremoveSpec | mapper/backend/sql_js_backend.js:169-171 | unremoving sets only that entity's flag to valid |
| Store.RemoveUnremoveLeaf | mapper/backend/sql_js_backend.js:165-171 | for a valid entity that is no node, or a node without children and edges, remove then unremove restores the tables exactly |
| Store.ParentFollowsRemoval | mapper/backend/sql_js_backend.js:69 | `getNodeParent` gives the parent, gives none once the parent is removed, and gives it again once the parent is unremoved |
| Store.InAreaTouches | mapper/backend/sql_js_backend.js:76-78 | a node in an area with a radius that is not negative also touches it, and its centre lies in the box |
| Store.ChildrenKnowParent | mapper/backend/sql_js_backend.js:70 | a listed child of a valid node has that node as its `getNodeParent` |
| Store.PropertyRoundTrip | mapper/backend/sql_js_backend.js:55-60 | a set succeeds iff the entity exists; a value reads back under the same kind; a set of another kind replaces the row, so the first kind then reads `null`; an absent property reads `undefined` |
| Store.SetLeavesOthers | mapper/backend/sql_js_backend.js:60 | writing one (entity, name) leaves every other pair's string, number and vector unchanged |
| Store.BaseNumberRoundTrip | mapper/backend/backend.js:9-15 | an integer stored with the base `setPNumber` reads back with the base `getPNumber` |
| Store.PointPropertyRoundTrip | mapper/backend/backend.js:17-24 | a point stored with `setPPoint` reads back with the intended `getPPoint` |
| Store.GetPointAsWrittenThrows | mapper/backend/backend.js:21-24 | as written `getPPoint` always throws: a SyntaxError with nothing stored, a TypeError (no `Point.fromJSON`) on a stored point |
| Store.TextCenterInNoArea | mapper/backend/sql_js_backend.js:76-78 | a centre stored by `setCenter` is text with NULL x, y, z, so the node matches neither area query |
| Store.EntityChecks | mapper/backend/sql_js_backend.js:133-139 | the intended checks answer existence and validity exactly; as written both answer true for an id no entity has |
| Store.TypelessNodesDoNotCascade | mapper/backend/sql_js_backend.js:129 | as written no entity gets a type, so `load` finds no 'global' and removing a parent node leaves its child valid |
| Store.TypedNodesCascade | mapper/backend/sql_js_backend.js:38 | with the type bound, removing a parent node invalidates its child |
| Store.EdgeFollowsFirstNode | mapper/backend/sql_js_backend.js:118-119 | as written, removing an edge's first node leaves the edge valid; with both ends bound it invalidates the edge |
| Store.OtherNode | mapper/backend/backend.js:75-78 | one of the edge's two nodes, and not the given one when that is one of two distinct ends |
| Forest.CollectSubtree | mapper/backend/sql_js_backend.js:38 | the worklist walk finds exactly the nodes that reach the root through parent links, which the recursive children trigger invalidates |
| SqlJs.SqlJsMapBackend.constructor | mapper/backend/sql_js_backend.js:25-125 | `load`: the tables and global entity are those of `Loaded`, with exactly one 'global' entity, and the backend is marked loaded |
| SqlJs.SqlJsMapBackend.CreateEntity | mapper/backend/sql_js_backend.js:141-143 | the tables and id are `Store.CreateEntity` of the old tables; consistency and the global are kept |
| SqlJs.SqlJsMapBackend.CreateNode | mapper/backend/sql_js_backend.js:145-147 | the tables and result are `Store.CreateNode` of the old tables |
| SqlJs.SqlJsMapBackend.CreateEdge | mapper/backend/sql_js_backend.js:149-151 | the tables and result are `Store.CreateEdge` of the old tables |
| SqlJs.SqlJsMapBackend.EntityExists | mapper/backend/sql_js_backend.js:133-135 | true exactly when the id is a row of the entity table |
| SqlJs.SqlJsMapBackend.EntityValid | mapper/backend/sql_js_backend.js:137-139 | true exactly when the id is a row and that row is valid |
| SqlJs.SqlJsMapBackend.GetNodeParent | mapper/backend/sql_js_backend.js:153-156 | the node's parent when it has one and the parent is valid, otherwise none |
| SqlJs.SqlJsMapBackend.Scan | mapper/backend/sql_js_backend.js:158-163 | stepping a query yields every matching node once, in ascending id order |
| SqlJs.SqlJsMapBackend.GetNodeChildren | mapper/backend/sql_js_backend.js:158-163 | exactly the valid nodes naming the node as parent, in ascending id order |
| SqlJs.SqlJsMapBackend.GetNodesInArea | mapper/backend/sql_js_backend.js:222-227 | exactly the valid nodes whose stored centre lies in the box, bounds included |
| SqlJs.SqlJsMapBackend.GetNodesTouchingArea | mapper/backend/sql_js_backend.js:229-234 | exactly the valid nodes whose centre lies in the box widened by their radius |
| SqlJs.SqlJsMapBackend.RemoveEntity | mapper/backend/sql_js_backend.js:165-167 | the tables become `Removed`: the entity, and for a node its subtree and their edges, invalidated |
| SqlJs.SqlJsMapBackend.RemoveNode | mapper/backend/backend.js:84-86 | the same as `removeEntity` |
| SqlJs.SqlJsMapBackend.RemoveEdge | mapper/backend/backend.js:80-82 | the same as `removeEntity` |
| SqlJs.SqlJsMapBackend.UnremoveEntity | mapper/backend/sql_js_backend.js:169-171 | the tables become `Unremoved`: only that entity's flag is set valid |
| SqlJs.SqlJsMapBackend.SetProperty | mapper/backend/sql_js_backend.js:56 | the write succeeds iff the entity exists, replacing the whole row; on a foreign key failure nothing changes |
| SqlJs.SqlJsMapBackend.SetPString | mapper/backend/sql_js_backend.js:214-220 | the tables become `SetString` of the old ones, or stay when the entity is missing |
| SqlJs.SqlJsMapBackend.SetPNumber | mapper/backend/sql_js_backend.js:180-186 | the tables become `SetNumber` of the old ones, or stay when the entity is missing |
| SqlJs.SqlJsMapBackend.SetPVector3 | mapper/backend/sql_js_backend.js:196-204 | the tables become `SetVector3` of the old ones, or stay when the entity is missing |
| SqlJs.SqlJsMapBackend.SetPPoint | mapper/backend/backend.js:17-19 | the point's JSON is stored as a string property |
| SqlJs.SqlJsMapBackend.GetPString | mapper/backend/sql_js_backend.js:206-212 | the text column: defined iff the row has text, `undefined` iff there is no row |
| SqlJs.SqlJsMapBackend.GetPNumber | mapper/backend/sql_js_backend.js:173-178 | the number column: defined iff the row has a number, `undefined` iff there is no row |
| SqlJs.SqlJsMapBackend.GetPVector3 | mapper/backend/sql_js_backend.js:188-194 | the vector columns: defined iff the row has them. `Undefined` stands for the `Vector3` of three `undefined` that a missing row gives, iff there is no row. `Null` stands for the `Vector3` of three `null` that a row without a vector gives |
| SqlJs.SqlJsMapBackend.GetPPoint | mapper/backend/backend.js:21-24 | the coordinates of the stored JSON text; success only when a text value is stored |
| SqlJs.SqlJsMapBackend.GetNodeEdges | mapper/backend/backend.js:65-68 | "not implemented", thrown by the base backend |
| SqlJs.SqlJsMapBackend.GetEdgeNodes | mapper/backend/backend.js:70-73 | "not implemented", thrown by the base backend |
| SqlJs.SqlJsMapBackend.GetEdgeOtherNode | mapper/backend/backend.js:75-78 | "not implemented", thrown by `getEdgeNodes` before any node is compared |
| Codec.NatString | mapper/backend/backend.js:14 | at least one decimal digit, with no leading zero |
| Codec.NatStringValue | mapper/backend/backend.js:14 | the digits of `n` denote `n` |
| Codec.NumberString | mapper/backend/backend.js:14 | at least one character, and it starts with '-' iff the integer is negative |
| Codec.ParseFloat | mapper/backend/backend.js:10 | nothing stored (`undefined`) gives NaN |
| Codec.NumberRoundTrip | mapper/backend/backend.js:9-15 | `parseFloat` of an integer's `toString` gives the integer back |
| Codec.NumberStringParses | mapper/backend/backend.js:9-15 | the text of an integer followed by a non-digit reads back as that integer and the rest |
| Codec.PointRoundTrip | mapper/backend/backend.js:17-24 | the JSON text of a point with integer coordinates reads back as the same x, y, z |
| Codec.NumberStringExample | mapper/backend/backend.js:14 | `toString` of -120 is "-120" |
| Codec.ParseFloatExamples | mapper/backend/backend.js:10 | `parseFloat` reads "12abc" as 12 and "abc" as NaN |
| Worlds.RemoveNodes | mapper/actions/remove_action.js:6 | `removeNodes` answers exactly the listed nodes that were valid |
| Worlds.TranslateNode | mapper/actions/translate_action.js:11 | the node's centre moves by the offset and no node appears or disappears |
| Worlds.InsertNode | mapper/actions/draw_path_action.js:13-16 | a new valid node under the next free id, centred on the point, with the given type, radius and parent; edges and tiles unchanged |
| Worlds.GetParent | mapper/actions/merge_action.js:9 | the node's parent exactly when it has one and that parent is valid |
| Worlds.Children | mapper/actions/merge_action.js:29 | exactly the valid nodes whose parent is the node |
| Worlds.SelfAndDescendants | mapper/actions/node_cleanup_action.js:24 | the node first, then only nodes reached from it through valid parent links |
| Worlds.RemoveUnremoveNodes | mapper/actions/remove_action.js:5-8 | unremoving what a removal answered restores the map exactly |
| Worlds.UnremoveRemoveNodes | mapper/actions/unremove_action.js:5-8 | removing again nodes that were all removed and then unremoved restores the map exactly |
| Worlds.EdgesRoundTrip | mapper/actions/remove_edge_action.js:5-8 | removing valid edges then unremoving them, or the other way round for removed edges, restores the map |
| Actions.BaseEmpty | mapper/actions/action.js:18-20 | the base action is never empty |
| Actions.BasePerform | mapper/actions/action.js:25 | the base `perform` leaves the map as it was and answers no undo |
| Actions.Leaves | mapper/actions/bulk_action.js:32-45 | flattening nested bulk actions leaves no bulk action |
| Actions.Reversed | mapper/actions/bulk_action.js:18 | `reverse()`: the same length, element i taken from position length - 1 - i |
| Actions.Perform | mapper/actions/action.js:22-25 | no action deletes a node: every node of the map is still a node afterwards |
| Actions.PerformList | mapper/actions/bulk_action.js:11-14 | performing the sub-actions in turn never deletes a node |
| Actions.OldName | mapper/actions/change_name_action.js:11 | the stored name, or "" when none is stored |
| Actions.ChangeParentPerform | mapper/actions/merge_action.js:8-13 | no node is added or dropped, ids are not consumed, and an undo is always answered |
| Actions.ValidRefs | mapper/actions/merge_action.js:50-58 | exactly the valid refs among those given, never more of them |
| Actions.Reparented | mapper/actions/merge_action.js:29-31 | moving children changes only parents: nodes, edges, tiles and ids unchanged, one undo per child |
| Actions.MergeStep | mapper/actions/merge_action.js:28-33 | merging one node changes no node set, edge, tile or id counter |
| Actions.MergedInto | mapper/actions/merge_action.js:27-34 | merging the later nodes one after another changes no node set, edge, tile or id counter |
| Actions.MergePerform | mapper/actions/merge_action.js:21-40 | a merge adds and drops no node |
| Actions.NodeCleanupPerform | mapper/actions/node_cleanup_action.js:5-21 | a cleanup adds and drops no node, and throws (no undo) exactly when it was given no type |
| Actions.WithParent | mapper/actions/draw_path_action.js:12-19 | after settling the parent, the parent is a node and no node was lost |
| Actions.DrawPathPerform | mapper/actions/draw_path_action.js:4-63 | drawing a path never drops a node |
| Actions.PlacedGrows | mapper/actions/draw_path_action.js:29-48 | the placing loop only adds nodes and ids |
| ActionLaws.PerformListAppend | mapper/actions/bulk_action.js:12-14 | performing `x + y` is performing `x` and then, unless it threw, `y` on the map `x` left |
| ActionLaws.Restores | mapper/actions/action.js:22-24 | the undo an action answers can be performed on the map it leaves, does not throw, and gives back the map it started from |
| ActionLaws.RestoresList | mapper/actions/bulk_action.js:16-19 | a bulk action's reversed undos, performed in turn, restore the map when each sub-action's undo does |
| ActionLaws.UndoOfUndo | mapper/actions/action.js:1-3 | for unremove, edge (un)removal, rename, translate, node space, reparent to a valid parent and tile actions, the undo of the undo is the action itself |
| ActionLaws.UndoEmpty | mapper/actions/remove_action.js:10-12 | the undo of a list action is empty iff the action is; a removal's undo is empty iff none of its nodes was valid |
| ActionLaws.EmptyChangesNothing | mapper/actions/action.js:14-20 | an empty action leaves the map as it was and answers an empty undo |
| ActionLaws.EmptyListChangesNothing | mapper/actions/bulk_action.js:22-30 | a list of empty actions leaves the map as it was and nothing throws |
| ActionLaws.ThrowsIffRaises | mapper/actions/node_cleanup_action.js:25 | performing an action throws exactly when it holds a cleanup without a type |
| ActionLaws.ListThrowsIffRaises | mapper/actions/bulk_action.js:12-14 | a run of actions throws exactly when one of them holds a cleanup without a type |
| ActionLaws.AllMatchesFilterMeaning | mapper/actions/bulk_action.js:32-45 | `allMatchesFilter(f)` holds iff `f` holds of every non-bulk action reached through nested bulk actions |
| MergeLaws.PossibleMeans | mapper/actions/merge_action.js:42-48 | `possible` holds iff some listed node is valid and all valid listed nodes have one type |
| MergeLaws.ValidRefsDistinct | mapper/actions/merge_action.js:50-58 | the valid refs of distinct refs are distinct |
| MergeLaws.ReparentedSpec | mapper/actions/merge_action.js:29-31 | reparenting the children changes exactly their parent to the target, and no other node |
| MergeLaws.MergeStepSpec | mapper/actions/merge_action.js:28-33 | one merge turn makes `other` invalid, gives its valid children the target as parent, and changes nothing else |
| MergeLaws.MergeEffect | mapper/actions/merge_action.js:21-40 | when possible: the first valid ref stays valid, the other valid refs become invalid, no other validity changes, their children move under the first, no valid node is left under a merged one, and types, names and geometry stay; otherwise the map is unchanged |
| MergeLaws.MergeUndoRaises | mapper/actions/merge_action.js:36 | as written a merge's undo ends with a cleanup of the target that has no type, so performing it throws; when not possible the undo is empty |
| MergeLaws.ReparentedUndos | mapper/actions/merge_action.js:29-31 | moving children answers only `ChangeParent` undos |
| MergeLaws.MergedIntoUndos | mapper/actions/merge_action.js:27-34 | merging nodes answers only `ChangeParent` and `Unremove` undos |
| MergeLaws.MergeUndoTyped | mapper/actions/merge_action.js:36 | with the target's type given to the cleanup, a merge's undo never throws and ends with a cleanup of the target of its type; when not possible the undo is empty |
| DrawPathLaws.PlacedFresh | mapper/actions/draw_path_action.js:29-48 | every placed node is fresh, valid, of the node type and radius, under the parent, centred on a visited vertex; older nodes are unchanged |
| DrawPathLaws.PlacedOnVertices | mapper/actions/draw_path_action.js:37-46 | every point placed is one of the vertices visited, appended after the earlier points |
| DrawPathLaws.PlacedSpaced | mapper/actions/draw_path_action.js:30-34 | no two placed points are closer than `(radius + radius) / 4` |
| DrawPathLaws.PlacedCovers | mapper/actions/draw_path_action.js:29-48 | with a positive radius every visited vertex lies near a placed point |
| DrawPathLaws.PlacedNothing | mapper/actions/draw_path_action.js:36 | with a radius that is not positive the loop places nothing |
| DrawPathLaws.DrawPathUnfold | mapper/actions/draw_path_action.js:4-62 | without `fullCalculation` the action is the placing loop over the sorted bisected vertices, undone by removing the placed nodes |
| DrawPathLaws.DrawPathAdds | mapper/actions/draw_path_action.js:10-52 | drawing only adds nodes: the old ones are untouched, the new ones are the root (when no parent was given) and the nodes under the parent, and the undo removes exactly the new nodes |
| DrawPathLaws.DrawPathSpaced | mapper/actions/draw_path_action.js:29-34 | no two nodes placed on vertices are closer than half the radius |
| DrawPathLaws.DrawPathCovers | mapper/actions/draw_path_action.js:23-48 | with a positive radius every vertex of the bisected path lies within half the radius of a placed node |
| DrawPathLaws.DrawPathUndo | mapper/actions/draw_path_action.js:50-52 | performing the undo leaves the old nodes as they were and every added node invalid, and the redo gives the drawn map back |
| Cleanup.MarkForRemoval | mapper/actions/node_cleanup_action.js:10-18 | the nested loop marks exactly `Marked` of the sorted vertices |
| Cleanup.MarkedMeaning | mapper/actions/node_cleanup_action.js:10-18 | a node is marked iff at its turn it was removable and another vertex not yet marked lay closer than a quarter of their radii; each node is marked once |
| Cleanup.LoneVertexStays | mapper/actions/node_cleanup_action.js:13 | a vertex with no other vertex is never marked |
| Cleanup.PairMarks | mapper/actions/node_cleanup_action.js:13-14 | of two childless overlapping vertices, the first is marked and the second then is not |
| Cleanup.AllNodes | mapper/actions/node_cleanup_action.js:23-29 | with the intended precedence: the node and its descendants of the type; a missing type throws |
| Cleanup.OfType | mapper/actions/node_cleanup_action.js:25 | exactly the listed nodes of the type |
| Cleanup.VerticesOf | mapper/actions/node_cleanup_action.js:31-43 | exactly the nodes with a positive radius, each with its centre, radius and whether it has no children |
| Cleanup.SortedVerticesSpec | mapper/actions/node_cleanup_action.js:8 | the vertices considered are exactly the node and its descendants of the type with a positive radius, sorted by radius |
| Cleanup.CleanupAsWrittenMarksNothing | mapper/actions/node_cleanup_action.js:25 | as written no node is considered, so two overlapping children are both kept |
| Cleanup.CleanupMarksExample | mapper/actions/node_cleanup_action.js:5-21 | with the intended precedence, the first of two overlapping childless children is marked for removal |
| Selections.AddOrigin | mapper/selection.js:33-50 | one more origin adds its descendants as children, its parent as parent, and what lies below its parent |
| Selections.Selection.constructor | mapper/selection.js:2-10 | only the origins, which are also selected; the other sets are empty |
| Selections.Selection.Update | mapper/selection.js:26-61 | origins unchanged; children, parents, siblings and selected nodes are the sets derived from the origins, and the layering relations hold |
| Selections.Selection.Collect | mapper/selection.js:33-50 | the loop gathers exactly the descendants, the parents and what lies below the parents of all origins |
| Selections.Selection.FromNodeIds | mapper/selection.js:12-16 | a fresh selection whose origins are the ids, updated |
| Selections.Selection.JoinWith | mapper/selection.js:22-24 | a fresh updated selection whose origins are the union of both selections' origins |
| Selections.Selection.Exists | mapper/selection.js:89-91 | true exactly when some node is an origin |
| Selections.Selection.Contains | mapper/selection.js:93-100 | true exactly when the other's directly selected nodes are all directly selected here; a selection contains itself |
| Selections.Selection.Membership | mapper/selection.js:26-61 | every origin is selected, its descendants are children, its parent is a parent, and a sibling is selected but neither origin, parent nor child |
| Selections.SetToSeq | mapper/selection.js:84-86 | every element of the set, each exactly once |
| Contexts.Context.PushUndo | mapper/drag_events/draw_event.js:41 | the action goes on top of the undo stack and nothing else changes |
| Contexts.Context.PerformAction | mapper/actions/bulk_action.js:13 | the map, undo and hooks are those of `Perform`; the undo is pushed only when asked and when there is one |
| Contexts.Context.PerformBulk | mapper/actions/bulk_action.js:8-20 | the loop and `reverse()` give exactly `Perform` of the bulk action, and the undo stack is untouched |
| Contexts.Context.PerformEach | mapper/actions/bulk_action.js:11-14 | the undos in the order answered, and whether an exception ended the loop, as `PerformList` says |
| Contexts.Context.EachTurn | mapper/actions/bulk_action.js:13 | one turn extends the run so far by the next sub-action's outcome |
| Contexts.Context.ReverseInPlace | mapper/actions/bulk_action.js:18 | the list reversed |
| Contexts.Context.PerformSimple | mapper/actions/set_node_space_action.js:12-28 | each action whose `perform()` is a few reads and writes (removals, renames, translation, node space, reparenting, tiles) does exactly what `Perform` says |
| Contexts.Context.MarkEach | mapper/brushes/area_brush.js:12-36 | every listed tile is marked, or unmarked, and nothing else changes |
| Contexts.Context.GetNodeRefs | mapper/actions/merge_action.js:50-58 | the valid refs, in the order given |
| Contexts.Context.MergePossible | mapper/actions/merge_action.js:42-48 | true exactly when `Possible` holds |
| Contexts.Context.PerformMerge | mapper/actions/merge_action.js:21-40 | the nested loops give exactly `MergePerform`: map, undo and hooks, the cleanup given the target's type |
| Contexts.Context.MergeAll | mapper/actions/merge_action.js:27-34 | the outer loop gives exactly `MergedInto` of the later valid nodes |
| Contexts.Context.MergeTurn | mapper/actions/merge_action.js:28-33 | one outer turn extends the merge so far by one node |
| Contexts.Context.MergeOther | mapper/actions/merge_action.js:28-33 | one node merged: exactly `MergeStep` |
| Contexts.Context.ReparentAll | mapper/actions/merge_action.js:29-31 | the inner loop gives exactly `Reparented`, one undo per child |
| Contexts.Context.PerformNodeCleanup | mapper/actions/node_cleanup_action.js:5-21 | the sorting, marking loop and removal give exactly `NodeCleanupPerform` |
| Contexts.Context.PerformDrawPath | mapper/actions/draw_path_action.js:4-63 | the parent step, placing loop and optional cleanup give exactly `DrawPathPerform` |
| Contexts.Context.SettleParent | mapper/actions/draw_path_action.js:12-19 | the given parent, or a new node of radius 0 at the centre counted as placed, as `WithParent` says |
| Contexts.Context.PlaceEachVertex | mapper/actions/draw_path_action.js:29-48 | the labelled loop gives exactly `Placed` over all vertices |
| Contexts.Context.NearAny | mapper/actions/draw_path_action.js:30-34 | true exactly when some placed vertex lies nearer than `(radius + radius) / 4` |
| Brushes.RadiusOf | mapper/brushes/brush.js:14-16 | the radius of a size from 1 to 10 lies between 25 and 250 |
| Brushes.Shrunk | mapper/brushes/brush.js:26-29 | one step smaller, and never below 1 |
| Brushes.Enlarged | mapper/brushes/brush.js:31-34 | one step larger, and never above `maxSize` |
| Brushes.SizeStaysInRange | mapper/brushes/brush.js:26-34 | shrinking and enlarging keep a size within 1 to `maxSize` |
| Brushes.ShrinkEnlarge | mapper/brushes/brush.js:26-34 | away from the bounds shrinking and enlarging undo each other; at a bound the step toward it does nothing |
| Brushes.Brush.constructor | mapper/brushes/brush.js:2-8 | size 1 and maximum size 10 |
| Brushes.Brush.Radius | mapper/brushes/brush.js:14-16 | 25 canvas units per size step, between 25 and 250 |
| Brushes.Brush.Shrink | mapper/brushes/brush.js:26-29 | the size becomes `Shrunk` of the old size and stays valid |
| Brushes.Brush.Enlarge | mapper/brushes/brush.js:31-34 | the size becomes `Enlarged` of the old size and stays valid |
| AreaSweep.RemCoordinate | mapper/brushes/area_brush.js:132 | JavaScript's `c % tileSize`: less than a tile in size, with the sign of `c` |
| AreaSweep.Snap | mapper/brushes/area_brush.js:132 | `c - c % tileSize` is a multiple of the tile size between 0 and `c`, less than a tile from `c` |
| AreaSweep.SnapCovers | mapper/brushes/area_brush.js:132-142 | snapping the brush box toward zero loses no grid coordinate strictly within the brush |
| AreaSweep.SweptMembers | mapper/brushes/area_brush.js:126-157 | `triggerAtPosition` lists exactly the grid corners strictly within the brush that are marked (removing) or unmarked (adding) |
| AreaSweep.SweptWanted | mapper/brushes/area_brush.js:145-154 | adding lists only unmarked tiles, removing only marked ones |
| AreaBrushes.AllTiles | mapper/brushes/area_brush.js:13-15 | exactly the tiles some tile action of the list names |
| AreaBrushes.TilePerform | mapper/brushes/area_brush.js:12-36 | a tile action marks (or unmarks) its tiles, calls the brush's "update" hook and answers the opposite action |
| AreaBrushes.StrokePerform | mapper/brushes/area_brush.js:173-179 | the actions of a stroke, performed in turn, mark (or unmark) every tile they list, change nothing else and never throw, with one undo per action |
| AreaBrushes.StrokeBulk | mapper/brushes/area_brush.js:178 | the stroke's bulk action, performed, does what `StrokePerform` says and answers a bulk undo of as many actions |
| AreaBrushes.CountAfterMarking | mapper/brushes/area_brush.js:99-110 | marking unmarked tiles adds their number to the count; unmarking marked ones takes it away |
| AreaBrushes.PositionCount | mapper/brushes/area_brush.js:126-171 | one position of the adding brush adds the number of tiles it lists to the count; of the removing brush, takes it away |
| AreaBrushes.Stroke | mapper/brushes/area_brush.js:174-177 | one action per position, in order |
| AreaBrushes.StrokeAt | mapper/brushes/area_brush.js:174-177 | the stroke's action at each position is the action there |
| AreaBrushes.Half | mapper/brushes/area_brush.js:175 | half the radius, positive for a positive radius |
| AreaBrushes.StrokeTileActions | mapper/brushes/area_brush.js:159-170 | a stroke is all `AreaBrushAdd` or all `AreaBrushDelete`, as Shift says |
| AreaBrushes.AreaBrush.constructor | mapper/brushes/area_brush.js:40-51 | a valid brush of size 1 |
| AreaBrushes.AreaBrush.TriggerAtPosition | mapper/brushes/area_brush.js:126-171 | the action is `AtPosition` at the brush position plus the scroll offset, with the brush radius and Shift |
| AreaBrushes.AreaBrush.ScanColumns | mapper/brushes/area_brush.js:137-157 | the outer loop lists exactly the corners of all columns of the box, into `toRemove` when removing and `toAdd` otherwise |
| AreaBrushes.AreaBrush.ScanColumn | mapper/brushes/area_brush.js:142-156 | the inner loop appends exactly the column's listed corners to the list Shift chooses |
| AreaBrushes.AreaBrush.TriggerOnPath | mapper/brushes/area_brush.js:173-179 | a bulk of the per-position actions over the vertices of the path bisected at half the radius |
| AreaBrushes.AreaBrush.TriggerOnVertices | mapper/brushes/area_brush.js:175-177 | one action per vertex, each taken on the tiles as they are before any is performed |
| AreaBrushes.AreaBrush.Trigger | mapper/brushes/area_brush.js:181-185 | the tiles of the stroke over the path's most recent line end up marked (or unmarked), nothing else on the map changes, the undo is a bulk of one action per vertex, the undo stack is untouched |
| AreaBrushes.AreaBrush.Reset | mapper/brushes/area_brush.js:53-62 | no tile is marked afterwards; the undo, an `AreaBrushAdd` of exactly the tiles that were marked, is pushed on the undo stack |
| AreaBrushes.AreaBrush.GetAreaSelectedSquareMeters | mapper/brushes/area_brush.js:99-110 | the number of marked tiles times the area of one tile |
| AddBrushes.Wrapped | mapper/brushes/add_brush.js:35-38 | -1 without types; otherwise an index in range that differs from the given one by a multiple of the number of types |
| AddBrushes.WrappedInRange | mapper/brushes/add_brush.js:35-38 | an index already in range is kept |
| AddBrushes.IncrementDecrement | mapper/brushes/add_brush.js:23-33 | a wrapped step forward then back, or back then forward, returns to the index |
| AddBrushes.TypeAt | mapper/brushes/add_brush.js:19-21 | the type at the index, or none exactly when the index is out of range |
| AddBrushes.WrappedHasType | mapper/brushes/add_brush.js:35-38 | after wrapping there is a type at the index exactly when there are types |
| AddBrushes.NeighbourRadius | mapper/brushes/add_brush.js:48 | between 1 and 4, and below 4 exactly half the number of types rounded up |
| AddBrushes.ChooseParent | mapper/brushes/add_brush.js:75-85 | the selection parent is reused exactly when it exists and has the brush's type |
| AddBrushes.AddBrush.constructor | mapper/brushes/add_brush.js:7-13 | index 1, not wrapped, no parent; a type only when there are at least two types |
| AddBrushes.AddBrush.NodeType | mapper/brushes/add_brush.js:19-21 | the type at the current index, none when it is out of range |
| AddBrushes.AddBrush.WrapIndex | mapper/brushes/add_brush.js:35-38 | the index becomes `Wrapped` of the old index |
| AddBrushes.AddBrush.Increment | mapper/brushes/add_brush.js:23-27 | the index becomes the next one, wrapped |
| AddBrushes.AddBrush.Decrement | mapper/brushes/add_brush.js:29-33 | the index becomes the previous one, wrapped |
| AddBrushes.AddBrush.ChooseParentNode | mapper/brushes/add_brush.js:74-85 | without a type it throws and changes nothing; otherwise it reuses a selection parent of the type (undoParent false) or inserts a new root node of radius 0 (undoParent true) |
| AddBrushes.AddBrush.ShownTypes | mapper/brushes/add_brush.js:47-54 | `2r + 1` indices, each the current index plus its offset from the middle, wrapped; the middle one is the current index |
| AddBrushes.AddBrush.Trigger | mapper/brushes/add_brush.js:58-69 | without a type it throws and changes nothing; otherwise the map and the undo are those of performing one `DrawPathAction` of the brush's radius, type and parent at the scroll offset, and the undo stack is untouched |
| AddBrushes.DrawPathAnswers | mapper/actions/draw_path_action.js:50-62 | drawing a path always answers an undo: a removal, or a bulk of two actions on a full calculation |
| AddBrushes.TriggerOptionsAsWritten | mapper/brushes/add_brush.js:59-66 | the options as written carry no scroll offset |
| AddBrushes.PerformDrawPathOptions | mapper/actions/draw_path_action.js:4-8 | without a scroll offset the action throws before changing anything; with one it answers an undo |
| AddBrushes.TriggerAsWrittenDrawsNothing | mapper/brushes/add_brush.js:59-68 | as written, a stroke of the add brush throws and draws nothing |
| DeleteBrushes.NodesInBrush | mapper/brushes/delete_brush.js:14-20 | exactly the drawn nodes of positive radius whose centre, on the canvas, lies within the brush radius, and no more of them than are drawn |
| DeleteBrushes.TargetsAt | mapper/brushes/delete_brush.js:28-48 | with Control exactly the drawn nodes in the brush, otherwise with Shift the hovered parents, otherwise the hovered origins |
| DeleteBrushes.StrokeTargets | mapper/brushes/delete_brush.js:50-56 | exactly the nodes some vertex of the stroke targets |
| DeleteBrushes.StrokeTargetsKeyed | mapper/brushes/delete_brush.js:40-47 | without Control, a stroke's targets are the hovered parents' origins (Shift) or the hovered origins |
| DeleteBrushes.Listed | mapper/brushes/delete_brush.js:50-56 | exactly the ids some removal of the list names |
| DeleteBrushes.RemoveMarks | mapper/actions/remove_action.js:5-8 | a removal marks its nodes removed, and its undo unremoves those that were valid |
| DeleteBrushes.MarkTwice | mapper/actions/remove_action.js:6 | two removals in turn mark the union of their nodes |
| DeleteBrushes.RemovalsPerform | mapper/actions/bulk_action.js:11-14 | a run of removals never throws, marks every listed node removed and answers one unremoval per removal |
| DeleteBrushes.RemovalBulk | mapper/actions/bulk_action.js:8-20 | a bulk of removals marks the listed nodes removed and answers a bulk of as many unremovals |
| DeleteBrushes.ListedTargets | mapper/brushes/delete_brush.js:50-56 | the removals of a stroke list exactly the stroke's targets |
| DeleteBrushes.VerticesAsWritten | mapper/brushes/delete_brush.js:51 | `path.vertices()` on a draw event throws; on a path it gives the vertices |
| DeleteBrushes.TriggerAsWrittenThrows | mapper/drag_events/draw_event.js:45 | as written every stroke of the delete brush throws before removing anything |
| DeleteBrushes.TargetsAtAsWritten | mapper/brushes/delete_brush.js:28-48 | as written, Control or Shift throws (`asyncFrom` and `Selection` are not imported); otherwise the hovered origins |
| DeleteBrushes.ControlAsWrittenThrows | mapper/brushes/delete_brush.js:32 | as written a stroke with Control down removes nothing, even with a drawn node under the brush |
| DeleteBrushes.DeleteBrush.constructor | mapper/brushes/brush.js:2-8 | a valid delete brush of size 1 |
| DeleteBrushes.DeleteBrush.GetNodesInBrush | mapper/brushes/delete_brush.js:14-20 | the loop answers exactly `NodesInBrush` |
| DeleteBrushes.DeleteBrush.TriggerAtPosition | mapper/brushes/delete_brush.js:28-48 | a removal listing exactly the targets at the position, each once; under Control, exactly `NodesInBrush` |
| DeleteBrushes.DeleteBrush.TriggerOnPath | mapper/brushes/delete_brush.js:50-56 | a bulk of one removal per vertex of the path, in order, each listing that vertex's targets |
| DeleteBrushes.DeleteBrush.Trigger | mapper/brushes/delete_brush.js:58-60 | every node some vertex targets is marked removed and nothing else changes; the undo is a bulk of one unremoval per vertex; the undo stack is untouched |
| DragEvents.SelectionParent | mapper/drag_events/drag_event.js:22-36 | none iff there is no origin; otherwise, for the first origin only, its valid parent when it has no children, else the origin itself |
| DragEvents.SelectionParentFirstOnly | mapper/drag_events/drag_event.js:24-31 | origins after the first never change the answer |
| DragEvents.DragEvent.constructor | mapper/drag_events/drag_event.js:4-9 | a path of the start point alone, not done, with the hover selection's origins |
| DragEvents.DragEvent.Next | mapper/drag_events/drag_event.js:11-13 | the path is extended by the point as `Path.next` does; `done` is kept |
| DragEvents.DragEvent.End | mapper/drag_events/drag_event.js:15-18 | the path is extended by the point and the drag is done |
| DragEvents.StaysAtLastVertex | mapper/geometry.js:296-314 | extending a path by its last vertex leaves it as it was |
| DragEvents.PanStep | mapper/drag_events/pan_event.js:5-6 | the last line after a step is the step from the old last vertex; a repeated point keeps the previous last line |
| DragEvents.PanEvent.constructor | mapper/drag_events/drag_event.js:4-9 | a drag of the start point alone, not done |
| DragEvents.PanEvent.Next | mapper/drag_events/pan_event.js:4-8 | the path grows, the scroll offset moves back by its last line's vector, the viewport is recalculated once, the map is unchanged |
| DragEvents.UndoTranslations | mapper/actions/translate_action.js:14-17 | one undo per node, each translating it back by the negated offset |
| DragEvents.Moved | mapper/drag_events/translate_event.js:24-29 | the listed nodes' centres move by the offset and nothing else changes |
| DragEvents.MoveStep | mapper/drag_events/translate_event.js:24-29 | one more distinct node translated is one more node moved |
| DragEvents.PushRestoring | mapper/drag_events/translate_event.js:25 | performing a reversible action keeps the undo list restoring the map it started from |
| DragEvents.TranslateRestoring | mapper/actions/translate_action.js:10-18 | a translation and its undo keep the undo list restoring |
| DragEvents.MovedRestoring | mapper/drag_events/translate_event.js:24-29 | translating distinct nodes one after the other keeps the undo list restoring |
| DragEvents.TranslateOne | mapper/drag_events/translate_event.js:25-28 | the node is translated and the undo translates it back; the undo stack is untouched |
| DragEvents.TranslateAll | mapper/drag_events/translate_event.js:24-29 | every node moved by the offset, one undo each appended to the list |
| DragEvents.TranslateEvent.constructor | mapper/drag_events/translate_event.js:5-11 | the node refs kept, an empty undo list, and the map to restore is the current one |
| DragEvents.TranslateEvent.GetUndoAction | mapper/drag_events/translate_event.js:13-17 | the undo list drained and reversed as one bulk; performed, it gives back the map of when the list was last empty |
| DragEvents.TranslateEvent.Next | mapper/drag_events/translate_event.js:19-30 | the path grows and every node moves by the vector of the path's last line on the map, with one undo each |
| DragEvents.TranslateEvent.End | mapper/drag_events/translate_event.js:32-36 | as intended (with `next` awaited): as `next`, then the drained undo list goes on the undo stack; performed, it restores the map of before the drag |
| DragEvents.TranslateEvent.EndAsWritten | mapper/drag_events/translate_event.js:32-36 | as written: the pushed undo holds only the earlier steps' undos, which restore the map of before the drag only from the map before the last step; the last step's undos are left in the emptied list |
| DragEvents.EndAsWrittenLeavesMoved | mapper/drag_events/translate_event.js:33-35 | as written, a drag ended at its first step pushes an empty undo, and performing it leaves the moved nodes moved |
| DragEvents.TranslateEvent.Cancel | mapper/drag_events/translate_event.js:38-40 | the drained undo list is performed off the undo stack, and the map is back to when the list was last empty |
| Drawing.ArgumentsAsWritten | mapper/drag_events/draw_event.js:45 | the brush is handed the draw event alone |
| Drawing.AddDoneAsWritten | mapper/brushes/add_brush.js:63 | `mouseDragEvent.done` throws unless a second argument is a draw event |
| Drawing.TriggerAsWrittenThrows | mapper/drag_events/draw_event.js:45 | as written the add brush and the delete brush throw at their first step; only the area brush reads `drawEvent.path` |
| Drawing.DrawEvent.constructor | mapper/drag_events/draw_event.js:5-10 | a drag of the start point alone, with empty undo and state lists |
| Drawing.DrawEvent.FirstState | mapper/drag_events/draw_event.js:12-14 | the first state pushed, none before any |
| Drawing.DrawEvent.LastState | mapper/drag_events/draw_event.js:16-18 | the last state pushed, none before any |
| Drawing.DrawEvent.PushState | mapper/drag_events/draw_event.js:20-22 | the state becomes the last one, and the first one when there was none |
| Drawing.DrawEvent.GetUndoAction | mapper/drag_events/draw_event.js:24-28 | the undo list drained and reversed as one bulk action |
| Drawing.DrawEvent.Trigger | mapper/drag_events/draw_event.js:44-46 | the active brush triggered on the most recent part of the path. The add brush without a type throws and leaves the map; with one it performs the `DrawPathAction` of that part, with `done` and the scroll offset, and answers its undo. The area brush adds or removes the tiles its bisected vertices sweep, with one bulk undo per vertex. The delete brush marks removed the nodes its vertices target, with one bulk of unremovals per vertex. The undo stack and scroll offset are untouched |
| Drawing.DrawEvent.Next | mapper/drag_events/draw_event.js:30-34 | the path grows by the point, then the brush's effect on its newest part, as for `Trigger`, is the new map; the undo is appended unless the brush threw |
| Drawing.DrawEvent.TriggerAndRecord | mapper/drag_events/draw_event.js:33 | the map and the undo are the brush's effect on the newest part of the path, as for `Trigger`, and the undo is appended unless the brush threw |
| Drawing.DrawEvent.End | mapper/drag_events/draw_event.js:36-42 | the path grows and the drag is done; the map is the brush's effect on the newest part with `done` set, as for `Trigger`; the last undo is appended and the reversed list pushed on the undo stack as one bulk |
| Drawing.DrawEvent.Cancel | mapper/drag_events/draw_event.js:48-50 | `end` at the last vertex: the path stays as it was, the map is the brush's effect on its newest part with `done` set, and the undo list goes on the undo stack |
| Drawing.Activate | mapper/brushes/add_brush.js:71-88 | a fresh draw event at the point. The add brush fails without a type. Otherwise, when the event's selection parent has the brush's type, it takes that node as parent without undo and leaves the map as it was. If not, it inserts a node of its type with radius 0 at the point on the map, takes it as parent with undo, and the map becomes that insertion. The other brushes change nothing on the map |
| Drawing.TriggerAdding | mapper/brushes/add_brush.js:58-69 | the add brush's effect on the newest part of the path: throws without a type and leaves the map, otherwise performs the drawn path and answers its undo |
| Drawing.TriggerMarking | mapper/brushes/area_brush.js:181-185 | the area brush's effect on the newest part of the path, as the brush's setting states it |
| Drawing.Mark | mapper/brushes/area_brush.js:173-185 | the tiles swept at the bisected vertices of the newest part are added, or removed when removing, with one bulk undo per vertex |
| Drawing.TriggerDeleting | mapper/brushes/delete_brush.js:58-60 | the delete brush's effect on the newest part of the path: the targeted nodes marked removed, one bulk of unremovals per vertex |

## Left out

- Drawing and UI are not modelled: every `draw`, `displaySidebar` and `displayButton`, `Tile.render`, the mega-tile canvas, and mapper/brushbar.js, mapper/mapper.js, mapper/main.js, mapper/export_ui.js, mapper/style.js and mapper/node_render.js. They only paint or build DOM elements.
- The select, rectangle-select and distance-peg brushes are not part of this model. They only draw, format text or make single assignments.
- The SQL engine is left out; the tables are maps in `Store`. Loading the sql.js script (mapper/backend/sql_js_backend.js:5-22) is I/O.
- Floating-point and transcendental code is left out: `length`, `normalize`, `Path.getRadius`, `dirAngles` and `normalizedDirs`, `Point.normalize` and `Point.distance`, colour formatting, `toFixed` and the metre conversions. Coordinates are exact reals, so float rounding is not modelled.
- The clock behind `sizeRecentlyChanged` and `typeRecentlyChanged` is left out. The add brush's `draw` is modelled only as the list of type indices it shows (`AddBrushes.AddBrush.ShownTypes`).
- `getDescription` of every brush and `sizeInMeters` are left out: they only format text.
- `async`/`await` runs in sequence here; no interleaving is modelled. `DrawEvent.cancel` calls `end` without `await`, which changes nothing observable since `end` does all its work itself. The one missing `await` that matters, in `TranslateEvent.end`, is modelled as written by `DragEvents.TranslateEvent.EndAsWritten`.
- The mapper's own operations (`removeNodes`, `unremoveNodes`, `insertNode`, `translateNode`) are not in the modelled files. `Worlds` gives them as operations on the map value, with their effects stated.
- `NodeRef` (mapper/backend/entity.js:40-59) does not define several node ref methods that the actions and the selection call. Their definitions are not part of this model. `Worlds` gives each a meaning on the map value:
  - `getType`, `valid`, `hasChildren` and `getCenter` (mapper/actions/merge_action.js:45, mapper/brushes/add_brush.js:75, mapper/actions/node_cleanup_action.js:25,37-38) read the node's type id, its validity, `Worlds.HasChildren` and its centre;
  - `setParent` (mapper/actions/merge_action.js:10) writes the parent;
  - `getEffectiveCenter`, `getRadius`, `setEffectiveCenter` and `setRadius` (mapper/actions/set_node_space_action.js:17-23) read and write the node's effective centre and radius;
  - `getSelfAndAllDescendants` (mapper/actions/node_cleanup_action.js:24) is `Worlds.SelfAndDescendants`;
  - `getAllDescendants` (mapper/selection.js:34,45) is given to `Selections` as the `descendants` of a `NodeView`.
- Contexts.Context.PerformAction and Contexts.Context.PushUndo: `performAction` and `pushUndo` have no body in the modelled files. Their rows cite call sites. The meaning the model gives them is that `performAction` runs the action's `perform()`, answers its undo, and pushes that undo only when the second argument is true; `pushUndo` puts the action on top of the undo stack. Four call sites omit the second argument: mapper/actions/merge_action.js:32, mapper/brushes/add_brush.js:68, mapper/brushes/area_brush.js:183 and mapper/brushes/delete_brush.js:59. The model reads an omitted argument as `false`, so those undos are not pushed by `performAction`.
- Worlds.RemoveNodes: invalidates only the listed nodes, never their descendants or their edges. This matches the backend as written, where no trigger fires (`Store.TypelessNodesDoNotCascade`). With the type bound, the backend would also invalidate the subtree and the incident edges (`Store.RemoveSpec`), and unremoval would not bring them back (`Store.UnremoveDoesNotCascade`); that cascade is not modelled at the action layer.
- ActionLaws.Restores: for `RemoveAction`, the restoration rests on `Worlds.RemoveNodes` invalidating only the listed nodes. Under the corrected backend, undoing the removal of a node with descendants or edges would not restore them (only leaves without edges restore, `Store.RemoveUnremoveLeaf`).
- DeleteBrushes.DeleteBrush.Trigger: "nothing else changes" holds for the action-layer removal above; with the type bound, the backend would also invalidate the targets' descendants and edges.
- The tile size is a parameter.
- AreaBrushes.AreaBrush.constructor: registers no hooks. As written it calls `this.hooks.add` (mapper/brushes/area_brush.js:44,48), but `Brush` never creates `this.hooks` (mapper/brushes/brush.js:2-8) and no modelled file assigns it. The model assumes the container comes from outside the modelled files. It leaves out the two registrations: a zoom change resets the brush, and "update" requests a redraw.
- Actions.MergePerform and Contexts.Context.PerformMerge: skip the target by position, as the first of the valid refs. The source skips it by object identity (`other !== target`, mapper/actions/merge_action.js:28). The two agree when the refs are distinct objects, even with equal ids. If the same ref object is listed twice, the source skips every occurrence of it, while the model merges the later occurrence into the target.
- Registries.Registry.Register and Registries.Registry.Values: the key order is first insertion, which is the order of a `for … in` loop only for ids that are not array indices. JavaScript visits integer-like keys such as "3" first, in ascending numeric order. Every built-in layer and type id is a non-index string.
- SqlJs.SqlJsMapBackend.constructor: marks the backend loaded but does not call the "loaded" hook (mapper/backend/sql_js_backend.js:125). The backend's `hooks` container is created outside the modelled files, and no listener of it is modelled.
- Paths.Path.MapOrigin: returns a path with an equal list of lines. The source shares the very `lines` array between the two paths (mapper/geometry.js:252), so a line pushed to one later shows in the other. That aliasing is not modelled, since the model's lines are a value.
- Paths.Path.WithBisectedLines: requires a positive radius. For a radius of zero or less, every line's length is at least the radius, so `addBisectedLine` (mapper/geometry.js:273-278) recurses forever. The source has no guard. Its callers pass the brush radius or half of it, which is positive.
- The undo and redo stacks are modelled only as far as the modelled code uses them: `pushUndo` and `performAction`'s `addToUndoStack` (`Contexts.Context`). Redo is not modelled.
- The context's key state, drawn nodes, canvas mapping, hover selection and node views are not modelled as objects. They are passed in as values: `DeleteBrushes.Surroundings`, `removing` for Shift on the area brush, and the hover origins of a drag. Key state is taken as constant during one `trigger`.
- Brushes receive the context as a method parameter instead of holding it in a field.
- `AreaBrush.reset` also strips tile actions from the undo stack (mapper/brushes/area_brush.js:63-64). This is not modelled; `AreaBrushes.AreaBrush.Reset` states only the push.
- `DragEvent.cancel` does nothing (mapper/drag_events/drag_event.js:20), so it has no member.
- `Selection.fromNodeRefs` is modelled on ids, as `Selections.FromNodeIds`.
- `DeleteBrushes.NodesInBrush`: states which drawn nodes are under the brush, not the order they are listed in. `DeleteBrushes.DeleteBrush.GetNodesInBrush` is proved equal to this function, and its loop keeps the order.
- mapper/backend.js holds only empty class stubs and has no member.
- The test files are read as evidence of intended behaviour; they are not modelled.

## Findings

| source | as written | input that shows it | evidently intended | confidence | as-written member | corrected member |
|---|---|---|---|---|---|---|
| mapper/backend/sql_js_backend.js:129 | `{type: type}` binds no parameter without `$`, so every entity's type is NULL | remove a node that has a child: the type trigger never fires, and the child stays valid | the entity's type is stored, so removal cascades down the tree | high, not executed | Store.TypelessNodesDoNotCascade | Store.TypedNodesCascade |
| mapper/backend/sql_js_backend.js:118 | the first connection row binds `nodeId` without `$`, so its node id is NULL | `createEdge(a, b)` on two nodes: the edge names only b | the edge names both a and b | high, not executed | Store.CreateEdgeAsWrittenLosesA | Store.CreateEdgeSpec |
| mapper/backend/sql_js_backend.js:133-139 | `get` of a prepared statement is compared with `undefined`, which it never returns | `entityExists` of an id no entity has answers true | true exactly when the row exists (and, for `entityValid`, is valid) | medium, not executed | Store.EntityChecks | SqlJs.SqlJsMapBackend.EntityExists |
| mapper/backend/backend.js:21-24 | `getPPoint` calls `Point.fromJSON`, which `Point` does not define | `setPPoint(e, "p", (1, 2, 3))` then `getPPoint(e, "p")` throws a TypeError | the stored x, y, z are read back | high, not executed | Store.GetPointAsWrittenThrows | Store.PointPropertyRoundTrip |
| mapper/actions/node_cleanup_action.js:25 | `await nodeRef.getType().id` reads `id` of a promise, which is undefined | two overlapping childless children of type "water": neither is removed | the node's type id is compared, so the first of them is removed | high, not executed | Cleanup.CleanupAsWrittenMarksNothing | Cleanup.CleanupMarksExample |
| mapper/brushes/delete_brush.js:32 | `asyncFrom` and `Selection` are not imported | a delete stroke with Control down, over a drawn node, throws and removes nothing | Control removes the drawn nodes under the brush, Shift the hovered parents | high, not executed | DeleteBrushes.ControlAsWrittenThrows | DeleteBrushes.DeleteBrush.TriggerAtPosition |
| mapper/brushes/add_brush.js:59-66 | the options of the `DrawPathAction` carry no `scrollOffset` | any add stroke with a type: `origin.add(undefined)` throws, and nothing is drawn | the path is drawn at the context's scroll offset | high, not executed | AddBrushes.TriggerAsWrittenDrawsNothing | AddBrushes.AddBrush.Trigger |
| mapper/drag_events/translate_event.js:32-36 | `end` calls `this.next(endPoint)` without `await`, so `getUndoAction` drains the list before the last step's undos are pushed | a drag of one step on one node: the pushed undo is an empty bulk, and undoing the drag leaves the node moved | the pushed undo restores the map of before the drag | high, not executed | DragEvents.EndAsWrittenLeavesMoved | DragEvents.TranslateEvent.End |
| mapper/actions/merge_action.js:36 | the cleanup appended to the merge's undo is given no `type` | merge two valid nodes of one type, then undo: the cleanup reads `this.options.type.id` of undefined and throws | the cleanup is given the target's type, so undoing cleans up the target's subtree | medium, not executed | MergeLaws.MergeUndoRaises | MergeLaws.MergeUndoTyped |
| mapper/drag_events/draw_event.js:45 | the brush's `trigger` is handed the draw event alone | an add stroke reads `mouseDragEvent.done` of undefined; a delete stroke calls `vertices()` on the event; both throw | each brush gets the path (and the add brush `done`) it reads | high, not executed | Drawing.TriggerAsWrittenThrows | Drawing.DrawEvent.Trigger |

=== FILE: action_laws.dfy ===
/** What the actions promise (mapper/actions/action.js:1-3): performing an action and then
    the action it answers gives back the map, for the pairs whose inverse is exact; and the
    laws of `empty`, `allMatchesFilter` and the undo of an undo. */
module ActionLaws {
  import opened Wrappers
  import opened Geometry
  import opened Worlds
  import opened Actions

  /** The map is such that the undo `a` answers gives it back exactly: an unremove of nodes
      that are all removed, an edge removal of valid edges (and the reverse), a rename of a
      node that had a name, a reparenting of a node whose parent is none or valid, a typed
      cleanup, tiles added that were not marked (and the reverse); and a bulk action whose
      sub-actions are so, each on the map the earlier ones leave. A merge is not: its undo
      ends with a cleanup of the target, which may remove further nodes. A drawn path is not: its nodes stay, removed. */
  ghost predicate Reversible(w: World, a: Action)
    requires Performable(w.nodes.Keys, a)
    decreases a
  {
    match a
    case Bulk(xs) => ReversibleList(w, xs)
    case Remove(_) => true
    case Unremove(ids) => forall id :: id in ids ==> id in w.nodes && !w.nodes[id].valid
    case RemoveEdge(ids) => forall id :: id in ids ==> id in w.edges && w.edges[id]
    case UnremoveEdge(ids) => forall id :: id in ids ==> id in w.edges && !w.edges[id]
    case ChangeName(id, _) => w.nodes[id].name.Some?
    case Translate(_, _) => true
    case SetNodeSpace(_, _, _, _) => true
    case ChangeParent(id, _) => w.nodes[id].parent.None? || IsValid(w, w.nodes[id].parent.value)
    case NodeCleanup(_, t) => t.Some?
    case AreaBrushAdd(ts) => forall t :: t in ts ==> t !in w.tiles
    case AreaBrushDelete(ts) => forall t :: t in ts ==> t in w.tiles
    case Merge(_) => false
    case DrawPath(_, _, _, _, _, _) => false
  }

  ghost predicate ReversibleList(w: World, xs: seq<Action>)
    requires forall i :: 0 <= i < |xs| ==> Performable(w.nodes.Keys, xs[i])
    decreases xs
  {
    xs == [] ||
      (Reversible(w, xs[0]) &&
        var o := Perform(w, xs[0]);
        PerformableGrowsAll(w.nodes.Keys, o.world.nodes.Keys, xs[1..]);
        ReversibleList(o.world, xs[1..]))
  }

  /** Performing `x + y` is performing `x` and, unless it threw, `y` on the map it left. */
  lemma {:induction false} PerformListAppend(w: World, x: seq<Action>, y: seq<Action>)
    requires forall i :: 0 <= i < |x + y| ==> Performable(w.nodes.Keys, (x + y)[i])
    ensures forall i :: 0 <= i < |x| ==> Performable(w.nodes.Keys, x[i])
    ensures var rx := PerformList(w, x);
      && (rx.threw ==> PerformList(w, x + y).world == rx.world && PerformList(w, x + y).threw)
      && (!rx.threw ==>
            && (forall i :: 0 <= i < |y| ==> Performable(rx.world.nodes.Keys, y[i]))
            && PerformList(w, x + y).world == PerformList(rx.world, y).world
            && PerformList(w, x + y).threw == PerformList(rx.world, y).threw)
    decreases x
  {
    assert forall i :: 0 <= i < |x| ==> x[i] == (x + y)[i];
    assert forall i :: 0 <= i < |y| ==> y[i] == (x + y)[|x| + i];
    var rx := PerformList(w, x);
    if x == [] {
      assert x + y == y;
    } else {
      var o := Perform(w, x[0]);
      assert (x + y)[0] == x[0] && (x + y)[1..] == x[1..] + y;
      if o.undo.Some? {
        PerformableGrowsAll(w.nodes.Keys, o.world.nodes.Keys, (x + y)[1..]);
        PerformListAppend(o.world, x[1..], y);
      }
    }
    if !rx.threw {
      PerformableGrowsAll(w.nodes.Keys, rx.world.nodes.Keys, y);
    }
  }

  /** The central promise of an action, for the reversible ones: its undo can be performed
      on the map it leaves, does not throw, and gives back the map it started from. */
  lemma {:induction false} Restores(w: World, a: Action)
    requires Performable(w.nodes.Keys, a) && Reversible(w, a)
    ensures var o := Perform(w, a);
      && o.undo.Some?
      && Performable(o.world.nodes.Keys, o.undo.value)
      && Perform(o.world, o.undo.value).world == w
      && Perform(o.world, o.undo.value).undo.Some?
    decreases a
  {
    match a
    case Bulk(xs) =>
      RestoresList(w, xs);
    case Remove(ids) =>
      RemoveUnremoveNodes(w, ids);
    case Unremove(ids) =>
      UnremoveRemoveNodes(w, ids);
    case RemoveEdge(ids) =>
      EdgesRoundTrip(w, ids);
    case UnremoveEdge(ids) =>
      EdgesRoundTrip(w, ids);
    case ChangeName(id, name) =>
      var o := Perform(w, a);
      assert Perform(o.world, o.undo.value).world.nodes == w.nodes;
    case Translate(id, offset) =>
      var o := Perform(w, a);
      assert Perform(o.world, o.undo.value).world.nodes == w.nodes;
    case SetNodeSpace(id, c, e, r) =>
      var o := Perform(w, a);
      assert Perform(o.world, o.undo.value).world.nodes == w.nodes;
    case ChangeParent(id, p) =>
      var o := Perform(w, a);
      assert Perform(o.world, o.undo.value).world.nodes == w.nodes;
    case NodeCleanup(root, t) =>
      RemoveUnremoveNodes(w, Cleanup.CleanupMarks(w, root, t.value));
    case AreaBrushAdd(ts) =>
      var o := Perform(w, a);
      assert Perform(o.world, o.undo.value).world.tiles == w.tiles;
    case AreaBrushDelete(ts) =>
      var o := Perform(w, a);
      assert Perform(o.world, o.undo.value).world.tiles == w.tiles;
  }

  /** `BulkAction` keeps the promise when each of its sub-actions does: the undos, performed
      in reverse order, undo the last sub-action first. */
  lemma {:induction false} RestoresList(w: World, xs: seq<Action>)
    requires forall i :: 0 <= i < |xs| ==> Performable(w.nodes.Keys, xs[i])
    requires ReversibleList(w, xs)
    ensures var r := PerformList(w, xs);
      && !r.threw
      && (forall i :: 0 <= i < |r.undos| ==> Performable(r.world.nodes.Keys, Reversed(r.undos)[i]))
      && PerformList(r.world, Reversed(r.undos)).world == w
      && !PerformList(r.world, Reversed(r.undos)).threw
    decreases xs
  {
    if xs != [] {
      var o := Perform(w, xs[0]);
      Restores(w, xs[0]);
      var u := o.undo.value;
      PerformableGrowsAll(w.nodes.Keys, o.world.nodes.Keys, xs[1..]);
      var r' := PerformList(o.world, xs[1..]);
      RestoresList(o.world, xs[1..]);
      var r := PerformList(w, xs);
      assert r.undos == [u] + r'.undos;
      assert Reversed(r.undos) == Reversed(r'.undos) + [u] by {
        assert ([u] + r'.undos)[1..] == r'.undos;
      }
      PerformableGrows(o.world.nodes.Keys, r.world.nodes.Keys, u);
      PerformListAppend(r.world, Reversed(r'.undos), [u]);
      var back := Perform(o.world, u);
      assert PerformList(o.world, [u]) == Run(back.world, [back.undo.value], back.hooks, false);
    }
  }

  /** The undo of the undo is the action itself, for the actions whose undo keeps their own
      refs and values (a reparenting: when the new parent is none or valid). */
  lemma UndoOfUndo(w: World, a: Action)
    requires Performable(w.nodes.Keys, a)
    requires a.Unremove? ==>
      && (forall id :: id in a.nodeRefs ==> id in w.nodes)
      && (forall i, j :: 0 <= i < j < |a.nodeRefs| ==> a.nodeRefs[i] != a.nodeRefs[j])
    requires a.Unremove? || a.RemoveEdge? || a.UnremoveEdge? || a.ChangeName? || a.Translate?
      || a.SetNodeSpace? || a.AreaBrushAdd? || a.AreaBrushDelete?
      || (a.ChangeParent? && (a.parent.None? || IsValid(w, a.parent.value)))
    ensures var o := Perform(w, a);
      && o.undo.Some?
      && Performable(o.world.nodes.Keys, o.undo.value)
      && Perform(o.world, o.undo.value).undo == Some(a)
  {
    var o := Perform(w, a);
    match a
    case Translate(id, offset) =>
      assert offset.MultiplyScalar(-1.0).MultiplyScalar(-1.0) == offset;
    case ChangeParent(id, p) =>
      if p.Some? {
        assert IsValid(o.world, p.value);
      }
      assert GetParent(o.world, id) == p;
    case ChangeName(id, name) =>
      assert OldName(o.world, id) == name;
    case SetNodeSpace(id, c, e, r) =>
      assert o.world.nodes[id].center == c;
    case Unremove(ids) =>
      ValidListedAll(o.world, ids);
    case _ =>
  }

  /** The undo of an unremove, of an edge (un)removal or of a tile action is empty exactly
      when the action is; the undo of a removal is empty exactly when none of the listed
      nodes was valid, so always when the removal is empty. */
  lemma UndoEmpty(w: World, a: Action)
    requires a.Unremove? ==>
      && (forall id :: id in a.nodeRefs ==> id in w.nodes)
      && (forall i, j :: 0 <= i < j < |a.nodeRefs| ==> a.nodeRefs[i] != a.nodeRefs[j])
    requires a.Unremove? || a.RemoveEdge? || a.UnremoveEdge? || a.AreaBrushAdd? || a.AreaBrushDelete? || a.Remove?
    ensures var o := Perform(w, a);
      && o.undo.Some?
      && (!a.Remove? ==> (Empty(o.undo.value) <==> Empty(a)))
      && (a.Remove? ==> (Empty(o.undo.value) <==> forall id :: id in a.nodeRefs ==> !IsValid(w, id)))
      && (a.Remove? && Empty(a) ==> Empty(o.undo.value))
  {
    if a.Remove? {
      var affected := RemoveNodes(w, a.nodeRefs).1;
      if affected != [] {
        assert affected[0] in affected;
      }
    }
  }

  /** An empty action changes nothing on the map and answers an empty undo. */
  lemma {:induction false} EmptyChangesNothing(w: World, a: Action)
    requires Performable(w.nodes.Keys, a) && Empty(a)
    ensures var o := Perform(w, a);
      o.world == w && o.undo.Some? && Empty(o.undo.value)
    decreases a
  {
    match a
    case Bulk(xs) =>
      EmptyListChangesNothing(w, xs);
    case Remove(ids) =>
      assert RemoveNodes(w, ids).0.nodes == w.nodes;
    case Unremove(ids) =>
      assert UnremoveNodes(w, ids).nodes == w.nodes;
    case RemoveEdge(ids) =>
      assert RemoveEdges(w, ids).edges == w.edges;
    case UnremoveEdge(ids) =>
      assert UnremoveEdges(w, ids).edges == w.edges;
    case AreaBrushAdd(ts) =>
      assert MarkTiles(w, ts).tiles == w.tiles;
    case AreaBrushDelete(ts) =>
      assert UnmarkTiles(w, ts).tiles == w.tiles;
  }

  lemma {:induction false} EmptyListChangesNothing(w: World, xs: seq<Action>)
    requires forall i :: 0 <= i < |xs| ==> Performable(w.nodes.Keys, xs[i]) && Empty(xs[i])
    ensures var r := PerformList(w, xs);
      r.world == w && !r.threw && forall i :: 0 <= i < |r.undos| ==> Empty(r.undos[i])
    decreases xs
  {
    if xs != [] {
      EmptyChangesNothing(w, xs[0]);
      EmptyListChangesNothing(w, xs[1..]);
    }
  }

  /** The actions that throw when performed: a cleanup without a type, and a bulk action
      holding one. */
  predicate Raises(a: Action)
  {
    match a
    case Bulk(xs) => exists i :: 0 <= i < |xs| && Raises(xs[i])
    case NodeCleanup(_, t) => t.None?
    case _ => false
  }

  /** Performing an action throws exactly when it holds an untyped cleanup. */
  lemma {:induction false} ThrowsIffRaises(w: World, a: Action)
    requires Performable(w.nodes.Keys, a)
    ensures Perform(w, a).undo.None? <==> Raises(a)
    decreases a
  {
    if a.Bulk? {
      ListThrowsIffRaises(w, a.actions);
    }
  }

  lemma {:induction false} ListThrowsIffRaises(w: World, xs: seq<Action>)
    requires forall i :: 0 <= i < |xs| ==> Performable(w.nodes.Keys, xs[i])
    ensures PerformList(w, xs).threw <==> exists i :: 0 <= i < |xs| && Raises(xs[i])
    decreases xs
  {
    if xs != [] {
      ThrowsIffRaises(w, xs[0]);
      var o := Perform(w, xs[0]);
      if o.undo.Some? {
        PerformableGrowsAll(w.nodes.Keys, o.world.nodes.Keys, xs[1..]);
        ListThrowsIffRaises(o.world, xs[1..]);
        if exists i :: 0 <= i < |xs| && Raises(xs[i]) {
          var i :| 0 <= i < |xs| && Raises(xs[i]);
          assert xs[1..][i - 1] == xs[i];
        }
        if exists i :: 0 <= i < |xs[1..]| && Raises(xs[1..][i]) {
          var i :| 0 <= i < |xs[1..]| && Raises(xs[1..][i]);
          assert xs[i + 1] == xs[1..][i];
        }
      }
    }
  }

  /** `allMatchesFilter(f)` holds exactly when `f` holds of every action the bulk action
      performs in the end; nested bulk actions are never given to `f`. */
  lemma {:induction false} AllMatchesFilterMeaning(xs: seq<Action>, f: Action -> bool)
    ensures AllMatchesFilter(xs, f) <==> forall l :: l in Leaves(xs) ==> f(l)
  {
    if xs != [] {
      AllMatchesFilterMeaning(xs[1..], f);
      if xs[0].Bulk? {
        AllMatchesFilterMeaning(xs[0].actions, f);
      }
    }
  }
}

=== FILE: actions.dfy ===
/** The actions of mapper/actions/, and the two tile actions of mapper/brushes/area_brush.js,
    as values: what performing one does to the map, the hooks it calls and the action it
    answers, which undoes it. */
module Actions {
  import opened Wrappers
  import opened Geometry
  import opened Worlds
  import Paths
  import Sorting
  import Cleanup

  datatype Action =
    | Bulk(actions: seq<Action>)
    | Remove(nodeRefs: seq<Id>)
    | Unremove(nodeRefs: seq<Id>)
    | RemoveEdge(edgeRefs: seq<Id>)
    | UnremoveEdge(edgeRefs: seq<Id>)
    | ChangeName(nodeRef: Id, name: string)
    | Translate(nodeRef: Id, offset: Vector3)
    | SetNodeSpace(nodeRef: Id, center: Vector3, effectiveCenter: Vector3, radius: real)
    | ChangeParent(nodeRef: Id, parent: Option<Id>)
    | Merge(nodeRefs: seq<Id>)
    /** `typeId` is the id of the `type` option, none when the option is missing. */
    | NodeCleanup(nodeRef: Id, typeId: Option<string>)
    | DrawPath(path: Paths.PathData, radius: real, nodeType: string, parent: Option<Id>,
               fullCalculation: bool, scrollOffset: Vector3)
    | AreaBrushAdd(toAdd: seq<TileKey>)
    | AreaBrushDelete(toRemove: seq<TileKey>)

  /** A call of a hook: "updateNode" of the mapper with a node (or null), or "update" of the
      area brush. */
  datatype Hook = UpdateNode(node: Option<Id>) | BrushUpdate

  /** What performing an action leads to: the map, the undo action it answers (none when a
      `TypeError` escaped it), and the hooks it called. */
  datatype Outcome = Outcome(world: World, undo: Option<Action>, hooks: seq<Hook>)

  /** Performing a list of actions one after the other: the map, the undo actions in the
      order they were answered, the hooks, and whether one of them threw. */
  datatype Run = Run(world: World, undos: seq<Action>, hooks: seq<Hook>, threw: bool)

  /** The base `Action.empty()`. */
  function BaseEmpty(): (r: bool)
    ensures !r
  {
    false
  }

  /** The base `Action.perform()`: the map as it was, and `undefined` for the undo. */
  function BasePerform(w: World): (r: (World, Option<Action>))
    ensures r.0 == w && r.1.None?
  {
    (w, None)
  }

  /** `empty()`: a bulk action of empty actions, or a list action with an empty list; the
      actions without an `empty()` of their own answer the base `false`. */
  predicate Empty(a: Action)
  {
    match a
    case Bulk(xs) => forall i :: 0 <= i < |xs| ==> Empty(xs[i])
    case Remove(ids) => |ids| == 0
    case Unremove(ids) => |ids| == 0
    case RemoveEdge(ids) => |ids| == 0
    case UnremoveEdge(ids) => |ids| == 0
    case AreaBrushAdd(ts) => |ts| == 0
    case AreaBrushDelete(ts) => |ts| == 0
    case _ => false
  }

  /** `BulkAction.allMatchesFilter(f)` on the list of sub-actions: nested bulk actions are
      searched, every other action is given to `f`. */
  function AllMatchesFilter(xs: seq<Action>, f: Action -> bool): bool
  {
    xs == [] || ((if xs[0].Bulk? then AllMatchesFilter(xs[0].actions, f) else f(xs[0])) && AllMatchesFilter(xs[1..], f))
  }

  /** The actions a bulk action performs in the end: the nested bulk actions flattened. */
  function Leaves(xs: seq<Action>): (r: seq<Action>)
    ensures forall l :: l in r ==> !l.Bulk?
  {
    if xs == [] then []
    else (if xs[0].Bulk? then Leaves(xs[0].actions) else [xs[0]]) + Leaves(xs[1..])
  }

  /** An action can be performed on a map whose nodes are `keys`: the nodes it reads and
      writes exist (a node ref is made from an id the store handed out, and entities are
      never deleted), and a path it draws either has no lines or a positive radius to bisect
      them with. */
  predicate Performable(keys: set<Id>, a: Action)
  {
    match a
    case Bulk(xs) => forall i :: 0 <= i < |xs| ==> Performable(keys, xs[i])
    case ChangeName(id, _) => id in keys
    case Translate(id, _) => id in keys
    case SetNodeSpace(id, _, _, _) => id in keys
    case ChangeParent(id, p) => id in keys && (p.Some? ==> p.value in keys)
    case DrawPath(path, radius, _, parent, _, _) =>
      (radius > 0.0 || path.lines == []) && (parent.Some? ==> parent.value in keys)
    case _ => true
  }

  lemma {:induction false} PerformableGrows(keys: set<Id>, keys': set<Id>, a: Action)
    requires keys <= keys' && Performable(keys, a)
    ensures Performable(keys', a)
  {
    if a.Bulk? {
      forall i | 0 <= i < |a.actions| ensures Performable(keys', a.actions[i]) {
        PerformableGrows(keys, keys', a.actions[i]);
      }
    }
  }

  lemma PerformableGrowsAll(keys: set<Id>, keys': set<Id>, xs: seq<Action>)
    requires keys <= keys' && forall i :: 0 <= i < |xs| ==> Performable(keys, xs[i])
    ensures forall i :: 0 <= i < |xs| ==> Performable(keys', xs[i])
  {
    forall i | 0 <= i < |xs| ensures Performable(keys', xs[i]) {
      PerformableGrows(keys, keys', xs[i]);
    }
  }

  function Reversed<T>(s: seq<T>): (r: seq<T>)
    ensures |r| == |s| && forall i :: 0 <= i < |s| ==> r[i] == s[|s| - 1 - i]
  {
    if s == [] then [] else Reversed(s[1..]) + [s[0]]
  }

  /** `perform()` of every action. */
  function Perform(w: World, a: Action): (o: Outcome)
    requires Performable(w.nodes.Keys, a)
    ensures w.nodes.Keys <= o.world.nodes.Keys
    decreases a
  {
    match a
    case Bulk(xs) =>
      var r := PerformList(w, xs);
      if r.threw then Outcome(r.world, None, r.hooks) else Outcome(r.world, Some(Bulk(Reversed(r.undos))), r.hooks)
    case Remove(ids) => RemovePerform(w, ids)
    case Unremove(ids) => Outcome(UnremoveNodes(w, ids), Some(Remove(ids)), [])
    case RemoveEdge(ids) => Outcome(RemoveEdges(w, ids), Some(UnremoveEdge(ids)), [])
    case UnremoveEdge(ids) => Outcome(UnremoveEdges(w, ids), Some(RemoveEdge(ids)), [])
    case ChangeName(id, name) => ChangeNamePerform(w, id, name)
    case Translate(id, offset) => Outcome(TranslateNode(w, id, offset), Some(Translate(id, offset.MultiplyScalar(-1.0))), [])
    case SetNodeSpace(id, c, e, r) => SetNodeSpacePerform(w, id, c, e, r)
    case ChangeParent(id, p) => ChangeParentPerform(w, id, p)
    case Merge(ids) => MergePerform(w, ids)
    case NodeCleanup(id, t) => NodeCleanupPerform(w, id, t)
    case DrawPath(_, _, _, _, _, _) => DrawPathPerform(w, a)
    case AreaBrushAdd(ts) => Outcome(MarkTiles(w, ts), Some(AreaBrushDelete(ts)), [BrushUpdate])
    case AreaBrushDelete(ts) => Outcome(UnmarkTiles(w, ts), Some(AreaBrushAdd(ts)), [BrushUpdate])
  }

  /** `BulkAction.perform`: the sub-actions in order, each through `performAction(action,
      false)`; an exception ends the run. */
  function PerformList(w: World, xs: seq<Action>): (r: Run)
    requires forall i :: 0 <= i < |xs| ==> Performable(w.nodes.Keys, xs[i])
    ensures w.nodes.Keys <= r.world.nodes.Keys
    decreases xs
  {
    if xs == [] then Run(w, [], [], false)
    else
      var o := Perform(w, xs[0]);
      if o.undo.None? then Run(o.world, [], o.hooks, true)
      else
        PerformableGrowsAll(w.nodes.Keys, o.world.nodes.Keys, xs[1..]);
        var r := PerformList(o.world, xs[1..]);
        Run(r.world, [o.undo.value] + r.undos, o.hooks + r.hooks, r.threw)
  }

  /** `RemoveAction.perform`: the undo unremoves the nodes the mapper reports as removed. */
  function RemovePerform(w: World, ids: seq<Id>): Outcome
  {
    var (w', affected) := RemoveNodes(w, ids);
    Outcome(w', Some(Unremove(affected)), [])
  }

  /** The node's "name" as `getPString("name") || ""` reads it. */
  function OldName(w: World, id: Id): (r: string)
    requires id in w.nodes
    ensures w.nodes[id].name.Some? ==> r == w.nodes[id].name.value
    ensures w.nodes[id].name.None? ==> r == ""
  {
    if w.nodes[id].name.Some? then w.nodes[id].name.value else ""
  }

  function ChangeNamePerform(w: World, id: Id, name: string): Outcome
    requires id in w.nodes
  {
    var oldName := OldName(w, id);
    Outcome(w.(nodes := w.nodes[id := w.nodes[id].(name := Some(name))]),
            Some(ChangeName(id, oldName)), [UpdateNode(Some(id))])
  }

  function SetNodeSpacePerform(w: World, id: Id, center: Vector3, effectiveCenter: Vector3, radius: real): Outcome
    requires id in w.nodes
  {
    var n := w.nodes[id];
    var undo := SetNodeSpace(id, n.center, n.effectiveCenter, n.radius);
    Outcome(w.(nodes := w.nodes[id := n.(center := center, effectiveCenter := effectiveCenter, radius := radius)]),
            Some(undo), [UpdateNode(Some(id))])
  }

  /** `ChangeParentAction.perform`: the undo restores the parent `getParent` answered, which
      is none when the parent is not valid. */
  function ChangeParentPerform(w: World, id: Id, parent: Option<Id>): (o: Outcome)
    requires id in w.nodes
    ensures o.world.nodes.Keys == w.nodes.Keys && o.world.nextId == w.nextId
    ensures o.undo.Some?
  {
    Outcome(w.(nodes := w.nodes[id := w.nodes[id].(parent := parent)]),
            Some(ChangeParent(id, GetParent(w, id))), [UpdateNode(parent)])
  }

  function MarkTiles(w: World, ts: seq<TileKey>): World
  {
    w.(tiles := w.tiles + (set t | t in ts))
  }

  function UnmarkTiles(w: World, ts: seq<TileKey>): World
  {
    w.(tiles := w.tiles - (set t | t in ts))
  }

  // Merging

  /** `getNodeRefs`: the valid refs, in the order given. */
  function ValidRefs(w: World, refs: seq<Id>): (r: seq<Id>)
    ensures forall x :: x in r <==> x in refs && IsValid(w, x)
    ensures |r| <= |refs|
  {
    if refs == [] then []
    else (if IsValid(w, refs[0]) then [refs[0]] else []) + ValidRefs(w, refs[1..])
  }

  /** The type ids of the valid refs, the set `possible` fills. */
  function TypeIds(w: World, refs: seq<Id>): set<string>
  {
    set x | x in ValidRefs(w, refs) :: w.nodes[x].typeId
  }

  /** `possible`: the valid refs have exactly one type among them. */
  predicate Possible(w: World, refs: seq<Id>)
  {
    |TypeIds(w, refs)| == 1
  }

  /** The state of a loop that performs actions and collects their undo actions. */
  datatype Progress = Progress(world: World, undos: seq<Action>, hooks: seq<Hook>)

  /** A loop over the first `k` elements of `s` takes one more turn. */
  lemma PrefixLast<T>(s: seq<T>, k: nat)
    requires k < |s|
    ensures var t := s[..k + 1]; t != [] && t[..|t| - 1] == s[..k] && t[|t| - 1] == s[k]
  {
  }

  lemma PrefixAll<T>(s: seq<T>)
    ensures s[..|s|] == s
  {
  }

  /** The members of a non-empty list: those of its first part and its last one. */
  lemma InitMembers<T>(s: seq<T>)
    requires s != []
    ensures s[|s| - 1] in s
    ensures forall x :: x in s <==> x in s[..|s| - 1] || x == s[|s| - 1]
  {
    assert s == s[..|s| - 1] + [s[|s| - 1]];
  }

  /** The children in `done` set, one after another, to have `target` as parent. */
  function Reparented(w: World, done: seq<Id>, target: Id): (p: Progress)
    requires target in w.nodes
    requires forall c :: c in done ==> c in w.nodes
    ensures p.world.nodes.Keys == w.nodes.Keys && p.world.nextId == w.nextId
    ensures p.world.edges == w.edges && p.world.tiles == w.tiles
    ensures |p.undos| == |done|
  {
    if done == [] then Progress(w, [], [])
    else
      var p := Reparented(w, done[..|done| - 1], target);
      var o := ChangeParentPerform(p.world, done[|done| - 1], Some(target));
      Progress(o.world, p.undos + [o.undo.value], p.hooks + o.hooks)
  }

  /** One turn of the merge: the children of `other` moved to `target`, then `other`
      removed. */
  function MergeStep(w: World, other: Id, target: Id): (s: Progress)
    requires target in w.nodes
    ensures s.world.nodes.Keys == w.nodes.Keys && s.world.nextId == w.nextId
    ensures s.world.edges == w.edges && s.world.tiles == w.tiles
  {
    var children := Children(w, other);
    var q := Reparented(w, children, target);
    var (w', affected) := RemoveNodes(q.world, [other]);
    Progress(w', q.undos + [Unremove(affected)], q.hooks)
  }

  /** The other nodes in `done` merged into `target`, one after another. */
  function MergedInto(w: World, done: seq<Id>, target: Id): (p: Progress)
    requires target in w.nodes
    ensures p.world.nodes.Keys == w.nodes.Keys && p.world.nextId == w.nextId
    ensures p.world.edges == w.edges && p.world.tiles == w.tiles
  {
    if done == [] then Progress(w, [], [])
    else
      var p := MergedInto(w, done[..|done| - 1], target);
      var s := MergeStep(p.world, done[|done| - 1], target);
      Progress(s.world, p.undos + s.undos, p.hooks + s.hooks)
  }

  /** `MergeAction.perform`: when the valid refs share one type, the first valid ref is the
      target and every later one is merged into it; the undo ends with a cleanup of the
      target of the target's type. Otherwise nothing happens. As written the cleanup is
      given no type (see `MergeUndoAsWritten`). */
  function MergePerform(w: World, refs: seq<Id>): (o: Outcome)
    ensures o.world.nodes.Keys == w.nodes.Keys
  {
    var valid := ValidRefs(w, refs);
    if !Possible(w, refs) then Outcome(w, Some(Bulk([])), [])
    else
      var target := valid[0];
      assert target in valid;
      var p := MergedInto(w, valid[1..], target);
      Outcome(p.world, Some(Bulk(p.undos + [NodeCleanup(target, Some(w.nodes[target].typeId))])), p.hooks)
  }

  /** The undo `MergeAction.perform` answers as written: its cleanup of the target is given
      no type. */
  function MergeUndoAsWritten(w: World, refs: seq<Id>): Action
  {
    var valid := ValidRefs(w, refs);
    if !Possible(w, refs) then Bulk([])
    else
      var target := valid[0];
      assert target in valid;
      Bulk(MergedInto(w, valid[1..], target).undos + [NodeCleanup(target, None)])
  }

  // Node cleanup

  /** `NodeCleanupAction.perform`: the marked nodes removed, answering the undo of that
      removal. Without a type the `type.id` read throws. The nodes considered are those of
      the intended reading of `getAllNodes` (see `Cleanup.AllNodes`). */
  function NodeCleanupPerform(w: World, root: Id, typeId: Option<string>): (o: Outcome)
    ensures o.world.nodes.Keys == w.nodes.Keys
    ensures o.undo.None? <==> typeId.None?
  {
    if typeId.None? then Outcome(w, None, [])
    else RemovePerform(w, Cleanup.CleanupMarks(w, root, typeId.value))
  }

  // Path drawing

  /** The sort key of the vertices: the squared distance from the centre. */
  function DistanceFrom(center: Vector3): Vector3 -> real
  {
    (v: Vector3) => v.Subtract(center).LengthSquared()
  }

  /** A placed vertex lies closer to `v` than `(radius + radius) / 4`. */
  predicate NearPlaced(points: seq<Vector3>, v: Vector3, radius: real)
  {
    exists i :: 0 <= i < |points| && Cleanup.Closer(points[i], v, (radius + radius) / 4.0)
  }

  /** The state of the `placeEachVertex` loop: the map, the nodes placed so far and the
      points of the placed vertices. */
  datatype Placement = Placement(world: World, placed: seq<Id>, points: seq<Vector3>)

  /** One turn of `placeEachVertex`. */
  function PlaceStep(s: Placement, v: Vector3, radius: real, nodeType: string, parent: Id): Placement
  {
    if NearPlaced(s.points, v, radius) then s
    else if radius > 0.0 then
      var (w', id) := InsertNode(s.world, v, nodeType, radius, Some(parent));
      Placement(w', s.placed + [id], s.points + [v])
    else s
  }

  /** The loop after the first `n` vertices. */
  function Placed(s: Placement, vs: seq<Vector3>, n: nat, radius: real, nodeType: string, parent: Id): Placement
    requires n <= |vs|
  {
    if n == 0 then s else PlaceStep(Placed(s, vs, n - 1, radius, nodeType, parent), vs[n - 1], radius, nodeType, parent)
  }

  /** The drawn path on the map, bisected at the radius. */
  function PathOnMap(a: Action): Paths.PathData
    requires a.DrawPath? && (a.radius > 0.0 || a.path.lines == [])
  {
    Paths.Bisected(a.path.(origin := a.path.origin.Add(a.scrollOffset)), a.radius)
  }

  /** The map, parent and placed nodes once the parent is settled: without a parent, a new
      node of radius 0 at the path's centre, which counts as placed. */
  function WithParent(w: World, a: Action, center: Vector3): (s: (Placement, Id))
    requires a.DrawPath? && (a.parent.Some? ==> a.parent.value in w.nodes)
    ensures s.0.world.nodes.Keys >= w.nodes.Keys && s.1 in s.0.world.nodes
  {
    if a.parent.Some? then (Placement(w, [], []), a.parent.value)
    else
      var (w', id) := InsertNode(w, center, a.nodeType, 0.0, None);
      (Placement(w', [id], []), id)
  }

  /** The vertices in the order they are visited: nearest to the centre first. */
  function SortedPathVertices(p: Paths.PathData): seq<Vector3>
  {
    Sorting.SortBy(Paths.Vertices(p), DistanceFrom(Paths.Center(p)))
  }

  /** `DrawPathAction.perform`: the undo removes every placed node; with `fullCalculation`
      the parent is also cleaned up and the undo undoes that cleanup first. */
  function DrawPathPerform(w: World, a: Action): (o: Outcome)
    requires a.DrawPath? && Performable(w.nodes.Keys, a)
    ensures w.nodes.Keys <= o.world.nodes.Keys
  {
    var pathOnMap := PathOnMap(a);
    var (s0, parent) := WithParent(w, a, Paths.Center(pathOnMap));
    var vertices := SortedPathVertices(pathOnMap);
    var s := Placed(s0, vertices, |vertices|, a.radius, a.nodeType, parent);
    PlacedGrows(s0, vertices, |vertices|, a.radius, a.nodeType, parent);
    var undo := Remove(s.placed);
    if a.fullCalculation then
      var c := NodeCleanupPerform(s.world, parent, Some(a.nodeType));
      Outcome(c.world, Some(Bulk([c.undo.value, undo])), c.hooks)
    else
      Outcome(s.world, Some(undo), [])
  }

  /** Placing only adds nodes. */
  lemma {:induction false} PlacedGrows(s: Placement, vs: seq<Vector3>, n: nat, radius: real, nodeType: string, parent: Id)
    requires n <= |vs|
    ensures var t := Placed(s, vs, n, radius, nodeType, parent);
      s.world.nodes.Keys <= t.world.nodes.Keys && s.world.nextId <= t.world.nextId
  {
    if n > 0 {
      PlacedGrows(s, vs, n - 1, radius, nodeType, parent);
    }
  }
}

=== FILE: add_brush.dfy ===
/** `AddBrush` of mapper/brushes/add_brush.js: the node type to draw with, chosen by an index
    that wraps around the types of the registry, and the parent the drawn nodes go under. */
module AddBrushes {
  import opened Wrappers
  import opened Geometry
  import opened Worlds
  import opened Actions
  import Utils
  import Paths
  import Brushes
  import Contexts
  import DragEvents

  /** `wrapIndex` on an index and a number of types: -1 when there are no types, otherwise
      the index taken modulo the number of types. */
  function Wrapped(i: int, len: nat): (r: int)
    ensures len == 0 ==> r == -1
    ensures len > 0 ==> 0 <= r < len && (i - r) % len == 0
  {
    if len == 0 then -1
    else
      Utils.ModUnique(i - i % len, i / len, len, 0);
      Utils.Mod(i, len)
  }

  /** An index already in range is kept. */
  lemma WrappedInRange(i: int, len: nat)
    requires 0 <= i < len
    ensures Wrapped(i, len) == i
  {
    Utils.ModUnique(i, 0, len, i);
  }

  /** A step forward and a step back, each wrapped, lead back to an index in range, and so do
      a step back and a step forward. */
  lemma IncrementDecrement(i: int, len: nat)
    requires 0 <= i < len
    ensures Wrapped(Wrapped(i + 1, len) - 1, len) == i
    ensures Wrapped(Wrapped(i - 1, len) + 1, len) == i
  {
    if i + 1 < len {
      WrappedInRange(i + 1, len);
    } else {
      Utils.ModUnique(i + 1, 1, len, 0);
      Utils.ModUnique(-1, -1, len, i);
    }
    WrappedInRange(i, len);
    if i > 0 {
      WrappedInRange(i - 1, len);
    } else {
      Utils.ModUnique(-1, -1, len, len - 1);
      Utils.ModUnique(len, 1, len, 0);
    }
  }

  /** Indexing the types: the type at the index, or none for an index out of range (`-1`,
      or the initial 1 with fewer than two types). */
  function TypeAt(nodeTypes: seq<string>, i: int): (r: Option<string>)
    ensures r.Some? <==> 0 <= i < |nodeTypes|
    ensures r.Some? ==> r.value == nodeTypes[i]
  {
    if 0 <= i < |nodeTypes| then Some(nodeTypes[i]) else None
  }

  /** After `wrapIndex`, there is a type at the index exactly when there are types. */
  lemma WrappedHasType(nodeTypes: seq<string>, i: int)
    ensures TypeAt(nodeTypes, Wrapped(i, |nodeTypes|)).Some? <==> nodeTypes != []
  {
  }

  /** How many neighbours `draw` lists on each side of the current type: half the types,
      rounded up, and at most 4. */
  function NeighbourRadius(len: nat): (r: nat)
    requires len > 0
    ensures 1 <= r <= 4
    ensures r < 4 ==> len <= 2 * r <= len + 1
  {
    if 4 <= (len + 1) / 2 then 4 else (len + 1) / 2
  }

  /** `activate`'s choice of parent: the selection parent when it has the brush's node type
      (not to be undone), otherwise a new node of radius 0 at the point, to be undone. */
  datatype ParentChoice = Reuse(id: Id) | Insert

  function ChooseParent(w: World, selectionParent: Option<Id>, nodeType: string): (r: ParentChoice)
    requires selectionParent.Some? ==> selectionParent.value in w.nodes
    ensures r.Reuse? <==> selectionParent.Some? && w.nodes[selectionParent.value].typeId == nodeType
    ensures r.Reuse? ==> r.id == selectionParent.value
  {
    if selectionParent.Some? && w.nodes[selectionParent.value].typeId == nodeType then Reuse(selectionParent.value)
    else Insert
  }

  class AddBrush {
    const brush: Brushes.Brush
    /** The ids of the types of the node type registry, in registry order. */
    const nodeTypes: seq<string>
    var nodeTypeIndex: int
    var parentNode: Option<Id>
    /** Whether the parent was inserted by `activate`; none before the first activation. */
    var undoParent: Option<bool>

    ghost predicate Valid()
      reads this, brush
    {
      brush.Valid()
    }

    /** A new add brush starts at index 1, not wrapped: with fewer than two types there is no
        type at it until the index is first stepped. */
    constructor (nodeTypes: seq<string>)
      ensures fresh(brush) && Valid() && brush.size == 1
      ensures this.nodeTypes == nodeTypes && nodeTypeIndex == 1
      ensures parentNode.None? && undoParent.None?
      ensures NodeType() == if |nodeTypes| >= 2 then Some(nodeTypes[1]) else None
    {
      brush := new Brushes.Brush();
      this.nodeTypes := nodeTypes;
      nodeTypeIndex := 1;
      parentNode := None;
      undoParent := None;
    }

    /** `getNodeType`. */
    function NodeType(): (r: Option<string>)
      reads this
      ensures r == TypeAt(nodeTypes, nodeTypeIndex)
    {
      if 0 <= nodeTypeIndex < |nodeTypes| then Some(nodeTypes[nodeTypeIndex]) else None
    }

    method WrapIndex()
      modifies this
      ensures nodeTypeIndex == Wrapped(old(nodeTypeIndex), |nodeTypes|)
      ensures parentNode == old(parentNode) && undoParent == old(undoParent)
    {
      var len := |nodeTypes|;
      nodeTypeIndex := if len == 0 then -1 else Utils.Mod(nodeTypeIndex, len);
    }

    /** `increment`: the next type, wrapping around. */
    method Increment()
      modifies this
      ensures nodeTypeIndex == Wrapped(old(nodeTypeIndex) + 1, |nodeTypes|)
      ensures parentNode == old(parentNode) && undoParent == old(undoParent)
    {
      nodeTypeIndex := nodeTypeIndex + 1;
      WrapIndex();
    }

    /** `decrement`: the previous type, wrapping around. */
    method Decrement()
      modifies this
      ensures nodeTypeIndex == Wrapped(old(nodeTypeIndex) - 1, |nodeTypes|)
      ensures parentNode == old(parentNode) && undoParent == old(undoParent)
    {
      nodeTypeIndex := nodeTypeIndex - 1;
      WrapIndex();
    }

    /** The part of `activate` after the draw event is made: `selectionParent` is the draw
        event's `getSelectionParent`, and `whereOnMap` the point on the map. A selection
        parent of the brush's type becomes the parent; otherwise a new node of radius 0 and
        the brush's type is inserted at the point. Without a type at the index, reading its
        id throws and nothing changes (`ok` false). */
    method ChooseParentNode(context: Contexts.Context, selectionParent: Option<Id>, whereOnMap: Vector3) returns (ok: bool)
      requires selectionParent.Some? ==> selectionParent.value in context.world.nodes
      modifies this, context
      ensures ok <==> NodeType().Some?
      ensures nodeTypeIndex == old(nodeTypeIndex)
      ensures !ok ==> parentNode == old(parentNode) && undoParent == old(undoParent) && context.world == old(context.world)
      ensures ok ==> match ChooseParent(old(context.world), selectionParent, NodeType().value)
        case Reuse(id) =>
          parentNode == Some(id) && undoParent == Some(false) && context.world == old(context.world)
        case Insert =>
          var (w, id) := InsertNode(old(context.world), whereOnMap, NodeType().value, 0.0, None);
          parentNode == Some(id) && undoParent == Some(true) && context.world == w
      ensures ok ==> parentNode.Some? && parentNode.value in context.world.nodes
      ensures old(context.world.nodes.Keys) <= context.world.nodes.Keys
      ensures context.undoStack == old(context.undoStack) && context.scrollOffset == old(context.scrollOffset)
    {
      var nodeType := NodeType();
      if nodeType.None? {
        return false;
      }
      if selectionParent.Some? && context.world.nodes[selectionParent.value].typeId == nodeType.value {
        parentNode := selectionParent;
        undoParent := Some(false);
      } else {
        var (w, id) := InsertNode(context.world, whereOnMap, nodeType.value, 0.0, None);
        context.world := w;
        parentNode := Some(id);
        undoParent := Some(true);
      }
      return true;
    }

    /** The type indices `draw` lists beside the brush, from the bottom: the current type with
        `NeighbourRadius` neighbours on each side, wrapping around the types. The clock that
        decides whether the list is shown at all is not part of this model. */
    method ShownTypes() returns (shown: seq<int>)
      requires |nodeTypes| > 0
      ensures |shown| == 2 * NeighbourRadius(|nodeTypes|) + 1
      ensures forall k :: 0 <= k < |shown| ==>
        shown[k] == Wrapped(nodeTypeIndex + k - NeighbourRadius(|nodeTypes|), |nodeTypes|)
      ensures 0 <= nodeTypeIndex < |nodeTypes| ==> shown[NeighbourRadius(|nodeTypes|)] == nodeTypeIndex
    {
      var len := |nodeTypes|;
      var radius: int := NeighbourRadius(len);
      shown := [];
      for i := -radius to radius + 1
        invariant |shown| == i + radius
        invariant forall k :: 0 <= k < |shown| ==> shown[k] == Wrapped(nodeTypeIndex + k - radius, len)
      {
        shown := shown + [Utils.Mod(nodeTypeIndex + i, len)];
      }
      if 0 <= nodeTypeIndex < len {
        WrappedInRange(nodeTypeIndex, len);
      }
    }

    /** `trigger` on the draw event's path and `done`: one `DrawPathAction` with the brush's
        radius, type and parent, drawn at the context's scroll offset, performed without
        going on the undo stack. It answers the undo of the drawing. Without a type at the
        index, nothing is drawn and there is no undo. */
    method Trigger(context: Contexts.Context, path: Paths.PathData, done: bool) returns (undo: Option<Action>)
      requires Valid() && (parentNode.Some? ==> parentNode.value in context.world.nodes)
      modifies context
      ensures NodeType().None? ==> undo.None? && context.world == old(context.world)
      ensures NodeType().Some? ==>
        var a := Drawing(path, done, old(context.scrollOffset));
        && Performable(old(context.world.nodes.Keys), a)
        && context.world == Perform(old(context.world), a).world
        && undo == Perform(old(context.world), a).undo
        && undo.Some?
      ensures old(context.world.nodes.Keys) <= context.world.nodes.Keys
      ensures context.undoStack == old(context.undoStack) && context.scrollOffset == old(context.scrollOffset)
    {
      if NodeType().None? {
        return None;
      }
      var a := Drawing(path, done, context.scrollOffset);
      DrawPathAnswers(context.world, a);
      undo := context.PerformAction(a, false);
      assert context.world == Perform(old(context.world), a).world;
      assert a == Drawing(path, done, old(context.scrollOffset));
    }

    /** The action `trigger` performs: the path drawn with the brush's radius, type and
        parent, at the scroll offset `offset`. */
    function Drawing(path: Paths.PathData, done: bool, offset: Vector3): (a: Action)
      requires Valid() && NodeType().Some?
      reads this, brush
    {
      DrawPath(path, brush.Radius(), NodeType().value, parentNode, done, offset)
    }
  }

  /** Drawing a path always answers an undo action: the removal of the placed nodes, after
      the undo of the cleanup on a full calculation. */
  lemma DrawPathAnswers(w: World, a: Action)
    requires a.DrawPath? && Performable(w.nodes.Keys, a)
    ensures Perform(w, a).undo.Some?
    ensures a.fullCalculation ==> Perform(w, a).undo.value.Bulk? && |Perform(w, a).undo.value.actions| == 2
    ensures !a.fullCalculation ==> Perform(w, a).undo.value.Remove?
  {
    assert Perform(w, a) == DrawPathPerform(w, a);
  }

  /** The options `trigger` gives `DrawPathAction`, as written: no `scrollOffset` among
      them. */
  datatype DrawPathOptions = DrawPathOptions(
    path: Paths.PathData, radius: real, nodeType: string, fullCalculation: bool,
    parent: Option<Id>, undoParent: Option<bool>, scrollOffset: Option<Vector3>)

  function TriggerOptionsAsWritten(b: AddBrush, path: Paths.PathData, done: bool): (r: DrawPathOptions)
    requires b.Valid() && b.NodeType().Some?
    reads b, b.brush
    ensures r.scrollOffset.None?
  {
    DrawPathOptions(path, b.brush.Radius(), b.NodeType().value, done, b.parentNode, b.undoParent, None)
  }

  /** `DrawPathAction.perform` on options: its first step adds `scrollOffset` to the path's
      origin, which throws on a missing offset before anything is changed. */
  function PerformDrawPathOptions(w: World, o: DrawPathOptions): (r: Outcome)
    requires o.radius > 0.0 || o.path.lines == []
    requires o.parent.Some? ==> o.parent.value in w.nodes
    ensures o.scrollOffset.None? ==> r == Outcome(w, None, [])
    ensures o.scrollOffset.Some? ==> r.undo.Some?
  {
    if o.scrollOffset.None? then Outcome(w, None, [])
    else
      var a := DrawPath(o.path, o.radius, o.nodeType, o.parent, o.fullCalculation, o.scrollOffset.value);
      DrawPathAnswers(w, a);
      Perform(w, a)
  }

  /** As written, a stroke of the add brush draws nothing: the options lack the scroll
      offset, so the action throws and answers no undo. */
  lemma TriggerAsWrittenDrawsNothing(b: AddBrush, w: World, path: Paths.PathData, done: bool)
    requires b.Valid() && b.NodeType().Some? && (b.parentNode.Some? ==> b.parentNode.value in w.nodes)
    ensures var o := TriggerOptionsAsWritten(b, path, done);
      PerformDrawPathOptions(w, o) == Outcome(w, None, [])
  {
  }
}

=== FILE: area_brush.dfy ===
/** `AreaBrush` of mapper/brushes/area_brush.js: strokes that mark (or, with Shift, unmark)
    the tiles of the grid under the brush, the reset that unmarks them all, and the area they
    cover. The marked tiles are `World.tiles`. */
module AreaBrushes {
  import opened Wrappers
  import opened Geometry
  import opened Worlds
  import opened Actions
  import opened AreaSweep
  import Paths
  import Brushes
  import Contexts

  /** The action of one stroke position: the tiles swept there, to unmark when removing and to
      mark otherwise. */
  function AtPosition(tiles: set<TileKey>, t: int, position: Vector3, radius: real, removing: bool): Action
    requires t > 0
  {
    var listed := Swept(tiles, t, position, radius, removing);
    if removing then AreaBrushDelete(listed) else AreaBrushAdd(listed)
  }

  /** The tiles a tile action lists. */
  function TilesOf(a: Action): seq<TileKey>
  {
    if a.AreaBrushAdd? then a.toAdd else if a.AreaBrushDelete? then a.toRemove else []
  }

  /** Every tile listed by the actions `xs`. */
  function AllTiles(xs: seq<Action>): (r: set<TileKey>)
    ensures forall k :: k in r <==> exists i :: 0 <= i < |xs| && k in TilesOf(xs[i])
  {
    if xs == [] then {}
    else
      var rest := AllTiles(xs[1..]);
      assert forall i :: 1 <= i < |xs| ==> xs[1..][i - 1] == xs[i];
      (set k | k in TilesOf(xs[0])) + rest
  }

  /** The actions of a stroke: all adding or all removing. */
  predicate TileActions(xs: seq<Action>, removing: bool)
  {
    forall i :: 0 <= i < |xs| ==> if removing then xs[i].AreaBrushDelete? else xs[i].AreaBrushAdd?
  }

  /** A tile action marks (or unmarks) its tiles and answers the opposite action. */
  lemma TilePerform(w: World, a: Action)
    requires a.AreaBrushAdd? || a.AreaBrushDelete?
    ensures a.AreaBrushAdd? ==> Perform(w, a) == Outcome(MarkTiles(w, a.toAdd), Some(AreaBrushDelete(a.toAdd)), [BrushUpdate])
    ensures a.AreaBrushDelete? ==> Perform(w, a) == Outcome(UnmarkTiles(w, a.toRemove), Some(AreaBrushAdd(a.toRemove)), [BrushUpdate])
  {
  }

  /** Performing the actions of a stroke one after the other marks (or unmarks) every tile
      they list, changes nothing else, and throws nowhere, with one undo per action. */
  lemma {:induction false} StrokePerform(w: World, xs: seq<Action>, removing: bool)
    requires TileActions(xs, removing)
    ensures forall i :: 0 <= i < |xs| ==> Performable(w.nodes.Keys, xs[i])
    ensures var r := PerformList(w, xs);
      && !r.threw
      && r.world == w.(tiles := if removing then w.tiles - AllTiles(xs) else w.tiles + AllTiles(xs))
      && |r.undos| == |xs|
    decreases xs
  {
    if xs != [] {
      var o := Perform(w, xs[0]);
      TilePerform(w, xs[0]);
      assert TileActions(xs[1..], removing);
      StrokePerform(o.world, xs[1..], removing);
      var r := PerformList(o.world, xs[1..]);
      assert PerformList(w, xs) == Run(r.world, [o.undo.value] + r.undos, o.hooks + r.hooks, r.threw);
      var here := set k | k in TilesOf(xs[0]);
      assert AllTiles(xs) == here + AllTiles(xs[1..]);
      if removing {
        assert o.world.tiles == w.tiles - here;
        assert w.tiles - AllTiles(xs) == (w.tiles - here) - AllTiles(xs[1..]);
      } else {
        assert o.world.tiles == w.tiles + here;
        assert w.tiles + AllTiles(xs) == (w.tiles + here) + AllTiles(xs[1..]);
      }
    }
  }

  /** The bulk action of a stroke, performed: what `StrokePerform` says of its sub-actions,
      with an undo of as many actions. */
  lemma StrokeBulk(w: World, xs: seq<Action>, removing: bool)
    requires TileActions(xs, removing)
    ensures Performable(w.nodes.Keys, Bulk(xs))
    ensures var o := Perform(w, Bulk(xs));
      && o.world == w.(tiles := if removing then w.tiles - AllTiles(xs) else w.tiles + AllTiles(xs))
      && o.undo.Some? && o.undo.value.Bulk? && |o.undo.value.actions| == |xs|
  {
    StrokePerform(w, xs, removing);
  }

  /** Marking only tiles not yet marked adds their number to the count; unmarking only marked
      ones takes it away. */
  lemma CountAfterMarking(tiles: set<TileKey>, listed: set<TileKey>)
    ensures listed !! tiles ==> |tiles + listed| == |tiles| + |listed|
    ensures listed <= tiles ==> |tiles - listed| == |tiles| - |listed|
  {
    if listed <= tiles {
      assert tiles == (tiles - listed) + listed;
    }
  }

  /** The area of the marked tiles: their number times the area of one tile, given as the
      side `side` of a tile in metres. */
  function SelectedArea(tiles: set<TileKey>, side: real): real
  {
    |tiles| as real * Mul(side, side)
  }

  /** A stroke position of the adding brush lists only unmarked tiles, so marking them adds
      their number to the count of marked tiles; one of the removing brush lists only marked
      tiles, so unmarking them takes their number away. */
  lemma PositionCount(tiles: set<TileKey>, t: int, position: Vector3, radius: real, removing: bool)
    requires t > 0 && radius > 0.0
    ensures var listed := set k | k in Swept(tiles, t, position, radius, removing);
      && (!removing ==> |tiles + listed| == |tiles| + |listed|)
      && (removing ==> |tiles - listed| == |tiles| - |listed|)
  {
    var listed := set k | k in Swept(tiles, t, position, radius, removing);
    SweptWanted(tiles, t, position, radius, removing);
    if removing {
      assert listed <= tiles;
    } else {
      assert listed !! tiles;
    }
    CountAfterMarking(tiles, listed);
  }

  /** The action of the brush at each position of `vs`, in order; `f` gives the action at one
      position. */
  function Stroke(f: Vector3 -> Action, vs: seq<Vector3>): (r: seq<Action>)
    ensures |r| == |vs|
    decreases |vs|
  {
    if vs == [] then [] else Stroke(f, vs[..|vs| - 1]) + [f(vs[|vs| - 1])]
  }

  /** A stroke one position longer is one action longer. */
  lemma StrokeSnoc(f: Vector3 -> Action, vs: seq<Vector3>, i: int)
    requires 0 <= i < |vs|
    ensures Stroke(f, vs[..i + 1]) == Stroke(f, vs[..i]) + [f(vs[i])]
  {
    assert vs[..i + 1][..i] == vs[..i];
  }

  /** The stroke's action at each position is the action there. */
  lemma {:induction false} StrokeAt(f: Vector3 -> Action, vs: seq<Vector3>)
    ensures forall i :: 0 <= i < |vs| ==> Stroke(f, vs)[i] == f(vs[i])
    decreases |vs|
  {
    if vs != [] {
      StrokeAt(f, vs[..|vs| - 1]);
    }
  }

  /** The action of the area brush at a position on the canvas: the position moved onto the
      map by `offset`, and the tiles swept there. */
  function PositionAction(tiles: set<TileKey>, t: int, offset: Vector3, radius: real, removing: bool): Vector3 -> Action
    requires t > 0
  {
    (p: Vector3) => AtPosition(tiles, t, p.Add(offset), radius, removing)
  }

  /** A stroke of the area brush is all adding, or all removing. */
  lemma StrokeTileActions(tiles: set<TileKey>, t: int, offset: Vector3, radius: real, removing: bool, vs: seq<Vector3>)
    requires t > 0
    ensures TileActions(Stroke(PositionAction(tiles, t, offset, radius, removing), vs), removing)
  {
    StrokeAt(PositionAction(tiles, t, offset, radius, removing), vs);
  }

  /** Scanning a column moves its row from the columns still to scan to the tiles listed. */
  lemma ColumnStep(listed: seq<TileKey>, s: Sweep, x: int, xb: int, ya: int, yb: int)
    requires s.tileSize > 0 && x <= xb
    ensures (listed + RowFrom(s, x, ya, yb)) + ColumnsFrom(s, x + s.tileSize, xb, ya, yb) == listed + ColumnsFrom(s, x, xb, ya, yb)
  {
    Contexts.AppendAssoc(listed, RowFrom(s, x, ya, yb), ColumnsFrom(s, x + s.tileSize, xb, ya, yb));
  }

  /** Half the brush radius, the longest line `triggerOnPath` keeps when bisecting. */
  function Half(radius: real): (r: real)
    ensures radius > 0.0 ==> r > 0.0
  {
    radius / 2.0
  }

  lemma Whole<T>(s: seq<T>)
    ensures s[..|s|] == s
  {
  }

  class AreaBrush {
    const brush: Brushes.Brush

    ghost predicate Valid()
      reads this, brush
    {
      brush.Valid()
    }

    constructor ()
      ensures fresh(brush) && Valid() && brush.size == 1
    {
      brush := new Brushes.Brush();
    }

    /** `triggerAtPosition`: the brush position moved onto the map by the scroll offset, the
        snapped box around it scanned column by column and row by row, and the corners
        strictly within the radius listed when unmarked (or, when `removing`, marked). `t`
        is the tile size. Nothing is marked yet. */
    method TriggerAtPosition(context: Contexts.Context, brushPosition: Vector3, removing: bool, t: int) returns (a: Action)
      requires Valid() && t > 0
      ensures a == AtPosition(context.world.tiles, t, brushPosition.Add(context.scrollOffset), brush.Radius(), removing)
    {
      var absolute := brushPosition.Add(context.scrollOffset);
      var radius := brush.Radius();
      var radiusSquared := Mul(radius, radius);
      var (xa, xb, ya, yb) := Corners(absolute, radius, t);
      var toAdd, toRemove := ScanColumns(context.world.tiles, t, absolute, radiusSquared, removing, xa, xb, ya, yb);
      if removing {
        a := AreaBrushDelete(toRemove);
      } else {
        a := AreaBrushAdd(toAdd);
      }
    }

    /** The loops of `triggerAtPosition` over the snapped box from (`xa`, `ya`) to (`xb`,
        `yb`), column by column: the listed corners, in `toRemove` when removing and in
        `toAdd` otherwise. */
    method ScanColumns(tiles: set<TileKey>, t: int, absolute: Vector3, radiusSquared: real, removing: bool,
                       xa: int, xb: int, ya: int, yb: int)
      returns (toAdd: seq<TileKey>, toRemove: seq<TileKey>)
      requires t > 0
      ensures var listed := ColumnsFrom(Sweep(tiles, t, absolute, radiusSquared, removing), xa, xb, ya, yb);
        && (removing ==> toRemove == listed && toAdd == [])
        && (!removing ==> toAdd == listed && toRemove == [])
    {
      ghost var s := Sweep(tiles, t, absolute, radiusSquared, removing);
      ghost var total := ColumnsFrom(s, xa, xb, ya, yb);
      toAdd, toRemove := [], [];
      ghost var listed: seq<TileKey> := [];
      var x := xa;
      while x <= xb
        invariant listed + ColumnsFrom(s, x, xb, ya, yb) == total
        invariant removing ==> toRemove == listed && toAdd == []
        invariant !removing ==> toAdd == listed && toRemove == []
        decreases xb + t - x
      {
        ColumnStep(listed, s, x, xb, ya, yb);
        toAdd, toRemove := ScanColumn(tiles, t, absolute, radiusSquared, removing, x, ya, yb, toAdd, toRemove);
        listed := listed + RowFrom(s, x, ya, yb);
        x := x + t;
      }
    }

    /** The inner loop of `triggerAtPosition`: column `x` of the box, from row `ya` to row
        `yb`, each listed corner appended to `toRemove` when removing and to `toAdd`
        otherwise. */
    method ScanColumn(tiles: set<TileKey>, t: int, absolute: Vector3, radiusSquared: real, removing: bool,
                      x: int, ya: int, yb: int, toAdd: seq<TileKey>, toRemove: seq<TileKey>)
      returns (toAdd': seq<TileKey>, toRemove': seq<TileKey>)
      requires t > 0
      ensures var row := RowFrom(Sweep(tiles, t, absolute, radiusSquared, removing), x, ya, yb);
        && (removing ==> toRemove' == toRemove + row && toAdd' == toAdd)
        && (!removing ==> toAdd' == toAdd + row && toRemove' == toRemove)
    {
      ghost var s := Sweep(tiles, t, absolute, radiusSquared, removing);
      ghost var listed: seq<TileKey> := [];
      toAdd', toRemove' := toAdd, toRemove;
      var y := ya;
      while y <= yb
        invariant listed + RowFrom(s, x, y, yb) == RowFrom(s, x, ya, yb)
        invariant removing ==> toRemove' == toRemove + listed && toAdd' == toAdd
        invariant !removing ==> toAdd' == toAdd + listed && toRemove' == toRemove
        decreases yb + t - y
      {
        ghost var here := if Listed(s, x, y) then [(x, y)] else [];
        Contexts.AppendAssoc(listed, here, RowFrom(s, x, y + t, yb));
        Contexts.AppendAssoc(if removing then toRemove else toAdd, listed, here);
        var inBrush := Vector3(x as real, y as real, 0.0).Subtract(absolute).LengthSquared() < radiusSquared;
        assert inBrush == InBrush(s, x, y);
        if inBrush {
          if removing {
            if (x, y) in tiles {
              toRemove' := toRemove' + [(x, y)];
            }
          } else {
            if (x, y) !in tiles {
              toAdd' := toAdd' + [(x, y)];
            }
          }
        }
        listed := listed + here;
        y := y + t;
      }
    }

    /** `triggerOnPath`: the path bisected at half the radius, and the stroke over its
        vertices. */
    method TriggerOnPath(context: Contexts.Context, path: Paths.PathData, removing: bool, t: int) returns (a: Action)
      requires Valid() && t > 0
      ensures a == Bulk(Stroke(PositionAction(context.world.tiles, t, context.scrollOffset, brush.Radius(), removing),
                               Paths.Vertices(Paths.Bisected(path, Half(brush.Radius())))))
    {
      var vs := Paths.Vertices(Paths.Bisected(path, Half(brush.Radius())));
      a := TriggerOnVertices(context, vs, removing, t);
    }

    /** The loop of `triggerOnPath`: one action per vertex, each taken on the tiles as they
        are before any is performed. */
    method TriggerOnVertices(context: Contexts.Context, vs: seq<Vector3>, removing: bool, t: int) returns (a: Action)
      requires Valid() && t > 0
      ensures a == Bulk(Stroke(PositionAction(context.world.tiles, t, context.scrollOffset, brush.Radius(), removing), vs))
    {
      ghost var f := PositionAction(context.world.tiles, t, context.scrollOffset, brush.Radius(), removing);
      var actions: seq<Action> := [];
      for i := 0 to |vs|
        invariant actions == Stroke(f, vs[..i])
      {
        var action := TriggerAtPosition(context, vs[i], removing, t);
        StrokeSnoc(f, vs, i);
        actions := actions + [action];
      }
      Whole(vs);
      a := Bulk(actions);
    }

    /** `trigger` on a draw event's path: its most recent line swept as one bulk action,
        performed without going on the undo stack. Every tile the stroke lists ends up marked
        (or, when `removing`, unmarked), nothing else on the map changes, and there is one
        undo per vertex. */
    method Trigger(context: Contexts.Context, path: Paths.PathData, removing: bool, t: int) returns (undo: Option<Action>)
      requires Valid() && t > 0
      modifies context
      ensures var xs := old(Stroke(PositionAction(context.world.tiles, t, context.scrollOffset, brush.Radius(), removing),
                                   Paths.Vertices(Paths.Bisected(Paths.MostRecent(path), Half(brush.Radius())))));
        && context.world == old(context.world).(tiles := if removing then old(context.world.tiles) - AllTiles(xs) else old(context.world.tiles) + AllTiles(xs))
        && undo.Some? && undo.value.Bulk? && |undo.value.actions| == |xs|
      ensures context.undoStack == old(context.undoStack) && context.scrollOffset == old(context.scrollOffset)
    {
      ghost var xs := Stroke(PositionAction(context.world.tiles, t, context.scrollOffset, brush.Radius(), removing),
                             Paths.Vertices(Paths.Bisected(Paths.MostRecent(path), Half(brush.Radius()))));
      var a := TriggerOnPath(context, Paths.MostRecent(path), removing, t);
      assert a == Bulk(xs);
      StrokeTileActions(context.world.tiles, t, context.scrollOffset, brush.Radius(), removing,
                        Paths.Vertices(Paths.Bisected(Paths.MostRecent(path), Half(brush.Radius()))));
      StrokeBulk(context.world, xs, removing);
      undo := context.PerformAction(a, false);
    }

    /** `reset`: one `AreaBrushDelete` of every marked tile, performed onto the undo stack;
        no tile is marked afterwards, and the undo marks them all again. */
    method Reset(context: Contexts.Context) returns (undo: Option<Action>)
      modifies context
      ensures context.world == old(context.world).(tiles := {})
      ensures undo.Some? && undo.value.AreaBrushAdd? && (set k | k in undo.value.toAdd) == old(context.world.tiles)
      ensures context.undoStack == old(context.undoStack) + [undo.value]
      ensures context.scrollOffset == old(context.scrollOffset)
    {
      var toRemove: seq<TileKey> := [];
      var todo := context.world.tiles;
      while todo != {}
        invariant todo <= context.world.tiles
        invariant forall k :: k in toRemove <==> k in context.world.tiles - todo
        decreases |todo|
      {
        var k :| k in todo;
        toRemove := toRemove + [k];
        todo := todo - {k};
      }
      assert (set k | k in toRemove) == context.world.tiles;
      undo := context.PerformAction(AreaBrushDelete(toRemove), true);
    }

    /** `getAreaSelectedSquareMeters`: the marked tiles counted one by one, times the area of
        one tile (`side` is a tile's side in metres). */
    method GetAreaSelectedSquareMeters(context: Contexts.Context, side: real) returns (area: real)
      ensures area == SelectedArea(context.world.tiles, side)
    {
      var n := 0;
      var todo := context.world.tiles;
      while todo != {}
        invariant todo <= context.world.tiles
        invariant n + |todo| == |context.world.tiles|
        decreases |todo|
      {
        var k :| k in todo;
        n := n + 1;
        todo := todo - {k};
      }
      area := n as real * Mul(side, side);
    }
  }
}

=== FILE: area_sweep.dfy ===
/** The tiles one stroke position of the area brush of mapper/brushes/area_brush.js lists:
    the corners of the tile grid strictly within the brush, snapped toward zero, that are
    marked (when removing) or not (when adding). */
module AreaSweep {
  import opened Geometry
  import opened Worlds
  import Tiles
  import Utils

  /** JavaScript's `c % t` on a coordinate with a positive whole divisor: the truncating
      remainder of the integer part plus the fraction, so with the sign of `c`. */
  function RemCoordinate(c: real, t: int): (r: real)
    requires t > 0
    ensures c >= 0.0 ==> 0.0 <= r < t as real
    ensures c < 0.0 ==> -(t as real) < r <= 0.0
  {
    var n := Tiles.Trunc(c);
    TruncBounds(c);
    Utils.Rem(n, t) as real + (c - n as real)
  }

  /** `c - c % tileSize`: the multiple of the tile size next to `c` on the side of zero, less
      than a tile away. */
  function Snap(c: real, t: int): (r: int)
    requires t > 0
    ensures r as real == c - RemCoordinate(c, t)
    ensures r % t == 0
    ensures c >= 0.0 ==> 0 <= r && r as real <= c < r as real + t as real
    ensures c < 0.0 ==> r as real - t as real < c && c <= r as real && r <= 0
  {
    var n := Tiles.Trunc(c);
    TruncBounds(c);
    Utils.RemDecomposes(n, t);
    SnapSign(n, t);
    n - Utils.Rem(n, t)
  }

  /** `Trunc` rounds toward zero by less than one. */
  lemma TruncBounds(c: real)
    ensures c >= 0.0 ==> 0 <= Tiles.Trunc(c) && Tiles.Trunc(c) as real <= c < Tiles.Trunc(c) as real + 1.0
    ensures c < 0.0 ==> Tiles.Trunc(c) <= 0 && Tiles.Trunc(c) as real - 1.0 < c <= Tiles.Trunc(c) as real
  {
  }

  /** Snapping a whole number toward zero keeps its sign. */
  lemma SnapSign(n: int, t: int)
    requires t > 0
    ensures n >= 0 ==> n - Utils.Rem(n, t) >= 0
    ensures n <= 0 ==> n - Utils.Rem(n, t) <= 0
  {
    var m := if n >= 0 then n else -n;
    var s := m - m % t;
    Utils.ModUnique(s, m / t, t, 0);
    if s < 0 {
      Utils.ModUnique(s, -1, t, s + t);
      assert false;
    }
  }

  /** Of two multiples of `t`, one less than the other plus `t` is at most the other. */
  lemma MultipleBelow(g: int, s: int, t: int)
    requires t > 0 && g % t == 0 && s % t == 0 && g < s + t
    ensures g <= s
  {
    var k, m := g / t, s / t;
    DivMod(g, t);
    DivMod(s, t);
    MulDiff(k, m, t);
    MulPositive(k - m, t);
  }

  lemma DivMod(d: int, t: int)
    requires t > 0
    ensures d == (d / t) * t + d % t && 0 <= d % t < t
  {
  }

  lemma MulShift(q: int, t: int)
    ensures (q - 1) * t == q * t - t
  {
  }

  lemma MulDiff(k: int, m: int, t: int)
    ensures (k - m) * t == k * t - m * t
  {
  }

  /** A positive multiplier makes a product of at least `t`, a non-positive one of at most 0. */
  lemma MulPositive(q: int, t: int)
    requires t > 0
    ensures q > 0 ==> q * t >= t
    ensures q <= 0 ==> q * t <= 0
  {
    if q > 0 {
      assert q * t == (q - 1) * t + t;
    }
  }


  /** A grid coordinate beyond the lower end of the brush is at or beyond the snapped lower
      end of its box, and one short of the upper end is at or short of the snapped upper end:
      snapping toward zero never loses a grid coordinate within the brush. */
  lemma SnapCovers(g: int, lo: real, hi: real, t: int)
    requires t > 0 && g % t == 0 && lo < g as real < hi
    ensures Snap(lo, t) <= g <= Snap(hi, t)
  {
    var s, u := Snap(lo, t), Snap(hi, t);
    if lo >= 0.0 {
      assert s < g;
    } else {
      MultipleBelow(s, g, t);
    }
    if hi >= 0.0 {
      MultipleBelow(g, u, t);
    } else {
      assert g < u;
    }
  }

  /** What one stroke position sweeps: the marked tiles, the tile size, the absolute brush
      position, the squared radius, and whether Shift is held (removing). */
  datatype Sweep = Sweep(tiles: set<TileKey>, tileSize: int, center: Vector3, radiusSquared: real, removing: bool)

  /** The corner (x, y) is strictly within the brush. */
  predicate InBrush(s: Sweep, x: int, y: int)
  {
    Vector3(x as real, y as real, 0.0).Subtract(s.center).LengthSquared() < s.radiusSquared
  }

  /** The corner is strictly within the brush and is marked when removing, unmarked when
      adding. */
  predicate Listed(s: Sweep, x: int, y: int)
  {
    InBrush(s, x, y) && if s.removing then (x, y) in s.tiles else (x, y) !in s.tiles
  }

  /** The listed corners of column `x` from `y` to `yb`, a tile apart. */
  function RowFrom(s: Sweep, x: int, y: int, yb: int): seq<TileKey>
    requires s.tileSize > 0
    decreases yb + s.tileSize - y
  {
    if y > yb then []
    else (if Listed(s, x, y) then [(x, y)] else []) + RowFrom(s, x, y + s.tileSize, yb)
  }

  /** The listed corners of the columns from `x` to `xb`, column after column. */
  function ColumnsFrom(s: Sweep, x: int, xb: int, ya: int, yb: int): seq<TileKey>
    requires s.tileSize > 0
    decreases xb + s.tileSize - x
  {
    if x > xb then []
    else RowFrom(s, x, ya, yb) + ColumnsFrom(s, x + s.tileSize, xb, ya, yb)
  }

  /** The snapped box around the brush: from `position - radius` to `position + radius` in x
      and y, each end snapped toward zero. */
  function Corners(position: Vector3, radius: real, t: int): (r: (int, int, int, int))
    requires t > 0
  {
    var box := BoxFromRadius(position, radius);
    (Snap(box.a.x, t), Snap(box.b.x, t), Snap(box.a.y, t), Snap(box.b.y, t))
  }

  /** `triggerAtPosition`'s list for a brush of radius `radius` at absolute position
      `position`. */
  function Swept(tiles: set<TileKey>, t: int, position: Vector3, radius: real, removing: bool): seq<TileKey>
    requires t > 0
  {
    var (xa, xb, ya, yb) := Corners(position, radius, t);
    ColumnsFrom(Sweep(tiles, t, position, Mul(radius, radius), removing), xa, xb, ya, yb)
  }

  /** `g` is one of `from`, `from + t`, ... up to `to`. */
  predicate OnGrid(g: int, from: int, to: int, t: int)
    requires t > 0
  {
    from <= g <= to && (g - from) % t == 0
  }

  /** The grid from `from` is `from` followed by the grid from `from + t`. */
  lemma GridStep(g: int, from: int, to: int, t: int)
    requires t > 0
    ensures from > to ==> !OnGrid(g, from, to, t)
    ensures from <= to ==> (OnGrid(g, from, to, t) <==> g == from || OnGrid(g, from + t, to, t))
  {
    ModStep(g - from, t);
  }

  /** A row lists exactly its listed corners on the grid from `y` up to `yb`. */
  lemma {:induction false} RowMembers(s: Sweep, x: int, y: int, yb: int, k: TileKey)
    requires s.tileSize > 0
    ensures k in RowFrom(s, x, y, yb) <==> k.0 == x && OnGrid(k.1, y, yb, s.tileSize) && Listed(s, k.0, k.1)
    decreases yb + s.tileSize - y
  {
    var t := s.tileSize;
    GridStep(k.1, y, yb, t);
    if y <= yb {
      RowMembers(s, x, y + t, yb, k);
    }
  }

  /** Stepping one tile keeps the remainder, and a positive multiple is at least a tile. */
  lemma ModStep(d: int, t: int)
    requires t > 0
    ensures (d - t) % t == d % t
    ensures 0 < d && d % t == 0 ==> d >= t
  {
    var q, r := d / t, d % t;
    DivMod(d, t);
    MulShift(q, t);
    Utils.ModUnique(d - t, q - 1, t, r);
    MulPositive(q, t);
  }

  /** The columns list exactly the listed corners on the grid from (`x`, `ya`) up to
      (`xb`, `yb`). */
  lemma {:induction false} ColumnsMembers(s: Sweep, x: int, xb: int, ya: int, yb: int, k: TileKey)
    requires s.tileSize > 0
    ensures k in ColumnsFrom(s, x, xb, ya, yb) <==>
      OnGrid(k.0, x, xb, s.tileSize) && OnGrid(k.1, ya, yb, s.tileSize) && Listed(s, k.0, k.1)
    decreases xb + s.tileSize - x
  {
    var t := s.tileSize;
    GridStep(k.0, x, xb, t);
    if x <= xb {
      RowMembers(s, x, ya, yb, k);
      ColumnsMembers(s, x + t, xb, ya, yb, k);
    }
  }

  /** A square below the square of a positive radius has its root strictly within the
      radius. */
  lemma WithinRadius(d: real, r: real)
    requires r > 0.0 && Mul(d, d) < Mul(r, r)
    ensures -r < d < r
  {
    if d >= r {
      ScaleAtMost(r, d, r);
      ScaleAtMost(r, d, d);
      assert false;
    } else if d <= -r {
      ScaleAtMost(r, -d, r);
      ScaleAtMost(r, -d, -d);
      NegatedSquare(d);
      assert false;
    }
  }

  lemma ScaleAtMost(a: real, b: real, t: real)
    requires t > 0.0 && a <= b
    ensures Mul(a, t) <= Mul(b, t)
  {
  }

  lemma NegatedSquare(d: real)
    ensures Mul(-d, -d) == Mul(d, d)
  {
  }


  /** A corner within the brush is within the radius of the brush position in x and in y. */
  lemma InBrushBox(s: Sweep, x: int, y: int, radius: real)
    requires radius > 0.0 && s.radiusSquared == Mul(radius, radius) && InBrush(s, x, y)
    ensures s.center.x - radius < x as real < s.center.x + radius
    ensures s.center.y - radius < y as real < s.center.y + radius
  {
    var d := Vector3(x as real, y as real, 0.0).Subtract(s.center);
    Square(d.x);
    Square(d.y);
    Square(d.z);
    WithinRadius(d.x, radius);
    WithinRadius(d.y, radius);
  }

  /** `triggerAtPosition` lists exactly the grid corners (multiples of the tile size in x and
      y) strictly within the brush that are marked, when removing, or unmarked, when adding:
      the snapped box loses none of them. */
  lemma SweptMembers(tiles: set<TileKey>, t: int, position: Vector3, radius: real, removing: bool, k: TileKey)
    requires t > 0 && radius > 0.0
    ensures k in Swept(tiles, t, position, radius, removing) <==>
      k.0 % t == 0 && k.1 % t == 0 && Listed(Sweep(tiles, t, position, Mul(radius, radius), removing), k.0, k.1)
  {
    var s := Sweep(tiles, t, position, Mul(radius, radius), removing);
    var (xa, xb, ya, yb) := Corners(position, radius, t);
    var box := BoxFromRadius(position, radius);
    assert box.a.x == position.x - radius && box.b.x == position.x + radius;
    assert box.a.y == position.y - radius && box.b.y == position.y + radius;
    ColumnsMembers(s, xa, xb, ya, yb, k);
    ModDifference(k.0, xa, t);
    ModDifference(k.1, ya, t);
    if k.0 % t == 0 && k.1 % t == 0 && Listed(s, k.0, k.1) {
      InBrushBox(s, k.0, k.1, radius);
      SnapCovers(k.0, box.a.x, box.b.x, t);
      SnapCovers(k.1, box.a.y, box.b.y, t);
    }
  }

  /** From a multiple of `t`, a whole number of tiles leads to multiples of `t` only. */
  lemma ModDifference(g: int, a: int, t: int)
    requires t > 0 && a % t == 0
    ensures (g - a) % t == 0 <==> g % t == 0
  {
    var q, p, r := a / t, g / t, g % t;
    DivMod(a, t);
    DivMod(g, t);
    MulDiff(p, q, t);
    Utils.ModUnique(g - a, p - q, t, r);
  }


  /** Adding lists only unmarked tiles, so the `AreaBrushAdd` it makes marks only new ones;
      removing lists only marked ones. */
  lemma SweptWanted(tiles: set<TileKey>, t: int, position: Vector3, radius: real, removing: bool)
    requires t > 0 && radius > 0.0
    ensures forall k :: k in Swept(tiles, t, position, radius, removing) ==> (k in tiles <==> removing)
  {
    forall k | k in Swept(tiles, t, position, radius, removing) ensures k in tiles <==> removing {
      SweptMembers(tiles, t, position, radius, removing, k);
    }
  }
}

=== FILE: brush.dfy ===
/** `Brush` of mapper/brushes/brush.js: the brush size, kept between 1 and `maxSize`, and the
    radius it gives. */
module Brushes {
  /** The largest size, `maxSize`. */
  const MaxSize: int := 10

  /** The radius of a brush of size `size`: 25 canvas units per step. */
  function RadiusOf(size: int): (r: real)
    requires 1 <= size <= MaxSize
    ensures 25.0 <= r <= 250.0
  {
    size as real * 25.0
  }

  /** `shrink`: one step smaller, never below 1. */
  function Shrunk(size: int): (r: int)
    ensures r >= 1
    ensures size > 1 ==> r == size - 1
    ensures size <= 1 ==> r == 1
  {
    if size - 1 > 1 then size - 1 else 1
  }

  /** `enlarge`: one step larger, never above `maxSize`. */
  function Enlarged(size: int, maxSize: int): (r: int)
    ensures r <= maxSize
    ensures size < maxSize ==> r == size + 1
    ensures size >= maxSize ==> r == maxSize
  {
    if size + 1 < maxSize then size + 1 else maxSize
  }

  /** Shrinking and enlarging keep a size within [1, `maxSize`]. */
  lemma SizeStaysInRange(size: int, maxSize: int)
    requires 1 <= size <= maxSize
    ensures 1 <= Shrunk(size) <= maxSize
    ensures 1 <= Enlarged(size, maxSize) <= maxSize
  {
  }

  /** Away from the bounds, shrinking and enlarging undo each other; at the bounds, the step
      toward the bound does nothing. */
  lemma ShrinkEnlarge(size: int, maxSize: int)
    requires 1 <= size <= maxSize
    ensures size > 1 ==> Enlarged(Shrunk(size), maxSize) == size
    ensures size < maxSize ==> Shrunk(Enlarged(size, maxSize)) == size
    ensures size == 1 ==> Shrunk(size) == size
    ensures size == maxSize ==> Enlarged(size, maxSize) == size
  {
  }

  class Brush {
    var size: int
    const maxSize: int

    ghost predicate Valid()
      reads this
    {
      maxSize == MaxSize && 1 <= size <= maxSize
    }

    /** A new brush has size 1 and maximum size 10. */
    constructor ()
      ensures Valid() && size == 1 && maxSize == MaxSize
    {
      size := 1;
      maxSize := MaxSize;
    }

    /** `getRadius`: 25 canvas units per size step, so from 25 to 250. */
    function Radius(): (r: real)
      requires Valid()
      reads this
      ensures 25.0 <= r <= 250.0
      ensures r == RadiusOf(size)
    {
      RadiusOf(size)
    }

    method Shrink()
      requires Valid()
      modifies this
      ensures Valid() && size == Shrunk(old(size))
    {
      size := if size - 1 > 1 then size - 1 else 1;
    }

    method Enlarge()
      requires Valid()
      modifies this
      ensures Valid() && size == Enlarged(old(size), maxSize)
    {
      size := if size + 1 < maxSize then size + 1 else maxSize;
    }
  }
}

=== FILE: cleanup.dfy ===
/** The removal rule of `NodeCleanupAction` (mapper/actions/node_cleanup_action.js): among a
    node and its descendants of one type, childless nodes that lie too close to another node
    are marked for removal, smallest radius first. */
module Cleanup {
  import opened Wrappers
  import opened Geometry
  import opened Worlds
  import Sorting

  /** What `getAllVertices` yields for a node. */
  datatype Vertex = Vertex(id: Id, removable: bool, point: Vector3, radius: real)

  /** `a.subtract(b).length() < bound`, squared; a length is never below a bound that is not
      positive. */
  predicate Closer(a: Vector3, b: Vector3, bound: real)
  {
    bound > 0.0 && a.Subtract(b).LengthSquared() < Mul(bound, bound)
  }

  /** Among the first `k` vertices there is one other than the `i`th, not yet marked, closer
      to it than a quarter of their radii together. */
  predicate HasCloseUnmarked(vs: seq<Vertex>, i: nat, marked: seq<Id>, k: nat)
    requires i < |vs| && k <= |vs|
  {
    exists j :: 0 <= j < k && j != i && vs[j].id !in marked
      && Closer(vs[j].point, vs[i].point, (vs[i].radius + vs[j].radius) / 4.0)
  }

  /** One turn of the outer loop: the `i`th vertex's id is added to the marks (a set, kept in
      insertion order) when it is removable and some other unmarked vertex is close. */
  function Mark(vs: seq<Vertex>, i: nat, marked: seq<Id>): seq<Id>
    requires i < |vs|
  {
    if vs[i].removable && vs[i].id !in marked && HasCloseUnmarked(vs, i, marked, |vs|) then marked + [vs[i].id]
    else marked
  }

  /** The marks after the first `n` vertices. */
  function Marked(vs: seq<Vertex>, n: nat): seq<Id>
    requires n <= |vs|
  {
    if n == 0 then [] else Mark(vs, n - 1, Marked(vs, n - 1))
  }

  /** The nested loop of `perform`, which adds to `toRemove`. */
  method MarkForRemoval(vs: seq<Vertex>) returns (toRemove: seq<Id>)
    ensures toRemove == Marked(vs, |vs|)
  {
    toRemove := [];
    for i := 0 to |vs|
      invariant toRemove == Marked(vs, i)
    {
      ghost var before := toRemove;
      if vs[i].removable {
        for k := 0 to |vs|
          invariant toRemove ==
            if vs[i].id !in before && HasCloseUnmarked(vs, i, before, k) then before + [vs[i].id] else before
        {
          if vs[k].id !in toRemove && k != i && Closer(vs[k].point, vs[i].point, (vs[i].radius + vs[k].radius) / 4.0) {
            if vs[i].id !in toRemove {
              toRemove := toRemove + [vs[i].id];
            }
          }
        }
      }
    }
  }

  lemma {:induction false} MarkedGrows(vs: seq<Vertex>, m: nat, n: nat)
    requires m <= n <= |vs|
    ensures forall x :: x in Marked(vs, m) ==> x in Marked(vs, n)
    decreases n
  {
    if m < n {
      MarkedGrows(vs, m, n - 1);
    }
  }

  /** A node is marked exactly when, at its turn, it was removable and some other vertex not
      yet marked lay closer than a quarter of their radii; and it is marked once. */
  lemma {:induction false} MarkedMeaning(vs: seq<Vertex>, n: nat)
    requires n <= |vs|
    ensures forall x :: x in Marked(vs, n) <==>
      exists i :: 0 <= i < n && vs[i].id == x && vs[i].removable && HasCloseUnmarked(vs, i, Marked(vs, i), |vs|)
    ensures forall i, j :: 0 <= i < j < |Marked(vs, n)| ==> Marked(vs, n)[i] != Marked(vs, n)[j]
  {
    if n > 0 {
      MarkedMeaning(vs, n - 1);
      forall x | (exists i :: 0 <= i < n && vs[i].id == x && vs[i].removable && HasCloseUnmarked(vs, i, Marked(vs, i), |vs|))
        ensures x in Marked(vs, n)
      {
        var i :| 0 <= i < n && vs[i].id == x && vs[i].removable && HasCloseUnmarked(vs, i, Marked(vs, i), |vs|);
        assert x in Marked(vs, i + 1);
        MarkedGrows(vs, i + 1, n);
      }
    }
  }

  /** A vertex with no other vertex about is never marked, so a lone node stays. */
  lemma LoneVertexStays(v: Vertex)
    ensures Marked([v], 1) == []
  {
    assert !HasCloseUnmarked([v], 0, [], 1);
  }

  /** Two childless vertices of radius 4 at the same point: the smaller-indexed one is marked,
      after which the other has no unmarked neighbour left. */
  lemma PairMarks(p: Vector3, a: Id, b: Id)
    requires a != b
    ensures Marked([Vertex(a, true, p, 4.0), Vertex(b, true, p, 4.0)], 2) == [a]
  {
    var vs := [Vertex(a, true, p, 4.0), Vertex(b, true, p, 4.0)];
    assert p.Subtract(p) == Zero;
    assert HasCloseUnmarked(vs, 0, [], 2) by {
      assert Closer(vs[1].point, vs[0].point, 2.0);
    }
    assert Marked(vs, 1) == [a];
    assert !HasCloseUnmarked(vs, 1, [a], 2);
  }

  /** `getAllNodes` as written (node_cleanup_action.js:25): `await nodeRef.getType().id` reads
      `id` off the promise `getType()` returns, which is `undefined`, and compares it with the
      type's id. A missing type throws a TypeError (none here) when the right-hand side is
      read; a type never matches `undefined`, so no node is yielded. */
  function AllNodesAsWritten(w: World, root: Id, typeId: Option<string>): (r: Option<seq<Id>>)
  {
    if typeId.None? then None else Some([])
  }

  /** `getAllNodes` as intended, `(await nodeRef.getType()).id === type.id`: the node and its
      descendants of the type. A missing type still throws (none). */
  function AllNodes(w: World, root: Id, typeId: Option<string>): (r: Option<seq<Id>>)
    ensures r.None? <==> typeId.None?
    ensures r.Some? ==> forall x :: x in r.value <==> x in SelfAndDescendants(w, root) && x in w.nodes && w.nodes[x].typeId == typeId.value
  {
    if typeId.None? then None else Some(OfType(w, SelfAndDescendants(w, root), typeId.value))
  }

  function OfType(w: World, ids: seq<Id>, typeId: string): (r: seq<Id>)
    ensures forall x :: x in r <==> x in ids && x in w.nodes && w.nodes[x].typeId == typeId
  {
    if ids == [] then []
    else (if ids[0] in w.nodes && w.nodes[ids[0]].typeId == typeId then [ids[0]] else []) + OfType(w, ids[1..], typeId)
  }

  /** `getAllVertices`: the nodes with a positive radius, each with whether it has no
      children, its centre and its radius. */
  function VerticesOf(w: World, ids: seq<Id>): (r: seq<Vertex>)
    ensures forall v :: v in r <==>
      (v.id in ids && v.id in w.nodes && v.radius == w.nodes[v.id].radius > 0.0
       && v.removable == !HasChildren(w, v.id) && v.point == w.nodes[v.id].center)
  {
    if ids == [] then []
    else
      var id := ids[0];
      (if id in w.nodes && w.nodes[id].radius > 0.0
       then [Vertex(id, !HasChildren(w, id), w.nodes[id].center, w.nodes[id].radius)] else [])
      + VerticesOf(w, ids[1..])
  }

  function ByRadius(v: Vertex): real { v.radius }

  /** The vertices in ascending radius order, as `perform` sorts them. */
  function SortedVertices(w: World, root: Id, typeId: string): (r: seq<Vertex>)
  {
    Sorting.SortBy(VerticesOf(w, AllNodes(w, root, Some(typeId)).value), ByRadius)
  }

  /** Only the node and its descendants of the type, with positive radius, are considered,
      all of them are, and they come smallest radius first. */
  lemma SortedVerticesSpec(w: World, root: Id, typeId: string)
    ensures var vs := SortedVertices(w, root, typeId);
      && Sorting.SortedBy(vs, ByRadius)
      && (forall v :: v in vs <==>
            (v.id in SelfAndDescendants(w, root) && v.id in w.nodes
             && w.nodes[v.id].typeId == typeId && v.radius == w.nodes[v.id].radius > 0.0
             && v.removable == !HasChildren(w, v.id) && v.point == w.nodes[v.id].center))
  {
    var vs := VerticesOf(w, AllNodes(w, root, Some(typeId)).value);
    Sorting.SortBySpec(vs, ByRadius);
    forall v ensures v in SortedVertices(w, root, typeId) <==> v in vs {
      assert v in SortedVertices(w, root, typeId) <==> v in multiset(SortedVertices(w, root, typeId));
      assert v in vs <==> v in multiset(vs);
    }
  }

  /** The ids `perform` removes as intended; as written (`AllNodesAsWritten`) there are none. */
  function CleanupMarks(w: World, root: Id, typeId: string): seq<Id>
  {
    var vs := SortedVertices(w, root, typeId);
    Marked(vs, |vs|)
  }

  /** A water node with two overlapping childless water nodes of radius 4 under it: as
      written (`AllNodesAsWritten`) no node is even considered. */
  lemma CleanupAsWrittenMarksNothing(p: Vector3)
    ensures VerticesOf(ExampleWorld(p), AllNodesAsWritten(ExampleWorld(p), 1, Some("water")).value) == []
  {
    ExampleDescendants(p);
    ExampleVertices(p);
  }

  /** With the intended precedence, the same map has node 2 of the two overlapping children
      marked for removal. */
  lemma CleanupMarksExample(p: Vector3)
    ensures CleanupMarks(ExampleWorld(p), 1, "water") == [2]
  {
    ExampleSorted(p);
    PairMarks(p, 2, 3);
  }

  lemma ExampleSorted(p: Vector3)
    ensures SortedVertices(ExampleWorld(p), 1, "water") == [Vertex(2, true, p, 4.0), Vertex(3, true, p, 4.0)]
  {
    ExampleDescendants(p);
    ExampleVertices(p);
    var vs := [Vertex(2, true, p, 4.0), Vertex(3, true, p, 4.0)];
    Sorting.SortByStable(vs, ByRadius);
  }

  function ExampleWorld(p: Vector3): World
  {
    World(map[1 := NodeRec(true, None, "water", None, p, p, 0.0),
              2 := NodeRec(true, Some(1), "water", None, p, p, 4.0),
              3 := NodeRec(true, Some(1), "water", None, p, p, 4.0)],
          map[], {}, 4)
  }

  lemma ExampleDescendants(p: Vector3)
    ensures AllNodes(ExampleWorld(p), 1, Some("water")).value == [1, 2, 3]
  {
    var w := ExampleWorld(p);
    ExampleBelow(p);
    ExampleAscending();
    OfTypeKeepsAll(w, [1, 2, 3], "water");
  }

  /** Ids all of the type are all kept, in order. */
  lemma {:induction false} OfTypeKeepsAll(w: World, ids: seq<Id>, typeId: string)
    requires forall x :: x in ids ==> x in w.nodes && w.nodes[x].typeId == typeId
    ensures OfType(w, ids, typeId) == ids
  {
    if ids != [] {
      OfTypeKeepsAll(w, ids[1..], typeId);
    }
  }

  lemma ExampleAscending()
    ensures Ascending({2, 3}, 4) == [2, 3]
  {
    assert Ascending({2, 3}, 2) == [];
    assert Ascending({2, 3}, 3) == [2];
  }

  lemma ExampleBelow(p: Vector3)
    ensures SelfAndDescendants(ExampleWorld(p), 1) == [1] + Ascending({2, 3}, 4)
  {
    var w := ExampleWorld(p);
    assert w.nodes.Keys == {1, 2, 3};
    assert |w.nodes| == 3 by {
      assert |w.nodes.Keys| == |{1, 2, 3}|;
    }
    assert Within(w, 1, 1, 2);
    assert Within(w, 2, 1, 3) && Within(w, 3, 1, 3);
    assert (set x | x in w.nodes && x != 1 && Within(w, x, 1, |w.nodes|)) == {2, 3};
  }

  lemma ExampleVertices(p: Vector3)
    ensures VerticesOf(ExampleWorld(p), [1, 2, 3]) == [Vertex(2, true, p, 4.0), Vertex(3, true, p, 4.0)]
  {
    var w := ExampleWorld(p);
    assert !HasChildren(w, 2) && !HasChildren(w, 3);
    assert VerticesOf(w, [3]) == [Vertex(3, true, p, 4.0)];
    assert VerticesOf(w, [2, 3]) == [Vertex(2, true, p, 4.0), Vertex(3, true, p, 4.0)];
  }
}

=== FILE: codec.dfy ===
/** The text forms the base backend stores numbers and points in: `Number.prototype.toString`
    and `parseFloat` on integers, and the JSON text `JSON.stringify` writes for a point. */
module Codec {
  import opened Wrappers

  predicate IsDigit(c: char)
  {
    '0' <= c <= '9'
  }

  predicate AllDigits(s: string)
  {
    forall i :: 0 <= i < |s| ==> IsDigit(s[i])
  }

  function DigitChar(d: nat): (c: char)
    requires d < 10
    ensures IsDigit(c) && (c as int) - ('0' as int) == d
  {
    "0123456789"[d]
  }

  function DigitValue(c: char): (d: nat)
    requires IsDigit(c)
    ensures d < 10 && DigitChar(d) == c
  {
    (c as int) - ('0' as int)
  }

  /** Decimal digits of `n`, most significant first, with no leading zero. */
  function NatString(n: nat): (s: string)
    ensures |s| >= 1 && AllDigits(s)
    ensures |s| > 1 ==> s[0] != '0'
    decreases n
  {
    if n < 10 then [DigitChar(n)] else NatString(n / 10) + [DigitChar(n % 10)]
  }

  /** The number a run of decimal digits denotes. */
  function DigitsValue(s: string): nat
    requires AllDigits(s)
  {
    if s == [] then 0 else DigitsValue(s[..|s| - 1]) * 10 + DigitValue(s[|s| - 1])
  }

  lemma {:induction false} NatStringValue(n: nat)
    ensures DigitsValue(NatString(n)) == n
    decreases n
  {
    if n >= 10 {
      var s := NatString(n);
      assert s[..|s| - 1] == NatString(n / 10);
      NatStringValue(n / 10);
    }
  }

  /** `Number.prototype.toString` on an integer value. */
  function NumberString(n: int): (s: string)
    ensures |s| >= 1
    ensures n < 0 <==> s[0] == '-'
  {
    if n < 0 then "-" + NatString(-n) else NatString(n)
  }

  /** Where the run of decimal digits starting at index `i` of `s` ends. */
  function DigitRunFrom(s: string, i: nat): (k: nat)
    requires i <= |s|
    ensures i <= k <= |s|
    ensures forall j :: i <= j < k ==> IsDigit(s[j])
    ensures k < |s| ==> !IsDigit(s[k])
    decreases |s| - i
  {
    if i == |s| || !IsDigit(s[i]) then i else DigitRunFrom(s, i + 1)
  }

  /** The number the digits of `s` from index `start` up to `k` denote. */
  function DigitsValueAt(s: string, start: nat, k: nat): nat
    requires start <= k <= |s|
    requires forall j :: start <= j < k ==> IsDigit(s[j])
    decreases k
  {
    if k == start then 0 else DigitsValueAt(s, start, k - 1) * 10 + DigitValue(s[k - 1])
  }

  /** The text of `s` from index `k` on. */
  function Suffix(s: string, k: nat): (r: string)
    requires k <= |s|
    ensures |r| == |s| - k
    decreases |s| - k
  {
    if k == |s| then [] else [s[k]] + Suffix(s, k + 1)
  }

  lemma {:induction false} SuffixIsDrop(s: string, k: nat)
    requires k <= |s|
    ensures Suffix(s, k) == s[k..]
    decreases |s| - k
  {
    if k < |s| {
      SuffixIsDrop(s, k + 1);
      assert s[k..] == [s[k]] + s[k + 1..];
    }
  }

  /** The run of digits starting at index `start`, as a value, and the text after it; `None`
      when there is no digit there. */
  function ParseDigits(s: string, start: nat): (r: Option<(nat, string)>)
    requires start <= |s|
    ensures r.Some? ==> |r.value.1| < |s| - start
  {
    var k := DigitRunFrom(s, start);
    if k == start then None else Some((DigitsValueAt(s, start, k), Suffix(s, k)))
  }

  /** The integer part of `parseFloat`: an optional sign, then the longest run of digits; the
      rest of the text is handed back. `None` is NaN (no digits at all). */
  function ParseIntegerPrefix(s: string): (r: Option<(int, string)>)
    ensures r.Some? ==> |r.value.1| < |s|
  {
    var negative := |s| > 0 && s[0] == '-';
    var start := if |s| > 0 && (s[0] == '-' || s[0] == '+') then 1 else 0;
    match ParseDigits(s, start)
    case None => None
    case Some((v, rest)) => Some((if negative then -(v as int) else v, rest))
  }

  /** `parseFloat(String(x))` for a stored string, or for `undefined` when nothing is stored
      (which reads "undefined" and gives NaN). */
  function ParseFloat(s: Option<string>): (r: Option<int>)
    ensures s.None? ==> r.None?
  {
    match s
    case None => None
    case Some(text) =>
      match ParseIntegerPrefix(text)
      case None => None
      case Some((v, _)) => Some(v)
  }

  /** A run of digits from `i` that stops at `j` is the run `DigitRunFrom` finds. */
  lemma {:induction false} DigitRunEnds(s: string, i: nat, j: nat)
    requires i <= j <= |s|
    requires forall t :: i <= t < j ==> IsDigit(s[t])
    requires j == |s| || !IsDigit(s[j])
    ensures DigitRunFrom(s, i) == j
    decreases j - i
  {
    if i < j {
      DigitRunEnds(s, i + 1, j);
    }
  }

  /** Where `d` sits inside `p + (d + rest)`, character by character. */
  lemma Placed(p: string, d: string, rest: string)
    ensures var s := p + (d + rest);
      && (forall j :: 0 <= j < |d| ==> s[|p| + j] == d[j])
      && (rest != [] ==> s[|p| + |d|] == rest[0])
  {
  }

  /** What follows `d` inside `p + (d + rest)`. */
  lemma RestAfter(p: string, d: string, rest: string)
    ensures Suffix(p + (d + rest), |p| + |d|) == rest
  {
    SuffixIsDrop(p + (d + rest), |p| + |d|);
    assert (p + (d + rest))[|p| + |d|..] == rest;
  }

  /** Digits `d` after a prefix `p` and before a non-digit: the run is exactly `d`. */
  lemma DigitsAfter(p: string, d: string, rest: string)
    requires AllDigits(d) && (rest == [] || !IsDigit(rest[0]))
    ensures DigitRunFrom(p + (d + rest), |p|) == |p| + |d|
  {
    var s := p + (d + rest);
    Placed(p, d, rest);
    forall t | |p| <= t < |p| + |d|
      ensures IsDigit(s[t])
    {
      assert s[|p| + (t - |p|)] == d[t - |p|];
    }
    DigitRunEnds(s, |p|, |p| + |d|);
  }

  /** The first `m` digits of `d`, read in place inside `s`, are worth what they are on their own. */
  lemma {:induction false} ValueInPlace(s: string, start: nat, d: string, m: nat)
    requires start + |d| <= |s| && m <= |d| && AllDigits(d)
    requires forall j :: 0 <= j < |d| ==> s[start + j] == d[j]
    ensures forall j :: start <= j < start + m ==> IsDigit(s[j])
    ensures DigitsValueAt(s, start, start + m) == DigitsValue(d[..m])
    decreases m
  {
    forall j | start <= j < start + m
      ensures IsDigit(s[j])
    {
      assert s[start + (j - start)] == d[j - start];
    }
    if m > 0 {
      ValueInPlace(s, start, d, m - 1);
      assert d[..m][..m - 1] == d[..m - 1];
      assert s[start + (m - 1)] == d[..m][m - 1];
    }
  }

  /** Digits `d` after a prefix `p` are worth, in place, what they are on their own. */
  lemma DigitsInPlace(p: string, d: string, rest: string)
    requires AllDigits(d)
    ensures forall j :: |p| <= j < |p| + |d| ==> IsDigit((p + (d + rest))[j])
    ensures DigitsValueAt(p + (d + rest), |p|, |p| + |d|) == DigitsValue(d)
  {
    Placed(p, d, rest);
    ValueInPlace(p + (d + rest), |p|, d, |d|);
    assert d[..|d|] == d;
  }

  /** A run of digits from `start` to `k` worth `v`, followed by `rest`: that is what
      `ParseDigits` reads. */
  lemma RunParses(s: string, start: nat, k: nat, v: nat, rest: string)
    requires start < k <= |s| && DigitRunFrom(s, start) == k
    requires DigitsValueAt(s, start, k) == v && Suffix(s, k) == rest
    ensures ParseDigits(s, start) == Some((v, rest))
  {
  }

  /** Digits `d` after a prefix `p` and before a non-digit read as their value `v`. */
  lemma DigitsParse(p: string, d: string, rest: string, v: nat)
    requires |d| >= 1 && AllDigits(d) && (rest == [] || !IsDigit(rest[0]))
    requires v == DigitsValue(d)
    ensures ParseDigits(p + (d + rest), |p|) == Some((v, rest))
  {
    DigitsAfter(p, d, rest);
    DigitsInPlace(p, d, rest);
    RestAfter(p, d, rest);
    RunParses(p + (d + rest), |p|, |p| + |d|, v, rest);
  }

  /** Text starting with a minus sign reads as the negated digits after it. */
  lemma SignedParse(s: string, v: nat, rest: string)
    requires |s| > 0 && s[0] == '-' && ParseDigits(s, 1) == Some((v, rest))
    ensures ParseIntegerPrefix(s) == Some((-(v as int), rest))
  {
  }

  /** Text starting with a digit reads as the digits at its start. */
  lemma UnsignedParse(s: string, v: nat, rest: string)
    requires |s| > 0 && IsDigit(s[0]) && ParseDigits(s, 0) == Some((v, rest))
    ensures ParseIntegerPrefix(s) == Some((v as int, rest))
  {
  }

  /** Reading back the text of an integer, followed by anything that is not a digit, gives
      the integer and the rest. */
  lemma NumberStringParses(n: int, rest: string)
    requires rest == [] || !IsDigit(rest[0])
    ensures ParseIntegerPrefix(NumberString(n) + rest) == Some((n, rest))
  {
    var m: nat := if n < 0 then -n else n;
    NatStringValue(m);
    if n < 0 {
      var s := "-" + (NatString(m) + rest);
      assert NumberString(n) + rest == s;
      DigitsParse("-", NatString(m), rest, m);
      SignedParse(s, m, rest);
    } else {
      var s := [] + (NatString(m) + rest);
      assert NumberString(n) + rest == s;
      DigitsParse([], NatString(m), rest, m);
      assert s[0] == NatString(m)[0];
      UnsignedParse(s, m, rest);
    }
  }

  /** `setPNumber` then `getPNumber` of the base backend gives back an integer value. */
  lemma NumberRoundTrip(n: int)
    ensures ParseFloat(Some(NumberString(n))) == Some(n)
  {
    NumberStringParses(n, []);
    assert NumberString(n) + [] == NumberString(n);
  }

  /** `JSON.stringify` of an object with integer fields x, y and z, in that order. */
  function PointJson(x: int, y: int, z: int): string
  {
    "{\"x\":" + (NumberString(x) + (",\"y\":" + (NumberString(y) + (",\"z\":" + (NumberString(z) + "}")))))
  }

  /** `s` without the leading `literal`, if it starts with it. */
  function Expect(literal: string, s: string): (r: Option<string>)
    ensures r.Some? <==> literal <= s
    ensures r.Some? ==> s == literal + r.value
  {
    if literal <= s then Some(s[|literal|..]) else None
  }

  /** A number field: the integer and the text after it. */
  function Field(name: string, s: string): (r: Option<(int, string)>)
  {
    match Expect(name, s)
    case None => None
    case Some(after) => ParseIntegerPrefix(after)
  }

  /** `JSON.parse` followed by reading fields x, y and z, on the text `PointJson` writes;
      any other text is a `SyntaxError`, modelled as `None`. */
  function ParsePointJson(s: string): (r: Option<(int, int, int)>)
  {
    match Field("{\"x\":", s)
    case None => None
    case Some((x, s1)) =>
      match Field(",\"y\":", s1)
      case None => None
      case Some((y, s2)) =>
        match Field(",\"z\":", s2)
        case None => None
        case Some((z, s3)) => if s3 == "}" then Some((x, y, z)) else None
  }

  lemma FieldReads(name: string, n: int, rest: string)
    requires rest == [] || !IsDigit(rest[0])
    ensures Field(name, name + (NumberString(n) + rest)) == Some((n, rest))
  {
    var s := name + (NumberString(n) + rest);
    assert name <= s;
    assert s[|name|..] == NumberString(n) + rest;
    NumberStringParses(n, rest);
  }

  /** A point written with `PointJson` reads back as the same three coordinates. */
  lemma PointRoundTrip(x: int, y: int, z: int)
    ensures ParsePointJson(PointJson(x, y, z)) == Some((x, y, z))
  {
    var tail3 := "}";
    var tail2 := ",\"z\":" + (NumberString(z) + tail3);
    var tail1 := ",\"y\":" + (NumberString(y) + tail2);
    FieldReads("{\"x\":", x, tail1);
    FieldReads(",\"y\":", y, tail2);
    FieldReads(",\"z\":", z, tail3);
  }

  lemma NumberStringExample()
    ensures NumberString(-120) == "-120"
  {
    assert NatString(120) == NatString(12) + ['0'];
    assert NatString(12) == NatString(1) + ['2'];
  }

  lemma ParseFloatExamples()
    ensures ParseFloat(Some("12abc")) == Some(12)
    ensures ParseFloat(Some("abc")) == None
  {
    var s := "12abc";
    assert DigitRunFrom(s, 2) == 2;
    assert DigitRunFrom(s, 0) == 2;
    assert DigitsValueAt(s, 0, 2) == 12;
    assert Suffix(s, 2) == "abc";
    assert ParseDigits(s, 0) == Some((12, "abc"));
  }
}

=== FILE: context.dfy ===
/** The part of the editor context the actions, brushes and drag events work through: the
    map, the undo stack, the hooks called so far, the scroll offset and the count of
    viewport recalculations. `performAction` runs an action's `perform()`; the loops of
    `BulkAction`, `MergeAction`, `NodeCleanupAction`, `DrawPathAction` and the tile actions
    are written out here as the source writes them, each proved to do what `Actions.Perform`
    says. */
module Contexts {
  import opened Wrappers
  import opened Geometry
  import opened Worlds
  import opened Actions
  import Paths
  import Cleanup
  import MergeLaws

  class Context {
    var world: World
    var undoStack: seq<Action>
    var hooks: seq<Hook>
    var scrollOffset: Vector3
    var viewportRecalculations: nat

    constructor (w: World, offset: Vector3)
      ensures world == w && undoStack == [] && hooks == [] && scrollOffset == offset
      ensures viewportRecalculations == 0
    {
      world := w;
      undoStack := [];
      hooks := [];
      scrollOffset := offset;
      viewportRecalculations := 0;
    }

    /** `pushUndo(action)`: the action goes on top of the undo stack. */
    method PushUndo(a: Action)
      modifies this
      ensures undoStack == old(undoStack) + [a]
      ensures world == old(world) && hooks == old(hooks)
      ensures scrollOffset == old(scrollOffset) && viewportRecalculations == old(viewportRecalculations)
    {
      undoStack := undoStack + [a];
    }

    /** `performAction(action, addToUndoStack)`: the action's `perform()`, with its undo put
        on the undo stack when asked to and when there is one. */
    method PerformAction(a: Action, addToUndoStack: bool) returns (undo: Option<Action>)
      requires Performable(world.nodes.Keys, a)
      modifies this
      ensures world == Perform(old(world), a).world && undo == Perform(old(world), a).undo
      ensures hooks == old(hooks) + Perform(old(world), a).hooks
      ensures undoStack == if addToUndoStack && undo.Some? then old(undoStack) + [undo.value] else old(undoStack)
      ensures scrollOffset == old(scrollOffset) && viewportRecalculations == old(viewportRecalculations)
      decreases a
    {
      match a {
        case Bulk(xs) =>
          undo := PerformBulk(a);
        case Merge(refs) =>
          undo := PerformMerge(refs);
        case NodeCleanup(root, typeId) =>
          undo := PerformNodeCleanup(root, typeId);
        case DrawPath(_, _, _, _, _, _) =>
          undo := PerformDrawPath(a);
        case _ =>
          undo := PerformSimple(a);
      }
      if addToUndoStack && undo.Some? {
        undoStack := undoStack + [undo.value];
      }
    }

    /** `BulkAction.perform`: every sub-action through `performAction(action, false)`, their
        undos collected and then reversed. An exception ends the action. */
    method PerformBulk(a: Action) returns (undo: Option<Action>)
      requires a.Bulk? && Performable(world.nodes.Keys, a)
      modifies this
      ensures world == Perform(old(world), a).world && undo == Perform(old(world), a).undo
      ensures hooks == old(hooks) + Perform(old(world), a).hooks
      ensures undoStack == old(undoStack)
      ensures scrollOffset == old(scrollOffset) && viewportRecalculations == old(viewportRecalculations)
      decreases a, 2
    {
      var actions, threw := PerformEach(a);
      if threw {
        undo := None;
      } else {
        var reversed := ReverseInPlace(actions);
        undo := Some(Bulk(reversed));
      }
    }

    /** The loop of `BulkAction.perform`: the undos in the order they were answered, and
        whether an exception ended the loop. */
    method PerformEach(a: Action) returns (actions: seq<Action>, threw: bool)
      requires a.Bulk? && Performable(world.nodes.Keys, a)
      modifies this
      ensures var r := PerformList(old(world), a.actions);
        world == r.world && actions == r.undos && threw == r.threw && hooks == old(hooks) + r.hooks
      ensures undoStack == old(undoStack)
      ensures scrollOffset == old(scrollOffset) && viewportRecalculations == old(viewportRecalculations)
      decreases a, 1
    {
      var xs := a.actions;
      ghost var w0 := world;
      ghost var hs: seq<Hook> := [];
      actions := [];
      threw := false;
      var i := 0;
      EachStart(w0, xs);
      while i < |xs| && !threw
        invariant 0 <= i <= |xs|
        invariant EachSoFar(w0, xs, i, Run(world, actions, hs, threw))
        invariant hooks == old(hooks) + hs
        invariant undoStack == old(undoStack)
        invariant scrollOffset == old(scrollOffset) && viewportRecalculations == old(viewportRecalculations)
      {
        var u, newHooks := EachTurn(a, w0, i, Run(world, actions, hs, false));
        AppendAssoc(old(hooks), hs, newHooks);
        hs := hs + newHooks;
        if u.None? {
          threw := true;
        } else {
          actions := actions + [u.value];
        }
        i := i + 1;
      }
      EachDone(w0, xs, i, Run(world, actions, hs, threw));
    }

    /** One turn of the bulk loop: the next sub-action through `performAction(action, false)`. */
    method EachTurn(a: Action, ghost w0: World, i: nat, ghost r: Run) returns (u: Option<Action>, ghost newHooks: seq<Hook>)
      requires a.Bulk? && i < |a.actions| && !r.threw && EachSoFar(w0, a.actions, i, r) && world == r.world
      modifies this
      ensures EachSoFar(w0, a.actions, i + 1, Run(world, if u.None? then r.undos else r.undos + [u.value], r.hooks + newHooks, u.None?))
      ensures hooks == old(hooks) + newHooks
      ensures undoStack == old(undoStack)
      ensures scrollOffset == old(scrollOffset) && viewportRecalculations == old(viewportRecalculations)
      decreases a, 0
    {
      assert a.actions[i] < a;
      ghost var o := Perform(world, a.actions[i]);
      EachStep(w0, a.actions, i, r, o);
      u := PerformAction(a.actions[i], false);
      newHooks := o.hooks;
    }

    /** `actions.reverse()`. */
    static method ReverseInPlace(s: seq<Action>) returns (r: seq<Action>)
      ensures r == Reversed(s)
    {
      r := [];
      var k := |s|;
      while k > 0
        invariant 0 <= k <= |s|
        invariant r == Reversed(s[k..])
      {
        assert s[k - 1..][1..] == s[k..];
        r := r + [s[k - 1]];
        k := k - 1;
      }
    }

    /** The actions whose `perform()` is a few reads and writes: each step as the source
        takes it. */
    method PerformSimple(a: Action) returns (undo: Option<Action>)
      requires Performable(world.nodes.Keys, a)
      requires !a.Bulk? && !a.Merge? && !a.NodeCleanup? && !a.DrawPath?
      modifies this
      ensures world == Perform(old(world), a).world && undo == Perform(old(world), a).undo
      ensures hooks == old(hooks) + Perform(old(world), a).hooks
      ensures undoStack == old(undoStack)
      ensures scrollOffset == old(scrollOffset) && viewportRecalculations == old(viewportRecalculations)
    {
      match a
      case Remove(ids) =>
        var (w', affected) := RemoveNodes(world, ids);
        world := w';
        undo := Some(Unremove(affected));
      case Unremove(ids) =>
        world := UnremoveNodes(world, ids);
        undo := Some(Remove(ids));
      case RemoveEdge(ids) =>
        world := RemoveEdges(world, ids);
        undo := Some(UnremoveEdge(ids));
      case UnremoveEdge(ids) =>
        world := UnremoveEdges(world, ids);
        undo := Some(RemoveEdge(ids));
      case ChangeName(id, name) =>
        var oldName := OldName(world, id);
        world := world.(nodes := world.nodes[id := world.nodes[id].(name := Some(name))]);
        hooks := hooks + [UpdateNode(Some(id))];
        undo := Some(ChangeName(id, oldName));
      case Translate(id, offset) =>
        world := TranslateNode(world, id, offset);
        undo := Some(Translate(id, offset.MultiplyScalar(-1.0)));
      case SetNodeSpace(id, center, effectiveCenter, radius) =>
        var n := world.nodes[id];
        undo := Some(SetNodeSpace(id, n.center, n.effectiveCenter, n.radius));
        world := world.(nodes := world.nodes[id := n.(center := center, effectiveCenter := effectiveCenter, radius := radius)]);
        hooks := hooks + [UpdateNode(Some(id))];
      case ChangeParent(id, parent) =>
        var oldParent := GetParent(world, id);
        world := world.(nodes := world.nodes[id := world.nodes[id].(parent := parent)]);
        hooks := hooks + [UpdateNode(parent)];
        undo := Some(ChangeParent(id, oldParent));
      case AreaBrushAdd(toAdd) =>
        MarkEach(toAdd, true);
        hooks := hooks + [BrushUpdate];
        undo := Some(AreaBrushDelete(toAdd));
      case AreaBrushDelete(toRemove) =>
        MarkEach(toRemove, false);
        hooks := hooks + [BrushUpdate];
        undo := Some(AreaBrushAdd(toRemove));
    }

    /** The loops of `AreaBrushAdd.perform` and `AreaBrushDelete.perform`: every listed tile
        marked, or unmarked. */
    method MarkEach(ts: seq<TileKey>, mark: bool)
      modifies this
      ensures world == if mark then MarkTiles(old(world), ts) else UnmarkTiles(old(world), ts)
      ensures hooks == old(hooks) && undoStack == old(undoStack)
      ensures scrollOffset == old(scrollOffset) && viewportRecalculations == old(viewportRecalculations)
    {
      ghost var w0 := world;
      for i := 0 to |ts|
        invariant world == if mark then MarkTiles(w0, ts[..i]) else UnmarkTiles(w0, ts[..i])
        invariant hooks == old(hooks) && undoStack == old(undoStack)
        invariant scrollOffset == old(scrollOffset) && viewportRecalculations == old(viewportRecalculations)
      {
        MarkStep(w0, ts, i);
        if mark {
          world := world.(tiles := world.tiles + {ts[i]});
        } else {
          world := world.(tiles := world.tiles - {ts[i]});
        }
      }
      assert ts[..|ts|] == ts;
    }

    /** `getNodeRefs`: the valid refs, in order. */
    method GetNodeRefs(refs: seq<Id>) returns (nodeRefs: seq<Id>)
      ensures nodeRefs == ValidRefs(world, refs)
    {
      nodeRefs := [];
      var i := |refs|;
      while i > 0
        invariant 0 <= i <= |refs|
        invariant nodeRefs == ValidRefs(world, refs[i..])
      {
        i := i - 1;
        assert refs[i..][1..] == refs[i + 1..];
        if IsValid(world, refs[i]) {
          nodeRefs := [refs[i]] + nodeRefs;
        }
      }
    }

    /** `possible`: the type ids of the valid refs, gathered in a set, are exactly one. */
    method MergePossible(refs: seq<Id>) returns (b: bool)
      ensures b == Possible(world, refs)
    {
      var nodeRefs := GetNodeRefs(refs);
      var types: set<string> := {};
      for i := 0 to |nodeRefs|
        invariant forall x :: x in nodeRefs[..i] ==> x in world.nodes
        invariant types == set x | x in nodeRefs[..i] :: world.nodes[x].typeId
      {
        assert nodeRefs[i] in nodeRefs;
        assert nodeRefs[..i + 1] == nodeRefs[..i] + [nodeRefs[i]];
        types := types + {world.nodes[nodeRefs[i]].typeId};
      }
      assert nodeRefs[..|nodeRefs|] == nodeRefs;
      b := |types| == 1;
    }

    /** `MergeAction.perform`: when possible, every child of every later valid node is moved
        under the first one through `ChangeParentAction`, then the node removed through
        `RemoveAction`; the undo lists those undos and ends with a cleanup of the target of
        its type. */
    method PerformMerge(refs: seq<Id>) returns (undo: Option<Action>)
      modifies this
      ensures world == MergePerform(old(world), refs).world && undo == MergePerform(old(world), refs).undo
      ensures hooks == old(hooks) + MergePerform(old(world), refs).hooks
      ensures undoStack == old(undoStack)
      ensures scrollOffset == old(scrollOffset) && viewportRecalculations == old(viewportRecalculations)
    {
      var undoActions: seq<Action> := [];
      var possible := MergePossible(refs);
      if possible {
        var nodeRefs := GetNodeRefs(refs);
        MergeHasTarget(world, refs);
        var target := nodeRefs[0];
        var targetType := world.nodes[target].typeId;
        undoActions := MergeAll(nodeRefs[1..], target);
        undoActions := undoActions + [NodeCleanup(target, Some(targetType))];
      }
      undo := Some(Bulk(undoActions));
    }

    /** The outer loop of `MergeAction.perform`: every later valid node merged into the
        target in turn. */
    method MergeAll(others: seq<Id>, target: Id) returns (undoActions: seq<Action>)
      requires target in world.nodes
      modifies this
      ensures world == MergedInto(old(world), others, target).world
      ensures undoActions == MergedInto(old(world), others, target).undos
      ensures hooks == old(hooks) + MergedInto(old(world), others, target).hooks
      ensures undoStack == old(undoStack)
      ensures scrollOffset == old(scrollOffset) && viewportRecalculations == old(viewportRecalculations)
    {
      undoActions := [];
      ghost var w0 := world;
      ghost var hs: seq<Hook> := [];
      assert others[..0] == [];
      for k := 0 to |others|
        invariant MergeSoFar(w0, others, target, k, Progress(world, undoActions, hs))
        invariant hooks == old(hooks) + hs
        invariant undoStack == old(undoStack)
        invariant scrollOffset == old(scrollOffset) && viewportRecalculations == old(viewportRecalculations)
      {
        var u, newHooks := MergeTurn(w0, others, target, k, undoActions, hs);
        undoActions := undoActions + u;
        AppendAssoc(old(hooks), hs, newHooks);
        hs := hs + newHooks;
      }
      MergedIntoDone(w0, others, target, Progress(world, undoActions, hs));
    }

    /** One turn of the outer loop, stated against the whole merge so far. */
    method MergeTurn(ghost w0: World, others: seq<Id>, target: Id, k: nat, ghost us: seq<Action>, ghost hs: seq<Hook>)
      returns (undos: seq<Action>, ghost newHooks: seq<Hook>)
      requires k < |others| && MergeSoFar(w0, others, target, k, Progress(world, us, hs))
      modifies this
      ensures MergeSoFar(w0, others, target, k + 1, Progress(world, us + undos, hs + newHooks))
      ensures hooks == old(hooks) + newHooks
      ensures undoStack == old(undoStack)
      ensures scrollOffset == old(scrollOffset) && viewportRecalculations == old(viewportRecalculations)
    {
      MergedIntoSplit(w0, others, target, k);
      ghost var s := MergeStep(world, others[k], target);
      undos := MergeOther(others[k], target);
      newHooks := s.hooks;
    }

    /** One turn of the outer loop of `MergeAction.perform`: the children of `other` moved
        under `target`, then `other` removed through `RemoveAction`. */
    method MergeOther(other: Id, target: Id) returns (undos: seq<Action>)
      requires target in world.nodes
      modifies this
      ensures world == MergeStep(old(world), other, target).world
      ensures undos == MergeStep(old(world), other, target).undos
      ensures hooks == old(hooks) + MergeStep(old(world), other, target).hooks
      ensures undoStack == old(undoStack)
      ensures scrollOffset == old(scrollOffset) && viewportRecalculations == old(viewportRecalculations)
    {
      var children := Children(world, other);
      undos := ReparentAll(children, target);
      var removed := PerformSimple(Remove([other]));
      undos := undos + [removed.value];
    }

    /** The inner loop of `MergeAction.perform`: each child moved under `target` through
        `ChangeParentAction`, its undo collected. */
    method ReparentAll(children: seq<Id>, target: Id) returns (undos: seq<Action>)
      requires target in world.nodes && forall c :: c in children ==> c in world.nodes
      modifies this
      ensures world == Reparented(old(world), children, target).world
      ensures undos == Reparented(old(world), children, target).undos
      ensures hooks == old(hooks) + Reparented(old(world), children, target).hooks
      ensures undoStack == old(undoStack)
      ensures scrollOffset == old(scrollOffset) && viewportRecalculations == old(viewportRecalculations)
    {
      undos := [];
      ghost var w0 := world;
      for c := 0 to |children|
        invariant forall x :: x in children[..c] ==> x in w0.nodes
        invariant world == Reparented(w0, children[..c], target).world
        invariant undos == Reparented(w0, children[..c], target).undos
        invariant hooks == old(hooks) + Reparented(w0, children[..c], target).hooks
        invariant undoStack == old(undoStack)
        invariant scrollOffset == old(scrollOffset) && viewportRecalculations == old(viewportRecalculations)
      {
        ghost var p := Reparented(w0, children[..c], target);
        ReparentedSplit(w0, children, target, c);
        AppendAssoc(old(hooks), p.hooks, ChangeParentPerform(world, children[c], Some(target)).hooks);
        var u := PerformSimple(ChangeParent(children[c], Some(target)));
        undos := undos + [u.value];
      }
      PrefixAll(children);
    }

    /** `NodeCleanupAction.perform`: the sorted vertices, the nested marking loop, and one
        `RemoveAction` of the marked nodes through `performAction(action, false)`. */
    method PerformNodeCleanup(root: Id, typeId: Option<string>) returns (undo: Option<Action>)
      modifies this
      ensures world == NodeCleanupPerform(old(world), root, typeId).world
      ensures undo == NodeCleanupPerform(old(world), root, typeId).undo
      ensures hooks == old(hooks) + NodeCleanupPerform(old(world), root, typeId).hooks
      ensures undoStack == old(undoStack)
      ensures scrollOffset == old(scrollOffset) && viewportRecalculations == old(viewportRecalculations)
    {
      if typeId.None? {
        undo := None;
      } else {
        var vertices := Cleanup.SortedVertices(world, root, typeId.value);
        var toRemove := Cleanup.MarkForRemoval(vertices);
        undo := PerformSimple(Remove(toRemove));
      }
    }

    /** `DrawPathAction.perform`: the root inserted when there is no parent, then the
        `placeEachVertex` loop over the sorted vertices, then the undo, with the parent's
        cleanup first under `fullCalculation`. */
    method PerformDrawPath(a: Action) returns (undo: Option<Action>)
      requires a.DrawPath? && Performable(world.nodes.Keys, a)
      modifies this
      ensures world == DrawPathPerform(old(world), a).world && undo == DrawPathPerform(old(world), a).undo
      ensures hooks == old(hooks) + DrawPathPerform(old(world), a).hooks
      ensures undoStack == old(undoStack)
      ensures scrollOffset == old(scrollOffset) && viewportRecalculations == old(viewportRecalculations)
    {
      var pathOnMap := PathOnMap(a);
      var placedNodes, parent := SettleParent(a, Paths.Center(pathOnMap));
      ghost var s0 := Placement(world, placedNodes, []);
      var vertices := SortedPathVertices(pathOnMap);
      placedNodes := PlaceEachVertex(s0, placedNodes, vertices, a.radius, a.nodeType, parent);
      var undoAction := Remove(placedNodes);
      if a.fullCalculation {
        var undoCleanup := PerformNodeCleanup(parent, Some(a.nodeType));
        undo := Some(Bulk([undoCleanup.value, undoAction]));
      } else {
        undo := Some(undoAction);
      }
    }

    /** The parent of the placed nodes: the one given, or else a new node of radius 0 at the
        path's centre, which counts as placed. */
    method SettleParent(a: Action, center: Vector3) returns (placedNodes: seq<Id>, parent: Id)
      requires a.DrawPath? && (a.parent.Some? ==> a.parent.value in world.nodes)
      modifies this
      ensures (Placement(world, placedNodes, []), parent) == WithParent(old(world), a, center)
      ensures hooks == old(hooks) && undoStack == old(undoStack)
      ensures scrollOffset == old(scrollOffset) && viewportRecalculations == old(viewportRecalculations)
    {
      if a.parent.None? {
        var (w', id) := InsertNode(world, center, a.nodeType, 0.0, None);
        world := w';
        parent := id;
        placedNodes := [id];
      } else {
        parent := a.parent.value;
        placedNodes := [];
      }
    }

    /** `placeEachVertex`: a node of the brush's radius for every vertex not near one placed
        already, each child of `parent`. */
    method PlaceEachVertex(ghost s0: Placement, placed: seq<Id>, vertices: seq<Vector3>, radius: real, nodeType: string, parent: Id)
      returns (placedNodes: seq<Id>)
      requires world == s0.world && s0.placed == placed && s0.points == []
      modifies this
      ensures var s := Placed(s0, vertices, |vertices|, radius, nodeType, parent);
        world == s.world && placedNodes == s.placed
      ensures hooks == old(hooks) && undoStack == old(undoStack)
      ensures scrollOffset == old(scrollOffset) && viewportRecalculations == old(viewportRecalculations)
    {
      placedNodes := placed;
      var placedVertices: seq<Vector3> := [];
      for i := 0 to |vertices|
        invariant Placement(world, placedNodes, placedVertices) == Placed(s0, vertices, i, radius, nodeType, parent)
        invariant hooks == old(hooks) && undoStack == old(undoStack)
        invariant scrollOffset == old(scrollOffset) && viewportRecalculations == old(viewportRecalculations)
      {
        var vertex := vertices[i];
        var near := NearAny(placedVertices, vertex, radius);
        if !near && radius > 0.0 {
          var (w', id) := InsertNode(world, vertex, nodeType, radius, Some(parent));
          world := w';
          placedNodes := placedNodes + [id];
          placedVertices := placedVertices + [vertex];
        }
      }
    }

    /** The inner loop of `placeEachVertex`: whether a placed vertex lies near `vertex`. */
    static method NearAny(placed: seq<Vector3>, vertex: Vector3, radius: real) returns (near: bool)
      ensures near == NearPlaced(placed, vertex, radius)
    {
      for j := 0 to |placed|
        invariant forall k :: 0 <= k < j ==> !Cleanup.Closer(placed[k], vertex, (radius + radius) / 4.0)
      {
        if Cleanup.Closer(placed[j], vertex, (radius + radius) / 4.0) {
          return true;
        }
      }
      near := false;
    }
  }

  /** A run of actions after some of them: the undos and hooks so far before the rest's. */
  function Joined(undos: seq<Action>, hooks: seq<Hook>, rest: Run): Run
  {
    Run(rest.world, undos + rest.undos, hooks + rest.hooks, rest.threw)
  }

  /** A possible merge has a first valid ref. */
  lemma MergeHasTarget(w: World, refs: seq<Id>)
    requires Possible(w, refs)
    ensures |ValidRefs(w, refs)| > 0 && ValidRefs(w, refs)[0] in w.nodes
  {
    MergeLaws.PossibleMeans(w, refs);
    assert ValidRefs(w, refs)[0] in ValidRefs(w, refs);
  }

  /** Hooks called one batch after another. */
  lemma AppendAssoc<T>(a: seq<T>, b: seq<T>, c: seq<T>)
    ensures (a + b) + c == a + (b + c)
  {
  }

  /** The merge loop after `k` other nodes. */
  ghost predicate MergeSoFar(w: World, others: seq<Id>, target: Id, k: nat, p: Progress)
  {
    k <= |others| && target in w.nodes && MergedInto(w, others[..k], target) == p
  }

  lemma MergedIntoSplit(w: World, others: seq<Id>, target: Id, k: nat)
    requires k < |others| && target in w.nodes
    ensures var p := MergedInto(w, others[..k], target);
      var s := MergeStep(p.world, others[k], target);
      MergedInto(w, others[..k + 1], target) == Progress(s.world, p.undos + s.undos, p.hooks + s.hooks)
  {
    PrefixLast(others, k);
  }

  lemma ReparentedSplit(w: World, children: seq<Id>, target: Id, k: nat)
    requires k < |children| && target in w.nodes && forall c :: c in children ==> c in w.nodes
    ensures forall x :: x in children[..k] ==> x in w.nodes
    ensures forall x :: x in children[..k + 1] ==> x in w.nodes
    ensures var p := Reparented(w, children[..k], target);
      var o := ChangeParentPerform(p.world, children[k], Some(target));
      Reparented(w, children[..k + 1], target) == Progress(o.world, p.undos + [o.undo.value], p.hooks + o.hooks)
  {
    PrefixLast(children, k);
  }

  lemma MergedIntoDone(w: World, others: seq<Id>, target: Id, p: Progress)
    requires MergeSoFar(w, others, target, |others|, p)
    ensures MergedInto(w, others, target) == p
  {
    PrefixAll(others);
  }

  /** The bulk loop after `i` actions: the rest of the list, performed from where the loop
      stands, completes the run of the whole list. */
  ghost predicate EachSoFar(w: World, xs: seq<Action>, i: nat, r: Run)
  {
    i <= |xs| &&
    (forall j :: 0 <= j < |xs| ==> Performable(w.nodes.Keys, xs[j])) &&
    (forall j :: 0 <= j < |xs| ==> Performable(r.world.nodes.Keys, xs[j])) &&
    PerformList(w, xs) == if r.threw then r else Joined(r.undos, r.hooks, PerformList(r.world, xs[i..]))
  }

  lemma EachStart(w: World, xs: seq<Action>)
    requires forall j :: 0 <= j < |xs| ==> Performable(w.nodes.Keys, xs[j])
    ensures EachSoFar(w, xs, 0, Run(w, [], [], false))
  {
    assert xs[0..] == xs;
  }

  lemma EachStep(w: World, xs: seq<Action>, i: nat, r: Run, o: Outcome)
    requires i < |xs| && EachSoFar(w, xs, i, r) && !r.threw
    requires o == Perform(r.world, xs[i])
    ensures forall j :: 0 <= j < |xs| ==> Performable(o.world.nodes.Keys, xs[j])
    ensures EachSoFar(w, xs, i + 1,
      if o.undo.None? then Run(o.world, r.undos, r.hooks + o.hooks, true)
      else Run(o.world, r.undos + [o.undo.value], r.hooks + o.hooks, false))
  {
    PerformableGrowsAll(r.world.nodes.Keys, o.world.nodes.Keys, xs);
    BulkStep(r.world, xs, i, o);
    if o.undo.Some? {
      var rest := PerformList(o.world, xs[i + 1..]);
      AppendAssoc(r.undos, [o.undo.value], rest.undos);
      AppendAssoc(r.hooks, o.hooks, rest.hooks);
    }
  }

  lemma EachDone(w: World, xs: seq<Action>, i: nat, r: Run)
    requires EachSoFar(w, xs, i, r) && (i == |xs| || r.threw)
    ensures PerformList(w, xs) == r
  {
    if !r.threw {
      assert xs[i..] == [];
    }
  }

  /** One turn of the bulk loop: the first action of the rest performed, then the others
      unless it threw. */
  lemma BulkStep(w: World, xs: seq<Action>, i: nat, o: Outcome)
    requires i < |xs| && forall j :: 0 <= j < |xs| ==> Performable(w.nodes.Keys, xs[j])
    requires o == Perform(w, xs[i])
    requires forall j :: 0 <= j < |xs| ==> Performable(o.world.nodes.Keys, xs[j])
    ensures PerformList(w, xs[i..]) ==
      if o.undo.None? then Run(o.world, [], o.hooks, true)
      else Joined([o.undo.value], o.hooks, PerformList(o.world, xs[i + 1..]))
  {
    var ys := xs[i..];
    assert ys[0] == xs[i] && ys[1..] == xs[i + 1..];
  }

  lemma MarkStep(w: World, ts: seq<TileKey>, i: nat)
    requires i < |ts|
    ensures MarkTiles(w, ts[..i + 1]) == MarkTiles(w, ts[..i]).(tiles := MarkTiles(w, ts[..i]).tiles + {ts[i]})
    ensures UnmarkTiles(w, ts[..i + 1]) == UnmarkTiles(w, ts[..i]).(tiles := UnmarkTiles(w, ts[..i]).tiles - {ts[i]})
  {
    assert ts[..i + 1] == ts[..i] + [ts[i]];
  }
}

=== FILE: delete_brush.dfy ===
/** `DeleteBrush` of mapper/brushes/delete_brush.js: along a stroke, each vertex removes the
    drawn nodes under the brush (Control held), the parents of the hovered selection (Shift
    held), or the hovered selection's origins; the stroke is one bulk removal. */
module DeleteBrushes {
  import opened Wrappers
  import opened Geometry
  import opened Worlds
  import opened Actions
  import Paths
  import Brushes
  import Contexts
  import Selections

  /** What the brush reads from the context besides the map: the ids `drawnNodes()` yields
      in order, `mapPointToCanvas`, whether Control and Shift are down, the parents and the
      origins of `hoverSelection`, and the node tree a new selection is updated from. */
  datatype Surroundings = Surroundings(
    drawn: seq<Id>, toCanvas: Vector3 -> Vector3, control: bool, shift: bool,
    hoverParents: set<Id>, hoverOrigins: set<Id>, tree: Selections.NodeView)

  /** The drawn nodes are nodes of the map. */
  predicate Drawn(w: World, s: Surroundings)
  {
    forall id :: id in s.drawn ==> id in w.nodes
  }

  /** The node lies under a brush of radius `radius` at `position`: its center, on the
      canvas, is no farther than the radius (compared squared), and its radius is positive. */
  predicate InBrush(w: World, toCanvas: Vector3 -> Vector3, position: Vector3, radius: real, id: Id)
    requires id in w.nodes
  {
    && toCanvas(w.nodes[id].center).Subtract(position).LengthSquared() <= Mul(radius, radius)
    && w.nodes[id].radius > 0.0
  }

  /** `getNodesInBrush`: the drawn nodes under the brush, in the order they are drawn. */
  function NodesInBrush(w: World, drawn: seq<Id>, toCanvas: Vector3 -> Vector3, position: Vector3, radius: real): (r: seq<Id>)
    requires forall id :: id in drawn ==> id in w.nodes
    ensures |r| <= |drawn|
    ensures forall id :: id in r <==> id in drawn && InBrush(w, toCanvas, position, radius, id)
  {
    if drawn == [] then []
    else
      var last := drawn[|drawn| - 1];
      assert drawn == drawn[..|drawn| - 1] + [last];
      NodesInBrush(w, drawn[..|drawn| - 1], toCanvas, position, radius)
        + (if InBrush(w, toCanvas, position, radius, last) then [last] else [])
  }

  /** The nodes removed at one vertex. */
  function TargetsAt(w: World, s: Surroundings, position: Vector3, radius: real): (r: set<Id>)
    requires Drawn(w, s)
    ensures s.control ==> forall id :: id in r <==> id in s.drawn && InBrush(w, s.toCanvas, position, radius, id)
    ensures !s.control && s.shift ==> r == s.hoverParents
    ensures !s.control && !s.shift ==> r == s.hoverOrigins
  {
    if s.control then set id | id in NodesInBrush(w, s.drawn, s.toCanvas, position, radius)
    else if s.shift then s.hoverParents
    else s.hoverOrigins
  }

  /** `a` is the removal `triggerAtPosition` answers at `position`: with Control, the nodes
      under the brush in drawing order; otherwise the nodes of a selection, each once, in an
      order the model leaves open. */
  predicate RemovesAt(w: World, s: Surroundings, position: Vector3, radius: real, a: Action)
    requires Drawn(w, s)
  {
    && a.Remove?
    && (set id | id in a.nodeRefs) == TargetsAt(w, s, position, radius)
    && (s.control ==> a.nodeRefs == NodesInBrush(w, s.drawn, s.toCanvas, position, radius))
    && (!s.control ==> |a.nodeRefs| == |TargetsAt(w, s, position, radius)|)
  }

  /** The nodes a stroke through `vs` removes. */
  function StrokeTargets(w: World, s: Surroundings, vs: seq<Vector3>, radius: real): (r: set<Id>)
    requires Drawn(w, s)
    ensures forall id :: id in r <==> exists i :: 0 <= i < |vs| && id in TargetsAt(w, s, vs[i], radius)
  {
    if vs == [] then {}
    else
      assert vs == vs[..|vs| - 1] + [vs[|vs| - 1]];
      StrokeTargets(w, s, vs[..|vs| - 1], radius) + TargetsAt(w, s, vs[|vs| - 1], radius)
  }

  /** Without Control, every vertex removes the same nodes, and so does the stroke. */
  lemma StrokeTargetsKeyed(w: World, s: Surroundings, vs: seq<Vector3>, radius: real)
    requires Drawn(w, s) && !s.control && vs != []
    ensures StrokeTargets(w, s, vs, radius) == if s.shift then s.hoverParents else s.hoverOrigins
  {
    assert TargetsAt(w, s, vs[0], radius) == if s.shift then s.hoverParents else s.hoverOrigins;
  }

  /** The ids some removal in `xs` lists. */
  function Listed(xs: seq<Action>): (r: set<Id>)
    requires forall i :: 0 <= i < |xs| ==> xs[i].Remove?
    ensures forall id :: id in r <==> exists i :: 0 <= i < |xs| && id in xs[i].nodeRefs
  {
    if xs == [] then {}
    else
      assert forall i :: 0 < i < |xs| ==> xs[1..][i - 1] == xs[i];
      (set id | id in xs[0].nodeRefs) + Listed(xs[1..])
  }

  /** Removing nodes marks the listed nodes removed, whether or not they were before. */
  lemma RemoveMarks(w: World, ids: seq<Id>)
    ensures RemovePerform(w, ids).world == SetNodesValid(w, set id | id in ids, false)
    ensures RemovePerform(w, ids).undo.Some? && RemovePerform(w, ids).undo.value.Unremove?
  {
    var w' := RemovePerform(w, ids).world;
    var m := SetNodesValid(w, set id | id in ids, false);
    forall id | id in w.nodes
      ensures w'.nodes[id] == m.nodes[id]
    {
      if id in ids && !w.nodes[id].valid {
        assert w.nodes[id].(valid := false) == w.nodes[id];
      }
    }
    assert w'.nodes == m.nodes;
  }

  /** Marking two sets removed, one after the other, marks their union. */
  lemma MarkTwice(w: World, a: set<Id>, b: set<Id>)
    ensures SetNodesValid(SetNodesValid(w, a, false), b, false) == SetNodesValid(w, a + b, false)
  {
    var l := SetNodesValid(SetNodesValid(w, a, false), b, false);
    var r := SetNodesValid(w, a + b, false);
    assert l.nodes == r.nodes;
  }

  /** A run of removals never throws: it marks every listed node removed and answers one
      unremoval per removal. */
  lemma {:induction false} RemovalsPerform(w: World, xs: seq<Action>)
    requires forall i :: 0 <= i < |xs| ==> xs[i].Remove?
    ensures forall i :: 0 <= i < |xs| ==> Performable(w.nodes.Keys, xs[i])
    ensures var r := PerformList(w, xs);
      && !r.threw && r.world == SetNodesValid(w, Listed(xs), false)
      && |r.undos| == |xs| && (forall i :: 0 <= i < |r.undos| ==> r.undos[i].Unremove?)
    decreases xs
  {
    if xs != [] {
      var ids := xs[0].nodeRefs;
      RemoveMarks(w, ids);
      var o := Perform(w, xs[0]);
      assert o == RemovePerform(w, ids);
      assert forall i :: 0 <= i < |xs[1..]| ==> xs[1..][i] == xs[i + 1];
      RemovalsPerform(o.world, xs[1..]);
      MarkTwice(w, (set id | id in ids), Listed(xs[1..]));
      var r := PerformList(o.world, xs[1..]);
      assert PerformList(w, xs).undos == [o.undo.value] + r.undos;
    }
  }

  /** A stroke of removals as one bulk action: it marks the listed nodes removed and answers
      a bulk of unremovals, one per removal. */
  lemma RemovalBulk(w: World, xs: seq<Action>)
    requires forall i :: 0 <= i < |xs| ==> xs[i].Remove?
    ensures Performable(w.nodes.Keys, Bulk(xs))
    ensures var o := Perform(w, Bulk(xs));
      && o.world == SetNodesValid(w, Listed(xs), false)
      && o.undo.Some? && o.undo.value.Bulk? && |o.undo.value.actions| == |xs|
      && (forall i :: 0 <= i < |xs| ==> o.undo.value.actions[i].Unremove?)
  {
    RemovalsPerform(w, xs);
  }

  /** The removals of a stroke list exactly the stroke's targets. */
  lemma {:induction false} ListedTargets(w: World, s: Surroundings, vs: seq<Vector3>, radius: real, xs: seq<Action>)
    requires Drawn(w, s) && |xs| == |vs|
    requires forall i :: 0 <= i < |xs| ==> RemovesAt(w, s, vs[i], radius, xs[i])
    ensures forall i :: 0 <= i < |xs| ==> xs[i].Remove?
    ensures Listed(xs) == StrokeTargets(w, s, vs, radius)
  {
    forall i | 0 <= i < |xs| ensures xs[i].Remove? {
      assert RemovesAt(w, s, vs[i], radius, xs[i]);
    }
    forall id
      ensures id in Listed(xs) <==> id in StrokeTargets(w, s, vs, radius)
    {
      if id in Listed(xs) {
        var i :| 0 <= i < |xs| && id in xs[i].nodeRefs;
        assert id in (set x | x in xs[i].nodeRefs);
      }
      if id in StrokeTargets(w, s, vs, radius) {
        var i :| 0 <= i < |vs| && id in TargetsAt(w, s, vs[i], radius);
        assert id in (set x | x in xs[i].nodeRefs);
      }
    }
  }

  /** `trigger(path)`, as written, is handed the draw event and not a path: `DrawEvent.trigger`
      passes itself. */
  datatype TriggerArgument = GivenDrawEvent(path: Paths.PathData, done: bool) | GivenPath(path: Paths.PathData)

  /** `path.vertices()` on the argument: a draw event has no `vertices`, so the call throws
      a `TypeError`. */
  function VerticesAsWritten(arg: TriggerArgument): (r: Option<seq<Vector3>>)
    ensures r.None? <==> arg.GivenDrawEvent?
    ensures arg.GivenPath? ==> r == Some(Paths.Vertices(arg.path))
  {
    match arg
    case GivenDrawEvent(_, _) => None
    case GivenPath(p) => Some(Paths.Vertices(p))
  }

  /** As written, every stroke of the delete brush throws before removing anything. */
  lemma TriggerAsWrittenThrows(path: Paths.PathData, done: bool)
    ensures VerticesAsWritten(GivenDrawEvent(path, done)) == None
  {
  }

  /** `triggerAtPosition` as written: `asyncFrom` (Control) and `Selection` (Shift) are not
      imported, so with either key down it throws a `ReferenceError`; otherwise it removes
      the hovered origins. */
  function TargetsAtAsWritten(s: Surroundings): (r: Option<set<Id>>)
    ensures r.None? <==> s.control || s.shift
    ensures r.Some? ==> r.value == s.hoverOrigins
  {
    if s.control || s.shift then None else Some(s.hoverOrigins)
  }

  /** With Control down, a stroke as written removes nothing, even when a drawn node lies
      right under the brush. */
  lemma ControlAsWrittenThrows(w: World, s: Surroundings, position: Vector3, radius: real, id: Id)
    requires Drawn(w, s) && s.control && id in s.drawn && InBrush(w, s.toCanvas, position, radius, id)
    ensures TargetsAtAsWritten(s).None? && id in TargetsAt(w, s, position, radius)
  {
  }

  class DeleteBrush {
    const brush: Brushes.Brush

    ghost predicate Valid()
      reads this, brush
    {
      brush.Valid()
    }

    constructor ()
      ensures fresh(brush) && Valid() && brush.size == 1
    {
      brush := new Brushes.Brush();
    }

    /** `getNodesInBrush(brushPosition)`. */
    method GetNodesInBrush(context: Contexts.Context, s: Surroundings, position: Vector3) returns (r: seq<Id>)
      requires Valid() && Drawn(context.world, s)
      ensures r == NodesInBrush(context.world, s.drawn, s.toCanvas, position, brush.Radius())
    {
      var radius := brush.Radius();
      r := [];
      for i := 0 to |s.drawn|
        invariant r == NodesInBrush(context.world, s.drawn[..i], s.toCanvas, position, radius)
      {
        var id := s.drawn[i];
        assert s.drawn[..i + 1][..i] == s.drawn[..i];
        if s.toCanvas(context.world.nodes[id].center).Subtract(position).LengthSquared() <= Mul(radius, radius)
          && context.world.nodes[id].radius > 0.0 {
          r := r + [id];
        }
      }
      Whole(s.drawn);
    }

    /** `triggerAtPosition(brushPosition)`: a removal of the nodes under the brush (Control),
        of the origins of a new selection of the hovered parents (Shift), or of the hovered
        origins. */
    method TriggerAtPosition(context: Contexts.Context, s: Surroundings, position: Vector3) returns (a: Action)
      requires Valid() && Drawn(context.world, s)
      ensures RemovesAt(context.world, s, position, brush.Radius(), a)
    {
      var toRemove: seq<Id>;
      if s.control {
        toRemove := GetNodesInBrush(context, s, position);
      } else {
        var origins: set<Id>;
        if s.shift {
          var parents := Selections.SetToSeq(s.hoverParents);
          var selection := Selections.Selection.FromNodeIds(parents, s.tree);
          origins := selection.originIds;
        } else {
          origins := s.hoverOrigins;
        }
        toRemove := Selections.SetToSeq(origins);
        assert (set id | id in toRemove) == origins;
      }
      a := Remove(toRemove);
    }

    /** `triggerOnPath(path)`: one removal per vertex of the path, in order, as one bulk
        action; the path is not bisected. */
    method TriggerOnPath(context: Contexts.Context, s: Surroundings, path: Paths.PathData) returns (a: Action)
      requires Valid() && Drawn(context.world, s)
      ensures a.Bulk? && |a.actions| == |Paths.Vertices(path)|
      ensures forall i :: 0 <= i < |a.actions| ==>
        RemovesAt(context.world, s, Paths.Vertices(path)[i], brush.Radius(), a.actions[i])
    {
      var vs := Paths.Vertices(path);
      var actions := [];
      for i := 0 to |vs|
        invariant |actions| == i
        invariant forall j :: 0 <= j < i ==> RemovesAt(context.world, s, vs[j], brush.Radius(), actions[j])
      {
        var x := TriggerAtPosition(context, s, vs[i]);
        actions := actions + [x];
      }
      a := Bulk(actions);
    }

    /** `trigger(path)`: the stroke's bulk removal performed, not put on the undo stack. Every
        node a vertex targets is marked removed and nothing else changes; the answer is a
        bulk of unremovals, one per vertex. */
    method Trigger(context: Contexts.Context, s: Surroundings, path: Paths.PathData) returns (undo: Option<Action>)
      requires Valid() && Drawn(context.world, s)
      modifies context
      ensures context.world == SetNodesValid(old(context.world),
        old(StrokeTargets(context.world, s, Paths.Vertices(path), brush.Radius())), false)
      ensures undo.Some? && undo.value.Bulk? && |undo.value.actions| == |Paths.Vertices(path)|
      ensures forall i :: 0 <= i < |undo.value.actions| ==> undo.value.actions[i].Unremove?
      ensures context.undoStack == old(context.undoStack) && context.scrollOffset == old(context.scrollOffset)
    {
      var a := TriggerOnPath(context, s, path);
      ListedTargets(context.world, s, Paths.Vertices(path), brush.Radius(), a.actions);
      RemovalBulk(context.world, a.actions);
      undo := context.PerformAction(a, false);
    }
  }

  lemma Whole<T>(s: seq<T>)
    ensures s[..|s|] == s
  {
  }
}

=== FILE: drag_events.dfy ===
/** The drag events of mapper/drag_events/ other than the draw event: a mouse drag as a
    growing path, the pan that scrolls the view along it, and the translation of nodes along
    it with its list of undo actions. (`DrawEvent` calls the active brush and the brushes
    create draw events, so it is declared with the brushes, in module `Drawing`.) */
module DragEvents {
  import opened Wrappers
  import opened Geometry
  import opened Worlds
  import opened Actions
  import opened Paths
  import ActionLaws
  import Contexts

  /** `getSelectionParent` on a hover selection whose origins are yielded as `origins`: none
      for an empty selection; otherwise, looking at the first origin only, its parent when it
      has a (valid) parent and no children, and the origin itself otherwise. */
  function SelectionParent(w: World, origins: seq<Id>): (r: Option<Id>)
    ensures r.None? <==> origins == []
    ensures r.Some? && r.value != origins[0] ==>
      r == GetParent(w, origins[0]) && IsValid(w, r.value) && !HasChildren(w, origins[0])
    ensures origins != [] && GetParent(w, origins[0]).Some? && !HasChildren(w, origins[0]) ==>
      r == GetParent(w, origins[0])
    ensures origins != [] && (GetParent(w, origins[0]).None? || HasChildren(w, origins[0])) ==>
      r == Some(origins[0])
  {
    if origins == [] then None
    else
      var parent := GetParent(w, origins[0]);
      if parent.Some? && !HasChildren(w, origins[0]) then parent else Some(origins[0])
  }

  /** Only the first origin counts: origins after it never change the answer. */
  lemma SelectionParentFirstOnly(w: World, origins: seq<Id>, more: seq<Id>)
    requires origins != []
    ensures SelectionParent(w, origins + more) == SelectionParent(w, origins[..1])
  {
    assert (origins + more)[0] == origins[..1][0];
  }

  /** `DragEvent`: the path of the drag, whether it has ended, and the hover selection the
      context had when it began (its origins, in the order `getOrigins` yields them). */
  class DragEvent {
    const path: Path
    var done: bool
    const hoverOrigins: seq<Id>

    /** The path is a chain of proper lines from its origin, as `next` keeps it. */
    ghost predicate Valid()
      reads path
    {
      WellFormed(path.Data())
    }

    constructor (startPoint: Vector3, hoverOrigins: seq<Id>)
      ensures fresh(path) && Valid()
      ensures path.Data() == Start(startPoint) && Vertices(path.Data()) == [startPoint]
      ensures !done && this.hoverOrigins == hoverOrigins
    {
      path := new Path(startPoint);
      done := false;
      this.hoverOrigins := hoverOrigins;
    }

    /** `next`: the point is added to the path unless it is the last vertex already; `done`
        is kept. */
    method Next(nextPoint: Vector3)
      requires Valid()
      modifies path
      ensures Valid() && path.Data() == Extended(old(path.Data()), nextPoint)
      ensures done == old(done)
    {
      path.Next(nextPoint);
    }

    /** `end`: the last point is added as by `next`, and the drag is done. */
    method End(endPoint: Vector3)
      requires Valid()
      modifies this, path
      ensures Valid() && path.Data() == Extended(old(path.Data()), endPoint)
      ensures done
    {
      Next(endPoint);
      done := true;
    }
  }

  /** Extending a path by its last vertex leaves it as it was. */
  lemma StaysAtLastVertex(p: PathData)
    requires WellFormed(p)
    ensures Extended(p, LastVertex(p)) == p
  {
    LastVertexIsLast(p);
    assert LastVertex(p).Subtract(p.origin) == p.at;
    assert p.at.Subtract(p.at) == Zero;
  }

  /** A pan moves the view against the mouse: the vector subtracted from the scroll offset
      is the step from the last vertex to the new point, and a point equal to the last
      vertex leaves the path as it was, so the previous last line (or the zero line) is
      subtracted again. */
  lemma PanStep(p: PathData, q: Vector3)
    requires WellFormed(p)
    ensures q != LastVertex(p) ==> LastLine(Extended(p, q)).Vector() == q.Subtract(LastVertex(p))
    ensures q == LastVertex(p) ==> LastLine(Extended(p, q)) == LastLine(p)
  {
    LastVertexIsLast(p);
    StaysAtLastVertex(p);
    if q != LastVertex(p) {
      var rel := q.Subtract(p.origin);
      assert p.at.Subtract(rel) != Zero;
    }
  }

  /** `PanEvent`: a drag that scrolls the view. */
  class PanEvent {
    const drag: DragEvent
    const context: Contexts.Context

    constructor (context: Contexts.Context, startPoint: Vector3, hoverOrigins: seq<Id>)
      ensures fresh(drag) && fresh(drag.path) && drag.Valid() && this.context == context
      ensures drag.path.Data() == Start(startPoint) && !drag.done
    {
      drag := new DragEvent(startPoint, hoverOrigins);
      this.context := context;
    }

    /** `next`: the path grows as in a drag, the scroll offset moves back by the last line of
        the path, and the tiles of the viewport are recalculated once. */
    method Next(nextPoint: Vector3)
      requires drag.Valid()
      modifies drag.path, context
      ensures drag.Valid() && drag.path.Data() == Extended(old(drag.path.Data()), nextPoint)
      ensures context.scrollOffset == old(context.scrollOffset).Subtract(LastLine(drag.path.Data()).Vector())
      ensures context.viewportRecalculations == old(context.viewportRecalculations) + 1
      ensures context.world == old(context.world) && context.undoStack == old(context.undoStack)
      ensures context.hooks == old(context.hooks)
    {
      drag.Next(nextPoint);
      context.scrollOffset := context.scrollOffset.Subtract(LastLine(drag.path.Data()).Vector());
      context.viewportRecalculations := context.viewportRecalculations + 1;
    }
  }

  /** The undo actions of the translations of `refs` by `offset`, in order: each translates
      its node back. */
  function UndoTranslations(refs: seq<Id>, offset: Vector3): (r: seq<Action>)
    ensures |r| == |refs|
    ensures forall i :: 0 <= i < |refs| ==> r[i] == Translate(refs[i], offset.MultiplyScalar(-1.0))
  {
    if refs == [] then []
    else UndoTranslations(refs[..|refs| - 1], offset) + [Translate(refs[|refs| - 1], offset.MultiplyScalar(-1.0))]
  }

  lemma UndoTranslationsStep(refs: seq<Id>, i: nat, offset: Vector3)
    requires i < |refs|
    ensures UndoTranslations(refs[..i + 1], offset)
      == UndoTranslations(refs[..i], offset) + [Translate(refs[i], offset.MultiplyScalar(-1.0))]
  {
    assert refs[..i + 1][..i] == refs[..i];
  }

  predicate Distinct(refs: seq<Id>)
  {
    forall i, j :: 0 <= i < j < |refs| ==> refs[i] != refs[j]
  }

  /** The map with the nodes `refs` moved by `offset` and nothing else changed. */
  function Moved(w: World, refs: seq<Id>, offset: Vector3): (r: World)
    ensures r.nodes.Keys == w.nodes.Keys && r.edges == w.edges && r.tiles == w.tiles && r.nextId == w.nextId
    ensures forall id :: id in w.nodes && id !in refs ==> r.nodes[id] == w.nodes[id]
    ensures forall id :: id in w.nodes && id in refs ==> r.nodes[id].center == w.nodes[id].center.Add(offset)
  {
    w.(nodes := map id | id in w.nodes :: if id in refs then w.nodes[id].(center := w.nodes[id].center.Add(offset)) else w.nodes[id])
  }

  /** One more distinct node translated is one more node moved. */
  lemma MoveStep(w: World, refs: seq<Id>, i: nat, offset: Vector3)
    requires i < |refs| && Distinct(refs) && refs[i] in w.nodes
    ensures refs[i] in Moved(w, refs[..i], offset).nodes
    ensures Moved(w, refs[..i + 1], offset) == TranslateNode(Moved(w, refs[..i], offset), refs[i], offset)
  {
    assert refs[i] !in refs[..i];
    assert forall id :: id in refs[..i + 1] <==> id in refs[..i] || id == refs[i] by {
      assert refs[..i + 1] == refs[..i] + [refs[i]];
    }
    var a := Moved(w, refs[..i + 1], offset);
    var b := TranslateNode(Moved(w, refs[..i], offset), refs[i], offset);
    assert a.nodes == b.nodes;
  }

  /** The undos collected so far, reversed and performed on `w`, lead back to `base`. */
  ghost predicate Restoring(w: World, undos: seq<Action>, base: World)
  {
    && (forall i :: 0 <= i < |undos| ==> Performable(w.nodes.Keys, Reversed(undos)[i]))
    && !PerformList(w, Reversed(undos)).threw
    && PerformList(w, Reversed(undos)).world == base
  }

  lemma ReversedSnoc(s: seq<Action>, u: Action)
    ensures Reversed(s + [u]) == [u] + Reversed(s)
  {
    var l := Reversed(s + [u]);
    var r := [u] + Reversed(s);
    assert |l| == |r|;
    forall i | 0 <= i < |l| ensures l[i] == r[i] {
      if i > 0 {
        assert (s + [u])[|s| - i] == s[|s| - 1 - (i - 1)];
      }
    }
  }

  /** Performing a reversible action keeps the undo list restoring: its undo, performed
      first, leads back to where the earlier undos start from. */
  lemma PushRestoring(w: World, a: Action, undos: seq<Action>, base: World)
    requires Performable(w.nodes.Keys, a) && ActionLaws.Reversible(w, a)
    requires Restoring(w, undos, base)
    ensures Perform(w, a).undo.Some?
    ensures Restoring(Perform(w, a).world, undos + [Perform(w, a).undo.value], base)
  {
    var o := Perform(w, a);
    ActionLaws.Restores(w, a);
    var u := o.undo.value;
    var rs := Reversed(undos);
    ReversedSnoc(undos, u);
    PerformableGrowsAll(w.nodes.Keys, o.world.nodes.Keys, rs);
    var xs := [u] + rs;
    assert xs[0] == u && xs[1..] == rs;
    assert forall i :: 0 <= i < |xs| ==> Performable(o.world.nodes.Keys, xs[i]);
    assert PerformList(o.world, xs).world == PerformList(w, rs).world;
  }

  /** A translation and its undo keep the undo list restoring. */
  lemma TranslateRestoring(w: World, nodeRef: Id, offset: Vector3, undos: seq<Action>, base: World)
    requires nodeRef in w.nodes && Restoring(w, undos, base)
    ensures Restoring(TranslateNode(w, nodeRef, offset), undos + [Translate(nodeRef, offset.MultiplyScalar(-1.0))], base)
  {
    PushRestoring(w, Translate(nodeRef, offset), undos, base);
    assert Perform(w, Translate(nodeRef, offset))
      == Outcome(TranslateNode(w, nodeRef, offset), Some(Translate(nodeRef, offset.MultiplyScalar(-1.0))), []);
  }

  /** Translating distinct nodes one after the other keeps the undo list restoring. */
  lemma {:induction false} MovedRestoring(w: World, refs: seq<Id>, offset: Vector3, undos: seq<Action>, base: World)
    requires Distinct(refs) && forall i :: 0 <= i < |refs| ==> refs[i] in w.nodes
    requires Restoring(w, undos, base)
    ensures Restoring(Moved(w, refs, offset), undos + UndoTranslations(refs, offset), base)
  {
    if refs == [] {
      assert Moved(w, refs, offset) == w;
      assert undos + UndoTranslations(refs, offset) == undos;
    } else {
      var init := refs[..|refs| - 1];
      assert Distinct(init);
      MovedRestoring(w, init, offset, undos, base);
      MovedRestoringStep(w, refs, offset, undos, base);
    }
  }

  /** The last turn of `MovedRestoring`. */
  lemma MovedRestoringStep(w: World, refs: seq<Id>, offset: Vector3, undos: seq<Action>, base: World)
    requires refs != [] && Distinct(refs) && forall i :: 0 <= i < |refs| ==> refs[i] in w.nodes
    requires Restoring(Moved(w, refs[..|refs| - 1], offset), undos + UndoTranslations(refs[..|refs| - 1], offset), base)
    ensures Restoring(Moved(w, refs, offset), undos + UndoTranslations(refs, offset), base)
  {
    var n := |refs| - 1;
    MoveLast(w, refs, offset);
    UndoLast(undos, refs, offset);
    TranslateRestoring(Moved(w, refs[..n], offset), refs[n], offset, undos + UndoTranslations(refs[..n], offset), base);
  }

  lemma MoveLast(w: World, refs: seq<Id>, offset: Vector3)
    requires refs != [] && Distinct(refs) && refs[|refs| - 1] in w.nodes
    ensures Moved(w, refs, offset) == TranslateNode(Moved(w, refs[..|refs| - 1], offset), refs[|refs| - 1], offset)
  {
    MoveStep(w, refs, |refs| - 1, offset);
    assert refs[..|refs|] == refs;
  }

  lemma UndoLast(undos: seq<Action>, refs: seq<Id>, offset: Vector3)
    requires refs != []
    ensures undos + UndoTranslations(refs, offset)
      == (undos + UndoTranslations(refs[..|refs| - 1], offset)) + [Translate(refs[|refs| - 1], offset.MultiplyScalar(-1.0))]
  {
  }

  /** One turn of the loop of `TranslateEvent.next`: the node is translated through the
      context, off the undo stack. */
  method TranslateOne(context: Contexts.Context, nodeRef: Id, offset: Vector3) returns (undo: Action)
    requires nodeRef in context.world.nodes
    modifies context
    ensures context.world == TranslateNode(old(context.world), nodeRef, offset)
    ensures undo == Translate(nodeRef, offset.MultiplyScalar(-1.0))
    ensures context.undoStack == old(context.undoStack) && context.scrollOffset == old(context.scrollOffset)
  {
    var u := context.PerformAction(Translate(nodeRef, offset), false);
    undo := u.value;
  }

  /** The loop of `TranslateEvent.next`: one `TranslateAction` per node ref, performed
      through the context without going on the undo stack, its undo appended to the list. */
  method TranslateAll(context: Contexts.Context, refs: seq<Id>, offset: Vector3, undos: seq<Action>)
      returns (undos': seq<Action>)
    requires Distinct(refs) && forall i :: 0 <= i < |refs| ==> refs[i] in context.world.nodes
    modifies context
    ensures context.world == Moved(old(context.world), refs, offset)
    ensures undos' == undos + UndoTranslations(refs, offset)
    ensures context.undoStack == old(context.undoStack) && context.scrollOffset == old(context.scrollOffset)
  {
    ghost var w0 := context.world;
    var added := [];
    var i := 0;
    while i < |refs|
      invariant 0 <= i <= |refs|
      invariant context.world == Moved(w0, refs[..i], offset)
      invariant added == UndoTranslations(refs[..i], offset)
      invariant context.undoStack == old(context.undoStack) && context.scrollOffset == old(context.scrollOffset)
    {
      MoveStep(w0, refs, i, offset);
      UndoTranslationsStep(refs, i, offset);
      var undo := TranslateOne(context, refs[i], offset);
      added := added + [undo];
      i := i + 1;
    }
    assert refs[..i] == refs;
    undos' := undos + added;
  }

  /** As written, a translation drag ended at its first step pushes an empty undo: performing
      it leaves the nodes where the drag moved them, not where they were. */
  lemma EndAsWrittenLeavesMoved(w: World, refs: seq<Id>, offset: Vector3)
    requires refs != [] && refs[0] in w.nodes && offset != Vector3(0.0, 0.0, 0.0)
    ensures Perform(Moved(w, refs, offset), Bulk(Reversed([]))).world == Moved(w, refs, offset)
    ensures Moved(w, refs, offset) != w
  {
    var c := w.nodes[refs[0]].center;
    assert Moved(w, refs, offset).nodes[refs[0]].center == c.Add(offset);
    assert c.Add(offset) != c;
    assert Reversed<Action>([]) == [];
  }

  /** `TranslateEvent`: a drag that moves the nodes `nodeRefs` along with the mouse. */
  class TranslateEvent {
    const drag: DragEvent
    const context: Contexts.Context
    const nodeRefs: seq<Id>
    var undoActions: seq<Action>
    /** The map when the undo list was last emptied. */
    ghost var base: World

    /** The node refs are distinct nodes of the map, and the undo list, reversed and
        performed, leads back to `base`. */
    ghost predicate Valid()
      reads this, drag, drag.path, context
    {
      && drag.Valid()
      && Distinct(nodeRefs)
      && (forall i :: 0 <= i < |nodeRefs| ==> nodeRefs[i] in context.world.nodes)
      && Restoring(context.world, undoActions, base)
    }

    /** The node refs come from the origins of a selection, a set. */
    constructor (context: Contexts.Context, startPoint: Vector3, hoverOrigins: seq<Id>, nodeRefs: seq<Id>)
      requires Distinct(nodeRefs) && forall i :: 0 <= i < |nodeRefs| ==> nodeRefs[i] in context.world.nodes
      ensures fresh(drag) && fresh(drag.path) && Valid()
      ensures this.context == context && this.nodeRefs == nodeRefs && undoActions == []
      ensures drag.path.Data() == Start(startPoint) && !drag.done && base == context.world
    {
      drag := new DragEvent(startPoint, hoverOrigins);
      this.context := context;
      this.nodeRefs := nodeRefs;
      undoActions := [];
      base := context.world;
    }

    /** `getUndoAction`: the undo list, drained and reversed, as one bulk action; performed on
        the map, it gives back the map of the last time the list was empty. */
    method GetUndoAction() returns (a: Action)
      requires Valid()
      modifies this
      ensures a == Bulk(Reversed(old(undoActions))) && undoActions == []
      ensures Performable(context.world.nodes.Keys, a) && Perform(context.world, a).world == old(base)
      ensures Valid() && base == context.world
    {
      a := Bulk(Reversed(undoActions));
      undoActions := [];
      base := context.world;
    }

    /** `next`: the path grows, and each node ref is moved by the vector of the last line of
        the path on the map (`canvasPathToMap`, given as `toMap`), one `TranslateAction` each,
        with one undo recorded each. */
    method Next(nextPoint: Vector3, toMap: PathData -> PathData)
      requires Valid()
      modifies this, drag.path, context
      ensures Valid() && drag.path.Data() == Extended(old(drag.path.Data()), nextPoint)
      ensures var offset := LastLine(toMap(drag.path.Data())).Vector();
        && context.world == Moved(old(context.world), nodeRefs, offset)
        && undoActions == old(undoActions) + UndoTranslations(nodeRefs, offset)
      ensures base == old(base)
      ensures context.undoStack == old(context.undoStack) && context.scrollOffset == old(context.scrollOffset)
    {
      drag.Next(nextPoint);
      var offset := LastLine(toMap(drag.path.Data())).Vector();
      MovedRestoring(context.world, nodeRefs, offset, undoActions, base);
      undoActions := TranslateAll(context, nodeRefs, offset, undoActions);
    }

    /** `end` as intended: `next` runs to completion, then the drained undo list goes on the
        undo stack; performed, it gives back the map of before the drag. */
    method End(endPoint: Vector3, toMap: PathData -> PathData)
      requires Valid()
      modifies this, drag.path, context
      ensures Valid() && drag.path.Data() == Extended(old(drag.path.Data()), endPoint)
      ensures undoActions == [] && base == context.world
      ensures var offset := LastLine(toMap(drag.path.Data())).Vector();
        context.world == Moved(old(context.world), nodeRefs, offset)
      ensures |context.undoStack| == |old(context.undoStack)| + 1
      ensures context.undoStack[..|old(context.undoStack)|] == old(context.undoStack)
      ensures var a := context.undoStack[|old(context.undoStack)|];
        Performable(context.world.nodes.Keys, a) && Perform(context.world, a).world == old(base)
    {
      Next(endPoint, toMap);
      var a := GetUndoAction();
      context.PushUndo(a);
      assert context.undoStack[|old(context.undoStack)|] == a;
    }

    /** `end` as written: `next` is not awaited, so `getUndoAction` drains the list while the
        last step's translations are still pending. The pushed undo holds only the undos of
        the earlier steps; the last step's undos land in the emptied list once its
        translations finish. */
    method EndAsWritten(endPoint: Vector3, toMap: PathData -> PathData)
      requires Valid()
      modifies this, drag.path, context
      ensures Valid() && drag.path.Data() == Extended(old(drag.path.Data()), endPoint)
      ensures var offset := LastLine(toMap(drag.path.Data())).Vector();
        && context.world == Moved(old(context.world), nodeRefs, offset)
        && undoActions == UndoTranslations(nodeRefs, offset)
      ensures base == old(context.world)
      ensures context.undoStack == old(context.undoStack) + [Bulk(Reversed(old(undoActions)))]
      ensures Perform(old(context.world), Bulk(Reversed(old(undoActions)))).world == old(base)
    {
      var a := GetUndoAction();
      context.PushUndo(a);
      Next(endPoint, toMap);
    }

    /** `cancel`: the drained undo list is performed, without going on the undo stack; the
        map is back to what it was when the list was last empty. */
    method Cancel()
      requires Valid()
      modifies this, context
      ensures Valid() && undoActions == []
      ensures context.world == old(base) && base == old(base)
      ensures context.undoStack == old(context.undoStack)
    {
      var a := GetUndoAction();
      var _ := context.PerformAction(a, false);
      base := context.world;
    }
  }
}

=== FILE: draw_event.dfy ===
/** `DrawEvent` of mapper/drag_events/draw_event.js: a drag that calls the active brush's
    `trigger` at every step, collects the undo actions the brush answers and, at the end,
    pushes them reversed as one bulk undo; and `activate` of the add, area and delete
    brushes, which start one. */
module Drawing {
  import opened Wrappers
  import opened Geometry
  import opened Worlds
  import opened Actions
  import opened Paths
  import Contexts
  import DragEvents
  import AddBrushes
  import AreaBrushes
  import DeleteBrushes

  /** The active brush, `context.brush`, with what its `trigger` reads from the context at
      that moment: for the area brush, whether Shift is down (removing) and the tile size;
      for the delete brush, its surroundings. */
  datatype Tool =
    | Adding(add: AddBrushes.AddBrush)
    | Marking(area: AreaBrushes.AreaBrush, removing: bool, tileSize: int)
    | Deleting(delete: DeleteBrushes.DeleteBrush, surroundings: DeleteBrushes.Surroundings)
  {
    /** The objects the brush's state lives in. */
    function Objects(): set<object>
    {
      match this
      case Adding(b) => {b, b.brush}
      case Marking(b, _, _) => {b, b.brush}
      case Deleting(b, _) => {b, b.brush}
    }

    /** The brush can be triggered on the map `w`: a valid size, a parent that is a node of
        the map, a positive tile size, drawn nodes that are nodes of the map. */
    ghost predicate Ready(w: World)
      reads Objects()
    {
      match this
      case Adding(b) => b.Valid() && (b.parentNode.Some? ==> b.parentNode.value in w.nodes)
      case Marking(b, _, t) => b.Valid() && t > 0
      case Deleting(b, s) => b.Valid() && DeleteBrushes.Drawn(w, s)
    }

    /** The brush has a valid size. */
    ghost predicate Valid()
      reads Objects()
    {
      match this
      case Adding(b) => b.Valid()
      case Marking(b, _, _) => b.Valid()
      case Deleting(b, _) => b.Valid()
    }

    /** What the brush's `trigger` reads of its own state and of the context. */
    ghost function Setting(): Setting
      requires Valid()
      reads Objects()
    {
      match this
      case Adding(b) => AddSetting(b.brush.Radius(), b.NodeType(), b.parentNode)
      case Marking(b, removing, t) => AreaSetting(b.brush.Radius(), removing, t)
      case Deleting(b, s) => DeleteSetting(b.brush.Radius(), s)
    }
  }

  /** The brush's radius, with, for the add brush, the type at its index and its parent; for
      the area brush, whether it removes and the tile size; for the delete brush, its
      surroundings. */
  datatype Setting =
    | AddSetting(radius: real, nodeType: Option<string>, parent: Option<Id>)
    | AreaSetting(radius: real, removing: bool, tileSize: int)
    | DeleteSetting(radius: real, surroundings: DeleteBrushes.Surroundings)

  /** The setting can be triggered on the map `w`. */
  predicate Fits(st: Setting, w: World)
  {
    match st
    case AddSetting(r, _, parent) => r > 0.0 && (parent.Some? ==> parent.value in w.nodes)
    case AreaSetting(r, _, t) => r > 0.0 && t > 0
    case DeleteSetting(_, s) => DeleteBrushes.Drawn(w, s)
  }

  /** `StrokeEffect`, stated for the one setting equal to `st`, so that a method which only
      passes it on does not expand the strokes it describes. */
  ghost predicate Triggered(st: Setting, w: World, offset: Vector3, path: PathData, done: bool, w': World, undo: Option<Action>)
    requires Fits(st, w)
  {
    forall k: Setting | k == st :: StrokeEffect(k, w, offset, path, done, w', undo)
  }

  /** What triggering the brush on the map `w`, at the scroll offset `offset`, with the draw
      event's path `path` and `done`, makes of the map (`w'`) and answers (`undo`), each brush
      on the most recent part of the path: the add brush draws it (fully calculated when
      `done`) with its radius, type and parent, or throws without a type; the area brush
      marks (or, removing, unmarks) the tiles its bisected vertices sweep; the delete brush
      marks removed the nodes its vertices target. */
  ghost predicate StrokeEffect(st: Setting, w: World, offset: Vector3, path: PathData, done: bool, w': World, undo: Option<Action>)
    requires Fits(st, w)
  {
    match st
    case AddSetting(r, nodeType, parent) => AddStroke(r, nodeType, parent, w, offset, MostRecent(path), done, w', undo)
    case AreaSetting(r, removing, t) => AreaStroke(r, removing, t, w, offset, MostRecent(path), w', undo)
    case DeleteSetting(r, s) => DeleteStroke(r, s, w, MostRecent(path), w', undo)
  }

  /** The add brush on `part`: without a type, it throws and the map stays as it was;
      otherwise the part is drawn, as one `DrawPathAction` at the offset, and its undo
      answered. */
  ghost predicate AddStroke(r: real, nodeType: Option<string>, parent: Option<Id>, w: World, offset: Vector3, part: PathData,
                       done: bool, w': World, undo: Option<Action>)
    requires r > 0.0 && (parent.Some? ==> parent.value in w.nodes)
  {
    if nodeType.None? then undo.None? && w' == w
    else
      var a := DrawPath(part, r, nodeType.value, parent, done, offset);
      w' == Perform(w, a).world && undo == Perform(w, a).undo && undo.Some?
  }

  /** The area brush on `part`: the tiles swept at its vertices, bisected at half the radius,
      are marked (or, removing, unmarked), nothing else changes, and the undo is a bulk of one
      action per vertex. */
  ghost predicate AreaStroke(r: real, removing: bool, t: int, w: World, offset: Vector3, part: PathData, w': World, undo: Option<Action>)
    requires r > 0.0 && t > 0
  {
    var xs := AreaBrushes.Stroke(AreaBrushes.PositionAction(w.tiles, t, offset, r, removing),
                                 Vertices(Bisected(part, AreaBrushes.Half(r))));
    && w' == w.(tiles := if removing then w.tiles - AreaBrushes.AllTiles(xs) else w.tiles + AreaBrushes.AllTiles(xs))
    && undo.Some? && undo.value.Bulk? && |undo.value.actions| == |xs|
  }

  /** The delete brush on `part`: the nodes its vertices target are marked removed, nothing
      else changes, and the undo is a bulk of one unremoval per vertex. */
  ghost predicate DeleteStroke(r: real, s: DeleteBrushes.Surroundings, w: World, part: PathData, w': World, undo: Option<Action>)
    requires DeleteBrushes.Drawn(w, s)
  {
    && w' == SetNodesValid(w, DeleteBrushes.StrokeTargets(w, s, Vertices(part), r), false)
    && undo.Some? && undo.value.Bulk? && |undo.value.actions| == |Vertices(part)|
    && (forall i :: 0 <= i < |undo.value.actions| ==> undo.value.actions[i].Unremove?)
  }

  /** The add brush triggered on the most recent part of `path`. */
  method TriggerAdding(context: Contexts.Context, tool: Tool, path: PathData, done: bool) returns (undo: Option<Action>)
    requires tool.Adding? && tool.Ready(context.world)
    modifies context
    ensures tool.Ready(context.world)
    ensures undo.None? <==> tool.Adding? && tool.add.NodeType().None?
    ensures undo.None? ==> context.world == old(context.world)
    ensures Triggered(tool.Setting(), old(context.world), old(context.scrollOffset), path, done, context.world, undo)
    ensures context.undoStack == old(context.undoStack) && context.scrollOffset == old(context.scrollOffset)
  {
    ghost var w, offset := context.world, context.scrollOffset;
    undo := tool.add.Trigger(context, MostRecent(path), done);
    assert StrokeEffect(tool.Setting(), w, offset, path, done, context.world, undo);
  }

  /** The area brush triggered on `path`, of which it takes the most recent part; `done` is
      not read. */
  method TriggerMarking(context: Contexts.Context, tool: Tool, path: PathData, done: bool) returns (undo: Option<Action>)
    requires tool.Marking? && tool.Ready(context.world)
    modifies context
    ensures tool.Ready(context.world)
    ensures undo.Some?
    ensures Triggered(tool.Setting(), old(context.world), old(context.scrollOffset), path, done, context.world, undo)
    ensures context.undoStack == old(context.undoStack) && context.scrollOffset == old(context.scrollOffset)
  {
    ghost var w, offset := context.world, context.scrollOffset;
    undo := Mark(context, tool.area, tool.removing, tool.tileSize, path);
    assert StrokeEffect(tool.Setting(), w, offset, path, done, context.world, undo);
  }

  /** The area brush `b` triggered on `path`. */
  method Mark(context: Contexts.Context, b: AreaBrushes.AreaBrush, removing: bool, t: int, path: PathData) returns (undo: Option<Action>)
    requires b.Valid() && t > 0
    modifies context
    ensures AreaStroke(b.brush.Radius(), removing, t, old(context.world), old(context.scrollOffset), MostRecent(path), context.world, undo)
    ensures context.undoStack == old(context.undoStack) && context.scrollOffset == old(context.scrollOffset)
  {
    undo := b.Trigger(context, path, removing, t);
  }

  /** The delete brush triggered on the most recent part of `path`; `done` is not read. */
  method TriggerDeleting(context: Contexts.Context, tool: Tool, path: PathData, done: bool) returns (undo: Option<Action>)
    requires tool.Deleting? && tool.Ready(context.world)
    modifies context
    ensures tool.Ready(context.world)
    ensures undo.Some?
    ensures Triggered(tool.Setting(), old(context.world), old(context.scrollOffset), path, done, context.world, undo)
    ensures context.undoStack == old(context.undoStack) && context.scrollOffset == old(context.scrollOffset)
  {
    ghost var w, offset := context.world, context.scrollOffset;
    undo := tool.delete.Trigger(context, tool.surroundings, MostRecent(path));
    assert StrokeEffect(tool.Setting(), w, offset, path, done, context.world, undo);
  }

  /** The arguments `DrawEvent.trigger` hands the brush, as written: the draw event alone. */
  function ArgumentsAsWritten(path: PathData, done: bool): (r: seq<DeleteBrushes.TriggerArgument>)
    ensures |r| == 1 && r[0].GivenDrawEvent? && r[0].path == path
  {
    [DeleteBrushes.GivenDrawEvent(path, done)]
  }

  /** `mouseDragEvent.done` in the add brush's `trigger(path, mouseDragEvent)`: the second
      argument's `done`, which throws a `TypeError` when there is no second argument. */
  function AddDoneAsWritten(args: seq<DeleteBrushes.TriggerArgument>): (r: Option<bool>)
    ensures r.Some? <==> |args| >= 2 && args[1].GivenDrawEvent?
    ensures r.Some? ==> r.value == args[1].done
  {
    if |args| >= 2 && args[1].GivenDrawEvent? then Some(args[1].done) else None
  }

  /** As written, a stroke of the add brush and a stroke of the delete brush both throw at
      their first step; only the area brush, which reads `drawEvent.path`, draws. */
  lemma TriggerAsWrittenThrows(path: PathData, done: bool)
    ensures AddDoneAsWritten(ArgumentsAsWritten(path, done)).None?
    ensures DeleteBrushes.VerticesAsWritten(ArgumentsAsWritten(path, done)[0]).None?
    ensures ArgumentsAsWritten(path, done)[0].path == path
  {
  }

  /** The draw event, with the states a brush may push (of type `S`). */
  class DrawEvent<S> {
    const drag: DragEvents.DragEvent
    const context: Contexts.Context
    var undoActions: seq<Action>
    var state: seq<S>

    constructor (context: Contexts.Context, startPoint: Vector3, hoverOrigins: seq<Id>)
      ensures fresh(drag) && fresh(drag.path) && drag.Valid() && this.context == context
      ensures drag.path.Data() == Start(startPoint) && !drag.done && drag.hoverOrigins == hoverOrigins
      ensures undoActions == [] && state == []
    {
      drag := new DragEvents.DragEvent(startPoint, hoverOrigins);
      this.context := context;
      undoActions := [];
      state := [];
    }

    /** `getFirstState`: none before any state is pushed. */
    function FirstState(): (r: Option<S>)
      reads this
      ensures r.None? <==> state == []
      ensures r.Some? ==> r.value == state[0]
    {
      if |state| > 0 then Some(state[0]) else None
    }

    /** `getLastState`: none before any state is pushed. */
    function LastState(): (r: Option<S>)
      reads this
      ensures r.None? <==> state == []
      ensures r.Some? ==> r.value == state[|state| - 1]
    {
      if |state| > 0 then Some(state[|state| - 1]) else None
    }

    /** `pushState`: the state becomes the last one, and the first one when there was
        none. */
    method PushState(s: S)
      modifies this
      ensures state == old(state) + [s] && undoActions == old(undoActions)
      ensures LastState() == Some(s)
      ensures FirstState() == if old(state) == [] then Some(s) else old(FirstState())
    {
      state := state + [s];
    }

    /** `getUndoAction`: the undo list, drained and reversed, as one bulk action. */
    method GetUndoAction() returns (a: Action)
      modifies this
      ensures a == Bulk(Reversed(old(undoActions))) && undoActions == [] && state == old(state)
    {
      a := Bulk(Reversed(undoActions));
      undoActions := [];
    }

    /** `trigger`: the active brush's `trigger` on this event, each brush reading what it
        needs from it: the add brush the most recent part of the path and `done`, the area
        brush the path (of which it takes the most recent part), the delete brush the most
        recent part of the path. Only the add brush, without a type at its index, throws
        (none). */
    method Trigger(tool: Tool) returns (undo: Option<Action>)
      requires drag.Valid() && tool.Ready(context.world)
      modifies context
      ensures tool.Ready(context.world)
      ensures undo.None? <==> tool.Adding? && tool.add.NodeType().None?
      ensures undo.None? ==> context.world == old(context.world)
      ensures Triggered(tool.Setting(), old(context.world), old(context.scrollOffset), drag.path.Data(), drag.done, context.world, undo)
      ensures context.undoStack == old(context.undoStack) && context.scrollOffset == old(context.scrollOffset)
    {
      var data := drag.path.Data();
      ghost var st := tool.Setting();
      if tool.Adding? {
        undo := TriggerAdding(context, tool, data, drag.done);
      } else if tool.Marking? {
        undo := TriggerMarking(context, tool, data, drag.done);
      } else {
        undo := TriggerDeleting(context, tool, data, drag.done);
      }
      assert tool.Setting() == st && drag.path.Data() == data;
    }

    /** `this.undoActions.push(await this.trigger())`: the brush is triggered and its undo
        appended; when the brush throws, nothing is appended. */
    method TriggerAndRecord(tool: Tool) returns (undo: Option<Action>)
      requires drag.Valid() && tool.Ready(context.world)
      modifies this, context
      ensures tool.Ready(context.world)
      ensures undoActions == old(undoActions) + (if undo.Some? then [undo.value] else [])
      ensures undo.None? <==> tool.Adding? && tool.add.NodeType().None?
      ensures Triggered(tool.Setting(), old(context.world), old(context.scrollOffset), drag.path.Data(), drag.done, context.world, undo)
      ensures state == old(state) && context.undoStack == old(context.undoStack)
      ensures context.scrollOffset == old(context.scrollOffset)
    {
      undo := Trigger(tool);
      undoActions := undoActions + if undo.Some? then [undo.value] else [];
    }

    /** `next`: the path grows, the brush is triggered and its undo is appended; when the
        brush throws, nothing is appended. */
    method Next(nextPoint: Vector3, tool: Tool) returns (undo: Option<Action>)
      requires drag.Valid() && tool.Ready(context.world)
      modifies this, drag.path, context
      ensures drag.Valid() && tool.Ready(context.world)
      ensures drag.path.Data() == Extended(old(drag.path.Data()), nextPoint) && drag.done == old(drag.done)
      ensures undoActions == old(undoActions) + (if undo.Some? then [undo.value] else [])
      ensures undo.None? <==> tool.Adding? && tool.add.NodeType().None?
      ensures Triggered(tool.Setting(), old(context.world), old(context.scrollOffset), drag.path.Data(), drag.done, context.world, undo)
      ensures state == old(state) && context.undoStack == old(context.undoStack)
      ensures context.scrollOffset == old(context.scrollOffset)
    {
      ghost var w, offset := context.world, context.scrollOffset;
      drag.Next(nextPoint);
      assert context.world == w && context.scrollOffset == offset;
      undo := TriggerAndRecord(tool);
    }

    /** `end`: the drag ends at the point, the brush is triggered one last time and its undo
        appended, and the drained undo list, reversed, goes on the undo stack as one bulk
        action. When the brush throws, the exception leaves the list where it was. */
    method End(endPoint: Vector3, tool: Tool) returns (undo: Option<Action>)
      requires drag.Valid() && tool.Ready(context.world)
      modifies this, drag, drag.path, context
      ensures drag.Valid() && tool.Ready(context.world)
      ensures drag.path.Data() == Extended(old(drag.path.Data()), endPoint) && drag.done
      ensures undo.None? <==> tool.Adding? && tool.add.NodeType().None?
      ensures undo.Some? ==>
        && undoActions == []
        && context.undoStack == old(context.undoStack) + [Bulk(Reversed(old(undoActions) + [undo.value]))]
      ensures undo.None? ==> undoActions == old(undoActions) && context.undoStack == old(context.undoStack)
      ensures Triggered(tool.Setting(), old(context.world), old(context.scrollOffset), drag.path.Data(), true, context.world, undo)
      ensures state == old(state) && context.scrollOffset == old(context.scrollOffset)
    {
      ghost var w, offset := context.world, context.scrollOffset;
      drag.End(endPoint);
      assert context.world == w && context.scrollOffset == offset;
      undo := TriggerAndRecord(tool);
      if undo.Some? {
        var a := GetUndoAction();
        context.PushUndo(a);
      }
    }

    /** `cancel`: the drag ends at its last vertex, so the path stays as it was. */
    method Cancel(tool: Tool) returns (undo: Option<Action>)
      requires drag.Valid() && tool.Ready(context.world)
      modifies this, drag, drag.path, context
      ensures drag.Valid() && drag.path.Data() == old(drag.path.Data()) && drag.done
      ensures undo.Some? ==>
        && undoActions == []
        && context.undoStack == old(context.undoStack) + [Bulk(Reversed(old(undoActions) + [undo.value]))]
      ensures undo.None? ==> undoActions == old(undoActions) && context.undoStack == old(context.undoStack)
      ensures Triggered(tool.Setting(), old(context.world), old(context.scrollOffset), old(drag.path.Data()), true, context.world, undo)
    {
      DragEvents.StaysAtLastVertex(drag.path.Data());
      undo := End(LastVertex(drag.path.Data()), tool);
    }
  }

  /** `activate(where)` of the active brush: a new draw event at `where` (`whereOnMap` on the
      map). The add brush also chooses the parent of what it draws from the event's
      selection parent, and answers no event (`ok` false) when it has no type at its index. */
  method Activate<S>(context: Contexts.Context, tool: Tool, where: Vector3, whereOnMap: Vector3, hoverOrigins: seq<Id>)
      returns (e: DrawEvent<S>, ok: bool)
    requires tool.Ready(context.world)
    requires forall id :: id in hoverOrigins ==> id in context.world.nodes
    modifies context, if tool.Adding? then {tool.add} else {}
    ensures fresh(e) && fresh(e.drag) && fresh(e.drag.path) && e.drag.Valid() && e.context == context
    ensures e.drag.path.Data() == Start(where) && !e.drag.done && e.undoActions == [] && e.state == []
    ensures tool.Ready(context.world)
    ensures ok <==> !tool.Adding? || tool.add.NodeType().Some?
    ensures tool.Adding? && ok ==>
      var parent := DragEvents.SelectionParent(old(context.world), hoverOrigins);
      match AddBrushes.ChooseParent(old(context.world), parent, tool.add.NodeType().value)
      case Reuse(id) =>
        tool.add.parentNode == Some(id) && tool.add.undoParent == Some(false) && context.world == old(context.world)
      case Insert =>
        var (w, id) := InsertNode(old(context.world), whereOnMap, tool.add.NodeType().value, 0.0, None);
        tool.add.undoParent == Some(true) && tool.add.parentNode == Some(id) && context.world == w
    ensures !ok || !tool.Adding? ==> context.world == old(context.world)
    ensures context.undoStack == old(context.undoStack)
  {
    e := new DrawEvent<S>(context, where, hoverOrigins);
    ok := true;
    if tool.Adding? {
      var parent := DragEvents.SelectionParent(context.world, hoverOrigins);
      ok := tool.add.ChooseParentNode(context, parent, whereOnMap);
    }
  }
}

=== FILE: draw_path_laws.dfy ===
/** What `DrawPathAction` (mapper/actions/draw_path_action.js:3-63) places on the map: one
    node per vertex of the bisected path that is not already near a placed one, all of them
    fresh nodes under the parent, spaced apart and together near every vertex; its undo
    removes exactly the nodes it placed. */
module DrawPathLaws {
  import opened Wrappers
  import opened Geometry
  import opened Worlds
  import opened Actions
  import Cleanup
  import Sorting

  /** No two placed points are nearer than a quarter of two radii. */
  predicate Spaced(points: seq<Vector3>, radius: real)
  {
    forall i, j :: 0 <= i < j < |points| ==> !Cleanup.Closer(points[i], points[j], (radius + radius) / 4.0)
  }

  /** From `s` to `t`, `k` nodes were placed: fresh, valid, of the node type, of the radius
      and under the parent, each centred on its point, with the ids handed out in order; the
      nodes that were there stay as they were. */
  ghost predicate FreshFrom(s: Placement, t: Placement, radius: real, nodeType: string, parent: Id)
  {
    var k := t.world.nextId - s.world.nextId;
    && k >= 0
    && |t.placed| == |s.placed| + k && |t.points| == |s.points| + k
    && t.placed[..|s.placed|] == s.placed && t.points[..|s.points|] == s.points
    && t.world.edges == s.world.edges && t.world.tiles == s.world.tiles
    && (forall id :: id in t.world.nodes <==> id in s.world.nodes || s.world.nextId <= id < t.world.nextId)
    && (forall id :: id in s.world.nodes && id < s.world.nextId ==> t.world.nodes[id] == s.world.nodes[id])
    && (forall j :: |s.placed| <= j < |t.placed| ==> t.placed[j] == s.world.nextId + (j - |s.placed|))
    && (forall id :: s.world.nextId <= id < t.world.nextId ==>
          var v := t.points[|s.points| + (id - s.world.nextId)];
          t.world.nodes[id] == NodeRec(true, Some(parent), nodeType, None, v, v, radius))
  }

  /** The nodes the loop places are fresh, valid, of the node type, of the radius and under the
      parent, each centred on a vertex it visited, with the ids handed out in order; the nodes
      that were there stay as they were. */
  lemma {:induction false} PlacedFresh(s: Placement, vs: seq<Vector3>, n: nat, radius: real, nodeType: string, parent: Id)
    requires n <= |vs|
    ensures FreshFrom(s, Placed(s, vs, n, radius, nodeType, parent), radius, nodeType, parent)
  {
    if n == 0 {
      assert s.placed[..|s.placed|] == s.placed && s.points[..|s.points|] == s.points;
    } else {
      PlacedFresh(s, vs, n - 1, radius, nodeType, parent);
      FreshStep(s, Placed(s, vs, n - 1, radius, nodeType, parent), vs[n - 1], radius, nodeType, parent);
    }
  }

  /** Every point placed is one of the vertices visited. */
  lemma {:induction false} PlacedOnVertices(s: Placement, vs: seq<Vector3>, n: nat, radius: real, nodeType: string, parent: Id)
    requires n <= |vs|
    ensures var t := Placed(s, vs, n, radius, nodeType, parent);
      |s.points| <= |t.points| && t.points[..|s.points|] == s.points &&
      forall j :: |s.points| <= j < |t.points| ==> t.points[j] in vs[..n]
  {
    if n > 0 {
      PlacedOnVertices(s, vs, n - 1, radius, nodeType, parent);
      var p := Placed(s, vs, n - 1, radius, nodeType, parent);
      var t := Placed(s, vs, n, radius, nodeType, parent);
      assert vs[..n] == vs[..n - 1] + [vs[n - 1]];
      if t.points != p.points {
        assert t.points == p.points + [vs[n - 1]];
        assert t.points[..|s.points|] == p.points[..|s.points|];
        forall j | |s.points| <= j < |t.points| ensures t.points[j] in vs[..n] {
          if j < |p.points| {
            assert t.points[j] == p.points[j];
          }
        }
      }
    }
  }

  lemma FreshStep(s: Placement, p: Placement, v: Vector3, radius: real, nodeType: string, parent: Id)
    requires FreshFrom(s, p, radius, nodeType, parent)
    ensures FreshFrom(s, PlaceStep(p, v, radius, nodeType, parent), radius, nodeType, parent)
  {
    if !NearPlaced(p.points, v, radius) && radius > 0.0 {
      var t := PlaceStep(p, v, radius, nodeType, parent);
      assert t.placed == p.placed + [p.world.nextId] && t.points == p.points + [v];
      assert t.world.nodes == p.world.nodes[p.world.nextId := NodeRec(true, Some(parent), nodeType, None, v, v, radius)];
      assert t.placed[..|s.placed|] == p.placed[..|s.placed|];
      assert t.points[..|s.points|] == p.points[..|s.points|];
    }
  }

  /** The placed points stay spaced: a vertex near a placed point is skipped. */
  lemma {:induction false} PlacedSpaced(s: Placement, vs: seq<Vector3>, n: nat, radius: real, nodeType: string, parent: Id)
    requires n <= |vs| && Spaced(s.points, radius)
    ensures Spaced(Placed(s, vs, n, radius, nodeType, parent).points, radius)
  {
    if n > 0 {
      PlacedSpaced(s, vs, n - 1, radius, nodeType, parent);
      var p := Placed(s, vs, n - 1, radius, nodeType, parent);
      var v := vs[n - 1];
      if !NearPlaced(p.points, v, radius) && radius > 0.0 {
        var ps := p.points + [v];
        forall i, j | 0 <= i < j < |ps| ensures !Cleanup.Closer(ps[i], ps[j], (radius + radius) / 4.0) {
          if j == |p.points| {
            assert ps[i] == p.points[i];
          } else {
            assert ps[i] == p.points[i] && ps[j] == p.points[j];
          }
        }
      }
    }
  }

  lemma NearPlacedGrows(points: seq<Vector3>, v: Vector3, u: Vector3, radius: real)
    requires NearPlaced(points, u, radius)
    ensures NearPlaced(points + [v], u, radius)
  {
    var i :| 0 <= i < |points| && Cleanup.Closer(points[i], u, (radius + radius) / 4.0);
    assert (points + [v])[i] == points[i];
  }

  /** With a positive radius, every visited vertex lies near a placed point: it was skipped
      for being near one, or placed itself. */
  lemma {:induction false} PlacedCovers(s: Placement, vs: seq<Vector3>, n: nat, radius: real, nodeType: string, parent: Id)
    requires n <= |vs| && radius > 0.0
    ensures var t := Placed(s, vs, n, radius, nodeType, parent);
      forall k :: 0 <= k < n ==> NearPlaced(t.points, vs[k], radius)
  {
    if n > 0 {
      PlacedCovers(s, vs, n - 1, radius, nodeType, parent);
      var p := Placed(s, vs, n - 1, radius, nodeType, parent);
      var v := vs[n - 1];
      if !NearPlaced(p.points, v, radius) {
        var ps := p.points + [v];
        var bound := (radius + radius) / 4.0;
        Positive(bound, bound);
        assert v.Subtract(v) == Zero;
        assert Cleanup.Closer(ps[|p.points|], v, bound);
        forall k | 0 <= k < n - 1 ensures NearPlaced(ps, vs[k], radius) {
          NearPlacedGrows(p.points, v, vs[k], radius);
        }
      }
    }
  }

  /** Without a positive radius the loop places nothing. */
  lemma {:induction false} PlacedNothing(s: Placement, vs: seq<Vector3>, n: nat, radius: real, nodeType: string, parent: Id)
    requires n <= |vs| && radius <= 0.0
    ensures Placed(s, vs, n, radius, nodeType, parent) == s
  {
    if n > 0 {
      PlacedNothing(s, vs, n - 1, radius, nodeType, parent);
    }
  }

  /** The parent the nodes go under: the given one, or else the root node created first. */
  function ParentOf(w: World, a: Action): Id
    requires a.DrawPath?
  {
    if a.parent.Some? then a.parent.value else w.nextId
  }

  /** The placement before the loop: nothing placed yet but the root, if one was created. */
  ghost predicate StartMeans(w: World, a: Action, s0: Placement, pid: Id)
    requires a.DrawPath? && (a.radius > 0.0 || a.path.lines == [])
  {
    var c := Paths.Center(PathOnMap(a));
    && pid == ParentOf(w, a) && s0.points == []
    && s0.world.nextId == (if a.parent.Some? then w.nextId else w.nextId + 1)
    && s0.placed == (if a.parent.Some? then [] else [w.nextId])
    && s0.world.edges == w.edges && s0.world.tiles == w.tiles
    && (forall id :: id in s0.world.nodes <==> id in w.nodes || w.nextId <= id < s0.world.nextId)
    && (forall id :: id in w.nodes ==> s0.world.nodes[id] == w.nodes[id])
    && (a.parent.None? ==> pid in s0.world.nodes && s0.world.nodes[pid] == NodeRec(true, None, a.nodeType, None, c, c, 0.0))
  }

  lemma PlacementStart(w: World, a: Action)
    requires Good(w) && a.DrawPath? && Performable(w.nodes.Keys, a)
    ensures var r := WithParent(w, a, Paths.Center(PathOnMap(a)));
      StartMeans(w, a, r.0, r.1)
  {
  }

  /** The map the placement leaves: the nodes that were there as they were, and every node
      from `nextId` on new: the root, if one was created, and the placed nodes, each centred
      on a vertex, valid, of the node type and radius, under the parent. The nodes to remove
      on undo are exactly the new ones. */
  lemma PlacementFactsFor(w: World, a: Action, vs: seq<Vector3>)
    requires Good(w) && a.DrawPath? && Performable(w.nodes.Keys, a)
    ensures var start := WithParent(w, a, Paths.Center(PathOnMap(a)));
      var s := Placed(start.0, vs, |vs|, a.radius, a.nodeType, start.1);
      PlacementMeans(w, a, s.world, s.placed, start.1)
  {
    var start := WithParent(w, a, Paths.Center(PathOnMap(a)));
    PlacementStart(w, a);
    PlacedFresh(start.0, vs, |vs|, a.radius, a.nodeType, start.1);
    ComposePlacement(w, a, start.0, Placed(start.0, vs, |vs|, a.radius, a.nodeType, start.1), start.1);
  }

  /** What the placement leaves, as `PlacementFactsFor` states it. */
  ghost predicate PlacementMeans(w: World, a: Action, m: World, placed: seq<Id>, pid: Id)
    requires a.DrawPath? && (a.radius > 0.0 || a.path.lines == [])
  {
    var c := Paths.Center(PathOnMap(a));
    && pid == ParentOf(w, a)
    && m.nextId >= w.nextId
    && (forall id :: id in placed <==> w.nextId <= id < m.nextId)
    && (forall id :: id in m.nodes <==> id in w.nodes || w.nextId <= id < m.nextId)
    && (forall id :: id in w.nodes ==> m.nodes[id] == w.nodes[id])
    && m.edges == w.edges && m.tiles == w.tiles
    && (a.parent.None? ==> pid in m.nodes && m.nodes[pid] == NodeRec(true, None, a.nodeType, None, c, c, 0.0))
    && (forall id :: w.nextId <= id < m.nextId && id != pid ==>
          var n := m.nodes[id];
          n == NodeRec(true, Some(pid), a.nodeType, None, n.center, n.center, a.radius))
  }

  lemma ComposePlacement(w: World, a: Action, s0: Placement, s: Placement, pid: Id)
    requires Good(w) && a.DrawPath? && Performable(w.nodes.Keys, a)
    requires StartMeans(w, a, s0, pid)
    requires FreshFrom(s0, s, a.radius, a.nodeType, pid)
    ensures PlacementMeans(w, a, s.world, s.placed, pid)
  {
    forall id ensures id in s.placed <==> w.nextId <= id < s.world.nextId {
      if w.nextId <= id < s.world.nextId {
        if id < s0.world.nextId {
          assert s.placed[0] == s0.placed[0] == id;
        } else {
          assert s.placed[|s0.placed| + (id - s0.world.nextId)] == id;
        }
      }
      if id in s.placed {
        var j :| 0 <= j < |s.placed| && s.placed[j] == id;
        if j < |s0.placed| {
          assert s.placed[j] == s0.placed[j];
        }
      }
    }
  }

  /** The id of the first node placed on a vertex: after the root, if one was created. */
  function FirstVertexId(w: World, a: Action): Id
    requires a.DrawPath?
  {
    if a.parent.Some? then w.nextId else w.nextId + 1
  }

  /** The nodes from `lo` on exist and no two of them are closer than `(radius + radius) / 4`. */
  ghost predicate SpacedNodes(m: World, lo: Id, radius: real)
  {
    forall x, y :: lo <= x < y < m.nextId ==>
      x in m.nodes && y in m.nodes && !Cleanup.Closer(m.nodes[x].center, m.nodes[y].center, (radius + radius) / 4.0)
  }

  /** A node from `lo` on lies near `v`. */
  ghost predicate NearNode(m: World, lo: Id, v: Vector3, bound: real)
  {
    exists id :: lo <= id < m.nextId && id in m.nodes && Cleanup.Closer(m.nodes[id].center, v, bound)
  }

  /** The placement before the loop has no points yet, and the first vertex node is next. */
  lemma StartFirst(w: World, a: Action)
    requires Good(w) && a.DrawPath? && Performable(w.nodes.Keys, a)
    ensures var start := WithParent(w, a, Paths.Center(PathOnMap(a)));
      start.0.points == [] && start.0.world.nextId == FirstVertexId(w, a)
  {
  }

  /** The centres of the nodes placed on vertices are spaced. */
  lemma PlacementSpaced(w: World, a: Action, vs: seq<Vector3>)
    requires Good(w) && a.DrawPath? && Performable(w.nodes.Keys, a)
    ensures var start := WithParent(w, a, Paths.Center(PathOnMap(a)));
      var s := Placed(start.0, vs, |vs|, a.radius, a.nodeType, start.1);
      SpacedNodes(s.world, FirstVertexId(w, a), a.radius)
  {
    var start := WithParent(w, a, Paths.Center(PathOnMap(a)));
    StartFirst(w, a);
    SpacedFrom(start.0, vs, a.radius, a.nodeType, start.1);
  }

  lemma SpacedFrom(s0: Placement, vs: seq<Vector3>, radius: real, nodeType: string, pid: Id)
    requires s0.points == []
    ensures var s := Placed(s0, vs, |vs|, radius, nodeType, pid);
      SpacedNodes(s.world, s0.world.nextId, radius)
  {
    PlacedFresh(s0, vs, |vs|, radius, nodeType, pid);
    PlacedSpaced(s0, vs, |vs|, radius, nodeType, pid);
    SpacedCentres(s0, Placed(s0, vs, |vs|, radius, nodeType, pid), radius, nodeType, pid);
  }

  /** With a positive radius every vertex the loop visits lies near a node placed on a
      vertex. */
  lemma PlacementCovers(w: World, a: Action, vs: seq<Vector3>)
    requires Good(w) && a.DrawPath? && Performable(w.nodes.Keys, a) && a.radius > 0.0
    ensures var start := WithParent(w, a, Paths.Center(PathOnMap(a)));
      var s := Placed(start.0, vs, |vs|, a.radius, a.nodeType, start.1);
      forall k :: 0 <= k < |vs| ==> NearNode(s.world, FirstVertexId(w, a), vs[k], (a.radius + a.radius) / 4.0)
  {
    var start := WithParent(w, a, Paths.Center(PathOnMap(a)));
    StartFirst(w, a);
    CoveredFrom(start.0, vs, a.radius, a.nodeType, start.1);
  }

  lemma CoveredFrom(s0: Placement, vs: seq<Vector3>, radius: real, nodeType: string, pid: Id)
    requires s0.points == [] && radius > 0.0
    ensures var s := Placed(s0, vs, |vs|, radius, nodeType, pid);
      forall k :: 0 <= k < |vs| ==> NearNode(s.world, s0.world.nextId, vs[k], (radius + radius) / 4.0)
  {
    PlacedFresh(s0, vs, |vs|, radius, nodeType, pid);
    PlacedCovers(s0, vs, |vs|, radius, nodeType, pid);
    CoveredCentres(s0, Placed(s0, vs, |vs|, radius, nodeType, pid), vs, radius, nodeType, pid);
  }

  lemma SpacedCentres(s0: Placement, s: Placement, radius: real, nodeType: string, parent: Id)
    requires s0.points == [] && FreshFrom(s0, s, radius, nodeType, parent) && Spaced(s.points, radius)
    ensures SpacedNodes(s.world, s0.world.nextId, radius)
  {
    forall x, y | s0.world.nextId <= x < y < s.world.nextId
      ensures !Cleanup.Closer(s.world.nodes[x].center, s.world.nodes[y].center, (radius + radius) / 4.0)
    {
      assert s.world.nodes[x].center == s.points[x - s0.world.nextId];
      assert s.world.nodes[y].center == s.points[y - s0.world.nextId];
    }
  }

  lemma CoveredCentres(s0: Placement, s: Placement, vs: seq<Vector3>, radius: real, nodeType: string, parent: Id)
    requires s0.points == [] && FreshFrom(s0, s, radius, nodeType, parent)
    requires forall k :: 0 <= k < |vs| ==> NearPlaced(s.points, vs[k], radius)
    ensures forall k :: 0 <= k < |vs| ==> NearNode(s.world, s0.world.nextId, vs[k], (radius + radius) / 4.0)
  {
    forall k | 0 <= k < |vs| ensures NearNode(s.world, s0.world.nextId, vs[k], (radius + radius) / 4.0) {
      var i :| 0 <= i < |s.points| && Cleanup.Closer(s.points[i], vs[k], (radius + radius) / 4.0);
      var id := s0.world.nextId + i;
      assert id - s0.world.nextId == i;
      assert s.world.nodes[id].center == s.points[i];
    }
  }

  // What `DrawPathAction.perform` leaves

  /** Without `fullCalculation` the action is the placement loop over the sorted vertices,
      undone by removing what it placed. */
  lemma DrawPathUnfold(w: World, a: Action)
    requires Good(w) && a.DrawPath? && Performable(w.nodes.Keys, a) && !a.fullCalculation
    ensures var start := WithParent(w, a, Paths.Center(PathOnMap(a)));
      var vs := SortedPathVertices(PathOnMap(a));
      var s := Placed(start.0, vs, |vs|, a.radius, a.nodeType, start.1);
      Perform(w, a) == Outcome(s.world, Some(Remove(s.placed)), [])
  {
  }

  /** Drawing a path only adds nodes: the nodes that were there are untouched, the new ones
      are the root (when no parent was given) and the nodes placed under the parent, and the
      undo removes exactly the new nodes. */
  lemma DrawPathAdds(w: World, a: Action)
    requires Good(w) && a.DrawPath? && Performable(w.nodes.Keys, a) && !a.fullCalculation
    ensures var o := Perform(w, a);
      && o.hooks == [] && o.undo.Some? && o.undo.value.Remove?
      && PlacementMeans(w, a, o.world, o.undo.value.nodeRefs, ParentOf(w, a))
  {
    DrawPathUnfold(w, a);
    PlacementFactsFor(w, a, SortedPathVertices(PathOnMap(a)));
  }

  /** No two nodes placed on vertices are closer than half the radius. */
  lemma DrawPathSpaced(w: World, a: Action)
    requires Good(w) && a.DrawPath? && Performable(w.nodes.Keys, a) && !a.fullCalculation
    ensures var m := Perform(w, a).world;
      SpacedNodes(m, FirstVertexId(w, a), a.radius)
  {
    DrawPathUnfold(w, a);
    PlacementSpaced(w, a, SortedPathVertices(PathOnMap(a)));
  }

  /** With a positive radius every vertex of the bisected path lies within half the radius
      of a node placed on a vertex. */
  lemma DrawPathCovers(w: World, a: Action)
    requires Good(w) && a.DrawPath? && Performable(w.nodes.Keys, a) && !a.fullCalculation
    requires a.radius > 0.0
    ensures var m := Perform(w, a).world;
      forall v :: v in Paths.Vertices(PathOnMap(a)) ==>
        NearNode(m, FirstVertexId(w, a), v, (a.radius + a.radius) / 4.0)
  {
    var p := PathOnMap(a);
    var vs := SortedPathVertices(p);
    DrawPathUnfold(w, a);
    PlacementCovers(w, a, vs);
    Sorting.SortBySpec(Paths.Vertices(p), DistanceFrom(Paths.Center(p)));
    forall v | v in Paths.Vertices(p) ensures v in vs {
      assert v in multiset(Paths.Vertices(p));
    }
  }

  /** Removing the new nodes of a placement: the old nodes are as they were before the
      placement, every new node is invalid, and unremoving what was removed gives the
      placement back. */
  lemma RemoveNew(w: World, a: Action, m: World, placed: seq<Id>, pid: Id)
    requires Good(w) && a.DrawPath? && Performable(w.nodes.Keys, a)
    requires PlacementMeans(w, a, m, placed, pid)
    ensures var u := RemovePerform(m, placed);
      && u.world.nodes.Keys == m.nodes.Keys && u.world.nextId == m.nextId
      && u.world.edges == w.edges && u.world.tiles == w.tiles
      && (forall id :: id in w.nodes ==> id in u.world.nodes && u.world.nodes[id] == w.nodes[id])
      && (forall id :: w.nextId <= id < m.nextId ==> id in u.world.nodes && !u.world.nodes[id].valid)
      && u.undo.Some? && u.undo.value.Unremove? && UnremoveNodes(u.world, u.undo.value.nodeRefs) == m
  {
    forall id | w.nextId <= id < m.nextId ensures id in m.nodes && m.nodes[id].valid {
      if id == pid {
        assert a.parent.None?;
      }
    }
    RemoveAdded(w, m, placed);
  }

  /** Removing exactly the valid nodes added since `w`: the nodes of `w` are untouched, the
      added ones invalid, and unremoving them gives the map back. */
  lemma RemoveAdded(w: World, m: World, placed: seq<Id>)
    requires forall id :: id in w.nodes ==> id < w.nextId
    requires forall id :: id in placed <==> w.nextId <= id < m.nextId
    requires forall id :: id in m.nodes <==> id in w.nodes || w.nextId <= id < m.nextId
    requires forall id :: id in w.nodes ==> m.nodes[id] == w.nodes[id]
    requires forall id :: w.nextId <= id < m.nextId ==> id in m.nodes && m.nodes[id].valid
    requires m.edges == w.edges && m.tiles == w.tiles
    ensures var u := RemovePerform(m, placed);
      && u.world.nodes.Keys == m.nodes.Keys && u.world.nextId == m.nextId
      && u.world.edges == w.edges && u.world.tiles == w.tiles
      && (forall id :: id in w.nodes ==> id in u.world.nodes && u.world.nodes[id] == w.nodes[id])
      && (forall id :: w.nextId <= id < m.nextId ==> id in u.world.nodes && !u.world.nodes[id].valid)
      && u.undo.Some? && u.undo.value.Unremove? && UnremoveNodes(u.world, u.undo.value.nodeRefs) == m
  {
    var (m', affected) := RemoveNodes(m, placed);
    assert forall id :: id in affected <==> w.nextId <= id < m.nextId by {
      forall id ensures id in affected <==> w.nextId <= id < m.nextId {
        assert id in w.nodes ==> id !in placed;
      }
    }
    RemovedRange(m, m', affected, w.nextId);
  }

  /** Nodes marked invalid exactly over an id range, then marked valid again. */
  lemma RemovedRange(m: World, m': World, affected: seq<Id>, lo: Id)
    requires forall id :: lo <= id < m.nextId ==> id in m.nodes && m.nodes[id].valid
    requires forall id :: id in affected <==> lo <= id < m.nextId
    requires m' == SetNodesValid(m, set id | id in affected, false)
    ensures UnremoveNodes(m', affected) == m
  {
    var r := UnremoveNodes(m', affected);
    assert r.nodes == m.nodes;
  }

  /** Performing the undo of a drawn path: the nodes that were there are as they were, and
      every node the path added is invalid; redoing gives the drawn map back. */
  lemma DrawPathUndo(w: World, a: Action)
    requires Good(w) && a.DrawPath? && Performable(w.nodes.Keys, a) && !a.fullCalculation
    ensures var o := Perform(w, a);
      o.undo.Some? && Performable(o.world.nodes.Keys, o.undo.value) && UndoneFrom(w, o)
  {
    DrawPathAdds(w, a);
    UndoRemovesNew(w, a, Perform(w, a));
  }

  /** Performing the undo `o.undo` of an outcome that only added nodes from `w.nextId` on:
      the old nodes are as in `w`, the added ones invalid, and the redo gives `o.world`. */
  ghost predicate UndoneFrom(w: World, o: Outcome)
    requires o.undo.Some? && Performable(o.world.nodes.Keys, o.undo.value)
  {
    var u := Perform(o.world, o.undo.value);
    && u.world.nodes.Keys == o.world.nodes.Keys && u.world.nextId == o.world.nextId
    && u.world.edges == w.edges && u.world.tiles == w.tiles
    && (forall id :: id in w.nodes ==> id in u.world.nodes && u.world.nodes[id] == w.nodes[id])
    && (forall id :: w.nextId <= id < o.world.nextId ==> id in u.world.nodes && !u.world.nodes[id].valid)
    && u.undo.Some? && Performable(u.world.nodes.Keys, u.undo.value)
    && Perform(u.world, u.undo.value).world == o.world
  }

  lemma UndoRemovesNew(w: World, a: Action, o: Outcome)
    requires Good(w) && a.DrawPath? && Performable(w.nodes.Keys, a)
    requires o.undo.Some? && o.undo.value.Remove?
    requires PlacementMeans(w, a, o.world, o.undo.value.nodeRefs, ParentOf(w, a))
    ensures UndoneFrom(w, o)
  {
    var placed := o.undo.value.nodeRefs;
    RemoveNew(w, a, o.world, placed, ParentOf(w, a));
    RemoveThenUnremove(o.world, placed);
  }

  /** `perform()` of a removal and then of its undo, as the two functions they run. */
  lemma RemoveThenUnremove(m: World, placed: seq<Id>)
    ensures var u := RemovePerform(m, placed);
      && Perform(m, Remove(placed)) == u
      && Performable(u.world.nodes.Keys, u.undo.value)
      && Perform(u.world, u.undo.value).world == UnremoveNodes(u.world, u.undo.value.nodeRefs)
  {
  }
}

=== FILE: entities.dfy ===
/** The entity references of mapper/backend/entity.js and the factories of
    mapper/backend/backend.js:93-107: an id and the backend it lives in, whose methods
    forward to the backend with that id. */
module Entities {
  import opened Wrappers
  import opened Store
  import opened SqlJs

  datatype Ref =
    | EntityRef(id: Id, backend: SqlJsMapBackend)
    | NodeRef(id: Id, backend: SqlJsMapBackend)
    | EdgeRef(id: Id, backend: SqlJsMapBackend)
    | DirEdgeRef(id: Id, startId: Id, backend: SqlJsMapBackend)

  function GetEntityRef(backend: SqlJsMapBackend, id: Id): (r: Ref)
    ensures r.EntityRef? && r.id == id && r.backend == backend
  {
    EntityRef(id, backend)
  }

  function GetNodeRef(backend: SqlJsMapBackend, id: Id): (r: Ref)
    ensures r.NodeRef? && r.id == id && r.backend == backend
  {
    NodeRef(id, backend)
  }

  function GetEdgeRef(backend: SqlJsMapBackend, id: Id): (r: Ref)
    ensures r.EdgeRef? && r.id == id && r.backend == backend
  {
    EdgeRef(id, backend)
  }

  function GetDirEdgeRef(backend: SqlJsMapBackend, id: Id, startId: Id): (r: Ref)
    ensures r.DirEdgeRef? && r.id == id && r.startId == startId && r.backend == backend
  {
    DirEdgeRef(id, startId, backend)
  }

  method Exists(r: Ref) returns (b: bool)
    requires r.backend.Valid()
    ensures b <==> r.id in r.backend.entities
  {
    b := r.backend.EntityExists(r.id);
  }

  method GetPString(r: Ref, name: string) returns (v: Cell<string>)
    ensures v == GetString(r.backend.Data(), r.id, name)
  {
    v := r.backend.GetPString(r.id, name);
  }

  method GetPNumber(r: Ref, name: string) returns (v: Cell<real>)
    ensures v == GetNumber(r.backend.Data(), r.id, name)
  {
    v := r.backend.GetPNumber(r.id, name);
  }

  method GetPPoint(r: Ref, name: string) returns (v: Result<(int, int, int), Error>)
    ensures v == GetPoint(r.backend.Data(), r.id, name)
  {
    v := r.backend.GetPPoint(r.id, name);
  }

  method SetPString(r: Ref, name: string, value: string) returns (res: Result<(), Error>)
    requires r.backend.Valid()
    modifies r.backend
    ensures r.backend.Valid() && r.backend.global == old(r.backend.global)
    ensures res.Success? ==> SetString(old(r.backend.Data()), r.id, name, value) == Success(r.backend.Data())
    ensures res.Failure? ==> r.backend.Data() == old(r.backend.Data())
  {
    res := r.backend.SetPString(r.id, name, value);
  }

  method SetPNumber(r: Ref, name: string, value: real) returns (res: Result<(), Error>)
    requires r.backend.Valid()
    modifies r.backend
    ensures r.backend.Valid() && r.backend.global == old(r.backend.global)
    ensures res.Success? ==> SetNumber(old(r.backend.Data()), r.id, name, value) == Success(r.backend.Data())
    ensures res.Failure? ==> r.backend.Data() == old(r.backend.Data())
  {
    res := r.backend.SetPNumber(r.id, name, value);
  }

  method SetPPoint(r: Ref, name: string, x: int, y: int, z: int) returns (res: Result<(), Error>)
    requires r.backend.Valid()
    modifies r.backend
    ensures r.backend.Valid() && r.backend.global == old(r.backend.global)
    ensures res.Success? ==> SetPoint(old(r.backend.Data()), r.id, name, x, y, z) == Success(r.backend.Data())
    ensures res.Failure? ==> r.backend.Data() == old(r.backend.Data())
  {
    res := r.backend.SetPPoint(r.id, name, x, y, z);
  }

  /** `remove`: `removeNode` for a node, `removeEdge` for an edge, `removeEntity` otherwise;
      all three invalidate the entity as `removeEntity` does. */
  method Remove(r: Ref)
    requires r.backend.Valid()
    modifies r.backend
    ensures r.backend.Valid() && r.backend.global == old(r.backend.global)
    ensures r.backend.Data() == Removed(old(r.backend.Data()), r.id)
  {
    match r {
      case NodeRef(id, backend) => backend.RemoveNode(id);
      case EdgeRef(id, backend) => backend.RemoveEdge(id);
      case DirEdgeRef(id, _, backend) => backend.RemoveEdge(id);
      case EntityRef(id, backend) => backend.RemoveEntity(id);
    }
  }

  /** `NodeRef.getParent`: a ref to the valid parent, or null. */
  method GetParent(r: Ref) returns (parent: Option<Ref>)
    ensures parent.Some? <==> NodeParent(r.backend.Data(), r.id).Some?
    ensures parent.Some? ==> parent.value == NodeRef(NodeParent(r.backend.Data(), r.id).value, r.backend)
  {
    var p := r.backend.GetNodeParent(r.id);
    parent := if p.Some? then Some(GetNodeRef(r.backend, p.value)) else None;
  }

  /** `NodeRef.getChildren`: refs to the valid children. */
  method GetChildren(r: Ref) returns (children: seq<Ref>)
    requires r.backend.Valid()
    ensures forall c :: c in children ==> c.NodeRef? && c.backend == r.backend
    ensures forall n :: NodeRef(n, r.backend) in children <==> Matches(r.backend.Data(), ChildrenOf(r.id), n)
  {
    var ids := r.backend.GetNodeChildren(r.id);
    children := [];
    var i := 0;
    while i < |ids|
      invariant 0 <= i <= |ids|
      invariant forall c :: c in children ==> c.NodeRef? && c.backend == r.backend
      invariant forall n :: NodeRef(n, r.backend) in children <==> n in ids[..i]
    {
      children := children + [GetNodeRef(r.backend, ids[i])];
      i := i + 1;
    }
    assert ids[..i] == ids;
  }

  /** `NodeRef.setCenter`: the point under the property "center". */
  method SetCenter(r: Ref, x: int, y: int, z: int) returns (res: Result<(), Error>)
    requires r.backend.Valid()
    modifies r.backend
    ensures r.backend.Valid() && r.backend.global == old(r.backend.global)
    ensures res.Success? ==> SetPoint(old(r.backend.Data()), r.id, "center", x, y, z) == Success(r.backend.Data())
    ensures res.Failure? ==> r.backend.Data() == old(r.backend.Data())
  {
    res := SetPPoint(r, "center", x, y, z);
  }

  /** `NodeRef.center`: the point under "center"; a centre set with `setCenter` reads back. */
  method Center(r: Ref) returns (v: Result<(int, int, int), Error>)
    ensures v == GetPoint(r.backend.Data(), r.id, "center")
  {
    v := GetPPoint(r, "center");
  }

  /** `NodeRef.getEdges` and `EdgeRef.getNodes`: the base backend's "not implemented". */
  method GetEdges(r: Ref) returns (v: Result<seq<Ref>, Error>)
    ensures v == Failure(NotImplemented)
  {
    var ids := r.backend.GetNodeEdges(r.id);
    v := Failure(ids.error);
  }

  method GetNodes(r: Ref) returns (v: Result<seq<Ref>, Error>)
    ensures v == Failure(NotImplemented)
  {
    var ids := r.backend.GetEdgeNodes(r.id);
    v := Failure(ids.error);
  }

  method GetOtherNode(r: Ref, startId: Id) returns (v: Result<Id, Error>)
    ensures v == Failure(NotImplemented)
  {
    v := r.backend.GetEdgeOtherNode(r.id, startId);
  }

  /** `DirEdgeRef.getDirOtherNode`: `getOtherNode` from the ref's own start. */
  method GetDirOtherNode(r: Ref) returns (v: Result<Id, Error>)
    requires r.DirEdgeRef?
    ensures v == Failure(NotImplemented)
  {
    v := GetOtherNode(r, r.startId);
  }

  /** A centre written with `setCenter` reads back with `center`. */
  lemma CenterRoundTrip(t: Tables, n: Id, x: int, y: int, z: int)
    requires n in t.entities
    ensures GetPoint(SetPoint(t, n, "center", x, y, z).value, n, "center") == Success((x, y, z))
  {
    PointPropertyRoundTrip(t, n, "center", x, y, z);
  }
}

=== FILE: forest.dfy ===
/** Parent links between nodes and reachability along them, shared by the backend's
    invalidation cascade and the action layer's descendants. */
module Forest {
  import opened Wrappers

  type Id = nat

  /** `c` walks from `c[0]` up the parent links to `c[|c| - 1]`. */
  ghost predicate IsChain(parent: map<Id, Option<Id>>, c: seq<Id>)
  {
    |c| >= 1 && forall i :: 0 <= i < |c| - 1 ==> c[i] in parent && parent[c[i]] == Some(c[i + 1])
  }

  /** `x` is `root` or lies below it. */
  ghost predicate Descends(parent: map<Id, Option<Id>>, x: Id, root: Id)
  {
    exists c :: IsChain(parent, c) && c[0] == x && c[|c| - 1] == root
  }

  /** The nodes whose parent link is `p`. */
  function Children(parent: map<Id, Option<Id>>, p: Id): set<Id>
  {
    set c | c in parent && parent[c] == Some(p)
  }

  lemma DescendsSelf(parent: map<Id, Option<Id>>, x: Id)
    ensures Descends(parent, x, x)
  {
    assert IsChain(parent, [x]);
  }

  /** A child of a node below `root` is below `root`. */
  lemma DescendsStep(parent: map<Id, Option<Id>>, c: Id, x: Id, root: Id)
    requires c in parent && parent[c] == Some(x) && Descends(parent, x, root)
    ensures Descends(parent, c, root)
  {
    var ch :| IsChain(parent, ch) && ch[0] == x && ch[|ch| - 1] == root;
    assert IsChain(parent, [c] + ch);
  }

  /** The last link of a chain of two or more nodes. */
  lemma ChainLast(parent: map<Id, Option<Id>>, c: seq<Id>)
    requires IsChain(parent, c) && |c| > 1
    ensures c[|c| - 2] in parent && parent[c[|c| - 2]] == Some(c[|c| - 1])
  {
  }

  /** A set holding `c[|c| - 1]` and closed under children holds the whole chain. */
  lemma {:induction false} ChainInClosed(parent: map<Id, Option<Id>>, found: set<Id>, c: seq<Id>)
    requires IsChain(parent, c) && c[|c| - 1] in found
    requires forall y :: y in found ==> Children(parent, y) <= found
    ensures c[0] in found
    decreases |c|
  {
    if |c| > 1 {
      assert IsChain(parent, c[1..]);
      ChainInClosed(parent, found, c[1..]);
      assert c[0] in Children(parent, c[1]);
    }
  }

  lemma {:induction false} SubsetCardinality(a: set<Id>, b: set<Id>)
    requires a <= b
    ensures |a| <= |b|
    decreases a
  {
    if a != {} {
      var x :| x in a;
      SubsetCardinality(a - {x}, b - {x});
    }
  }

  /** Adding new members of `u` shrinks what is left of `u`. */
  lemma RemainderShrinks(u: set<Id>, found: set<Id>, kids: set<Id>)
    requires kids != {} && kids <= u - found
    ensures |u - (found + kids)| < |u - found|
  {
    var k :| k in kids;
    var rest := u - (found + kids);
    assert rest <= (u - found) - {k};
    SubsetCardinality(rest, (u - found) - {k});
    assert |(u - found) - {k}| == |u - found| - 1;
  }

  /** Every node below `root`, found by a worklist walk over the children of each node: the
      way the recursive invalidation trigger reaches a subtree. */
  method CollectSubtree(parent: map<Id, Option<Id>>, root: Id) returns (found: set<Id>)
    ensures forall x :: x in found <==> Descends(parent, x, root)
    ensures root in found
  {
    found := {root};
    var todo := {root};
    DescendsSelf(parent, root);
    while todo != {}
      invariant root in found && todo <= found
      invariant found <= parent.Keys + {root}
      invariant forall y :: y in found ==> Descends(parent, y, root)
      invariant forall y :: y in found && y !in todo ==> Children(parent, y) <= found
      decreases |parent.Keys + {root} - found|, |todo|
    {
      var x :| x in todo;
      var kids := Children(parent, x) - found;
      forall c | c in kids ensures Descends(parent, c, root) {
        DescendsStep(parent, c, x, root);
      }
      if kids != {} {
        RemainderShrinks(parent.Keys + {root}, found, kids);
      }
      found := found + kids;
      todo := (todo - {x}) + kids;
    }
    forall x | Descends(parent, x, root) ensures x in found {
      var c :| IsChain(parent, c) && c[0] == x && c[|c| - 1] == root;
      ChainInClosed(parent, found, c);
    }
  }
}

=== FILE: geometry.dfy ===
/** Vectors, lines and boxes of mapper/geometry.js, with exact real coordinates. */
module Geometry {

  /** `c` is the integer nearest to `x`, halves rounding up. */
  predicate IsRounding(c: real, x: real)
  {
    c == c.Floor as real && c - 0.5 <= x < c + 0.5
  }

  /** Real multiplication. Squares are written through it so that the solver treats every
      square of a coordinate alike. */
  function Mul(a: real, b: real): real { a * b }

  lemma Positive(a: real, b: real)
    requires a > 0.0 && b > 0.0
    ensures Mul(a, b) > 0.0
  {
  }

  /** A square is never negative, and is positive away from zero. */
  lemma Square(c: real)
    ensures Mul(c, c) >= 0.0
    ensures c != 0.0 ==> Mul(c, c) > 0.0
  {
    if c > 0.0 {
      Positive(c, c);
    } else if c < 0.0 {
      Positive(-c, -c);
      assert Mul(-c, -c) == Mul(c, c);
    }
  }

  datatype Vector3 = Vector3(x: real, y: real, z: real)
  {
    function Add(other: Vector3): Vector3
    {
      Vector3(x + other.x, y + other.y, z + other.z)
    }

    function Subtract(other: Vector3): Vector3
    {
      Vector3(x - other.x, y - other.y, z - other.z)
    }

    function MultiplyScalar(scalar: real): Vector3
    {
      Vector3(x * scalar, y * scalar, z * scalar)
    }

    /** Multiplication by the reciprocal; JavaScript's division by zero is not modelled. */
    function DivideScalar(scalar: real): Vector3
      requires scalar != 0.0
    {
      MultiplyScalar(1.0 / scalar)
    }

    /** The squared length, used to compare lengths without a square root. */
    function LengthSquared(): (r: real)
      ensures r >= 0.0
      ensures r > 0.0 <==> this != Zero
    {
      Square(x);
      Square(y);
      Square(z);
      Mul(x, x) + Mul(y, y) + Mul(z, z)
    }

    /** Each coordinate rounded to the nearest integer, halves toward positive infinity. */
    function Round(): (r: Vector3)
      ensures IsRounding(r.x, x) && IsRounding(r.y, y) && IsRounding(r.z, z)
    {
      Map(c => (c + 0.5).Floor as real)
    }

    function Map(f: real -> real): Vector3
    {
      Vector3(f(x), f(y), f(z))
    }
  }

  const Zero := Vector3(0.0, 0.0, 0.0)
  const Unit := Vector3(1.0, 1.0, 1.0)

  function MinReal(a: real, b: real): real { if a <= b then a else b }
  function MaxReal(a: real, b: real): real { if a >= b then a else b }

  function Min(a: Vector3, b: Vector3): Vector3
  {
    Vector3(MinReal(a.x, b.x), MinReal(a.y, b.y), MinReal(a.z, b.z))
  }

  function Max(a: Vector3, b: Vector3): Vector3
  {
    Vector3(MaxReal(a.x, b.x), MaxReal(a.y, b.y), MaxReal(a.z, b.z))
  }

  /** Componentwise `a <= b`. */
  predicate LessEq(a: Vector3, b: Vector3)
  {
    a.x <= b.x && a.y <= b.y && a.z <= b.z
  }

  /** Addition is commutative, subtraction undoes it, and the zero vector is neutral. */
  lemma AddSubtract(a: Vector3, b: Vector3)
    ensures a.Add(b) == b.Add(a)
    ensures a.Add(b).Subtract(b) == a
    ensures a.Subtract(b).Add(b) == a
    ensures a.Add(Zero) == a && a.Subtract(a) == Zero
  {
  }

  /** Scaling by a non-zero scalar is undone by dividing by it. */
  lemma ScaleDivide(a: Vector3, s: real)
    requires s != 0.0
    ensures a.MultiplyScalar(s).DivideScalar(s) == a
    ensures a.MultiplyScalar(1.0) == a
  {
  }

  /** `min` and `max` are the componentwise greatest lower and least upper bounds. */
  lemma MinMaxBounds(a: Vector3, b: Vector3)
    ensures LessEq(Min(a, b), a) && LessEq(Min(a, b), b)
    ensures LessEq(a, Max(a, b)) && LessEq(b, Max(a, b))
    ensures forall c :: LessEq(c, a) && LessEq(c, b) ==> LessEq(c, Min(a, b))
    ensures forall c :: LessEq(a, c) && LessEq(b, c) ==> LessEq(Max(a, b), c)
    ensures Min(a, b) == Min(b, a) && Max(a, b) == Max(b, a)
  {
  }

  /** The example of `round` on halves and on negative values. */
  lemma RoundExample()
    ensures Vector3(0.5, 12.6, -1.5).Round() == Vector3(1.0, 13.0, -1.0)
  {
    var r := Vector3(0.5, 12.6, -1.5).Round();
    assert IsRounding(r.x, 0.5) && IsRounding(r.y, 12.6) && IsRounding(r.z, -1.5);
    assert r.x.Floor == 1 && r.y.Floor == 13 && r.z.Floor == -1;
  }

  /** The 2d proper-crossing test shared by `Point.lineIntersects` and `Line3.intersects2`:
      segment (x1, y1)-(x2, y2) against segment (x3, y3)-(x4, y4), on the x and y coordinates only. */
  function Determinant(x1: real, y1: real, x2: real, y2: real,
                       x3: real, y3: real, x4: real, y4: real): real
  {
    (x2 - x1) * (y4 - y3) - (x4 - x3) * (y2 - y1)
  }

  predicate SegmentsCross(x1: real, y1: real, x2: real, y2: real,
                          x3: real, y3: real, x4: real, y4: real)
  {
    var det := Determinant(x1, y1, x2, y2, x3, y3, x4, y4);
    if det == 0.0 then false
    else
      var lambda := ((y4 - y3) * (x4 - x1) + (x3 - x4) * (y4 - y1)) / det;
      var gamma := ((y1 - y2) * (x4 - x1) + (x2 - x1) * (y4 - y1)) / det;
      (0.0 < lambda && lambda < 1.0) && (0.0 < gamma && gamma < 1.0)
  }

  /** The point p1 + lambda (p2 - p1) is also p4 + gamma (p3 - p4), both strictly inside
      their segments. */
  predicate MeetAt(x1: real, y1: real, x2: real, y2: real,
                   x3: real, y3: real, x4: real, y4: real, lambda: real, gamma: real)
  {
    0.0 < lambda < 1.0 && 0.0 < gamma < 1.0
    && x1 + lambda * (x2 - x1) == x4 + gamma * (x3 - x4)
    && y1 + lambda * (y2 - y1) == y4 + gamma * (y3 - y4)
  }

  /** For segments that are not parallel, the test answers true exactly when they cross at a
      point strictly inside both. Parallel segments never count as crossing. */
  lemma SegmentsCrossMeaning(x1: real, y1: real, x2: real, y2: real,
                             x3: real, y3: real, x4: real, y4: real)
    ensures Determinant(x1, y1, x2, y2, x3, y3, x4, y4) == 0.0 ==> !SegmentsCross(x1, y1, x2, y2, x3, y3, x4, y4)
    ensures Determinant(x1, y1, x2, y2, x3, y3, x4, y4) != 0.0 ==>
      (SegmentsCross(x1, y1, x2, y2, x3, y3, x4, y4) <==>
       exists lambda, gamma :: MeetAt(x1, y1, x2, y2, x3, y3, x4, y4, lambda, gamma))
  {
    if Determinant(x1, y1, x2, y2, x3, y3, x4, y4) != 0.0 {
      if SegmentsCross(x1, y1, x2, y2, x3, y3, x4, y4) {
        CrossMeets(x1, y1, x2, y2, x3, y3, x4, y4);
      }
      if exists l, g :: MeetAt(x1, y1, x2, y2, x3, y3, x4, y4, l, g) {
        var l, g :| MeetAt(x1, y1, x2, y2, x3, y3, x4, y4, l, g);
        MeetCrosses(x1, y1, x2, y2, x3, y3, x4, y4, l, g);
      }
    }
  }

  lemma CrossMeets(x1: real, y1: real, x2: real, y2: real,
                   x3: real, y3: real, x4: real, y4: real)
    requires SegmentsCross(x1, y1, x2, y2, x3, y3, x4, y4)
    ensures exists l, g :: MeetAt(x1, y1, x2, y2, x3, y3, x4, y4, l, g)
  {
    var det := Determinant(x1, y1, x2, y2, x3, y3, x4, y4);
    var nl := (y4 - y3) * (x4 - x1) + (x3 - x4) * (y4 - y1);
    var ng := (y1 - y2) * (x4 - x1) + (x2 - x1) * (y4 - y1);
    Cramer(x2 - x1, y2 - y1, x4 - x3, y4 - y3, x4 - x1, y4 - y1);
    assert MeetAt(x1, y1, x2, y2, x3, y3, x4, y4, nl / det, ng / det);
  }

  lemma MeetCrosses(x1: real, y1: real, x2: real, y2: real,
                    x3: real, y3: real, x4: real, y4: real, l: real, g: real)
    requires Determinant(x1, y1, x2, y2, x3, y3, x4, y4) != 0.0
    requires MeetAt(x1, y1, x2, y2, x3, y3, x4, y4, l, g)
    ensures SegmentsCross(x1, y1, x2, y2, x3, y3, x4, y4)
  {
    var det := Determinant(x1, y1, x2, y2, x3, y3, x4, y4);
    CramerUnique(x2 - x1, y2 - y1, x4 - x3, y4 - y3, x4 - x1, y4 - y1, l, g);
    var nl := (y4 - y3) * (x4 - x1) + (x3 - x4) * (y4 - y1);
    var ng := (y1 - y2) * (x4 - x1) + (x2 - x1) * (y4 - y1);
    assert nl == (x4 - x1) * (y4 - y3) - (x4 - x3) * (y4 - y1);
    assert ng == (x2 - x1) * (y4 - y1) - (x4 - x1) * (y2 - y1);
    assert l == nl / det && g == ng / det;
  }

  /** Cramer's rule for l u + g v = w in two dimensions: when det = u1 v2 - v1 u2 is not zero,
      the system has exactly the one solution. */
  lemma Cramer(u1: real, u2: real, v1: real, v2: real, w1: real, w2: real)
    requires u1 * v2 - v1 * u2 != 0.0
    ensures var det := u1 * v2 - v1 * u2;
      var l := (w1 * v2 - v1 * w2) / det;
      var g := (u1 * w2 - w1 * u2) / det;
      l * u1 + g * v1 == w1 && l * u2 + g * v2 == w2
  {
    var det := u1 * v2 - v1 * u2;
    var nl := w1 * v2 - v1 * w2;
    var ng := u1 * w2 - w1 * u2;
    var l := nl / det;
    var g := ng / det;
    assert l * det == nl && g * det == ng;
    assert (l * u1 + g * v1) * det == nl * u1 + ng * v1;
    assert nl * u1 + ng * v1 == w1 * det;
    assert (l * u2 + g * v2) * det == nl * u2 + ng * v2;
    assert nl * u2 + ng * v2 == w2 * det;
  }

  /** Any solution of the system is the one Cramer's rule gives. */
  lemma CramerUnique(u1: real, u2: real, v1: real, v2: real, w1: real, w2: real, l: real, g: real)
    requires u1 * v2 - v1 * u2 != 0.0
    requires l * u1 + g * v1 == w1 && l * u2 + g * v2 == w2
    ensures l == (w1 * v2 - v1 * w2) / (u1 * v2 - v1 * u2)
    ensures g == (u1 * w2 - w1 * u2) / (u1 * v2 - v1 * u2)
  {
    var det := u1 * v2 - v1 * u2;
    assert l * det == (w1 - g * v1) * v2 - v1 * (w2 - g * v2);
    assert g * det == u1 * (w2 - l * u2) - (w1 - l * u1) * u2;
  }

  /** The second crossing test of the tests for `intersects2`, and a pair of segments that do
      not meet. */
  lemma SegmentsCrossExamples()
    ensures SegmentsCross(-1.0, -1.0, 1.0, 1.0, -1.0, 0.0, 1.0, 0.0)
    ensures SegmentsCross(-1.0, 0.0, 1.0, 0.0, -1.0, -1.0, 1.0, 1.0)
    ensures !SegmentsCross(-1.0, -1.0, 1.0, 1.0, -10.0, -4.0, -5.0, 12.0)
  {
  }

  /** A line from `a` to `b`. */
  datatype Line3 = Line3(a: Vector3, b: Vector3)
  {
    function Map(f: Vector3 -> Vector3): Line3
    {
      Line3(f(a), f(b))
    }

    function Add(offset: Vector3): Line3
    {
      Map((v: Vector3) => v.Add(offset))
    }

    function Subtract(offset: Vector3): Line3
    {
      Map((v: Vector3) => v.Subtract(offset))
    }

    function MultiplyScalar(scalar: real): Line3
    {
      Map((v: Vector3) => v.MultiplyScalar(scalar))
    }

    function DivideScalar(scalar: real): Line3
      requires scalar != 0.0
    {
      Map((v: Vector3) => v.DivideScalar(scalar))
    }

    /** The vector that, added to `a`, gives `b`. */
    function Vector(): (r: Vector3)
      ensures a.Add(r) == b
    {
      b.Subtract(a)
    }

    function FullMin(): Vector3 { Min(a, b) }

    function FullMax(): Vector3 { Max(a, b) }

    function DistanceSquared(): (r: real)
      ensures r >= 0.0
      ensures r > 0.0 <==> a != b
    {
      assert a.Subtract(b) == Zero <==> a == b;
      a.Subtract(b).LengthSquared()
    }

    function Intersects2(other: Line3): bool
    {
      SegmentsCross(a.x, a.y, b.x, b.y, other.a.x, other.a.y, other.b.x, other.b.y)
    }
  }

  const ZeroLine := Line3(Zero, Zero)

  /** Distance does not depend on direction, and translating a line keeps its vector and
      its length. */
  lemma LineDistance(l: Line3, offset: Vector3)
    ensures Line3(l.b, l.a).DistanceSquared() == l.DistanceSquared()
    ensures l.Add(offset).Vector() == l.Vector() && l.Subtract(offset).Vector() == l.Vector()
    ensures l.Add(offset).DistanceSquared() == l.DistanceSquared()
    ensures l.DistanceSquared() == l.Vector().LengthSquared()
  {
    var u := l.a.Subtract(l.b);
    var v := l.b.Subtract(l.a);
    assert v == u.MultiplyScalar(-1.0);
  }

  /** `fullMin` and `fullMax` are the corners of the bounding box of the line. */
  lemma LineBounds(l: Line3)
    ensures LessEq(l.FullMin(), l.a) && LessEq(l.FullMin(), l.b)
    ensures LessEq(l.a, l.FullMax()) && LessEq(l.b, l.FullMax())
    ensures LessEq(l.FullMin(), l.FullMax())
  {
  }

  /** A box spanned by the corners `a` and `b`. */
  datatype Box3 = Box3(a: Vector3, b: Vector3)
  {
    function Scale(scalar: real): Box3
    {
      Box3(a.MultiplyScalar(scalar), b.MultiplyScalar(scalar))
    }

    function Line(): Line3
    {
      Line3(a, b)
    }

    function Map(f: Vector3 -> Vector3): Box3
    {
      Box3(f(a), f(b))
    }
  }

  /** The square box whose corners are `radius` away from `center` in every coordinate. */
  function BoxFromRadius(center: Vector3, radius: real): (r: Box3)
    ensures r.a.Add(r.b).DivideScalar(2.0) == center
    ensures r.b.Subtract(r.a) == Unit.MultiplyScalar(2.0 * radius)
  {
    var radiusVector := Unit.MultiplyScalar(radius);
    Box3(center.Subtract(radiusVector), center.Add(radiusVector))
  }

  /** The box from `start` to `start + offset`. */
  function BoxFromOffset(start: Vector3, offset: Vector3): (r: Box3)
    ensures r.a == start && r.Line().Vector() == offset
  {
    Box3(start, start.Add(offset))
  }

  /** Scaling a box scales the line between its corners. */
  lemma BoxScaleLine(box: Box3, s: real)
    ensures box.Scale(s).Line() == box.Line().MultiplyScalar(s)
    ensures box.Scale(s).Line().Vector() == box.Line().Vector().MultiplyScalar(s)
  {
  }

  /** An example of `fromRadius`. */
  lemma BoxFromRadiusExample()
    ensures BoxFromRadius(Vector3(10.0, 20.0, 30.0), 4.0) == Box3(Vector3(6.0, 16.0, 26.0), Vector3(14.0, 24.0, 34.0))
  {
  }

  /** An example of `scale`. */
  lemma ScaleExample()
    ensures Box3(Vector3(1.0, 2.0, 3.0), Vector3(4.0, 5.0, 6.0)).Scale(2.0) == Box3(Vector3(2.0, 4.0, 6.0), Vector3(8.0, 10.0, 12.0))
  {
  }
}

=== FILE: hooks.dfy ===
/** The `HookContainer` of mapper/hook_container.js: named lists of callbacks. A callback is
    an opaque value of type `F`; calling a hook yields the invocations it performs, in order. */
module Hooks {
  import opened Wrappers

  /** One invocation of `hook`: with the hook's name in front of the arguments for a
      catch-all callback (registered under ""), with the arguments alone otherwise. */
  datatype Invocation<F, A> = Invocation(hook: F, hookName: Option<string>, args: seq<A>)

  /** The callbacks registered under `name`, none if the name was never used. */
  function Registered<F>(hooks: map<string, seq<F>>, name: string): seq<F>
  {
    if name in hooks then hooks[name] else []
  }

  /** `s` without any occurrence of `f`, the others in their order. */
  function Without<F(==)>(s: seq<F>, f: F): (r: seq<F>)
    ensures f !in r
    ensures forall g :: g in r ==> g in s
  {
    if s == [] then []
    else if s[0] == f then Without(s[1..], f)
    else [s[0]] + Without(s[1..], f)
  }

  /** Removing `f` keeps every other callback as often as it was registered, and removing from
      two halves is removing from the whole, so the order of the rest is kept. */
  lemma {:induction false} WithoutKeepsOthers<F>(s: seq<F>, t: seq<F>, f: F)
    ensures forall g :: g != f ==> multiset(Without(s, f))[g] == multiset(s)[g]
    ensures Without(s + t, f) == Without(s, f) + Without(t, f)
    ensures f !in s ==> Without(s, f) == s
  {
    if s != [] {
      WithoutKeepsOthers(s[1..], t, f);
      assert (s + t)[1..] == s[1..] + t;
      assert s == [s[0]] + s[1..];
      assert multiset(s) == multiset([s[0]]) + multiset(s[1..]);
    } else {
      assert s + t == t;
    }
  }

  class HookContainer<F(==), A> {
    var hooks: map<string, seq<F>>

    constructor ()
      ensures hooks == map[]
    {
      hooks := map[];
    }

    /** Register `hookFunction` under `hookName` (after any earlier ones) and return it. */
    method Add(hookName: string, hookFunction: F) returns (r: F)
      modifies this
      ensures r == hookFunction
      ensures hooks == old(hooks)[hookName := Registered(old(hooks), hookName) + [hookFunction]]
    {
      if hookName !in hooks {
        hooks := hooks[hookName := []];
      }
      hooks := hooks[hookName := hooks[hookName] + [hookFunction]];
      r := hookFunction;
    }

    /** Unregister every occurrence of `hookFunction` under `hookName`. */
    method Remove(hookName: string, hookFunction: F)
      modifies this
      ensures hookName in old(hooks) ==>
        hooks == old(hooks)[hookName := Without(old(hooks)[hookName], hookFunction)]
      ensures hookName !in old(hooks) ==> hooks == old(hooks)
    {
      if hookName in hooks {
        hooks := hooks[hookName := Without(hooks[hookName], hookFunction)];
      }
    }

    /** The invocations of `call(hookName, ...args)`: the callbacks of `hookName` with the
        arguments, then the catch-all callbacks with the hook's name and the arguments. */
    method Call(hookName: string, args: seq<A>) returns (calls: seq<Invocation<F, A>>)
      ensures var named := Registered(hooks, hookName);
        var catchAll := Registered(hooks, "");
        |calls| == |named| + |catchAll|
        && (forall i :: 0 <= i < |named| ==> calls[i] == Invocation(named[i], None, args))
        && (forall i :: 0 <= i < |catchAll| ==>
              calls[|named| + i] == Invocation(catchAll[i], Some(hookName), args))
    {
      calls := [];
      if hookName in hooks {
        var fs := hooks[hookName];
        var i := 0;
        while i < |fs|
          invariant 0 <= i <= |fs|
          invariant |calls| == i
          invariant forall j :: 0 <= j < i ==> calls[j] == Invocation(fs[j], None, args)
        {
          calls := calls + [Invocation(fs[i], None, args)];
          i := i + 1;
        }
      }
      var named := calls;
      if "" in hooks {
        var fs := hooks[""];
        var i := 0;
        while i < |fs|
          invariant 0 <= i <= |fs|
          invariant |calls| == |named| + i
          invariant calls[..|named|] == named
          invariant forall j :: 0 <= j < i ==> calls[|named| + j] == Invocation(fs[j], Some(hookName), args)
        {
          calls := calls + [Invocation(fs[i], Some(hookName), args)];
          i := i + 1;
        }
      }
    }
  }

  /** A callback added to a hook is among the ones called on it, with the call's arguments;
      a removed callback is no longer called under that name. */
  lemma AddedIsCalled<F>(hooks: map<string, seq<F>>, name: string, f: F)
    ensures f in Registered(hooks[name := Registered(hooks, name) + [f]], name)
    ensures name in hooks ==> f !in Registered(hooks[name := Without(hooks[name], f)], name)
  {
  }
}

=== FILE: merge_laws.dfy ===
/** What `MergeAction` (mapper/actions/merge_action.js:20-59) does to the map: when the valid
    refs share one type, the first of them stays and takes over the children of the others,
    which are removed; and its undo ends with a cleanup of the target, which throws as
    written because it is given no type. */
module MergeLaws {
  import opened Wrappers
  import opened Worlds
  import opened Actions
  import ActionLaws

  lemma SingletonMembers<T>(s: set<T>, t: T, u: T)
    requires |s| == 1 && t in s && u in s
    ensures t == u
  {
    assert |s - {t}| == 0;
  }

  /** `possible` holds exactly when some listed node is valid and all valid listed nodes
      have one type. */
  lemma PossibleMeans(w: World, refs: seq<Id>)
    ensures Possible(w, refs) <==>
      (ValidRefs(w, refs) != [] &&
       forall x, y :: x in ValidRefs(w, refs) && y in ValidRefs(w, refs) ==> w.nodes[x].typeId == w.nodes[y].typeId)
  {
    var valid := ValidRefs(w, refs);
    var types := TypeIds(w, refs);
    if valid != [] {
      assert valid[0] in valid;
      var t := w.nodes[valid[0]].typeId;
      assert t in types;
      if forall x, y :: x in valid && y in valid ==> w.nodes[x].typeId == w.nodes[y].typeId {
        assert types == {t};
      }
      if Possible(w, refs) {
        forall x | x in valid ensures w.nodes[x].typeId == t {
          var u := w.nodes[x].typeId;
          assert u in types;
          SingletonMembers(types, t, u);
        }
      }
    } else {
      assert types == {};
    }
  }

  predicate Distinct(s: seq<Id>)
  {
    forall i, j :: 0 <= i < j < |s| ==> s[i] != s[j]
  }

  /** The valid refs of distinct refs are distinct. */
  lemma {:induction false} ValidRefsDistinct(w: World, refs: seq<Id>)
    requires Distinct(refs)
    ensures Distinct(ValidRefs(w, refs))
  {
    if refs != [] {
      ValidRefsDistinct(w, refs[1..]);
      var rest := ValidRefs(w, refs[1..]);
      if IsValid(w, refs[0]) {
        assert refs[0] !in refs[1..];
        assert refs[0] !in rest;
        var r := ValidRefs(w, refs);
        assert r == [refs[0]] + rest;
        forall i, j | 0 <= i < j < |r| ensures r[i] != r[j] {
          assert r[j] == rest[j - 1];
          if i > 0 {
            assert r[i] == rest[i - 1];
            assert rest[i - 1] != rest[j - 1];
          } else {
            assert r[i] == refs[0];
            assert rest[j - 1] in rest;
          }
        }
      }
    }
  }

  /** A node's type, name and geometry: what a merge leaves as it was. */
  predicate Kept(a: NodeRec, b: NodeRec)
  {
    a.typeId == b.typeId && a.name == b.name && a.center == b.center
      && a.effectiveCenter == b.effectiveCenter && a.radius == b.radius
  }

  /** Setting the parent of the children in `done` to `target` changes exactly their parent. */
  lemma {:induction false} ReparentedSpec(w: World, done: seq<Id>, target: Id)
    requires target in w.nodes
    requires forall c :: c in done ==> c in w.nodes
    ensures var q := Reparented(w, done, target).world;
      forall id :: id in w.nodes ==>
        q.nodes[id] == if id in done then w.nodes[id].(parent := Some(target)) else w.nodes[id]
  {
    if done != [] {
      var init := done[..|done| - 1];
      InitMembers(done);
      ReparentedSpec(w, init, target);
      ReparentStep(w, Reparented(w, init, target).world, done, init, done[|done| - 1], target);
    }
  }

  /** One turn of the reparenting loop. */
  lemma ReparentStep(w: World, p: World, done: seq<Id>, init: seq<Id>, c: Id, target: Id)
    requires c in p.nodes && p.nodes.Keys == w.nodes.Keys
    requires forall x :: x in done <==> x in init || x == c
    requires forall id :: id in w.nodes ==>
      p.nodes[id] == if id in init then w.nodes[id].(parent := Some(target)) else w.nodes[id]
    ensures var q := ChangeParentPerform(p, c, Some(target)).world;
      forall id :: id in w.nodes ==>
        q.nodes[id] == if id in done then w.nodes[id].(parent := Some(target)) else w.nodes[id]
  {
  }

  /** Node `id` once the nodes in `done` are merged into `target`: its type, name and
      geometry are kept; it is invalid if it is one of them and otherwise as valid as
      before; its parent is as before or, if that was one of them, `target`; and if it is
      valid, its parent is none of them. */
  ghost predicate NodeMerged(w: World, p: World, done: seq<Id>, target: Id, id: Id)
    requires id in w.nodes && id in p.nodes
  {
    && Kept(w.nodes[id], p.nodes[id])
    && p.nodes[id].valid == (w.nodes[id].valid && id !in done)
    && (|| p.nodes[id].parent == w.nodes[id].parent
        || (p.nodes[id].parent == Some(target) && w.nodes[id].parent.Some? && w.nodes[id].parent.value in done))
    && (p.nodes[id].valid && p.nodes[id].parent.Some? ==> p.nodes[id].parent.value !in done)
  }

  /** The map once the nodes in `done` are merged into `target`. */
  ghost predicate MergeInv(w: World, p: World, done: seq<Id>, target: Id)
  {
    && p.nodes.Keys == w.nodes.Keys && p.edges == w.edges && p.tiles == w.tiles && p.nextId == w.nextId
    && forall id :: id in w.nodes ==> NodeMerged(w, p, done, target, id)
  }

  /** What one turn changes: `other` turns invalid, its valid children take `target` as
      parent, and nothing else changes. */
  lemma MergeStepSpec(p: World, other: Id, target: Id)
    requires target in p.nodes && IsValid(p, other)
    ensures var t := MergeStep(p, other, target).world;
      && t.nodes.Keys == p.nodes.Keys && t.edges == p.edges && t.tiles == p.tiles && t.nextId == p.nextId
      && forall id :: id in p.nodes ==>
           && Kept(p.nodes[id], t.nodes[id])
           && t.nodes[id].valid == (p.nodes[id].valid && id != other)
           && t.nodes[id].parent == if id in Children(p, other) then Some(target) else p.nodes[id].parent
  {
    var children := Children(p, other);
    ReparentedSpec(p, children, target);
    var q := Reparented(p, children, target).world;
    RemoveOne(q, other);
  }

  /** Removing one valid node marks it invalid and changes nothing else. */
  lemma RemoveOne(q: World, other: Id)
    requires IsValid(q, other)
    ensures var t := RemoveNodes(q, [other]).0;
      && t.nodes.Keys == q.nodes.Keys && t.edges == q.edges && t.tiles == q.tiles && t.nextId == q.nextId
      && forall id :: id in q.nodes ==> t.nodes[id] == if id == other then q.nodes[id].(valid := false) else q.nodes[id]
  {
    var affected := RemoveNodes(q, [other]).1;
    assert (set x | x in affected) == {other};
  }

  /** One node through the turn that merges `other`, after the nodes in `init`. */
  lemma NodeStep(w: World, p: World, done: seq<Id>, init: seq<Id>, other: Id, target: Id, id: Id)
    requires target in p.nodes && IsValid(p, other) && target !in done
    requires forall x :: x in done <==> x in init || x == other
    requires id in w.nodes && id in p.nodes && id < p.nextId
    requires NodeMerged(w, p, init, target, id)
    ensures var t := MergeStep(p, other, target).world;
      id in t.nodes && NodeMerged(w, t, done, target, id)
  {
    MergeStepSpec(p, other, target);
  }

  /** The first part of a list of distinct ids is distinct and misses its last id. */
  lemma SplitLast(done: seq<Id>)
    requires Distinct(done) && done != []
    ensures var init := done[..|done| - 1];
      Distinct(init) && done[|done| - 1] !in init
  {
    var init := done[..|done| - 1];
    assert forall i :: 0 <= i < |init| ==> init[i] == done[i];
  }

  /** Node `id` through the merge of the nodes in `done`, by induction on `done`. */
  lemma {:induction false} MergedNode(w: World, done: seq<Id>, target: Id, id: Id)
    requires Good(w) && IsValid(w, target) && target !in done
    requires forall x :: x in done ==> IsValid(w, x)
    requires Distinct(done) && id in w.nodes
    ensures var p := MergedInto(w, done, target).world;
      id in p.nodes && NodeMerged(w, p, done, target, id)
  {
    if done != [] {
      var init := done[..|done| - 1];
      var other := done[|done| - 1];
      SplitLast(done);
      InitMembers(done);
      var p := MergedInto(w, init, target).world;
      MergedNode(w, init, target, id);
      MergedNode(w, init, target, other);
      assert IsValid(p, other);
      assert id < p.nextId;
      NodeStep(w, p, done, init, other, target, id);
    }
  }

  /** The invariant once the nodes in `done` are merged. */
  lemma MergedIntoInv(w: World, done: seq<Id>, target: Id)
    requires Good(w) && IsValid(w, target) && target !in done
    requires forall x :: x in done ==> IsValid(w, x)
    requires Distinct(done)
    ensures MergeInv(w, MergedInto(w, done, target).world, done, target)
  {
    forall id | id in w.nodes
      ensures id in MergedInto(w, done, target).world.nodes
      ensures NodeMerged(w, MergedInto(w, done, target).world, done, target, id)
    {
      MergedNode(w, done, target, id);
    }
  }

  /** The target and the other nodes of a possible merge of distinct refs. */
  lemma MergeParties(w: World, refs: seq<Id>)
    requires Possible(w, refs) && Distinct(refs)
    ensures var valid := ValidRefs(w, refs);
      && valid != [] && IsValid(w, valid[0]) && valid[0] !in valid[1..]
      && (forall x :: x in valid[1..] ==> IsValid(w, x))
      && Distinct(valid[1..])
  {
    var valid := ValidRefs(w, refs);
    PossibleMeans(w, refs);
    ValidRefsDistinct(w, refs);
    var others := valid[1..];
    assert valid[0] in valid;
    forall i | 0 <= i < |others| ensures others[i] != valid[0] && IsValid(w, others[i]) {
      assert others[i] == valid[i + 1];
      assert valid[i + 1] in valid;
    }
    forall i, j | 0 <= i < j < |others| ensures others[i] != others[j] {
      assert others[i] == valid[i + 1] && others[j] == valid[j + 1];
    }
  }

  /** What the invariant says once every other node is merged. */
  lemma MergedMeans(w: World, t: World, others: seq<Id>, target: Id)
    requires IsValid(w, target) && target !in others
    requires forall x :: x in others ==> IsValid(w, x)
    requires MergeInv(w, t, others, target)
    ensures && IsValid(t, target)
            && (forall x :: x in others ==> x in t.nodes && !t.nodes[x].valid)
            && (forall id :: id in w.nodes && id !in others ==> t.nodes[id].valid == w.nodes[id].valid)
            && (forall id :: id in w.nodes ==>
                  || t.nodes[id].parent == w.nodes[id].parent
                  || (t.nodes[id].parent == Some(target) && w.nodes[id].parent.Some? && w.nodes[id].parent.value in others))
            && (forall id :: IsValid(t, id) && t.nodes[id].parent.Some? ==> t.nodes[id].parent.value !in others)
            && (forall id :: id in w.nodes ==> Kept(w.nodes[id], t.nodes[id]))
            && t.nodes.Keys == w.nodes.Keys && t.edges == w.edges && t.tiles == w.tiles && t.nextId == w.nextId
  {
    assert NodeMerged(w, t, others, target, target);
    forall x | x in others ensures x in t.nodes && !t.nodes[x].valid {
      assert NodeMerged(w, t, others, target, x);
    }
    forall id | IsValid(t, id) && t.nodes[id].parent.Some? ensures t.nodes[id].parent.value !in others {
      assert NodeMerged(w, t, others, target, id);
    }
  }

  lemma MergeWorld(w: World, refs: seq<Id>)
    ensures var valid := ValidRefs(w, refs);
      Possible(w, refs) ==>
        && valid != [] && valid[0] in w.nodes
        && MergePerform(w, refs).world == MergedInto(w, valid[1..], valid[0]).world
  {
    var valid := ValidRefs(w, refs);
    if Possible(w, refs) {
      assert valid[0] in valid;
    }
  }

  /** The effect of a merge of distinct refs on a map whose ids are in order: when `possible`
      holds, the first valid ref stays valid, the other valid refs become invalid, no other
      node changes validity, the nodes whose parent was one of them (and that were still
      valid when it was merged) now have the first as parent, no valid node is left under
      a merged node, and types, names and geometry stay. Otherwise the map is unchanged. */
  lemma MergeEffect(w: World, refs: seq<Id>)
    requires Good(w)
    requires Distinct(refs)
    ensures var o := MergePerform(w, refs);
      var valid := ValidRefs(w, refs);
      && (!Possible(w, refs) ==> o.world == w)
      && (Possible(w, refs) ==>
            var target := valid[0];
            var others := valid[1..];
            && IsValid(o.world, target)
            && (forall x :: x in others ==> x in o.world.nodes && !o.world.nodes[x].valid)
            && (forall id :: id in w.nodes && id !in others ==> o.world.nodes[id].valid == w.nodes[id].valid)
            && (forall id :: id in w.nodes ==>
                  || o.world.nodes[id].parent == w.nodes[id].parent
                  || (o.world.nodes[id].parent == Some(target) && w.nodes[id].parent.Some? && w.nodes[id].parent.value in others))
            && (forall id :: IsValid(o.world, id) && o.world.nodes[id].parent.Some? ==>
                  o.world.nodes[id].parent.value !in others)
            && (forall id :: id in w.nodes ==> Kept(w.nodes[id], o.world.nodes[id]))
            && o.world.nodes.Keys == w.nodes.Keys && o.world.edges == w.edges
            && o.world.tiles == w.tiles && o.world.nextId == w.nextId)
  {
    var valid := ValidRefs(w, refs);
    if Possible(w, refs) {
      MergeParties(w, refs);
      var others := valid[1..];
      MergeWorld(w, refs);
      MergedIntoInv(w, others, valid[0]);
      MergedMeans(w, MergedInto(w, others, valid[0]).world, others, valid[0]);
    }
  }

  /** Moving children answers one `ChangeParent` undo per child. */
  lemma {:induction false} ReparentedUndos(w: World, done: seq<Id>, target: Id)
    requires target in w.nodes
    requires forall c :: c in done ==> c in w.nodes
    ensures forall a :: a in Reparented(w, done, target).undos ==> a.ChangeParent?
  {
    if done != [] {
      InitMembers(done);
      ReparentedUndos(w, done[..|done| - 1], target);
    }
  }

  /** Merging nodes answers only `ChangeParent` and `Unremove` undos. */
  lemma {:induction false} MergedIntoUndos(w: World, done: seq<Id>, target: Id)
    requires target in w.nodes
    ensures forall a :: a in MergedInto(w, done, target).undos ==> a.ChangeParent? || a.Unremove?
  {
    if done != [] {
      var p := MergedInto(w, done[..|done| - 1], target);
      MergedIntoUndos(w, done[..|done| - 1], target);
      ReparentedUndos(p.world, Children(p.world, done[|done| - 1]), target);
    }
  }

  /** The undo a merge answers as written, when it merged anything, ends with a cleanup of
      the target that has no type, so performing it throws once the rest is undone; when
      `possible` fails, the undo is empty. */
  lemma MergeUndoRaises(w: World, refs: seq<Id>)
    ensures var u := MergeUndoAsWritten(w, refs);
      && (Possible(w, refs) ==> ActionLaws.Raises(u))
      && (!Possible(w, refs) ==> Empty(u))
  {
    if Possible(w, refs) {
      var xs := MergeUndoAsWritten(w, refs).actions;
      assert xs[|xs| - 1].NodeCleanup? && xs[|xs| - 1].typeId.None?;
    }
  }

  /** A bulk of moves and restorations that ends with a typed cleanup does not throw. */
  lemma TypedCleanupLast(xs: seq<Action>, c: Action)
    requires forall a :: a in xs ==> a.ChangeParent? || a.Unremove?
    requires c.NodeCleanup? && c.typeId.Some?
    ensures !ActionLaws.Raises(Bulk(xs + [c]))
  {
    var ys := xs + [c];
    forall i | 0 <= i < |ys| ensures !ActionLaws.Raises(ys[i]) {
      if i < |xs| {
        assert ys[i] in xs;
      }
    }
  }

  /** With the target's type given to the cleanup, the undo a merge answers never throws:
      it ends with a cleanup of the target of the target's type, and everything before it
      moves a child back or restores a removed node. */
  lemma MergeUndoTyped(w: World, refs: seq<Id>)
    ensures var o := MergePerform(w, refs);
      && o.undo.Some? && !ActionLaws.Raises(o.undo.value)
      && (Possible(w, refs) ==>
            var xs := o.undo.value.actions;
            var target := ValidRefs(w, refs)[0];
            && xs != [] && target in w.nodes
            && xs[|xs| - 1] == NodeCleanup(target, Some(w.nodes[target].typeId)))
      && (!Possible(w, refs) ==> Empty(o.undo.value))
  {
    if Possible(w, refs) {
      var valid := ValidRefs(w, refs);
      MergeWorld(w, refs);
      var target := valid[0];
      var c := NodeCleanup(target, Some(w.nodes[target].typeId));
      var undos := MergedInto(w, valid[1..], target).undos;
      MergedIntoUndos(w, valid[1..], target);
      assert MergePerform(w, refs).undo == Some(Bulk(undos + [c]));
      TypedCleanupLast(undos, c);
    }
  }
}

=== FILE: path.dfy ===
/** The `Path` of mapper/geometry.js: an origin plus lines relative to it, grown point by point
    while the mouse is dragged. */
module Paths {
  import opened Geometry

  /** The state of a path: its origin, its lines relative to the origin, and `at`, the position
      (relative to the origin) the next line starts from. */
  datatype PathData = PathData(origin: Vector3, lines: seq<Line3>, at: Vector3)

  /** The vertices in addition order: the origin, then the end of every line moved back by the
      origin. */
  function Vertices(p: PathData): (vs: seq<Vector3>)
    ensures |vs| == |p.lines| + 1 && vs[0] == p.origin
  {
    [p.origin] + seq(|p.lines|, i requires 0 <= i < |p.lines| => p.lines[i].b.Add(p.origin))
  }

  /** Every line starts where the previous one ended, the first one at `start`. */
  predicate Chained(lines: seq<Line3>, start: Vector3)
  {
    (|lines| > 0 ==> lines[0].a == start)
    && forall i :: 0 < i < |lines| ==> lines[i].a == lines[i - 1].b
  }

  /** Where a chain starting at `start` ends. */
  function End(lines: seq<Line3>, start: Vector3): Vector3
  {
    if |lines| == 0 then start else lines[|lines| - 1].b
  }

  predicate NonDegenerate(lines: seq<Line3>)
  {
    forall i :: 0 <= i < |lines| ==> lines[i].a != lines[i].b
  }

  /** The invariant every path built by `next` keeps: a chain of proper lines from the origin
      (relative position zero) to `at`. */
  predicate WellFormed(p: PathData)
  {
    Chained(p.lines, Zero) && p.at == End(p.lines, Zero) && NonDegenerate(p.lines)
  }

  /** A new path holding only its start point. */
  function Start(startPoint: Vector3): (p: PathData)
    ensures WellFormed(p) && Vertices(p) == [startPoint]
  {
    PathData(startPoint, [], Zero)
  }

  /** `next`: add a line to `nextPoint` unless the path is already there. */
  function Extended(p: PathData, nextPoint: Vector3): PathData
  {
    var nextRelativePoint := nextPoint.Subtract(p.origin);
    if p.at.Subtract(nextRelativePoint).LengthSquared() > 0.0 then
      p.(lines := p.lines + [Line3(p.at, nextRelativePoint)], at := nextRelativePoint)
    else
      p
  }

  /** The last line, or the zero line when there is none. */
  function LastLine(p: PathData): Line3
  {
    if |p.lines| > 0 then p.lines[|p.lines| - 1] else ZeroLine
  }

  function LastVertex(p: PathData): Vector3
  {
    LastLine(p).b.Add(p.origin)
  }

  /** The last vertex is the end of the last line, or the origin of a path without lines. */
  lemma LastVertexIsLast(p: PathData)
    requires WellFormed(p)
    ensures LastVertex(p) == Vertices(p)[|Vertices(p)| - 1]
    ensures LastVertex(p) == p.at.Add(p.origin)
  {
  }

  /** `next` keeps a path well formed, ignores a point equal to the last vertex and otherwise
      appends it as a new vertex. */
  lemma NextAppends(p: PathData, nextPoint: Vector3)
    requires WellFormed(p)
    ensures WellFormed(Extended(p, nextPoint))
    ensures Extended(p, nextPoint).origin == p.origin
    ensures nextPoint == LastVertex(p) ==> Vertices(Extended(p, nextPoint)) == Vertices(p)
    ensures nextPoint != LastVertex(p) ==> Vertices(Extended(p, nextPoint)) == Vertices(p) + [nextPoint]
  {
    var rel := nextPoint.Subtract(p.origin);
    LastVertexIsLast(p);
    assert p.at == rel <==> nextPoint == LastVertex(p);
    assert p.at.Subtract(rel) == Zero <==> p.at == rel;
    if p.at != rel {
      var q := Extended(p, nextPoint);
      var n := |p.lines|;
      assert q.lines == p.lines + [Line3(p.at, rel)];
      assert q.lines[n].a == End(p.lines, Zero);
      assert rel.Add(p.origin) == nextPoint;
      assert Vertices(q) == Vertices(p) + [nextPoint];
    }
  }

  /** A chain followed by a chain from its end is a chain. */
  lemma ChainedAppend(x: seq<Line3>, y: seq<Line3>, start: Vector3)
    requires Chained(x, start) && Chained(y, End(x, start))
    ensures Chained(x + y, start)
    ensures End(x + y, start) == End(y, End(x, start))
  {
    var r := x + y;
    forall i | 0 < i < |r| ensures r[i].a == r[i - 1].b {
      if i < |x| {
        assert r[i] == x[i] && r[i - 1] == x[i - 1];
      } else if i == |x| {
        assert r[i] == y[0] && r[i - 1] == x[i - 1];
      } else {
        assert r[i] == y[i - |x|] && r[i - 1] == y[i - 1 - |x|];
      }
    }
  }

  /** The squared radius, positive for a positive radius. */
  function RadiusSquared(radius: real): (r2: real)
    requires radius > 0.0
    ensures r2 > 0.0
  {
    Positive(radius, radius);
    Mul(radius, radius)
  }

  /** How many whole squared radii fit into a squared length: each halving of a line divides
      it by four, so it strictly decreases while the line is at least one radius long. */
  function Halvings(d2: real, r2: real): nat
    requires d2 >= 0.0 && r2 > 0.0
  {
    var q := d2 / r2;
    assert q >= 0.0;
    q.Floor
  }

  lemma HalvingsDecrease(d2: real, r2: real)
    requires d2 >= r2 > 0.0
    ensures Halvings(d2 / 4.0, r2) < Halvings(d2, r2)
  {
    var q := d2 / r2;
    assert q >= 1.0;
    var q4 := (d2 / 4.0) / r2;
    assert q4 == q / 4.0;
    if q4 >= 1.0 {
      assert q4.Floor as real <= q4;
      assert q4 + 1.0 <= q;
    }
  }

  /** The midpoint of a line. */
  function Middle(l: Line3): Vector3
  {
    l.a.Add(l.b).DivideScalar(2.0)
  }

  lemma ScaledProduct(a: real, b: real, s: real)
    ensures Mul(a * s, b * s) == Mul(a, b) * (s * s)
  {
  }

  lemma HalfCoordinate(p: real, q: real)
    ensures Mul(p - (p + q) * (1.0 / 2.0), p - (p + q) * (1.0 / 2.0)) == Mul(p - q, p - q) / 4.0
    ensures Mul((p + q) * (1.0 / 2.0) - q, (p + q) * (1.0 / 2.0) - q) == Mul(p - q, p - q) / 4.0
  {
    assert p - (p + q) * (1.0 / 2.0) == (p - q) * 0.5;
    assert (p + q) * (1.0 / 2.0) - q == (p - q) * 0.5;
    ScaledProduct(p - q, p - q, 0.5);
  }

  /** Each half of a line is a quarter of its squared length, and proper if the line is. */
  lemma Halves(l: Line3)
    ensures Line3(l.a, Middle(l)).DistanceSquared() == l.DistanceSquared() / 4.0
    ensures Line3(Middle(l), l.b).DistanceSquared() == l.DistanceSquared() / 4.0
    ensures l.a != l.b ==> l.a != Middle(l) && Middle(l) != l.b
  {
    HalfCoordinate(l.a.x, l.b.x);
    HalfCoordinate(l.a.y, l.b.y);
    HalfCoordinate(l.a.z, l.b.z);
  }

  /** `addBisectedLine`: split `line` at its midpoint, recursively, until every piece is
      shorter than `radius`. */
  function Bisect(line: Line3, radius: real): seq<Line3>
    requires radius > 0.0
    decreases Halvings(line.DistanceSquared(), RadiusSquared(radius))
  {
    if line.DistanceSquared() >= RadiusSquared(radius) then
      var middle := Middle(line);
      Halves(line);
      HalvingsDecrease(line.DistanceSquared(), RadiusSquared(radius));
      Bisect(Line3(line.a, middle), radius) + Bisect(Line3(middle, line.b), radius)
    else
      [line]
  }

  /** The pieces of a bisected line form a chain over the same endpoints, each piece shorter
      than the radius, and proper pieces when the line was proper. */
  lemma {:induction false} BisectChain(line: Line3, radius: real)
    requires radius > 0.0
    ensures var r := Bisect(line, radius);
      |r| >= 1 && Chained(r, line.a) && End(r, line.a) == line.b
      && (forall i :: 0 <= i < |r| ==> r[i].DistanceSquared() < RadiusSquared(radius))
      && (line.a != line.b ==> NonDegenerate(r))
    decreases Halvings(line.DistanceSquared(), RadiusSquared(radius))
  {
    if line.DistanceSquared() >= RadiusSquared(radius) {
      var middle := Middle(line);
      Halves(line);
      HalvingsDecrease(line.DistanceSquared(), RadiusSquared(radius));
      var x := Bisect(Line3(line.a, middle), radius);
      var y := Bisect(Line3(middle, line.b), radius);
      BisectChain(Line3(line.a, middle), radius);
      BisectChain(Line3(middle, line.b), radius);
      ChainedAppend(x, y, line.a);
      assert Bisect(line, radius) == x + y;
    }
  }

  /** The loop of `withBisectedLines` over the lines, in order. */
  function BisectAll(lines: seq<Line3>, radius: real): seq<Line3>
    requires radius > 0.0
  {
    if |lines| == 0 then []
    else BisectAll(lines[..|lines| - 1], radius) + Bisect(lines[|lines| - 1], radius)
  }

  /** Bisecting a chain gives a chain over the same ends whose pieces are all shorter than
      the radius, and each original line end is the end of some piece. */
  lemma {:induction false} BisectAllChain(lines: seq<Line3>, start: Vector3, radius: real)
    requires radius > 0.0
    requires Chained(lines, start) && NonDegenerate(lines)
    ensures var r := BisectAll(lines, radius);
      Chained(r, start) && End(r, start) == End(lines, start) && NonDegenerate(r)
      && (forall i :: 0 <= i < |r| ==> r[i].DistanceSquared() < RadiusSquared(radius))
      && (forall i :: 0 <= i < |lines| ==> exists j :: 0 <= j < |r| && r[j].b == lines[i].b)
  {
    if |lines| > 0 {
      var n := |lines| - 1;
      var init := lines[..n];
      assert forall i :: 0 <= i < n ==> init[i] == lines[i];
      assert Chained(init, start) && NonDegenerate(init);
      BisectAllChain(init, start, radius);
      var x := BisectAll(init, radius);
      var y := Bisect(lines[n], radius);
      BisectChain(lines[n], radius);
      assert lines[n].a == End(init, start);
      ChainedAppend(x, y, start);
      var r := x + y;
      assert BisectAll(lines, radius) == r;
      forall i | 0 <= i < |lines|
        ensures exists j :: 0 <= j < |r| && r[j].b == lines[i].b
      {
        if i < n {
          assert init[i] == lines[i];
          var j :| 0 <= j < |x| && x[j].b == init[i].b;
          assert r[j] == x[j];
        } else {
          assert r[|r| - 1] == y[|y| - 1];
        }
      }
    }
  }

  /** `withBisectedLines`: the same origin and position with every line bisected. */
  function Bisected(p: PathData, radius: real): PathData
    requires radius > 0.0 || p.lines == []
  {
    if p.lines == [] then p else p.(lines := BisectAll(p.lines, radius))
  }

  /** Bisecting keeps a path well formed, keeps its first and last vertex and every vertex it
      had, and brings consecutive vertices closer than the radius. */
  lemma BisectedPath(p: PathData, radius: real)
    requires radius > 0.0 && WellFormed(p)
    ensures var q := Bisected(p, radius);
      WellFormed(q) && q.origin == p.origin
      && LastVertex(q) == LastVertex(p)
      && (forall v :: v in Vertices(p) ==> v in Vertices(q))
      && (forall i :: 0 <= i < |q.lines| ==>
            Line3(Vertices(q)[i], Vertices(q)[i + 1]).DistanceSquared() < RadiusSquared(radius))
  {
    var q := Bisected(p, radius);
    BisectAllChain(p.lines, Zero, radius);
    LastVertexIsLast(p);
    LastVertexIsLast(q);
    forall v | v in Vertices(p) ensures v in Vertices(q) {
      var k :| 0 <= k < |Vertices(p)| && Vertices(p)[k] == v;
      if k > 0 {
        var j :| 0 <= j < |q.lines| && q.lines[j].b == p.lines[k - 1].b;
        assert Vertices(q)[j + 1] == v;
      }
    }
    forall i | 0 <= i < |q.lines|
      ensures Line3(Vertices(q)[i], Vertices(q)[i + 1]).DistanceSquared() < RadiusSquared(radius)
    {
      VertexGap(q, i);
    }
  }

  /** Consecutive vertices of a well-formed path are as far apart as the line between them. */
  lemma VertexGap(p: PathData, i: int)
    requires WellFormed(p) && 0 <= i < |p.lines|
    ensures Line3(Vertices(p)[i], Vertices(p)[i + 1]).DistanceSquared() == p.lines[i].DistanceSquared()
  {
    var u := Vertices(p)[i];
    var v := Vertices(p)[i + 1];
    var l := p.lines[i];
    if i == 0 {
      assert l.a == Zero;
    } else {
      assert l.a == p.lines[i - 1].b;
    }
    assert u == l.a.Add(p.origin);
    assert v == l.b.Add(p.origin);
    assert u.Subtract(v) == l.a.Subtract(l.b);
  }

  /** The sum of some vectors, accumulated from the zero vector. */
  function Sum(vs: seq<Vector3>): Vector3
  {
    if |vs| == 0 then Zero else Sum(vs[..|vs| - 1]).Add(vs[|vs| - 1])
  }

  /** The mean of the vertices. */
  function Center(p: PathData): Vector3
  {
    Sum(Vertices(p)).DivideScalar(|Vertices(p)| as real)
  }

  /** Every vector moved by `offset`. */
  function Shifted(vs: seq<Vector3>, offset: Vector3): (r: seq<Vector3>)
    ensures |r| == |vs| && forall i :: 0 <= i < |vs| ==> r[i] == vs[i].Add(offset)
  {
    seq(|vs|, i requires 0 <= i < |vs| => vs[i].Add(offset))
  }

  lemma {:induction false} SumShifted(vs: seq<Vector3>, offset: Vector3)
    ensures Sum(Shifted(vs, offset)) == Sum(vs).Add(offset.MultiplyScalar(|vs| as real))
  {
    if |vs| > 0 {
      var n := |vs| - 1;
      assert Shifted(vs, offset)[..n] == Shifted(vs[..n], offset);
      var sh := Shifted(vs, offset);
      SumShifted(vs[..n], offset);
      assert Sum(sh) == Sum(sh[..n]).Add(sh[n]);
      assert Sum(vs) == Sum(vs[..n]).Add(vs[n]);
      AddScaled(Sum(vs[..n]), vs[n], offset, n as real);
    }
  }

  lemma AddScaled(s: Vector3, v: Vector3, o: Vector3, k: real)
    ensures s.Add(o.MultiplyScalar(k)).Add(v.Add(o)) == s.Add(v).Add(o.MultiplyScalar(k + 1.0))
  {
  }

  /** Moving the origin moves every vertex, and so the center, by the same offset. */
  lemma CenterMovesWithOrigin(p: PathData, offset: Vector3)
    ensures Vertices(p.(origin := p.origin.Add(offset))) == Shifted(Vertices(p), offset)
    ensures Center(p.(origin := p.origin.Add(offset))) == Center(p).Add(offset)
  {
    var q := p.(origin := p.origin.Add(offset));
    var n := |Vertices(p)| as real;
    assert Vertices(q) == Shifted(Vertices(p), offset);
    SumShifted(Vertices(p), offset);
    var s := Sum(Vertices(p));
    assert s.Add(offset.MultiplyScalar(n)).DivideScalar(n) == s.DivideScalar(n).Add(offset);
  }

  /** `asMostRecent`: a path holding only the last line, at its place on the map. */
  function MostRecent(p: PathData): PathData
  {
    var lastLine := LastLine(p);
    Extended(Start(p.origin.Add(lastLine.a)), p.origin.Add(lastLine.b))
  }

  /** The most recent part of a path is the path between its last two vertices, or just the
      origin when there is no line yet. */
  lemma MostRecentVertices(p: PathData)
    requires WellFormed(p)
    ensures WellFormed(MostRecent(p))
    ensures |p.lines| == 0 ==> Vertices(MostRecent(p)) == [p.origin]
    ensures |p.lines| > 0 ==> Vertices(MostRecent(p)) == Vertices(p)[|p.lines| - 1..]
  {
    var l := LastLine(p);
    var s := Start(p.origin.Add(l.a));
    NextAppends(s, p.origin.Add(l.b));
    if |p.lines| == 0 {
      assert p.origin.Add(l.b) == LastVertex(s);
    } else {
      var n := |p.lines| - 1;
      assert l.a != l.b;
      assert p.origin.Add(l.b) != LastVertex(s);
      assert n == 0 ==> l.a == Zero;
      assert n > 0 ==> l.a == p.lines[n - 1].b;
      assert Vertices(p)[n] == p.origin.Add(l.a);
      assert Vertices(p)[n + 1] == p.origin.Add(l.b);
    }
  }

  /** The path as an object whose `next`, `push` and `pop` change it in place. */
  class Path {
    var origin: Vector3
    var lines: seq<Line3>
    var at: Vector3

    function Data(): PathData
      reads this
    {
      PathData(origin, lines, at)
    }

    constructor (startPoint: Vector3)
      ensures Data() == Start(startPoint)
    {
      origin := startPoint;
      lines := [];
      at := Zero;
    }

    /** `mapOrigin`: a new path with the origin mapped and the same lines. */
    method MapOrigin(f: Vector3 -> Vector3) returns (path: Path)
      ensures fresh(path)
      ensures path.Data() == Data().(origin := f(origin))
    {
      path := new Path(f(origin));
      path.lines := lines;
      path.at := at;
    }

    /** `mapLines`: a new path with every line end and the position mapped. */
    method MapLines(f: Vector3 -> Vector3) returns (path: Path)
      ensures fresh(path)
      ensures path.origin == origin && path.at == f(at)
      ensures |path.lines| == |lines|
      ensures forall i :: 0 <= i < |lines| ==> path.lines[i] == lines[i].Map(f)
    {
      var ls := lines;
      path := new Path(origin);
      path.lines := seq(|ls|, i requires 0 <= i < |ls| => ls[i].Map(f));
      path.at := f(at);
    }

    method WithBisectedLines(radius: real) returns (path: Path)
      requires radius > 0.0 || lines == []
      ensures fresh(path)
      ensures path.Data() == Bisected(Data(), radius)
    {
      path := new Path(origin);
      var i := 0;
      while i < |lines|
        invariant 0 <= i <= |lines|
        invariant path.origin == origin && path.at == Zero
        invariant radius > 0.0 ==> path.lines == BisectAll(lines[..i], radius)
        invariant radius <= 0.0 ==> i == 0 && path.lines == []
      {
        AddBisectedLine(path, lines[i], radius);
        assert lines[..i + 1][..i] == lines[..i];
        i := i + 1;
      }
      assert lines[..i] == lines;
      path.at := at;
    }

    /** The recursive helper of `withBisectedLines`, appending the pieces of `line`. */
    static method AddBisectedLine(path: Path, line: Line3, radius: real)
      requires radius > 0.0
      modifies path
      ensures path.lines == old(path.lines) + Bisect(line, radius)
      ensures path.origin == old(path.origin) && path.at == old(path.at)
      decreases Halvings(line.DistanceSquared(), RadiusSquared(radius))
    {
      if line.DistanceSquared() >= RadiusSquared(radius) {
        var middle := line.a.Add(line.b).DivideScalar(2.0);
        Halves(line);
        HalvingsDecrease(line.DistanceSquared(), RadiusSquared(radius));
        AddBisectedLine(path, Line3(line.a, middle), radius);
        AddBisectedLine(path, Line3(middle, line.b), radius);
      } else {
        path.lines := path.lines + [line];
      }
    }

    method Next(nextPoint: Vector3)
      modifies this
      ensures Data() == Extended(old(Data()), nextPoint)
    {
      var nextRelativePoint := nextPoint.Subtract(origin);
      if at.Subtract(nextRelativePoint).LengthSquared() > 0.0 {
        lines := lines + [Line3(at, nextRelativePoint)];
        at := nextRelativePoint;
      }
    }

    /** Remove and return the last line (the zero line if there is none); `at` is left as it
        was. */
    method Pop() returns (line: Line3)
      modifies this
      ensures line == LastLine(old(Data()))
      ensures lines == if old(lines) == [] then [] else old(lines)[..|old(lines)| - 1]
      ensures origin == old(origin) && at == old(at)
    {
      if lines == [] {
        line := ZeroLine;
      } else {
        line := lines[|lines| - 1];
        lines := lines[..|lines| - 1];
      }
    }

    /** Append a line and answer the new number of lines. */
    method Push(line: Line3) returns (length: nat)
      modifies this
      ensures lines == old(lines) + [line] && length == |lines|
      ensures origin == old(origin) && at == old(at)
    {
      lines := lines + [line];
      length := |lines|;
    }

    /** `getCenter`: the mean of all vertices. */
    method GetCenter() returns (center: Vector3)
      ensures center == Center(Data())
    {
      var vertices := Vertices(Data());
      var sum := Zero;
      var i := 0;
      while i < |vertices|
        invariant 0 <= i <= |vertices|
        invariant sum == Sum(vertices[..i])
      {
        assert vertices[..i + 1][..i] == vertices[..i];
        sum := sum.Add(vertices[i]);
        i := i + 1;
      }
      assert vertices[..i] == vertices;
      center := sum.DivideScalar(|vertices| as real);
    }

    /** `getRadius`, squared: the largest squared distance from the center to a vertex. */
    method GetRadiusSquared() returns (r2: real)
      ensures forall v :: v in Vertices(Data()) ==> Line3(v, Center(Data())).DistanceSquared() <= r2
      ensures exists v :: v in Vertices(Data()) && Line3(v, Center(Data())).DistanceSquared() == r2
    {
      var center := GetCenter();
      var furthest := center;
      var vertices := Vertices(Data());
      var i := 0;
      while i < |vertices|
        invariant 0 <= i <= |vertices|
        invariant i == 0 ==> furthest == center
        invariant i > 0 ==> furthest in vertices[..i]
        invariant forall j :: 0 <= j < i ==>
          Line3(vertices[j], center).DistanceSquared() <= Line3(furthest, center).DistanceSquared()
      {
        if Line3(vertices[i], center).DistanceSquared() >= Line3(furthest, center).DistanceSquared() {
          furthest := vertices[i];
        }
        i := i + 1;
      }
      r2 := Line3(furthest, center).DistanceSquared();
    }

    method AsMostRecent() returns (path: Path)
      ensures fresh(path)
      ensures path.Data() == MostRecent(Data())
    {
      var lastLine := LastLine(Data());
      path := new Path(origin.Add(lastLine.a));
      path.Next(origin.Add(lastLine.b));
    }
  }
}

=== FILE: point.dfy ===
/** The older point helper of mapper/point.js: static arithmetic on 3d points. */
module Points {
  import Geometry

  datatype Point = Point(x: real, y: real, z: real)

  const Origin := Point(0.0, 0.0, 0.0)

  function Add(a: Point, b: Point): Point
  {
    Point(a.x + b.x, a.y + b.y, a.z + b.z)
  }

  function Subtract(a: Point, b: Point): Point
  {
    Point(a.x - b.x, a.y - b.y, a.z - b.z)
  }

  function ScalarMultiply(a: Point, s: real): Point
  {
    Point(a.x * s, a.y * s, a.z * s)
  }

  function Negate(a: Point): Point
  {
    ScalarMultiply(a, -1.0)
  }

  function DistanceSquared(a: Point, b: Point): (r: real)
    ensures r >= 0.0
    ensures r > 0.0 <==> a != b
  {
    var d := Subtract(a, b);
    Geometry.Square(d.x);
    Geometry.Square(d.y);
    Geometry.Square(d.z);
    Geometry.Mul(d.x, d.x) + Geometry.Mul(d.y, d.y) + Geometry.Mul(d.z, d.z)
  }

  function Min(a: Point, b: Point): Point
  {
    Point(Geometry.MinReal(a.x, b.x), Geometry.MinReal(a.y, b.y), Geometry.MinReal(a.z, b.z))
  }

  function Max(a: Point, b: Point): Point
  {
    Point(Geometry.MaxReal(a.x, b.x), Geometry.MaxReal(a.y, b.y), Geometry.MaxReal(a.z, b.z))
  }

  /** Whether segment ab properly crosses segment cd in the xy plane. */
  function LineIntersects(a: Point, b: Point, c: Point, d: Point): bool
  {
    Geometry.SegmentsCross(a.x, a.y, b.x, b.y, c.x, c.y, d.x, d.y)
  }

  /** Subtraction undoes addition, negation is an involution whose sum with the point is the
      origin. */
  lemma Arithmetic(a: Point, b: Point)
    ensures Subtract(Add(a, b), b) == a && Add(Subtract(a, b), b) == a
    ensures Add(a, b) == Add(b, a)
    ensures Negate(Negate(a)) == a && Add(a, Negate(a)) == Origin
    ensures Subtract(a, b) == Add(a, Negate(b))
  {
  }

  /** Distance is symmetric and unchanged by moving both points by the same offset. */
  lemma DistanceSymmetric(a: Point, b: Point, offset: Point)
    ensures DistanceSquared(a, b) == DistanceSquared(b, a)
    ensures DistanceSquared(Add(a, offset), Add(b, offset)) == DistanceSquared(a, b)
    ensures DistanceSquared(a, Origin) == DistanceSquared(Origin, Negate(a))
  {
    var d := Subtract(a, b);
    var e := Subtract(b, a);
    assert Geometry.Mul(d.x, d.x) == Geometry.Mul(e.x, e.x);
    assert Geometry.Mul(d.y, d.y) == Geometry.Mul(e.y, e.y);
    assert Geometry.Mul(d.z, d.z) == Geometry.Mul(e.z, e.z);
    assert Subtract(Add(a, offset), Add(b, offset)) == d;
    assert Subtract(Origin, Negate(a)) == a;
    assert Subtract(a, Origin) == a;
  }

  /** `min` and `max` bound both points componentwise. */
  lemma MinMax(a: Point, b: Point)
    ensures Min(a, b).x <= a.x && Min(a, b).x <= b.x && Max(a, b).x >= a.x && Max(a, b).x >= b.x
    ensures Min(a, b).y <= a.y && Min(a, b).y <= b.y && Max(a, b).y >= a.y && Max(a, b).y >= b.y
    ensures Min(a, b).z <= a.z && Min(a, b).z <= b.z && Max(a, b).z >= a.z && Max(a, b).z >= b.z
  {
  }

  /** `lineIntersects` is true exactly when two non-parallel segments cross strictly inside
      both, and is false for parallel ones. */
  lemma LineIntersectsMeaning(a: Point, b: Point, c: Point, d: Point)
    ensures Geometry.Determinant(a.x, a.y, b.x, b.y, c.x, c.y, d.x, d.y) == 0.0 ==> !LineIntersects(a, b, c, d)
    ensures Geometry.Determinant(a.x, a.y, b.x, b.y, c.x, c.y, d.x, d.y) != 0.0 ==>
      (LineIntersects(a, b, c, d) <==>
       exists lambda, gamma :: Geometry.MeetAt(a.x, a.y, b.x, b.y, c.x, c.y, d.x, d.y, lambda, gamma))
  {
    Geometry.SegmentsCrossMeaning(a.x, a.y, b.x, b.y, c.x, c.y, d.x, d.y);
  }
}

=== FILE: registry.dfy ===
/** The registries of mapper/layer.js and mapper/node_type.js: objects keyed by id that keep
    the order in which ids were first registered, with `Layer` and `NodeType`. */
module Registries {
  import opened Wrappers

  /** A JavaScript object used as a dictionary: the values by key, and the keys in the order
      of first insertion. A `for … in` loop visits keys in that order when none is an array
      index such as "3"; integer-like keys would come first, in ascending order. */
  class Registry<V> {
    var order: seq<string>
    var entries: map<string, V>

    ghost predicate Valid()
      reads this
    {
      && (forall i, j :: 0 <= i < j < |order| ==> order[i] != order[j])
      && (forall k :: k in entries <==> k in order)
    }

    constructor()
      ensures Valid() && order == [] && entries == map[]
    {
      order, entries := [], map[];
    }

    /** `registerLayer` / `registerType`: store under `id`, replacing an earlier value in its
        place, or appending a new key at the end. */
    method Register(id: string, v: V)
      requires Valid()
      modifies this
      ensures Valid()
      ensures entries == old(entries)[id := v]
      ensures id in old(entries) ==> order == old(order)
      ensures id !in old(entries) ==> order == old(order) + [id]
    {
      if id !in entries {
        order := order + [id];
      }
      entries := entries[id := v];
    }

    /** `get`: the value under `id`, or `undefined`. */
    function Get(id: string): (r: Option<V>)
      reads this
      ensures r.Some? <==> id in entries
      ensures r.Some? ==> r.value == entries[id]
    {
      if id in entries then Some(entries[id]) else None
    }

    /** `getLayers` / `getTypes`: each registered value once, in key order. */
    method Values() returns (vs: seq<V>)
      requires Valid()
      ensures |vs| == |order|
      ensures forall i :: 0 <= i < |order| ==> vs[i] == entries[order[i]]
    {
      vs := [];
      var i := 0;
      while i < |order|
        invariant 0 <= i <= |order|
        invariant |vs| == i
        invariant forall j :: 0 <= j < i ==> vs[j] == entries[order[j]]
      {
        vs := vs + [entries[order[i]]];
        i := i + 1;
      }
    }
  }

  /** A layer definition: its type, and `z` when given. */
  datatype LayerDef = LayerDef(kind: string, z: Option<real>)

  datatype Layer = Layer(id: string, def: LayerDef)
  {
    function GetDescription(): (r: string)
      ensures r == id
    {
      id
    }

    function GetType(): (r: string)
      ensures r == def.kind
    {
      def.kind
    }

    /** Geographical layers are drawn as areas, every other as borders. */
    function GetDrawType(): (r: string)
      ensures r == "area" <==> GetType() == "geographical"
      ensures r == "area" || r == "border"
    {
      if GetType() == "geographical" then "area" else "border"
    }

    /** `z`, with a missing `z` (and 0, the other falsy number) giving 0. */
    function GetZ(): (r: real)
      ensures def.z.None? ==> r == 0.0
      ensures def.z.Some? ==> r == def.z.value
    {
      if def.z.Some? && def.z.value != 0.0 then def.z.value else 0.0
    }
  }

  /** The layers `new LayerRegistry()` registers, in order. */
  const BuiltInLayers: seq<Layer> := [
    Layer("geographical", LayerDef("geographical", Some(0.0))),
    Layer("political", LayerDef("political", Some(10.0))),
    Layer("annotation", LayerDef("annotation", Some(15.0)))]

  /** `new LayerRegistry()`: the three built-in layers, each under its own id, in order. */
  method NewLayerRegistry() returns (r: Registry<Layer>)
    ensures fresh(r) && r.Valid()
    ensures r.order == ["geographical", "political", "annotation"]
    ensures r.entries == map[
      "geographical" := BuiltInLayers[0],
      "political" := BuiltInLayers[1],
      "annotation" := BuiltInLayers[2]]
    ensures forall i :: 0 <= i < |BuiltInLayers| ==> r.order[i] == BuiltInLayers[i].id
    ensures GetDefault(r) == Some(BuiltInLayers[0])
  {
    r := new Registry<Layer>();
    r.Register("geographical", BuiltInLayers[0]);
    assert r.entries.Keys == {"geographical"};
    r.Register("political", BuiltInLayers[1]);
    assert r.entries.Keys == {"geographical", "political"};
    r.Register("annotation", BuiltInLayers[2]);
  }

  /** `registerLayer`: stored under the layer's own id. */
  method RegisterLayer(r: Registry<Layer>, layer: Layer)
    requires r.Valid()
    modifies r
    ensures r.Valid()
    ensures r.entries == old(r.entries)[layer.id := layer]
    ensures r.order == if layer.id in old(r.entries) then old(r.order) else old(r.order) + [layer.id]
  {
    r.Register(layer.id, layer);
  }

  /** `getDefault`: the layer registered as "geographical". */
  function GetDefault(r: Registry<Layer>): (l: Option<Layer>)
    reads r
    ensures l == r.Get("geographical")
  {
    r.Get("geographical")
  }

  /** In a new registry the default layer is the geographical one at height 0, drawn as an
      area; the other two are drawn as borders above it. */
  lemma DefaultLayers()
    ensures var l := BuiltInLayers;
      && l[0].GetDrawType() == "area" && l[0].GetZ() == 0.0
      && l[1].GetDrawType() == "border" && l[2].GetDrawType() == "border"
      && l[0].GetZ() < l[1].GetZ() < l[2].GetZ()
  {
  }

  datatype NodeType = NodeType(id: string, color: string)
  {
    function GetDescription(): (r: string)
      ensures r == id
    {
      id
    }
  }

  /** `new NodeTypeRegistry()`: the four built-in types. */
  method NewNodeTypeRegistry() returns (r: Registry<NodeType>)
    ensures fresh(r) && r.Valid()
    ensures r.order == ["water", "grass", "forest", "mountain"]
    ensures r.Get("water") == Some(NodeType("water", "darkblue"))
    ensures r.Get("grass") == Some(NodeType("grass", "lightgreen"))
    ensures r.Get("forest") == Some(NodeType("forest", "darkgreen"))
    ensures r.Get("mountain") == Some(NodeType("mountain", "gray"))
  {
    r := new Registry<NodeType>();
    r.Register("water", NodeType("water", "darkblue"));
    r.Register("grass", NodeType("grass", "lightgreen"));
    r.Register("forest", NodeType("forest", "darkgreen"));
    assert r.order == ["water", "grass", "forest"];
    r.Register("mountain", NodeType("mountain", "gray"));
    AppendFourth(r.order);
  }

  lemma AppendFourth(o: seq<string>)
    requires o == ["water", "grass", "forest"] + ["mountain"]
    ensures o == ["water", "grass", "forest", "mountain"]
  {
  }

  /** `registerType`: stored under the type's own id. */
  method RegisterType(r: Registry<NodeType>, nodeType: NodeType)
    requires r.Valid()
    modifies r
    ensures r.Valid()
    ensures r.entries == old(r.entries)[nodeType.id := nodeType]
    ensures r.order == if nodeType.id in old(r.entries) then old(r.order) else old(r.order) + [nodeType.id]
  {
    r.Register(nodeType.id, nodeType);
  }
}

=== FILE: selection.dfy ===
/** `Selection` of mapper/selection.js: the selected origin nodes and the parent, child and
    sibling sets derived from them over the node tree. */
module Selections {
  type Id = nat

  /** What `update` asks of the map about a node: its parent as `getParent` answers it (only a
      valid parent; none is `null`), and every node `getAllDescendants` yields below it. */
  datatype NodeView = NodeView(parent: map<Id, Id>, descendants: map<Id, set<Id>>)

  function Descendants(v: NodeView, id: Id): set<Id>
  {
    if id in v.descendants then v.descendants[id] else {}
  }

  /** The descendants of the origins. */
  function ChildIds(v: NodeView, origins: set<Id>): set<Id>
  {
    set o, x | o in origins && x in Descendants(v, o) :: x
  }

  /** The parents of the origins. */
  function ParentIds(v: NodeView, origins: set<Id>): set<Id>
  {
    set o | o in origins && o in v.parent :: v.parent[o]
  }

  /** Everything below the origins' parents. */
  function BelowParents(v: NodeView, origins: set<Id>): set<Id>
  {
    set o, x | o in origins && o in v.parent && x in Descendants(v, v.parent[o]) :: x
  }

  /** Taking one more origin into account adds its descendants, its parent and what lies
      below its parent. */
  lemma AddOrigin(v: NodeView, done: set<Id>, o: Id)
    ensures ChildIds(v, done + {o}) == ChildIds(v, done) + Descendants(v, o)
    ensures ParentIds(v, done + {o}) == ParentIds(v, done) + (if o in v.parent then {v.parent[o]} else {})
    ensures BelowParents(v, done + {o}) ==
      BelowParents(v, done) + (if o in v.parent then Descendants(v, v.parent[o]) else {})
  {
  }

  /** The unions of one turn, regrouped by the set each part belongs to. */
  lemma Regroup<T>(o: set<T>, c: set<T>, p: set<T>, s: set<T>, b: set<T>, q: set<T>, d: set<T>)
    ensures o + c + p + b + q == o + (c + b) + (p + q)
    ensures o + c + p + s + b + q + d == o + (c + b) + (p + q) + (s + d)
  {
  }

  lemma NoOrigins(v: NodeView)
    ensures ChildIds(v, {}) == {} && ParentIds(v, {}) == {} && BelowParents(v, {}) == {}
  {
  }

  class Selection {
    var originIds: set<Id>
    var parentNodeIds: set<Id>
    var selectedNodeIds: set<Id>
    var childNodeIds: set<Id>
    var siblingNodeIds: set<Id>
    var directSelectedNodeIds: set<Id>

    /** The sets `update` derives, as functions of the origins and the tree. */
    ghost predicate UpdatedFor(v: NodeView)
      reads this
    {
      && childNodeIds == ChildIds(v, originIds)
      && parentNodeIds == ParentIds(v, originIds)
      && siblingNodeIds == BelowParents(v, originIds) - originIds - parentNodeIds - childNodeIds
      && directSelectedNodeIds == originIds + childNodeIds + parentNodeIds
      && selectedNodeIds == originIds + childNodeIds + parentNodeIds + BelowParents(v, originIds)
    }

    /** The relations between the sets that every updated selection has. */
    ghost predicate Layered()
      reads this
    {
      && originIds <= directSelectedNodeIds <= selectedNodeIds
      && childNodeIds <= directSelectedNodeIds && parentNodeIds <= directSelectedNodeIds
      && siblingNodeIds <= selectedNodeIds
      && siblingNodeIds !! originIds && siblingNodeIds !! parentNodeIds && siblingNodeIds !! childNodeIds
    }

    /** `new Selection(context, nodeIds)`: only the origins, which are also selected. */
    constructor(nodeIds: seq<Id>)
      ensures originIds == selectedNodeIds == set i | i in nodeIds
      ensures parentNodeIds == childNodeIds == siblingNodeIds == directSelectedNodeIds == {}
    {
      originIds := set i | i in nodeIds;
      selectedNodeIds := set i | i in nodeIds;
      parentNodeIds, childNodeIds, siblingNodeIds, directSelectedNodeIds := {}, {}, {}, {};
    }

    /** `update`: for each origin, add its descendants as children and its parent (with what
        lies below the parent) as parent and siblings; then take the origins, parents and
        children out of the siblings. */
    method Update(v: NodeView)
      modifies this
      ensures originIds == old(originIds)
      ensures UpdatedFor(v) && Layered()
    {
      var selected, parents, children, siblings, direct := Collect(v, originIds);
      siblings := siblings - originIds;
      siblings := siblings - parents;
      siblings := siblings - children;
      parentNodeIds := parents;
      selectedNodeIds := selected;
      childNodeIds := children;
      siblingNodeIds := siblings;
      directSelectedNodeIds := direct;
    }

    /** The loop of `update` over the origins, before the siblings are trimmed. */
    static method Collect(v: NodeView, origins: set<Id>)
      returns (selected: set<Id>, parents: set<Id>, children: set<Id>, siblings: set<Id>, direct: set<Id>)
      ensures children == ChildIds(v, origins)
      ensures parents == ParentIds(v, origins)
      ensures siblings == BelowParents(v, origins)
      ensures direct == origins + children + parents
      ensures selected == origins + children + parents + siblings
    {
      selected, parents, children, siblings, direct := origins, {}, {}, {}, origins;
      var todo := origins;
      ghost var done: set<Id> := {};
      NoOrigins(v);
      while todo != {}
        invariant done + todo == origins && done !! todo
        invariant children == ChildIds(v, done)
        invariant parents == ParentIds(v, done)
        invariant siblings == BelowParents(v, done)
        invariant direct == origins + children + parents
        invariant selected == origins + children + parents + siblings
        decreases todo
      {
        var o :| o in todo;
        AddOrigin(v, done, o);
        var below := Descendants(v, o);
        Regroup(origins, children, parents, siblings, below,
          if o in v.parent then {v.parent[o]} else {}, if o in v.parent then Descendants(v, v.parent[o]) else {});
        selected := selected + below;
        direct := direct + below;
        children := children + below;
        if o in v.parent {
          var p := v.parent[o];
          selected := selected + {p};
          parents := parents + {p};
          direct := direct + {p};
          siblings := siblings + Descendants(v, p);
          selected := selected + Descendants(v, p);
        }
        todo := todo - {o};
        done := done + {o};
      }
      assert done == origins;
    }

    /** `fromNodeIds`: a selection of those origins, updated. */
    static method FromNodeIds(nodeIds: seq<Id>, v: NodeView) returns (s: Selection)
      ensures fresh(s)
      ensures s.originIds == set i | i in nodeIds
      ensures s.UpdatedFor(v) && s.Layered()
    {
      s := new Selection(nodeIds);
      s.Update(v);
    }

    /** `joinWith`: a new selection whose origins are both selections' origins. */
    method JoinWith(other: Selection, v: NodeView) returns (s: Selection)
      ensures fresh(s)
      ensures s.originIds == originIds + other.originIds
      ensures s.UpdatedFor(v) && s.Layered()
    {
      var mine := SetToSeq(originIds);
      var theirs := SetToSeq(other.originIds);
      s := FromNodeIds(mine + theirs, v);
    }

    predicate HasNodeRef(id: Id)
      reads this
    {
      id in selectedNodeIds
    }

    predicate NodeRefIsOrigin(id: Id)
      reads this
    {
      id in originIds
    }

    predicate NodeRefIsParent(id: Id)
      reads this
    {
      id in parentNodeIds
    }

    predicate NodeRefIsChild(id: Id)
      reads this
    {
      id in childNodeIds
    }

    predicate NodeRefIsSibling(id: Id)
      reads this
    {
      id in siblingNodeIds
    }

    /** `exists`: whether there is any origin. */
    function Exists(): (b: bool)
      reads this
      ensures b <==> exists id :: NodeRefIsOrigin(id)
    {
      if |originIds| > 0 then
        var id :| id in originIds;
        assert NodeRefIsOrigin(id);
        true
      else false
    }

    /** `contains`: every directly selected node of `other` is directly selected here. */
    method Contains(other: Selection) returns (b: bool)
      ensures b <==> other.directSelectedNodeIds <= directSelectedNodeIds
      ensures other == this ==> b
    {
      var todo := other.directSelectedNodeIds;
      while todo != {}
        invariant todo <= other.directSelectedNodeIds
        invariant other.directSelectedNodeIds - todo <= directSelectedNodeIds
        decreases |todo|
      {
        var id :| id in todo;
        if id !in directSelectedNodeIds {
          return false;
        }
        todo := todo - {id};
      }
      b := true;
    }

    /** In an updated selection every origin is selected, every descendant of an origin is a
        child, every parent of an origin is a parent, and a sibling is neither origin, parent
        nor child, but selected. */
    lemma Membership(v: NodeView, o: Id, id: Id)
      requires UpdatedFor(v) && Layered() && NodeRefIsOrigin(o)
      ensures HasNodeRef(o)
      ensures id in Descendants(v, o) ==> NodeRefIsChild(id) && HasNodeRef(id)
      ensures o in v.parent ==> NodeRefIsParent(v.parent[o]) && HasNodeRef(v.parent[o])
      ensures NodeRefIsSibling(id) ==>
        HasNodeRef(id) && !NodeRefIsOrigin(id) && !NodeRefIsParent(id) && !NodeRefIsChild(id)
    {
      if id in Descendants(v, o) {
        assert id in ChildIds(v, originIds);
      }
      if o in v.parent {
        assert v.parent[o] in ParentIds(v, originIds);
      }
    }
  }

  /** The elements of a set, in some order, each once. */
  method SetToSeq(s: set<Id>) returns (r: seq<Id>)
    ensures forall x :: x in r <==> x in s
    ensures |r| == |s|
  {
    r := [];
    var todo := s;
    while todo != {}
      invariant todo <= s
      invariant forall x :: x in r <==> x in s - todo
      invariant |r| + |todo| == |s|
      decreases |todo|
    {
      var x :| x in todo;
      r := r + [x];
      todo := todo - {x};
    }
  }
}

=== FILE: sort.dfy ===
/** The stable sort that `Array.prototype.sort` performs with a numeric comparator
    `(a, b) => key(a) - key(b)`, as used by the node cleanup and path drawing actions. */
module Sorting {
  /** `s` is in ascending key order. */
  ghost predicate SortedBy<T>(s: seq<T>, key: T -> real)
  {
    forall i, j :: 0 <= i < j < |s| ==> key(s[i]) <= key(s[j])
  }

  /** `x`, which came before every element of `s`, placed before the first element whose key
      is not smaller: the stable insertion. */
  function Insert<T>(x: T, s: seq<T>, key: T -> real): (r: seq<T>)
    ensures multiset(r) == multiset(s) + multiset{x}
    ensures |r| == |s| + 1
  {
    if s == [] then [x]
    else if key(x) <= key(s[0]) then [x] + s
    else
      assert s == [s[0]] + s[1..];
      [s[0]] + Insert(x, s[1..], key)
  }

  /** Insertion sort from the back, so that equal keys keep their input order. */
  function SortBy<T>(s: seq<T>, key: T -> real): (r: seq<T>)
    ensures |r| == |s|
  {
    if s == [] then [] else Insert(s[0], SortBy(s[1..], key), key)
  }

  lemma {:induction false} InsertSorted<T>(x: T, s: seq<T>, key: T -> real)
    requires SortedBy(s, key)
    ensures SortedBy(Insert(x, s, key), key)
  {
    if s != [] && key(x) > key(s[0]) {
      InsertSorted(x, s[1..], key);
      var t := Insert(x, s[1..], key);
      forall k | 0 <= k < |t|
        ensures key(s[0]) <= key(t[k])
      {
        assert t[k] in multiset(s[1..]) + multiset{x};
        if t[k] != x {
          assert t[k] in s[1..];
        }
      }
    }
  }

  /** The sort yields the same elements, each as often, in ascending key order. */
  lemma {:induction false} SortBySpec<T>(s: seq<T>, key: T -> real)
    ensures SortedBy(SortBy(s, key), key)
    ensures multiset(SortBy(s, key)) == multiset(s)
  {
    if s != [] {
      SortBySpec(s[1..], key);
      InsertSorted(s[0], SortBy(s[1..], key), key);
      assert s == [s[0]] + s[1..];
    }
  }

  /** Elements whose keys are all equal are left in their order. */
  lemma {:induction false} SortByStable<T>(s: seq<T>, key: T -> real)
    requires forall i, j :: 0 <= i < |s| && 0 <= j < |s| ==> key(s[i]) == key(s[j])
    ensures SortBy(s, key) == s
  {
    if s != [] {
      SortByStable(s[1..], key);
      assert SortBy(s, key) == Insert(s[0], s[1..], key);
      assert [s[0]] + s[1..] == s;
    }
  }
}

=== FILE: sqljs.dfy ===
/** `SqlJsMapBackend` (mapper/backend/sql_js_backend.js): the backend object, whose tables
    its methods update in place. Each method is proved against the statement it runs,
    specified in module Store. */
module SqlJs {
  import opened Wrappers
  import opened Geometry
  import opened Store
  import Forest

  class SqlJsMapBackend {
    var entities: map<Id, Entity>
    var nodes: map<Id, Option<Id>>
    var edges: set<EdgeRow>
    var properties: map<(Id, string), Property>
    var nextId: Id
    var inTransaction: bool
    /** The id of the global entity `load` found or created. */
    var global: Id
    /** Set once `load` has finished. */
    var loaded: bool

    function Data(): Tables
      reads this
    {
      Tables(entities, nodes, edges, properties, nextId, inTransaction)
    }

    ghost predicate Valid()
      reads this
    {
      Consistent(Data()) && global in entities && loaded
    }

    method SetData(t: Tables)
      modifies this
      ensures Data() == t && global == old(global) && loaded == old(loaded)
    {
      entities, nodes, edges, properties := t.entities, t.nodes, t.edges, t.properties;
      nextId, inTransaction := t.nextId, t.inTransaction;
    }

    /** `load`: a new database, the global entity found or created in it, and the backend
        marked loaded. */
    constructor Load()
      ensures Valid() && loaded
      ensures (Data(), global) == Loaded()
    {
      LoadedHasOneGlobal();
      var (t, g) := Loaded();
      entities, nodes, edges, properties := t.entities, t.nodes, t.edges, t.properties;
      nextId, inTransaction := t.nextId, t.inTransaction;
      global := g;
      loaded := true;
    }

    method CreateEntity(kind: string) returns (id: Id)
      requires Valid()
      modifies this
      ensures Valid() && global == old(global)
      ensures (Data(), id) == Store.CreateEntity(old(Data()), kind)
    {
      CreateEntityFresh(Data(), kind);
      id := nextId;
      entities := entities[id := Entity(Some(kind), true)];
      nextId := nextId + 1;
    }

    method CreateNode(parent: Option<Id>) returns (r: Result<Id, Error>)
      requires Valid()
      modifies this
      ensures Valid() && global == old(global)
      ensures (Data(), r) == Store.CreateNode(old(Data()), parent)
    {
      CreateNodeSpec(Data(), parent);
      if inTransaction {
        return Failure(TransactionOpen);
      }
      inTransaction := true;
      var id := CreateEntity(NodeKind);
      if parent.Some? && parent.value !in nodes {
        return Failure(ForeignKeyFailed);
      }
      nodes := nodes[id := parent];
      inTransaction := false;
      r := Success(id);
    }

    method CreateEdge(a: Id, b: Id) returns (r: Result<Id, Error>)
      requires Valid()
      modifies this
      ensures Valid() && global == old(global)
      ensures (Data(), r) == Store.CreateEdge(old(Data()), a, b)
    {
      CreateEdgeSpec(Data(), a, b);
      var (t', r') := Store.CreateEdge(Data(), a, b);
      SetData(t');
      r := r';
    }

    /** `entityExists` as intended (as written it always answers true). */
    method EntityExists(id: Id) returns (b: bool)
      requires Valid()
      ensures b <==> id in entities
    {
      EntityChecks(Data(), id);
      b := Store.EntityExists(Data(), id);
    }

    /** `entityValid` as intended (as written it always answers true). */
    method EntityValid(id: Id) returns (b: bool)
      requires Valid()
      ensures b <==> id in entities && entities[id].valid
    {
      EntityChecks(Data(), id);
      b := Store.EntityValid(Data(), id);
    }

    method GetNodeParent(id: Id) returns (r: Option<Id>)
      ensures r == NodeParent(Data(), id)
      ensures r.Some? ==> id in nodes && nodes[id] == r && r.value in entities && entities[r.value].valid
    {
      r := NodeParent(Data(), id);
    }

    /** A query's rows, one `step()` at a time over the tables in row id order: every
        matching node once, in ascending id. */
    method Scan(q: Query) returns (ids: seq<Id>)
      requires Valid()
      ensures forall i, j :: 0 <= i < j < |ids| ==> ids[i] < ids[j]
      ensures forall n :: n in ids <==> Matches(Data(), q, n)
    {
      ids := [];
      var n := 1;
      while n < nextId
        invariant 1 <= n <= nextId
        invariant forall i, j :: 0 <= i < j < |ids| ==> ids[i] < ids[j]
        invariant forall i :: 0 <= i < |ids| ==> ids[i] < n
        invariant forall m: Id :: m in ids <==> m < n && Matches(Data(), q, m)
      {
        if Matches(Data(), q, n) {
          ids := ids + [n];
        }
        n := n + 1;
      }
    }

    method GetNodeChildren(id: Id) returns (children: seq<Id>)
      requires Valid()
      ensures forall i, j :: 0 <= i < j < |children| ==> children[i] < children[j]
      ensures forall c :: c in children <==> c in nodes && nodes[c] == Some(id) && c in entities && entities[c].valid
    {
      children := Scan(ChildrenOf(id));
    }

    method GetNodesInArea(box: Box3) returns (found: seq<Id>)
      requires Valid()
      ensures forall n :: n in found <==> Matches(Data(), InArea(box), n)
      ensures forall n :: n in found ==> CenterOf(Data(), n).Some? && LessEq(box.a, CenterOf(Data(), n).value) && LessEq(CenterOf(Data(), n).value, box.b)
    {
      found := Scan(InArea(box));
    }

    method GetNodesTouchingArea(box: Box3) returns (found: seq<Id>)
      requires Valid()
      ensures forall n :: n in found <==> Matches(Data(), TouchingArea(box), n)
    {
      found := Scan(TouchingArea(box));
    }

    /** `removeEntity`: the invalidating update and the triggers it sets off. The recursive
        children trigger is the walk `CollectSubtree`; the edge trigger then reaches every
        edge row of the nodes found. */
    method RemoveEntity(id: Id)
      requires Valid()
      modifies this
      ensures Valid() && global == old(global)
      ensures Data() == Removed(old(Data()), id)
    {
      if id in entities && entities[id].valid {
        var hit: set<Id>;
        if entities[id].kind == Some(NodeKind) {
          var below := Forest.CollectSubtree(nodes, id);
          assert below == Subtree(Data(), id);
          hit := below + IncidentEdges(Data(), below);
        } else {
          hit := {id};
        }
        entities := InvalidateAll(entities, hit);
      }
    }

    /** `removeNode` and `removeEdge` of the base backend, which both remove the entity. */
    method RemoveNode(id: Id)
      requires Valid()
      modifies this
      ensures Valid() && global == old(global)
      ensures Data() == Removed(old(Data()), id)
    {
      RemoveEntity(id);
    }

    method RemoveEdge(id: Id)
      requires Valid()
      modifies this
      ensures Valid() && global == old(global)
      ensures Data() == Removed(old(Data()), id)
    {
      RemoveEntity(id);
    }

    method UnremoveEntity(id: Id)
      requires Valid()
      modifies this
      ensures Valid() && global == old(global)
      ensures Data() == Unremoved(old(Data()), id)
    {
      UnremoveSpec(Data(), id, id);
      if id in entities {
        entities := entities[id := entities[id].(valid := true)];
      }
    }

    /** Writes one property row; the result is what the INSERT OR REPLACE throws, if anything. */
    method SetProperty(e: Id, name: string, p: Property) returns (r: Result<(), Error>)
      requires Valid()
      modifies this
      ensures Valid() && global == old(global)
      ensures r.Success? <==> e in old(entities)
      ensures Store.SetProperty(old(Data()), e, name, p) == (if r.Success? then Success(Data()) else Failure(ForeignKeyFailed))
      ensures r.Failure? ==> Data() == old(Data())
    {
      if e in entities {
        properties := properties[(e, name) := p];
        r := Success(());
      } else {
        r := Failure(ForeignKeyFailed);
      }
    }

    method SetPString(e: Id, name: string, value: string) returns (r: Result<(), Error>)
      requires Valid()
      modifies this
      ensures Valid() && global == old(global)
      ensures r.Success? ==> SetString(old(Data()), e, name, value) == Success(Data())
      ensures r.Failure? ==> SetString(old(Data()), e, name, value).Failure? && Data() == old(Data())
    {
      r := SetProperty(e, name, Property(Some(value), None, None));
    }

    method SetPNumber(e: Id, name: string, value: real) returns (r: Result<(), Error>)
      requires Valid()
      modifies this
      ensures Valid() && global == old(global)
      ensures r.Success? ==> SetNumber(old(Data()), e, name, value) == Success(Data())
      ensures r.Failure? ==> SetNumber(old(Data()), e, name, value).Failure? && Data() == old(Data())
    {
      r := SetProperty(e, name, Property(None, Some(value), None));
    }

    method SetPVector3(e: Id, name: string, value: Vector3) returns (r: Result<(), Error>)
      requires Valid()
      modifies this
      ensures Valid() && global == old(global)
      ensures r.Success? ==> SetVector3(old(Data()), e, name, value) == Success(Data())
      ensures r.Failure? ==> SetVector3(old(Data()), e, name, value).Failure? && Data() == old(Data())
    {
      r := SetProperty(e, name, Property(None, None, Some(value)));
    }

    /** `setPPoint`, inherited from the base backend: the point's JSON as a string property. */
    method SetPPoint(e: Id, name: string, x: int, y: int, z: int) returns (r: Result<(), Error>)
      requires Valid()
      modifies this
      ensures Valid() && global == old(global)
      ensures r.Success? ==> SetPoint(old(Data()), e, name, x, y, z) == Success(Data())
      ensures r.Failure? ==> SetPoint(old(Data()), e, name, x, y, z).Failure? && Data() == old(Data())
    {
      r := SetPString(e, name, Codec.PointJson(x, y, z));
    }

    method GetPString(e: Id, name: string) returns (r: Cell<string>)
      ensures r == GetString(Data(), e, name)
      ensures r.Defined? <==> (e, name) in properties && properties[(e, name)].text.Some?
      ensures r == Undefined <==> (e, name) !in properties
    {
      r := GetString(Data(), e, name);
    }

    method GetPNumber(e: Id, name: string) returns (r: Cell<real>)
      ensures r == GetNumber(Data(), e, name)
      ensures r.Defined? <==> (e, name) in properties && properties[(e, name)].number.Some?
      ensures r == Undefined <==> (e, name) !in properties
    {
      r := GetNumber(Data(), e, name);
    }

    /** `getPVector3` always builds a `Vector3` of the row's three columns. `Undefined` stands
        for the vector of three `undefined` that a missing row gives. `Null` stands for the vector
        of three `null` that a row without a vector gives. */
    method GetPVector3(e: Id, name: string) returns (r: Cell<Vector3>)
      ensures r == GetVector3(Data(), e, name)
      ensures r.Defined? <==> (e, name) in properties && properties[(e, name)].vector.Some?
      ensures r == Undefined <==> (e, name) !in properties
    {
      r := GetVector3(Data(), e, name);
    }

    /** `getPPoint`, inherited from the base backend, as intended: the stored JSON's
        coordinates (as written it always throws). */
    method GetPPoint(e: Id, name: string) returns (r: Result<(int, int, int), Error>)
      ensures r == GetPoint(Data(), e, name)
      ensures r.Success? ==> (e, name) in properties && properties[(e, name)].text.Some?
    {
      r := GetPoint(Data(), e, name);
    }

    /** The base backend's `getNodeEdges`, `getEdgeNodes` and so `getEdgeOtherNode`: this
        backend prepares their statements but defines no such methods, so the base's
        "not implemented" is thrown. */
    method GetNodeEdges(id: Id) returns (r: Result<seq<Id>, Error>)
      ensures r == Failure(NotImplemented)
    {
      r := Failure(NotImplemented);
    }

    method GetEdgeNodes(id: Id) returns (r: Result<seq<Id>, Error>)
      ensures r == Failure(NotImplemented)
    {
      r := Failure(NotImplemented);
    }

    method GetEdgeOtherNode(edgeId: Id, nodeId: Id) returns (r: Result<Id, Error>)
      ensures r == Failure(NotImplemented)
    {
      var ends := GetEdgeNodes(edgeId);
      r := Failure(ends.error);
    }
  }
}

=== FILE: store.dfy ===
/** The tables of the sql.js map backend (mapper/backend/sql_js_backend.js:31-52) as values,
    and what each statement and trigger does to them. */
module Store {
  import opened Wrappers
  import opened Geometry
  import Forest
  import Codec

  type Id = nat

  const NodeKind := "node"
  const EdgeKind := "edge"
  const GlobalKind := "global"

  /** A row of the entity table: its `type` column (NULL is `None`) and its `valid` flag. */
  datatype Entity = Entity(kind: Option<string>, valid: bool)

  /** A row of the edge table; `node` is `None` for a NULL node id. */
  datatype EdgeRow = EdgeRow(edge: Id, node: Option<Id>)

  /** A row of the property table: the string, number and vector columns, NULL as `None`. */
  datatype Property = Property(text: Option<string>, number: Option<real>, vector: Option<Vector3>)

  /** A JavaScript answer: `undefined`, `null` or a value. */
  datatype Cell<T> = Undefined | Null | Defined(value: T)

  /** What a statement or call throws. */
  datatype Error =
    | ForeignKeyFailed     // a FOREIGN KEY constraint failed
    | PrimaryKeyFailed     // a UNIQUE constraint on the primary key failed
    | TransactionOpen      // BEGIN inside a transaction that was never committed
    | NotImplemented       // the base backend's "not implemented"
    | SyntaxError          // JSON.parse of text that is not JSON
    | TypeError            // a property read from null, or a call of something that is no function

  /** The database: entity, node, edge and property tables, the next row id SQLite hands
      out, and whether an explicit transaction is open. */
  datatype Tables = Tables(
    entities: map<Id, Entity>,
    nodes: map<Id, Option<Id>>,
    edges: set<EdgeRow>,
    properties: map<(Id, string), Property>,
    nextId: Id,
    inTransaction: bool)

  /** What the schema's keys and the backend's own writes keep true: row ids are handed out
      from 1 upward and never deleted, every node is a 'node' entity whose parent is an older
      node, every edge row joins an 'edge' entity to a node, and every property belongs to an
      entity. */
  ghost predicate Consistent(t: Tables)
  {
    && t.nextId >= 1
    && (forall id :: id in t.entities <==> 0 < id < t.nextId)
    && (forall n :: n in t.nodes ==> n in t.entities && t.entities[n].kind == Some(NodeKind))
    && (forall n :: n in t.nodes && t.nodes[n].Some? ==> t.nodes[n].value in t.nodes && t.nodes[n].value < n)
    && (forall r :: r in t.edges ==>
          && r.edge in t.entities && t.entities[r.edge].kind == Some(EdgeKind)
          && r.node.Some? && r.node.value in t.nodes)
    && (forall k :: k in t.properties ==> k.0 in t.entities)
  }

  /** A new in-memory database after the CREATE TABLE statements. */
  const Empty := Tables(map[], map[], {}, map[], 1, false)

  // ---------------------------------------------------------------- entity creation

  /** `INSERT INTO entity (type, valid) VALUES (..., TRUE)` and `last_insert_rowid()`. */
  function Insert(t: Tables, kind: Option<string>): (r: (Tables, Id))
    ensures r.1 == t.nextId && r.0.nextId == r.1 + 1
  {
    (t.(entities := t.entities[t.nextId := Entity(kind, true)], nextId := t.nextId + 1), t.nextId)
  }

  /** `baseCreateEntity(type)` with the type bound to its `$type` parameter. */
  function CreateEntity(t: Tables, kind: string): (Tables, Id)
  {
    Insert(t, Some(kind))
  }

  /** `baseCreateEntity(type)` as written: the object key `type` has no `$`, sql.js binds
      nothing, and the type column is NULL. */
  function CreateEntityAsWritten(t: Tables, kind: string): (Tables, Id)
  {
    Insert(t, None)
  }

  /** A created entity has an id no entity had, starts valid with the given type, and
      nothing else changes. */
  lemma CreateEntityFresh(t: Tables, kind: string)
    requires Consistent(t)
    ensures var (t', id) := CreateEntity(t, kind);
      && Consistent(t')
      && id !in t.entities
      && t'.entities == t.entities[id := Entity(Some(kind), true)]
      && t'.nodes == t.nodes && t'.edges == t.edges && t'.properties == t.properties
  {
    var (t', id) := CreateEntity(t, kind);
    assert forall x :: x in t'.entities <==> 0 < x < t'.nextId;
  }

  // ---------------------------------------------------------------- the global entity

  /** The first entity, in row id order from `from`, whose type is `kind`: what
      `SELECT entityid FROM entity WHERE type = ...` returns first. */
  function FirstOfKind(t: Tables, kind: string, from: nat): (r: Option<Id>)
    ensures r.Some? ==> from <= r.value && r.value in t.entities && t.entities[r.value].kind == Some(kind)
    ensures r.Some? ==> forall id :: from <= id < r.value && id in t.entities ==> t.entities[id].kind != Some(kind)
    ensures r.None? ==> forall id :: from <= id < t.nextId && id in t.entities ==> t.entities[id].kind != Some(kind)
    decreases t.nextId - from
  {
    if from >= t.nextId then None
    else if from in t.entities && t.entities[from].kind == Some(kind) then Some(from)
    else FirstOfKind(t, kind, from + 1)
  }

  /** The find-or-create step of `load`: reuse the first 'global' entity, or create one. */
  function FindOrCreateGlobal(t: Tables): (Tables, Id)
  {
    match FirstOfKind(t, GlobalKind, 0)
    case Some(g) => (t, g)
    case None => CreateEntity(t, GlobalKind)
  }

  /** The tables and the global entity right after `load` on a new database. */
  function Loaded(): (Tables, Id)
  {
    FindOrCreateGlobal(Empty)
  }

  predicate IsGlobal(t: Tables, id: Id)
  {
    id in t.entities && t.entities[id].kind == Some(GlobalKind)
  }

  /** After `load` exactly one entity has type 'global', and it is the backend's global. */
  lemma LoadedHasOneGlobal()
    ensures var (t, g) := Loaded(); Consistent(t) && forall id :: IsGlobal(t, id) <==> id == g
  {
    assert FirstOfKind(Empty, GlobalKind, 0) == None;
    CreateEntityFresh(Empty, GlobalKind);
  }

  // ---------------------------------------------------------------- nodes and edges

  /** `baseCreateNode(parentId)`: BEGIN, create a 'node' entity, insert the node row, COMMIT.
      BEGIN fails while a transaction is open. A parent that is no node fails the foreign key
      after the entity row is written; the exception skips COMMIT, so the entity row stays and
      the transaction stays open. */
  function CreateNode(t: Tables, parent: Option<Id>): (Tables, Result<Id, Error>)
  {
    if t.inTransaction then (t, Failure(TransactionOpen))
    else
      var (t1, id) := CreateEntity(t.(inTransaction := true), NodeKind);
      if parent.Some? && parent.value !in t1.nodes then (t1, Failure(ForeignKeyFailed))
      else (t1.(nodes := t1.nodes[id := parent], inTransaction := false), Success(id))
  }

  /** `createNode` succeeds exactly when no transaction is open and the parent, if any, is a
      node; the new node is fresh, valid, of type 'node', with that parent. On a foreign key
      failure the transaction stays open, so every later `createNode` fails. */
  lemma CreateNodeSpec(t: Tables, parent: Option<Id>)
    requires Consistent(t)
    ensures var (t', r) := CreateNode(t, parent);
      && Consistent(t')
      && (r.Success? <==> !t.inTransaction && (parent.None? || parent.value in t.nodes))
      && (r.Success? ==>
            && r.value !in t.entities
            && t'.entities == t.entities[r.value := Entity(Some(NodeKind), true)]
            && t'.nodes == t.nodes[r.value := parent]
            && t'.edges == t.edges && t'.properties == t.properties && !t'.inTransaction)
      && (r.Failure? ==> t'.inTransaction)
  {
    if !t.inTransaction {
      CreateEntityFresh(t.(inTransaction := true), NodeKind);
    }
  }

  lemma FailedCreateNodeBlocks(t: Tables, parent: Option<Id>, later: Option<Id>)
    requires Consistent(t) && !t.inTransaction
    requires parent.Some? && parent.value !in t.nodes
    ensures var (t', _) := CreateNode(t, parent); CreateNode(t', later).1 == Failure(TransactionOpen)
  {
  }

  /** The node ids an edge's rows name. */
  function EdgeEnds(t: Tables, e: Id): set<Id>
  {
    set r | r in t.edges && r.edge == e && r.node.Some? :: r.node.value
  }

  /** `baseCreateEdge(a, b)` with both node ids bound: an 'edge' entity and a row for each
      end. A missing node fails the foreign key; `a == b` repeats the primary key
      (edgeid, nodeid). Either failure leaves what was written and the transaction open. */
  function CreateEdge(t: Tables, a: Id, b: Id): (Tables, Result<Id, Error>)
  {
    if t.inTransaction then (t, Failure(TransactionOpen))
    else
      var (t1, id) := CreateEntity(t.(inTransaction := true), EdgeKind);
      if a !in t1.nodes then (t1, Failure(ForeignKeyFailed))
      else
        var t2 := t1.(edges := t1.edges + {EdgeRow(id, Some(a))});
        if b !in t2.nodes then (t2, Failure(ForeignKeyFailed))
        else if a == b then (t2, Failure(PrimaryKeyFailed))
        else (t2.(edges := t2.edges + {EdgeRow(id, Some(b))}, inTransaction := false), Success(id))
  }

  /** `baseCreateEdge(a, b)` as written: the first row binds `nodeId` without `$`, so its node
      id is NULL, which neither the foreign key nor the primary key rejects. */
  function CreateEdgeAsWritten(t: Tables, a: Id, b: Id): (Tables, Result<Id, Error>)
  {
    if t.inTransaction then (t, Failure(TransactionOpen))
    else
      var (t1, id) := CreateEntity(t.(inTransaction := true), EdgeKind);
      var t2 := t1.(edges := t1.edges + {EdgeRow(id, None)});
      if b !in t2.nodes then (t2, Failure(ForeignKeyFailed))
      else (t2.(edges := t2.edges + {EdgeRow(id, Some(b))}, inTransaction := false), Success(id))
  }

  /** `createEdge(a, b)` succeeds exactly when no transaction is open and a and b are two
      distinct nodes; the new edge is fresh, valid, and its ends are exactly {a, b}. */
  lemma CreateEdgeSpec(t: Tables, a: Id, b: Id)
    requires Consistent(t)
    ensures var (t', r) := CreateEdge(t, a, b);
      && (r.Success? <==> !t.inTransaction && a in t.nodes && b in t.nodes && a != b)
      && (r.Success? ==>
            && r.value !in t.entities
            && t'.entities == t.entities[r.value := Entity(Some(EdgeKind), true)]
            && EdgeEnds(t', r.value) == {a, b}
            && t'.nodes == t.nodes && t'.properties == t.properties && !t'.inTransaction)
  {
    if !t.inTransaction {
      var (t1, id) := CreateEntity(t.(inTransaction := true), EdgeKind);
      CreateEntityFresh(t.(inTransaction := true), EdgeKind);
      assert forall r :: r in t.edges ==> r.edge != id;
      var (t', r) := CreateEdge(t, a, b);
      if r.Success? {
        assert EdgeEnds(t', id) == {a, b} by {
          assert EdgeRow(id, Some(a)) in t'.edges && EdgeRow(id, Some(b)) in t'.edges;
        }
      }
    }
  }

  /** `createEdge(a, b)` keeps the tables consistent, whether it succeeds or not. */
  lemma CreateEdgeConsistent(t: Tables, a: Id, b: Id)
    requires Consistent(t)
    ensures Consistent(CreateEdge(t, a, b).0)
  {
    if !t.inTransaction {
      CreateEntityFresh(t.(inTransaction := true), EdgeKind);
    }
  }

  /** As written, the edge made by `createEdge(a, b)` names only b. */
  lemma CreateEdgeAsWrittenLosesA(t: Tables, a: Id, b: Id)
    requires Consistent(t) && !t.inTransaction && b in t.nodes
    ensures var (t', r) := CreateEdgeAsWritten(t, a, b);
      r.Success? && EdgeEnds(t', r.value) == {b}
  {
    var (t', r) := CreateEdgeAsWritten(t, a, b);
    assert forall row :: row in t.edges ==> row.edge != t.nextId;
    assert EdgeRow(r.value, Some(b)) in t'.edges;
  }

  // ---------------------------------------------------------------- removal

  /** The node `root` and every node below it. */
  ghost function Subtree(t: Tables, root: Id): set<Id>
  {
    set x | x in t.nodes.Keys + {root} && Forest.Descends(t.nodes, x, root)
  }

  /** The edges with a row naming one of `ns`. */
  function IncidentEdges(t: Tables, ns: set<Id>): set<Id>
  {
    set r | r in t.edges && r.node.Some? && r.node.value in ns :: r.edge
  }

  /** Every entity whose `valid` the invalidation of `id` sets false: for a 'node' the
      recursive triggers reach every node below it, through invalid nodes too (an
      `UPDATE OF valid` fires whatever the old value), and every edge of those nodes; any
      other entity is alone. */
  ghost function Cascade(t: Tables, id: Id): set<Id>
    requires id in t.entities
  {
    if t.entities[id].kind == Some(NodeKind) then Subtree(t, id) + IncidentEdges(t, Subtree(t, id))
    else {id}
  }

  /** The entity table with the rows in `s` set invalid. */
  function InvalidateAll(es: map<Id, Entity>, s: set<Id>): (r: map<Id, Entity>)
    ensures r.Keys == es.Keys
    ensures forall e :: e in es ==> r[e].kind == es[e].kind && r[e].valid == (es[e].valid && e !in s)
  {
    map e | e in es :: if e in s then es[e].(valid := false) else es[e]
  }

  /** `removeEntity(id)`: `UPDATE entity SET valid = FALSE WHERE entityid = id AND valid =
      TRUE` and the triggers it sets off. An invalid or missing entity matches no row. */
  ghost function Removed(t: Tables, id: Id): Tables
  {
    if id in t.entities && t.entities[id].valid then t.(entities := InvalidateAll(t.entities, Cascade(t, id)))
    else t
  }

  /** `unremoveEntity(id)`: `UPDATE entity SET valid = TRUE WHERE entityid = id`, which sets
      off no trigger. */
  function Unremoved(t: Tables, id: Id): Tables
  {
    if id in t.entities then t.(entities := t.entities[id := t.entities[id].(valid := true)]) else t
  }

  predicate IsValid(t: Tables, id: Id)
  {
    id in t.entities && t.entities[id].valid
  }

  /** Removing a valid node invalidates it, every node below it and every edge of those
      nodes; nothing else changes validity, and no other table changes. */
  lemma RemoveSpec(t: Tables, id: Id, e: Id)
    requires Consistent(t) && IsValid(t, id) && t.entities[id].kind == Some(NodeKind)
    ensures Consistent(Removed(t, id))
    ensures var t' := Removed(t, id);
      && t'.nodes == t.nodes && t'.edges == t.edges && t'.properties == t.properties
      && (e in t.entities ==> t'.entities[e].kind == t.entities[e].kind)
      && (e in Subtree(t, id) ==> !IsValid(t', e))
      && (forall r :: r in t.edges && r.edge == e && r.node.Some? && r.node.value in Subtree(t, id) ==> !IsValid(t', e))
      && (e !in Subtree(t, id) && e !in IncidentEdges(t, Subtree(t, id)) ==> IsValid(t', e) == IsValid(t, e))
  {
  }

  /** Removing any other valid entity (an edge, the global entity) invalidates just it. */
  lemma RemoveOtherSpec(t: Tables, id: Id, e: Id)
    requires Consistent(t) && IsValid(t, id) && t.entities[id].kind != Some(NodeKind)
    ensures var t' := Removed(t, id);
      Consistent(t') && !IsValid(t', id) && (e != id ==> IsValid(t', e) == IsValid(t, e))
  {
  }

  /** Removing an entity that is already invalid, or missing, changes nothing; so removing
      twice is removing once. */
  lemma RemoveIdempotent(t: Tables, id: Id)
    requires Consistent(t)
    ensures !IsValid(t, id) ==> Removed(t, id) == t
    ensures Removed(Removed(t, id), id) == Removed(t, id)
  {
  }

  /** The node below a removed node is invalid, and unremoving the node leaves it invalid:
      revalidation does not cascade. */
  lemma UnremoveDoesNotCascade(t: Tables, id: Id, child: Id)
    requires Consistent(t) && IsValid(t, id) && t.entities[id].kind == Some(NodeKind)
    requires child in t.nodes && t.nodes[child] == Some(id)
    ensures var t' := Unremoved(Removed(t, id), id);
      IsValid(t', id) && !IsValid(t', child)
  {
    Forest.DescendsSelf(t.nodes, id);
    Forest.DescendsStep(t.nodes, child, id, id);
    assert child in Subtree(t, id);
    assert child != id;
  }

  /** Unremoving touches only that entity's flag. */
  lemma UnremoveSpec(t: Tables, id: Id, e: Id)
    requires Consistent(t)
    ensures var t' := Unremoved(t, id);
      && Consistent(t')
      && (id in t.entities ==> IsValid(t', id))
      && (e != id ==> IsValid(t', e) == IsValid(t, e))
      && t'.nodes == t.nodes && t'.edges == t.edges && t'.properties == t.properties
  {
  }

  /** A valid entity that is no node, or a node with no children and no edges, comes back
      exactly as it was when it is removed and then unremoved. */
  lemma RemoveUnremoveLeaf(t: Tables, id: Id)
    requires Consistent(t) && IsValid(t, id)
    requires t.entities[id].kind == Some(NodeKind) ==>
      (forall c :: c in t.nodes ==> t.nodes[c] != Some(id)) &&
      (forall r :: r in t.edges ==> r.node != Some(id))
    ensures Unremoved(Removed(t, id), id) == t
  {
    if t.entities[id].kind == Some(NodeKind) {
      OnlyItself(t, id);
      assert Subtree(t, id) == {id};
      assert IncidentEdges(t, {id}) == {};
    }
    var t' := Unremoved(Removed(t, id), id);
    assert t'.entities == t.entities;
  }

  // ---------------------------------------------------------------- queries

  /** `getNodeParent(id)`: the parent, when the node has one and the parent is valid. */
  function NodeParent(t: Tables, id: Id): Option<Id>
  {
    if id in t.nodes && t.nodes[id].Some? && IsValid(t, t.nodes[id].value) then t.nodes[id] else None
  }

  /** Removing a node's parent hides the parent from `getNodeParent`; unremoving the parent
      shows it again. */
  lemma ParentFollowsRemoval(t: Tables, id: Id, p: Id)
    requires Consistent(t) && id in t.nodes && t.nodes[id] == Some(p) && IsValid(t, p)
    ensures NodeParent(t, id) == Some(p)
    ensures NodeParent(Removed(t, p), id) == None
    ensures NodeParent(Unremoved(Removed(t, p), p), id) == Some(p)
  {
    Forest.DescendsSelf(t.nodes, p);
    assert p in Subtree(t, p);
  }

  function CenterOf(t: Tables, n: Id): Option<Vector3>
  {
    if (n, "center") in t.properties then t.properties[(n, "center")].vector else None
  }

  function RadiusOf(t: Tables, n: Id): Option<real>
  {
    if (n, "radius") in t.properties then t.properties[(n, "radius")].number else None
  }

  /** `c` lies in the box widened by `margin` on every side, bounds included. */
  predicate Within(c: Vector3, box: Box3, margin: real)
  {
    && box.a.x - margin <= c.x <= box.b.x + margin
    && box.a.y - margin <= c.y <= box.b.y + margin
    && box.a.z - margin <= c.z <= box.b.z + margin
  }

  /** The node queries of the backend, each a filter over valid nodes. */
  datatype Query =
    | ChildrenOf(parent: Id)    // getNodeChildren
    | InArea(box: Box3)         // getNodesInArea
    | TouchingArea(box: Box3)   // getNodesTouchingArea

  /** Whether node `n` is a row of query `q`'s result. A NULL column compares false, so a
      node with no vector "center", or no number "radius", is never in an area. */
  predicate Matches(t: Tables, q: Query, n: Id)
  {
    && n in t.nodes && IsValid(t, n)
    && match q
       case ChildrenOf(p) => t.nodes[n] == Some(p)
       case InArea(box) => CenterOf(t, n).Some? && Within(CenterOf(t, n).value, box, 0.0)
       case TouchingArea(box) =>
         CenterOf(t, n).Some? && RadiusOf(t, n).Some? && Within(CenterOf(t, n).value, box, RadiusOf(t, n).value)
  }

  /** A node in an area, with a radius that is not negative, touches it; `InArea` is exactly
      the valid nodes whose centre lies in the box. */
  lemma InAreaTouches(t: Tables, box: Box3, n: Id)
    requires Matches(t, InArea(box), n) && RadiusOf(t, n).Some? && RadiusOf(t, n).value >= 0.0
    ensures Matches(t, TouchingArea(box), n)
    ensures LessEq(box.a, CenterOf(t, n).value) && LessEq(CenterOf(t, n).value, box.b)
  {
  }

  /** Children listed by `getNodeChildren` are valid and name the node as their parent, which
      `getNodeParent` gives back while the node is valid. */
  lemma ChildrenKnowParent(t: Tables, p: Id, c: Id)
    requires Consistent(t) && Matches(t, ChildrenOf(p), c) && IsValid(t, p)
    ensures NodeParent(t, c) == Some(p)
  {
  }

  // ---------------------------------------------------------------- properties

  function Row(t: Tables, e: Id, name: string): Option<Property>
  {
    if (e, name) in t.properties then Some(t.properties[(e, name)]) else None
  }

  /** A column of a property row as JavaScript sees it: `undefined` with no row, `null` for
      a NULL column. */
  function Column<T>(row: Option<Property>, column: Property -> Option<T>): Cell<T>
  {
    match row
    case None => Undefined
    case Some(p) => if column(p).Some? then Defined(column(p).value) else Null
  }

  /** `INSERT OR REPLACE INTO property`: the whole row is replaced, so the other columns are
      NULL afterwards. An entity that does not exist fails the foreign key. */
  function SetProperty(t: Tables, e: Id, name: string, p: Property): Result<Tables, Error>
  {
    if e in t.entities then Success(t.(properties := t.properties[(e, name) := p]))
    else Failure(ForeignKeyFailed)
  }

  function SetString(t: Tables, e: Id, name: string, value: string): Result<Tables, Error>
  {
    SetProperty(t, e, name, Property(Some(value), None, None))
  }

  function SetNumber(t: Tables, e: Id, name: string, value: real): Result<Tables, Error>
  {
    SetProperty(t, e, name, Property(None, Some(value), None))
  }

  function SetVector3(t: Tables, e: Id, name: string, value: Vector3): Result<Tables, Error>
  {
    SetProperty(t, e, name, Property(None, None, Some(value)))
  }

  function GetString(t: Tables, e: Id, name: string): Cell<string>
  {
    Column(Row(t, e, name), (p: Property) => p.text)
  }

  function GetNumber(t: Tables, e: Id, name: string): Cell<real>
  {
    Column(Row(t, e, name), (p: Property) => p.number)
  }

  /** `getPVector3`: a vector of the three columns, each `undefined` with no row. */
  function GetVector3(t: Tables, e: Id, name: string): Cell<Vector3>
  {
    Column(Row(t, e, name), (p: Property) => p.vector)
  }

  /** A value set and read back with the same kind is the value; a later set of another kind
      replaces it, so the first kind then reads `null`; a set fails only for a missing
      entity; nothing stored reads `undefined`. */
  lemma PropertyRoundTrip(t: Tables, e: Id, name: string, s: string, x: real, v: Vector3)
    requires Consistent(t)
    ensures SetString(t, e, name, s).Success? <==> e in t.entities
    ensures e in t.entities ==>
      && GetString(SetString(t, e, name, s).value, e, name) == Defined(s)
      && GetNumber(SetNumber(t, e, name, x).value, e, name) == Defined(x)
      && GetVector3(SetVector3(t, e, name, v).value, e, name) == Defined(v)
      && GetString(SetNumber(SetString(t, e, name, s).value, e, name, x).value, e, name) == Null
      && Consistent(SetString(t, e, name, s).value)
    ensures (e, name) !in t.properties ==>
      GetString(t, e, name) == Undefined && GetNumber(t, e, name) == Undefined
  {
  }

  /** Setting one property leaves every other (entity, name) pair as it was. */
  lemma SetLeavesOthers(t: Tables, e: Id, name: string, s: string, e2: Id, name2: string)
    requires e in t.entities && (e2, name2) != (e, name)
    ensures GetString(SetString(t, e, name, s).value, e2, name2) == GetString(t, e2, name2)
    ensures GetNumber(SetString(t, e, name, s).value, e2, name2) == GetNumber(t, e2, name2)
    ensures GetVector3(SetString(t, e, name, s).value, e2, name2) == GetVector3(t, e2, name2)
  {
  }

  // ------------------------------------------------- the base backend's string-typed properties

  /** `MapBackend.setPNumber`: the number's string form (integers). */
  function BaseSetNumber(t: Tables, e: Id, name: string, value: int): Result<Tables, Error>
  {
    SetString(t, e, name, Codec.NumberString(value))
  }

  /** `MapBackend.getPNumber`: `parseFloat` of the stored string; `None` is NaN. */
  function BaseGetNumber(t: Tables, e: Id, name: string): Option<int>
  {
    Codec.ParseFloat(if GetString(t, e, name).Defined? then Some(GetString(t, e, name).value) else None)
  }

  /** `MapBackend.setPPoint`: `JSON.stringify` of the point. */
  function SetPoint(t: Tables, e: Id, name: string, x: int, y: int, z: int): Result<Tables, Error>
  {
    SetString(t, e, name, Codec.PointJson(x, y, z))
  }

  /** `MapBackend.getPPoint` as written: `JSON.parse` of `undefined` is a SyntaxError, a
      `null` object has no `x`, and otherwise `Point.fromJSON` is called, which `Point` does
      not define. */
  function GetPointAsWritten(t: Tables, e: Id, name: string): Result<(int, int, int), Error>
  {
    match GetString(t, e, name)
    case Undefined => Failure(SyntaxError)
    case Null => Failure(TypeError)
    case Defined(s) => if Codec.ParsePointJson(s).Some? then Failure(TypeError) else Failure(SyntaxError)
  }

  /** `MapBackend.getPPoint` as intended: the three coordinates of the stored JSON. */
  function GetPoint(t: Tables, e: Id, name: string): Result<(int, int, int), Error>
  {
    match GetString(t, e, name)
    case Undefined => Failure(SyntaxError)
    case Null => Failure(TypeError)
    case Defined(s) => if Codec.ParsePointJson(s).Some? then Success(Codec.ParsePointJson(s).value) else Failure(SyntaxError)
  }

  /** An integer stored with the base `setPNumber` reads back with `getPNumber`. */
  lemma BaseNumberRoundTrip(t: Tables, e: Id, name: string, n: int)
    requires e in t.entities
    ensures BaseGetNumber(BaseSetNumber(t, e, name, n).value, e, name) == Some(n)
  {
    var t' := BaseSetNumber(t, e, name, n).value;
    assert GetString(t', e, name) == Defined(Codec.NumberString(n));
    Codec.NumberRoundTrip(n);
  }

  /** A point stored with `setPPoint` reads back with the intended `getPPoint`. */
  lemma PointPropertyRoundTrip(t: Tables, e: Id, name: string, x: int, y: int, z: int)
    requires e in t.entities
    ensures GetPoint(SetPoint(t, e, name, x, y, z).value, e, name) == Success((x, y, z))
  {
    var t' := SetPoint(t, e, name, x, y, z).value;
    assert GetString(t', e, name) == Defined(Codec.PointJson(x, y, z));
    Codec.PointRoundTrip(x, y, z);
  }

  /** As written, `getPPoint` throws whatever is stored. */
  lemma GetPointAsWrittenThrows(t: Tables, e: Id, name: string)
    ensures GetPointAsWritten(t, e, name).Failure?
    ensures e in t.entities ==> GetPointAsWritten(SetPoint(t, e, name, 1, 2, 3).value, e, name) == Failure(TypeError)
  {
    if e in t.entities {
      Codec.PointRoundTrip(1, 2, 3);
    }
  }

  /** A centre written with `setCenter` (a point, stored as text) has no vector columns, so the
      node is in no area. */
  lemma TextCenterInNoArea(t: Tables, n: Id, x: int, y: int, z: int, box: Box3)
    requires n in t.entities
    ensures !Matches(SetPoint(t, n, "center", x, y, z).value, InArea(box), n)
    ensures !Matches(SetPoint(t, n, "center", x, y, z).value, TouchingArea(box), n)
  {
  }

  // ---------------------------------------------------------------- entity checks

  /** A JavaScript value a statement hands back: `undefined` or an array of column values. */
  datatype JsValue = JsUndefined | JsArray(elements: seq<Id>)

  /** sql.js's `Statement.get`: the first matching row as an array, or `[]` when there is
      none; it never gives `undefined`. */
  function StatementGet(rows: seq<Id>): JsValue
  {
    if rows == [] then JsArray([]) else JsArray([rows[0]])
  }

  function ExistsRows(t: Tables, id: Id): seq<Id>
  {
    if id in t.entities then [id] else []
  }

  function ValidRows(t: Tables, id: Id): seq<Id>
  {
    if IsValid(t, id) then [id] else []
  }

  /** `entityExists` as written: the row is compared with `undefined`. */
  predicate EntityExistsAsWritten(t: Tables, id: Id)
  {
    StatementGet(ExistsRows(t, id)) != JsUndefined
  }

  /** `entityValid` as written, comparing with `undefined` likewise. */
  predicate EntityValidAsWritten(t: Tables, id: Id)
  {
    StatementGet(ValidRows(t, id)) != JsUndefined
  }

  /** `entityExists` as intended: the lookup found a row. */
  predicate EntityExists(t: Tables, id: Id)
  {
    |StatementGet(ExistsRows(t, id)).elements| > 0
  }

  /** `entityValid` as intended: the lookup of a valid row found one. */
  predicate EntityValid(t: Tables, id: Id)
  {
    |StatementGet(ValidRows(t, id)).elements| > 0
  }

  /** The intended checks answer whether the entity exists and whether it is valid; the checks
      as written say yes for an id no entity has, and for a removed entity. */
  lemma EntityChecks(t: Tables, id: Id)
    ensures EntityExists(t, id) <==> id in t.entities
    ensures EntityValid(t, id) <==> IsValid(t, id)
    ensures id !in t.entities ==> EntityExistsAsWritten(t, id) && EntityValidAsWritten(t, id)
  {
  }

  // ---------------------------------------------------------------- the type binding

  /** As written, no entity ever gets a type, so `load` finds no 'global' entity and removing
      a node with a child leaves the child valid. */
  lemma TypelessNodesDoNotCascade()
    ensures var (t1, root) := CreateEntityAsWritten(Empty, NodeKind);
      var t2 := t1.(nodes := map[root := None]);
      var (t3, child) := CreateEntityAsWritten(t2, NodeKind);
      var t4 := t3.(nodes := t3.nodes[child := Some(root)]);
      && (forall id :: id in t4.entities ==> !IsGlobal(t4, id))
      && IsValid(Removed(t4, root), child)
  {
  }

  /** With the type bound, the same two nodes: removing the parent invalidates the child. */
  lemma TypedNodesCascade()
    ensures var (t1, r1) := CreateNode(Empty, None);
      r1.Success? &&
      var (t2, r2) := CreateNode(t1, Some(r1.value));
      r2.Success? && !IsValid(Removed(t2, r1.value), r2.value)
  {
    var (t1, r1) := CreateNode(Empty, None);
    CreateNodeSpec(Empty, None);
    var (t2, r2) := CreateNode(t1, Some(r1.value));
    CreateNodeSpec(t1, Some(r1.value));
    Forest.DescendsSelf(t2.nodes, r1.value);
    Forest.DescendsStep(t2.nodes, r2.value, r1.value, r1.value);
    assert r2.value in Subtree(t2, r1.value);
  }

  /** As written, removing the first node of an edge leaves the edge valid; with both ends
      bound it invalidates the edge. */
  lemma EdgeFollowsFirstNode(t: Tables, a: Id, b: Id)
    requires Consistent(t) && !t.inTransaction && a in t.nodes && b in t.nodes && a != b
    requires IsValid(t, a) && forall c :: c in t.nodes ==> t.nodes[c] != Some(a)
    ensures var (t', r) := CreateEdgeAsWritten(t, a, b);
      r.Success? && IsValid(Removed(t', a), r.value)
    ensures var (t', r) := CreateEdge(t, a, b);
      r.Success? && !IsValid(Removed(t', a), r.value)
  {
    var id := t.nextId;
    assert forall row :: row in t.edges ==> row.edge != id;
    // As written.
    var (w, rw) := CreateEdgeAsWritten(t, a, b);
    assert Subtree(w, a) == {a} by { OnlyItself(w, a); }
    assert id !in IncidentEdges(w, {a});
    // Corrected.
    CreateEdgeSpec(t, a, b);
    var (c, rc) := CreateEdge(t, a, b);
    Forest.DescendsSelf(c.nodes, a);
    assert a in Subtree(c, a);
    assert EdgeRow(id, Some(a)) in c.edges;
    assert id in IncidentEdges(c, Subtree(c, a));
  }

  /** A node nothing names as parent has only itself below it. */
  lemma OnlyItself(t: Tables, a: Id)
    requires forall c :: c in t.nodes ==> t.nodes[c] != Some(a)
    ensures Subtree(t, a) == {a}
  {
    forall x | x in t.nodes.Keys + {a} && Forest.Descends(t.nodes, x, a)
      ensures x == a
    {
      var c :| Forest.IsChain(t.nodes, c) && c[0] == x && c[|c| - 1] == a;
      if |c| > 1 {
        Forest.ChainLast(t.nodes, c);
        assert false;
      }
    }
    Forest.DescendsSelf(t.nodes, a);
  }

  // ---------------------------------------------------------------- the base backend

  /** `MapBackend.getEdgeOtherNode` on the two nodes of an edge: the second when the first is
      `nodeId`, otherwise the first. */
  function OtherNode(nodeA: Id, nodeB: Id, nodeId: Id): (r: Id)
    ensures r == nodeA || r == nodeB
    ensures nodeA != nodeB && (nodeId == nodeA || nodeId == nodeB) ==> r != nodeId
    ensures nodeId != nodeA && nodeId != nodeB ==> r == nodeA
  {
    if nodeA == nodeId then nodeB else nodeA
  }
}

=== FILE: tile.dfy ===
/** `Tile` and `MegaTile` of mapper/tile.js: which nodes lie near a tile, and the redraw
    bookkeeping of the mega-tile that holds it. */
module Tiles {
  import opened Geometry

  type Id = nat

  /** `Tile.SIZE` and `MegaTile.SIZE` (= `Tile.SIZE * 8`). */
  const TileSize: real := 32.0
  const MegaTileSize: real := 256.0

  /** `Tile.HALF_SIZE_VECTOR`. */
  const HalfSizeVector := Vector3(16.0, 16.0, 0.0)

  /** The integer part of `x`, rounded toward zero. */
  function Trunc(x: real): int
  {
    if x >= 0.0 then x.Floor else -((-x).Floor)
  }

  /** JavaScript's `x % 256` on a number: truncating, with the sign of `x`. */
  function RemMegaTile(x: real): (r: real)
    ensures -MegaTileSize < r < MegaTileSize
    ensures x >= 0.0 ==> r >= 0.0
    ensures x < 0.0 ==> r <= 0.0
    ensures x - r == MegaTileSize * (Trunc(x / MegaTileSize) as real)
  {
    x - MegaTileSize * (Trunc(x / MegaTileSize) as real)
  }

  predicate IsWhole(x: real)
  {
    x == x.Floor as real
  }

  /** `mod(v, MegaTile.SIZE)` of mapper/utils.js on a coordinate: the remainder taken twice,
      which lies in [0, 256) and differs from `v` by a whole number of mega-tiles. */
  function MegaTileCoordinate(v: real): (r: real)
    ensures 0.0 <= r < MegaTileSize
    ensures IsWhole((v - r) / MegaTileSize)
  {
    var a := RemMegaTile(v);
    var r := RemMegaTile(a + MegaTileSize);
    var k := Trunc(v / MegaTileSize) + Trunc((a + MegaTileSize) / MegaTileSize) - 1;
    assert v - r == MegaTileSize * (k as real);
    assert (v - r) / MegaTileSize == k as real;
    r
  }

  /** Whether a node with centre `center` and radius `radius` reaches the tile centred at
      `tileCenter`: `distance <= radius + SIZE / 2`, squared. */
  predicate Reaches(center: Vector3, radius: real, tileCenter: Vector3)
  {
    var d := center.Subtract(tileCenter);
    var bound := radius + TileSize / 2.0;
    bound >= 0.0 && Mul(d.x, d.x) + Mul(d.y, d.y) + Mul(d.z, d.z) <= Mul(bound, bound)
  }

  /** A node whose centre is the tile's centre reaches it exactly when its radius is at least
      minus half a tile; a node that far in x alone reaches it at radius 0. */
  lemma ReachesExamples(c: Vector3)
    ensures Reaches(c, 0.0, c)
    ensures !Reaches(c, -17.0, c)
    ensures Reaches(c.Add(Vector3(16.0, 0.0, 0.0)), 0.0, c)
    ensures !Reaches(c.Add(Vector3(17.0, 0.0, 0.0)), 0.0, c)
  {
    assert c.Subtract(c) == Zero;
    assert c.Add(Vector3(16.0, 0.0, 0.0)).Subtract(c) == Vector3(16.0, 0.0, 0.0);
    assert c.Add(Vector3(17.0, 0.0, 0.0)).Subtract(c) == Vector3(17.0, 0.0, 0.0);
  }

  /** The mega-tile state as a value: the ids drawn on it, the ids waiting to be redrawn,
      and whether the canvas is clean. */
  datatype MegaTileState = MegaTileState(nearbyNodeIds: set<Id>, needRedraw: set<Id>, clean: bool)

  /** `reset`: on a dirty mega-tile, mark it clean and queue every nearby id for redrawing. */
  function ResetState(s: MegaTileState): MegaTileState
  {
    if s.clean then s else MegaTileState(s.nearbyNodeIds, s.needRedraw + s.nearbyNodeIds, true)
  }

  function AddNodeState(s: MegaTileState, id: Id): MegaTileState
  {
    s.(nearbyNodeIds := s.nearbyNodeIds + {id}, clean := false)
  }

  function RemoveNodeState(s: MegaTileState, id: Id): MegaTileState
  {
    ResetState(s.(nearbyNodeIds := s.nearbyNodeIds - {id}))
  }

  /** Every state `Reset` leaves is clean, and resetting again changes nothing; a clean
      state is left as it is; nothing ever leaves the redraw queue but by `popRedraw`. */
  lemma ResetSpec(s: MegaTileState)
    ensures ResetState(s).clean && ResetState(ResetState(s)) == ResetState(s)
    ensures s.clean ==> ResetState(s) == s
    ensures s.needRedraw <= ResetState(s).needRedraw
    ensures !s.clean ==> s.nearbyNodeIds <= ResetState(s).needRedraw
  {
  }

  /** After a node is added and another removed, the mega-tile is clean and every id still
      drawn on it waits to be redrawn; the removed id is no longer drawn. */
  lemma AddThenRemove(s: MegaTileState, a: Id, b: Id)
    ensures var s' := RemoveNodeState(AddNodeState(s, a), b);
      && s'.clean
      && b !in s'.nearbyNodeIds
      && s'.nearbyNodeIds == (s.nearbyNodeIds + {a}) - {b}
      && s'.nearbyNodeIds <= s'.needRedraw
  {
  }

  class MegaTile {
    var nearbyNodeIds: set<Id>
    var needRedraw: set<Id>
    var clean: bool

    function State(): MegaTileState
      reads this
    {
      MegaTileState(nearbyNodeIds, needRedraw, clean)
    }

    constructor()
      ensures State() == MegaTileState({}, {}, true)
    {
      nearbyNodeIds, needRedraw, clean := {}, {}, true;
    }

    /** `reset`, adding the nearby ids to the redraw queue one at a time. */
    method Reset()
      modifies this
      ensures State() == ResetState(old(State()))
    {
      if !clean {
        clean := true;
        var todo := nearbyNodeIds;
        while todo != {}
          invariant todo <= nearbyNodeIds && clean
          invariant nearbyNodeIds == old(nearbyNodeIds)
          invariant needRedraw == old(needRedraw) + (nearbyNodeIds - todo)
          decreases todo
        {
          var id :| id in todo;
          needRedraw := needRedraw + {id};
          todo := todo - {id};
        }
      }
    }

    method AddNode(id: Id)
      modifies this
      ensures State() == AddNodeState(old(State()), id)
    {
      nearbyNodeIds := nearbyNodeIds + {id};
      clean := false;
    }

    method RemoveNode(id: Id)
      modifies this
      ensures State() == RemoveNodeState(old(State()), id)
    {
      nearbyNodeIds := nearbyNodeIds - {id};
      Reset();
    }

    /** `popRedraw`: the queued ids, leaving the queue empty. */
    method PopRedraw() returns (ids: set<Id>)
      modifies this
      ensures ids == old(needRedraw) && needRedraw == {}
      ensures nearbyNodeIds == old(nearbyNodeIds) && clean == old(clean)
    {
      ids := needRedraw;
      needRedraw := {};
    }
  }

  class Tile {
    const corner: Vector3
    const megaTile: MegaTile
    /** The ids of the nodes near the tile, in the order they were first recorded. */
    var nearbyNodes: seq<Id>

    constructor(megaTile: MegaTile, corner: Vector3)
      ensures this.megaTile == megaTile && this.corner == corner && nearbyNodes == []
    {
      this.megaTile := megaTile;
      this.corner := corner;
      nearbyNodes := [];
    }

    /** `getCenter`: half a tile from the corner in x and y. */
    function GetCenter(): (c: Vector3)
      ensures LessEq(corner, c) && LessEq(c, corner.Add(Vector3(TileSize, TileSize, 0.0)))
      ensures c.Subtract(corner) == HalfSizeVector
    {
      corner.Add(HalfSizeVector)
    }

    /** `getMegaTilePosition`: the corner's place inside its mega-tile. */
    function GetMegaTilePosition(): (p: Vector3)
      ensures 0.0 <= p.x < MegaTileSize && 0.0 <= p.y < MegaTileSize && 0.0 <= p.z < MegaTileSize
      ensures p == corner.Map(MegaTileCoordinate)
    {
      corner.Map(MegaTileCoordinate)
    }

    /** `addNode`: record the node, and register it with the mega-tile, when it reaches the
        tile; answer whether it did. The node's centre and radius are what `getCenter` and
        `getRadius` of the node return. */
    method AddNode(id: Id, center: Vector3, radius: real) returns (added: bool)
      modifies this, megaTile
      ensures added <==> Reaches(center, radius, GetCenter())
      ensures added ==> id in nearbyNodes && megaTile.State() == AddNodeState(old(megaTile.State()), id)
      ensures added ==> nearbyNodes == if id in old(nearbyNodes) then old(nearbyNodes) else old(nearbyNodes) + [id]
      ensures !added ==> nearbyNodes == old(nearbyNodes) && megaTile.State() == old(megaTile.State())
      ensures forall x :: x in nearbyNodes ==> x in old(nearbyNodes) || x == id
    {
      if Reaches(center, radius, GetCenter()) {
        if id !in nearbyNodes {
          nearbyNodes := nearbyNodes + [id];
        }
        megaTile.AddNode(id);
        added := true;
      } else {
        added := false;
      }
    }
  }
}

=== FILE: utils.dfy ===
/** Helpers of mapper/utils.js: the floored `mod`, the right-biased `merge` and `asyncFrom`. */
module Utils {
  import opened Wrappers

  function Abs(n: int): nat { if n < 0 then -n else n }

  /** JavaScript's `%` on integers: the remainder of the division truncated toward zero,
      carrying the sign of the dividend. */
  function Rem(n: int, d: int): (r: int)
    requires d != 0
    ensures Abs(r) < Abs(d)
    ensures n >= 0 ==> r >= 0
    ensures n <= 0 ==> r <= 0
  {
    if n >= 0 then n % Abs(d) else -((-n) % Abs(d))
  }

  /** Euclidean remainders are unique: any decomposition with a remainder in range is the one. */
  lemma ModUnique(n: int, q: int, m: int, r: int)
    requires m > 0 && 0 <= r < m && n == q * m + r
    ensures n % m == r
  {
    var k := q - n / m;
    assert k * m == n % m - r;
  }

  /** `mod(n, m)`: the remainder taken twice so that it has the sign of the divisor, i.e. the
      floored modulo. */
  function Mod(n: int, m: int): (r: int)
    requires m != 0
    ensures m > 0 ==> r == n % m
    ensures m < 0 ==> r == (if n % Abs(m) == 0 then 0 else n % Abs(m) + m)
  {
    ModFloored(n, m);
    Rem(Rem(n, m) + m, m)
  }

  /** The proof that taking the remainder twice yields the floored modulo. */
  lemma ModFloored(n: int, m: int)
    requires m != 0
    ensures m > 0 ==> Rem(Rem(n, m) + m, m) == n % m
    ensures m < 0 ==> Rem(Rem(n, m) + m, m) == (if n % Abs(m) == 0 then 0 else n % Abs(m) + m)
  {
    var M := Abs(m);
    var a := Rem(n, m);
    var s := Abs(n) % M;
    assert n >= 0 ==> a == s;
    assert n < 0 ==> a == -s;
    if n >= 0 {
      ModUnique(n, n / M, M, s);
    } else if s == 0 {
      ModUnique(n, -(Abs(n) / M), M, 0);
    } else {
      ModUnique(n, -(Abs(n) / M) - 1, M, M - s);
    }
    if m > 0 {
      if a == 0 {
        ModUnique(m, 1, m, 0);
      } else if a < 0 {
        ModUnique(a + m, 0, m, a + m);
      } else {
        ModUnique(a + m, 1, m, a);
      }
    } else {
      if a > 0 {
        ModUnique(M - a, 0, M, M - a);
      } else if a == 0 {
        ModUnique(M, 1, M, 0);
      } else {
        ModUnique(M - a, 1, M, -a);
      }
    }
  }

  /** The truncated quotient and `Rem` decompose the dividend, as in JavaScript. */
  lemma RemDecomposes(n: int, d: int)
    requires d != 0
    ensures (n - Rem(n, d)) % Abs(d) == 0
  {
    var M := Abs(d);
    if n >= 0 {
      ModUnique(n - n % M, n / M, M, 0);
    } else {
      ModUnique(n + (-n) % M, -((-n) / M), M, 0);
    }
  }

  /** The merge of `args` (absent arguments stand for the falsy ones the source skips),
      folded from the left so that later arguments win. */
  function Merged<K, V>(args: seq<Option<map<K, V>>>): map<K, V>
  {
    if args == [] then map[]
    else
      var init := Merged(args[..|args| - 1]);
      match args[|args| - 1]
      case None => init
      case Some(m) => init + m
  }

  /** Some argument in `args` holds the key `k`. */
  ghost predicate HeldBy<K, V>(args: seq<Option<map<K, V>>>, k: K, i: int)
  {
    0 <= i < |args| && args[i].Some? && k in args[i].value
  }

  method Merge<K, V>(args: seq<Option<map<K, V>>>) returns (r: map<K, V>)
    ensures r == Merged(args)
    ensures args == [] ==> r == map[]
  {
    r := map[];
    var i := 0;
    while i < |args|
      invariant 0 <= i <= |args|
      invariant r == Merged(args[..i])
    {
      assert args[..i + 1][..i] == args[..i];
      if args[i].Some? {
        r := r + args[i].value;
      }
      i := i + 1;
    }
    assert args[..i] == args;
  }

  /** The keys of a merge are exactly the keys of its present arguments. */
  lemma {:induction false} MergedKeys<K, V>(args: seq<Option<map<K, V>>>, k: K)
    ensures k in Merged(args) <==> exists i :: HeldBy(args, k, i)
  {
    if args != [] {
      var n := |args| - 1;
      MergedKeys(args[..n], k);
      var init := Merged(args[..n]);
      assert args[n].None? ==> Merged(args) == init;
      assert args[n].Some? ==> Merged(args) == init + args[n].value;
      if k in init {
        var i :| HeldBy(args[..n], k, i);
        assert HeldBy(args, k, i);
      }
      if exists i :: HeldBy(args, k, i) {
        var i :| HeldBy(args, k, i);
        if i < n {
          assert HeldBy(args[..n], k, i);
        }
      }
      if k in Merged(args) && k !in init {
        assert HeldBy(args, k, n);
      }
    }
  }

  /** Each value of a merge comes from the last argument holding its key. */
  lemma {:induction false} MergedValue<K, V>(args: seq<Option<map<K, V>>>, k: K, i: int)
    requires HeldBy(args, k, i)
    requires forall j :: i < j < |args| ==> !HeldBy(args, k, j)
    ensures k in Merged(args) && Merged(args)[k] == args[i].value[k]
  {
    var n := |args| - 1;
    if i < n {
      assert HeldBy(args[..n], k, i);
      forall j | i < j < n ensures !HeldBy(args[..n], k, j) {
        assert !HeldBy(args, k, j);
      }
      MergedValue(args[..n], k, i);
      assert !HeldBy(args, k, n);
    }
  }

  /** `asyncFrom(iterable)`: every element, in order. */
  method AsyncFrom<T>(items: seq<T>) returns (values: seq<T>)
    ensures values == items
  {
    values := [];
    var i := 0;
    while i < |items|
      invariant 0 <= i <= |items|
      invariant values == items[..i]
    {
      values := values + [items[i]];
      i := i + 1;
    }
  }

  /** `asyncFrom(iterable, mapFunction)`: every element mapped, in order. */
  method AsyncFromMapped<T, U>(items: seq<T>, mapFunction: T -> U) returns (values: seq<U>)
    ensures |values| == |items|
    ensures forall i :: 0 <= i < |items| ==> values[i] == mapFunction(items[i])
  {
    values := [];
    var i := 0;
    while i < |items|
      invariant 0 <= i <= |items|
      invariant |values| == i
      invariant forall j :: 0 <= j < i ==> values[j] == mapFunction(items[j])
    {
      values := values + [mapFunction(items[i])];
      i := i + 1;
    }
  }

  /** A non-negative dividend smaller than a positive divisor is its own `mod`. */
  lemma ModSmall(n: int, m: int)
    requires 0 <= n < m
    ensures Mod(n, m) == n
  {
  }

  /** The worked example in the comment on `mod`. */
  lemma ModExamples()
    ensures Mod(7, 4) == 3 && Mod(-11, 7) == 3 && Mod(-7, 2) == 1 && Mod(3, 3) == 0
  {
  }
}

=== FILE: world.dfy ===
/** The map as the actions of mapper/actions/ see it: nodes with their validity, parent, type,
    name, centre, effective centre and radius; the validity of edges; and the tiles the area
    brush has marked. The mapper operations the actions call (`removeNodes`, `unremoveNodes`,
    `removeEdges`, `unremoveEdges`, `translateNode`, `insertNode`) and the node ref accessors
    they use are not part of this model's sources; each is given here as an operation on this
    state with the effect stated in its comment. */
module Worlds {
  import opened Wrappers
  import opened Geometry

  type Id = nat

  /** A tile of the area brush, by the coordinates of its corner. */
  type TileKey = (int, int)

  datatype NodeRec = NodeRec(
    valid: bool,
    parent: Option<Id>,
    typeId: string,
    name: Option<string>,
    center: Vector3,
    effectiveCenter: Vector3,
    radius: real)

  datatype World = World(nodes: map<Id, NodeRec>, edges: map<Id, bool>, tiles: set<TileKey>, nextId: Id)

  /** Ids are handed out below `nextId`, nodes and edges share the id space, and a parent is
      a node (the foreign key of the node table). */
  ghost predicate Good(w: World)
  {
    && (forall id :: id in w.nodes ==> id < w.nextId && id !in w.edges)
    && (forall id :: id in w.edges ==> id < w.nextId)
    && (forall id :: id in w.nodes && w.nodes[id].parent.Some? ==> w.nodes[id].parent.value in w.nodes)
  }

  /** The nodes and edges of `w` are still there in `w'`, with every node's type; ids only
      grow. */
  ghost predicate Grows(w: World, w': World)
  {
    && w.nodes.Keys <= w'.nodes.Keys
    && w.edges.Keys <= w'.edges.Keys
    && w.nextId <= w'.nextId
    && (forall id :: id in w.nodes ==> w'.nodes[id].typeId == w.nodes[id].typeId)
  }

  /** Valid nodes, as the node ref's `valid()` answers. */
  predicate IsValid(w: World, id: Id)
  {
    id in w.nodes && w.nodes[id].valid
  }

  function SetNodesValid(w: World, ids: set<Id>, v: bool): (r: World)
    ensures r.nodes.Keys == w.nodes.Keys && r.edges == w.edges && r.tiles == w.tiles && r.nextId == w.nextId
    ensures forall id :: id in w.nodes ==>
      r.nodes[id] == if id in ids then w.nodes[id].(valid := v) else w.nodes[id]
  {
    w.(nodes := map id | id in w.nodes :: if id in ids then w.nodes[id].(valid := v) else w.nodes[id])
  }

  /** The listed nodes that are valid, each once, in the order they are first listed. */
  function ValidListed(w: World, ids: seq<Id>): (r: seq<Id>)
    ensures forall id :: id in r <==> id in ids && IsValid(w, id)
    ensures forall i, j :: 0 <= i < j < |r| ==> r[i] != r[j]
  {
    if ids == [] then []
    else
      var r := ValidListed(w, ids[..|ids| - 1]);
      var id := ids[|ids| - 1];
      assert ids == ids[..|ids| - 1] + [id];
      if IsValid(w, id) && id !in r then r + [id] else r
  }

  /** Listed nodes that are all valid and each listed once are all answered, in order. */
  lemma {:induction false} ValidListedAll(w: World, ids: seq<Id>)
    requires forall id :: id in ids ==> IsValid(w, id)
    requires forall i, j :: 0 <= i < j < |ids| ==> ids[i] != ids[j]
    ensures ValidListed(w, ids) == ids
  {
    if ids != [] {
      var init := ids[..|ids| - 1];
      ValidListedAll(w, init);
      assert ids == init + [ids[|ids| - 1]];
    }
  }

  /** `mapper.removeNodes(nodeRefs)`: invalidates the listed nodes and answers the nodes it
      removed, which are the listed nodes that were valid. */
  function RemoveNodes(w: World, ids: seq<Id>): (r: (World, seq<Id>))
    ensures forall id :: id in r.1 <==> id in ids && IsValid(w, id)
  {
    var affected := ValidListed(w, ids);
    (SetNodesValid(w, set id | id in affected, false), affected)
  }

  /** `mapper.unremoveNodes(nodeRefs)`: the listed nodes are valid again. */
  function UnremoveNodes(w: World, ids: seq<Id>): World
  {
    SetNodesValid(w, set id | id in ids, true)
  }

  function SetEdgesValid(w: World, ids: set<Id>, v: bool): (r: World)
    ensures r.nodes == w.nodes && r.edges.Keys == w.edges.Keys && r.tiles == w.tiles && r.nextId == w.nextId
    ensures forall id :: id in w.edges ==> r.edges[id] == if id in ids then v else w.edges[id]
  {
    w.(edges := map id | id in w.edges :: if id in ids then v else w.edges[id])
  }

  /** `mapper.removeEdges(edgeRefs)` and `mapper.unremoveEdges(edgeRefs)`. */
  function RemoveEdges(w: World, ids: seq<Id>): World
  {
    SetEdgesValid(w, set id | id in ids, false)
  }

  function UnremoveEdges(w: World, ids: seq<Id>): World
  {
    SetEdgesValid(w, set id | id in ids, true)
  }

  /** `mapper.translateNode(nodeRef, offset)`: the node's centre moves by `offset`. */
  function TranslateNode(w: World, id: Id, offset: Vector3): (r: World)
    requires id in w.nodes
    ensures r.nodes.Keys == w.nodes.Keys && r.nodes[id].center == w.nodes[id].center.Add(offset)
  {
    w.(nodes := w.nodes[id := w.nodes[id].(center := w.nodes[id].center.Add(offset))])
  }

  /** `mapper.insertNode(point, {type, radius, parent})`: a new valid node, under a fresh id,
      centred on `point`. */
  function InsertNode(w: World, point: Vector3, typeId: string, radius: real, parent: Option<Id>): (r: (World, Id))
    ensures r.1 == w.nextId && r.0.nextId == w.nextId + 1
    ensures r.0.nodes == w.nodes[r.1 := NodeRec(true, parent, typeId, None, point, point, radius)]
    ensures r.0.edges == w.edges && r.0.tiles == w.tiles
  {
    var id := w.nextId;
    (w.(nodes := w.nodes[id := NodeRec(true, parent, typeId, None, point, point, radius)], nextId := id + 1), id)
  }

  /** The node ref's `getParent`: the parent when it is valid, otherwise none. */
  function GetParent(w: World, id: Id): (r: Option<Id>)
    ensures r.Some? <==> id in w.nodes && w.nodes[id].parent.Some? && IsValid(w, w.nodes[id].parent.value)
    ensures r.Some? ==> r == w.nodes[id].parent
  {
    if id in w.nodes && w.nodes[id].parent.Some? && IsValid(w, w.nodes[id].parent.value) then w.nodes[id].parent
    else None
  }

  /** The elements of `s` below `n`, ascending. */
  function Ascending(s: set<Id>, n: nat): (r: seq<Id>)
    ensures forall x :: x in r <==> x in s && x < n
    ensures forall i, j :: 0 <= i < j < |r| ==> r[i] < r[j]
  {
    if n == 0 then []
    else
      var r := Ascending(s, n - 1);
      assert forall i :: 0 <= i < |r| ==> r[i] in r;
      r + (if n - 1 in s then [n - 1] else [])
  }

  /** The valid children of a node, in id order (the order the node table yields them). */
  function Children(w: World, id: Id): (r: seq<Id>)
    ensures forall c :: c in r ==> IsValid(w, c) && w.nodes[c].parent == Some(id)
    ensures forall c: Id :: IsValid(w, c) && w.nodes[c].parent == Some(id) && c < w.nextId ==> c in r
  {
    Ascending((set c | c in w.nodes && w.nodes[c].valid && w.nodes[c].parent == Some(id)), w.nextId)
  }

  /** The node ref's `hasChildren`: some valid node has it as parent. */
  predicate HasChildren(w: World, id: Id)
  {
    exists c :: c in w.nodes && w.nodes[c].valid && w.nodes[c].parent == Some(id)
  }

  /** `x` is `root`, or a valid node whose parent is within `k - 1` steps of `root`. */
  predicate Within(w: World, x: Id, root: Id, k: nat)
    decreases k
  {
    x == root || (k > 0 && IsValid(w, x) && w.nodes[x].parent.Some? && Within(w, w.nodes[x].parent.value, root, k - 1))
  }

  /** The node ref's `getSelfAndAllDescendants`: the node, then every valid node below it
      along valid nodes, in id order. A parent chain without repetition has no more steps
      than there are nodes, so the bound `|nodes|` reaches every descendant. */
  function SelfAndDescendants(w: World, root: Id): (r: seq<Id>)
    ensures |r| > 0 && r[0] == root
    ensures forall x :: x in r[1..] ==> x != root && x in w.nodes && Within(w, x, root, |w.nodes|)
  {
    [root] + Ascending((set x | x in w.nodes && x != root && Within(w, x, root, |w.nodes|)), w.nextId)
  }

  /** Removing and then unremoving the same nodes gives back the world: the removal answers
      exactly the nodes it turned invalid. */
  lemma RemoveUnremoveNodes(w: World, ids: seq<Id>)
    ensures UnremoveNodes(RemoveNodes(w, ids).0, RemoveNodes(w, ids).1) == w
  {
    var (w', affected) := RemoveNodes(w, ids);
    var back := UnremoveNodes(w', affected);
    assert back.nodes == w.nodes by {
      forall id | id in w.nodes ensures back.nodes[id] == w.nodes[id] {
        if id in affected {
          assert w.nodes[id].valid;
        }
      }
    }
  }

  /** Unremoving nodes that are all invalid and removing them again gives back the world. */
  lemma UnremoveRemoveNodes(w: World, ids: seq<Id>)
    requires forall id :: id in ids ==> id in w.nodes && !w.nodes[id].valid
    ensures RemoveNodes(UnremoveNodes(w, ids), ids).0 == w
  {
    var w' := UnremoveNodes(w, ids);
    var back := RemoveNodes(w', ids).0;
    assert back.nodes == w.nodes by {
      forall id | id in w.nodes ensures back.nodes[id] == w.nodes[id] {
        if id in ids {
          assert IsValid(w', id);
        }
      }
    }
  }

  /** Removing edges that were all valid and unremoving them gives back the world, and the
      other way round for edges that were all removed. */
  lemma EdgesRoundTrip(w: World, ids: seq<Id>)
    ensures (forall id :: id in ids ==> id in w.edges && w.edges[id]) ==> UnremoveEdges(RemoveEdges(w, ids), ids) == w
    ensures (forall id :: id in ids ==> id in w.edges && !w.edges[id]) ==> RemoveEdges(UnremoveEdges(w, ids), ids) == w
  {
    if forall id :: id in ids ==> id in w.edges && w.edges[id] {
      assert UnremoveEdges(RemoveEdges(w, ids), ids).edges == w.edges;
    }
    if forall id :: id in ids ==> id in w.edges && !w.edges[id] {
      assert RemoveEdges(UnremoveEdges(w, ids), ids).edges == w.edges;
    }
  }
}

=== FILE: wrappers.dfy ===
/** Option and Result values for JavaScript's `undefined`/`null` answers and thrown errors. */
module Wrappers {

  datatype Option<+T> = None | Some(value: T) {
    function GetOr(default: T): T {
      match this
      case Some(v) => v
      case None => default
    }
  }

  datatype Result<+T, +E> = Success(value: T) | Failure(error: E)
}
